=== FILE: README.md ===
# heat-gun core, modelled in Dafny

This project models the sequential, integer and structural core of heat-gun,
a 2D multiplayer game written in Rust: its engine, ECS, networking layer and
2D renderer. Each component is one module in one file. Each operation is a
pure function over immutable datatypes, and a panic of the Rust code (a
failed `unwrap`, `assert!`, index or checked addition) is modelled as `None`.
The model covers seven groups:

- **Byte framing.** `varint.dfy` holds the variable-length length code.
  `multi_part.dfy` holds multi-part packets, whose parts are followed by
  byte-reversed lengths and decoded from the tail. `frame_codec.dfy` holds
  stream framing with a `max_packet_size` check.
- **Sorted sequences and ECS bookkeeping.** `sorted_seqs.dfy` and
  `merge_iter.dfy` hold the sorted union and difference iterators.
  `archetypes.dfy` holds the archetype store: one id per component set,
  extension and removal caches, per-component archetype lists and their
  intersection. `entities.dfy` holds the entity tree with swap-remove
  children. `collider_groups.dfy` and `vecs.dfy` hold collider groups.
- **Tile world.** `tile_map.dfy` holds the chunked tile map.
  `tile_palette.dfy` holds the palette and its dense cache. `aabb_i.dfy`
  holds integer boxes, and `glam.dfy` the axis, sign and face algebra.
- **Dynamic BVH.** `bvh.dfy` covers insertion, removal, box updates and the
  rotation, done as tree surgery.
- **RPC replication.** `rpc_vis.dfy` holds the visibility machine the game
  and engine servers share. `rpc_server.dfy` and `rpc_engine_server.dfy`
  hold their queues and flushes. `rpc_client.dfy` holds the client node
  table, `rpc_groups.dfy` the replication groups, and `rpc_wire.dfy` the
  packet headers.
- **Renderer bookkeeping.** `depth_gen.dfy`, `depth_runs.dfy` and
  `pass_scheduler.dfy` hold depth generators, epoch runs and the epoch-ordered
  pass scheduler. `stream_write.dfy` holds the positioned writer.
  `brushes.dfy` and `brush_render.dfy` hold the brush renderers' bookkeeping.
  `transform_cache.dfy` holds the transform memo, and `shader_refs.dfy` the
  shader reference counts.
- **Small utilities.** `assets.dfy` holds the asset cache, `signal.dfy` the
  deferred signal, and `back_pressure.dfy` the back-pressure counter.
  `multi_error.dfy` holds error plumbing, `steal.dfy` holds `Steal`, and
  `collider_bus.dfy` holds the collider masks and the collider bus.

Where the repository has two copies of the same code, one module models
both:
- the engine's and the older ECS's archetype stores;
- the shared and the client collider buses, which differ only in float hull
  casts;
- the two `DepthGenerator`s, in the wgpu utilities and in the 2D context's
  helpers;
- the instance and quad renderers' brush logic;
- the two tile map and palette files;
- the game's and the engine's collider groups.

The engine's RPC server differs from the game's in its queueing, so each has
a module of its own over the shared visibility machine.

Where the code has an evident bug, the model keeps two members:
- an as-written member, with a lemma that exhibits the bug on a concrete
  input;
- a corrected member, which the rest of the model uses and whose intended
  property is proved.

The bugs are listed under "## Findings".

## Model

| member | source | states |
|---|---|---|
| Varint.Encode | src/hg-common/src/base/net/serialize.rs:22-25 | every 64-bit length encodes to one to nine bytes, so it fits the nine-byte scratch array |
| Varint.Decode | src/hg-common/src/base/net/serialize.rs:70-78 | a decode fails exactly when the buffer ends before the length its first byte announces; a success consumes one to nine bytes and yields a 64-bit value |
| Varint.DecodeEncode | src/hg-common/src/base/net/codec.rs:19-24 | decoding a buffer that starts with an encoding gives back the value and the encoding's length, whatever follows |
| Varint.EncodedLenMatches | src/hg-common/src/base/net/codec.rs:19-22 | an encoding announces its own length, so any proper prefix of it is an incomplete header |
| Varint.EncodeInjective | src/hg-common/src/base/net/serialize.rs:22-29 | distinct lengths get distinct encodings |
| MultiPart.EncodePart | src/hg-common/src/base/net/serialize.rs:15-32 | the buffer keeps its old bytes, then the payload, then the length's encoding reversed |
| MultiPart.EncodeAll | src/engine/hg-engine-common/src/net/serialize.rs:44-61 | encoding several parts appends each part with its reversed footer and leaves earlier bytes untouched |
| MultiPart.Next | src/hg-common/src/base/net/serialize.rs:57-96 | an empty buffer is the end; an unreadable footer is an error that leaves the buffer alone; a declared length beyond the buffer is an error, never a panic; a success returns the tail part and shrinks the buffer by footer plus part |
| MultiPart.NextEncodePart | src/engine/hg-engine-common/src/net/serialize.rs:96-135 | reading back the part just encoded yields it and restores the buffer as it was before the encoding |
| MultiPart.NextTooLong | src/engine/hg-engine-common/src/net/serialize.rs:122-130 | a footer declaring more bytes than precede it is an error, not a panic |
| MultiPart.RoundTrip | src/engine/hg-engine-common/src/net/serialize.rs:146-169 | parts p1..pn encoded onto an empty buffer decode as pn..p1 and then the end; empty parts come back empty |
| MultiPart.EncodeAllSnoc | src/hg-common/src/base/net/serialize.rs:15-32 | encoding one more part is encoding the others and then that part |
| MultiPart.FourPartExample | src/hg-common/src/base/net/serialize.rs:107-130 | the unit test's four parts (0, 100, 0 and 10 bytes) come back as 10, 0, 100 and 0 bytes, then the end |
| MultiPart.Expect | src/engine/hg-engine-common/src/net/serialize.rs:84-86 | `expect` on an exhausted decoder is an error; otherwise it is `next`'s result |
| FrameCodec.DecodeFrame | src/hg-common/src/base/net/codec.rs:17-44 | an incomplete header or body leaves the buffer untouched and yields nothing; a declared length over `max_packet_size` is an error; a success returns exactly the declared body and removes header and body from the front |
| FrameCodec.EncodeAsWritten | src/hg-common/src/base/net/codec.rs:53-73 | the encoder as written ends the buffer with exactly one frame, but shifts what the buffer held forward by the unused header space, dropping that many leading bytes and filling the gap with zeros |
| FrameCodec.EncodeFixed | src/hg-common/src/base/net/codec.rs:53-73 | the intended encoder appends header then body after whatever the buffer held |
| FrameCodec.AsWrittenOnEmpty | src/hg-common/src/base/net/codec.rs:53-73 | into an empty buffer the encoder as written produces exactly one frame |
| FrameCodec.AsWrittenEatsQueuedBytes | src/hg-common/src/base/net/codec.rs:70 | with a byte already queued, the encoder as written advances the front of the whole buffer and loses that byte |
| FrameCodec.FrameRoundTrip | src/hg-common/src/base/net/codec.rs:41-43 | a frame whose body fits the limit decodes to that body, consuming exactly the frame and leaving what follows |
| FrameCodec.PartialFrameWaits | src/hg-common/src/base/net/codec.rs:37-39 | any proper prefix of a frame stays in the buffer and yields nothing yet |
| FrameCodec.FrameTooLarge | src/hg-common/src/base/net/codec.rs:26-34 | a body longer than `max_packet_size` is refused with an error |
| FrameCodec.TwoFramesInOrder | src/hg-common/src/base/net/codec.rs:17-44 | two frames queued by the intended encoder decode in order |
| MergeIter.MergeNext | src/engine/hg-utils/src/iter/merge.rs:39-53 | a step yields the smaller head; on equal heads it yields the left copy and drops the right one; with one side exhausted it yields from the other |
| MergeIter.MergeNextKeeps | src/engine/hg-utils/src/iter/merge.rs:44-51 | a step loses no key: whatever the inputs held is yielded or still held |
| MergeIter.MergeExhausted | src/engine/hg-utils/src/iter/merge.rs:41-43 | once one side is exhausted the rest of the other comes out unchanged |
| MergeIter.Merge | src/engine/hg-utils/src/iter/merge.rs:39-53 | whatever the inputs' order, the output holds exactly the keys of the two inputs and is no longer than both together |
| MergeIter.MergeStepSorted | src/engine/hg-utils/src/iter/merge.rs:44-51 | on strictly ascending inputs a step yields a key below everything still held, and the inputs stay strictly ascending |
| MergeIter.MergeIsSortedUnion | src/engine/hg-utils/src/iter/merge.rs:39-53 | on strictly ascending inputs the output is the strictly ascending union of the two |
| MergeIter.MergeLength | src/engine/hg-utils/src/iter/merge.rs:45-48 | the output's length is \|L\| + \|R\| minus the number of shared keys |
| MergeIter.RemoveNextAsWritten | src/engine/hg-utils/src/iter/merge.rs:92-116 | one step as written: a left head below the right head discards the right head and yields the left one; equal heads drop the left head; a left head above the right head is yielded |
| MergeIter.RemoveAsWritten | src/engine/hg-utils/src/iter/merge.rs:92-116 | the iterator as written yields only keys of `left`, and every key of `left` missing from `right` comes out |
| MergeIter.RemoveAsWrittenSubseq | src/engine/hg-utils/src/iter/merge.rs:92-116 | the iterator as written yields a subsequence of `left`, in order |
| MergeIter.RemoveAsWrittenSingle | src/engine/hg-utils/src/iter/merge.rs:97-106 | with a single key on the right, only a matching head of `left` is removed |
| MergeIter.RemoveAsWrittenCounterexample | src/engine/hg-utils/src/iter/merge.rs:97-106 | removing [2] from [1, 2] yields [1, 2] instead of [1] |
| MergeIter.RemoveNext | src/engine/hg-utils/src/iter/merge.rs:92-116 | a corrected step is done once `left` is exhausted; otherwise it yields a key of `left` and consumes it, every key of `left` missing from `right` being yielded now or still held, and the right input only loses keys |
| MergeIter.Remove | src/engine/hg-utils/src/iter/merge.rs:92-116 | the corrected iterator yields only keys of `left`, and every key of `left` missing from `right` comes out |
| MergeIter.RemoveNextIsDifference | src/engine/hg-utils/src/iter/merge.rs:92-116 | a corrected step yields the first key of `left` missing from `right`, and what remains is again a difference |
| MergeIter.RemoveIsDifference | src/engine/hg-utils/src/iter/merge.rs:92-116 | the corrected iterator yields exactly `left` minus `right`, in `left`'s order |
| MergeIter.RemoveDoneIff | src/engine/hg-utils/src/iter/merge.rs:94 | the corrected iterator is done exactly when every key of `left` occurs in `right` |
| Archetypes.EmptyHasNone | src/engine/hg-ecs/src/archetype.rs:166-196 | in a valid store EMPTY holds no component |
| Archetypes.New | src/engine/hg-ecs/src/archetype.rs:166-196 | a new store is valid and holds only EMPTY (id 0), with no components and empty per-component lists |
| Archetypes.Lookup | src/engine/hg-ecs/src/archetype.rs:198-267 | a lookup answers from the shortcut cache, else from the map of known lists (recording a shortcut), else appends a new archetype with a back-reference; the answer is always an archetype of the store |
| Archetypes.LookupWellFormed | src/engine/hg-ecs/src/archetype.rs:198-267 | a lookup keeps the store well formed |
| Archetypes.LookupKeepsArchetypes | src/engine/hg-ecs/src/archetype.rs:234-264 | a lookup only adds archetypes: every existing id keeps its components |
| Archetypes.LookupNewShape | src/engine/hg-ecs/src/archetype.rs:234-266 | a target in neither the cache nor the map is appended under the next id |
| Archetypes.AppendListOf | src/engine/hg-ecs/src/archetype.rs:261-264 | after an append, a component's list gains the new id at its end exactly when the new archetype has the component |
| Archetypes.LookupExtend | src/engine/hg-ecs/src/archetype.rs:269-271 | `lookup_extend` is a lookup in extension mode |
| Archetypes.LookupRemoveAsWritten | src/engine/hg-ecs/src/archetype.rs:273-275 | `lookup_remove` as written reads the extension cache |
| Archetypes.LookupRemove | src/engine/hg-ecs/src/archetype.rs:354-362 | the corrected removal reads its own cache and uses the corrected iterator |
| Archetypes.Components | src/engine/hg-ecs/src/archetype.rs:328-331 | an archetype's components, strictly ascending in a valid store |
| Archetypes.ComponentsSet | src/engine/hg-ecs/src/archetype.rs:333-335 | `components_set(id)` is the set of `components(id)` |
| Archetypes.ArchetypesWith | src/engine/hg-ecs/src/archetype.rs:277-279 | the list for a component is ascending and holds exactly the archetypes having it |
| Archetypes.Canonical | src/engine/hg-ecs/src/archetype.rs:210-232 | equal component sets have one id |
| Archetypes.LookupFillsCache | src/engine/hg-ecs/src/archetype.rs:222-256 | after a lookup the base's cache answers the looked-up component |
| Archetypes.LookupRepeats | src/engine/hg-ecs/src/archetype.rs:201-204 | repeating a lookup is answered by the shortcut: same id, store unchanged |
| Archetypes.LookupCorrect | src/engine/hg-ecs/src/archetype.rs:198-267 | with correct caches, a corrected-mode lookup keeps them correct and returns the archetype holding the base's components plus (or minus) the given one |
| Archetypes.NewTargetDiffers | src/engine/hg-ecs/src/archetype.rs:234-259 | a list the map does not know differs from the base's, so the new archetype really adds or drops the component |
| Archetypes.LookupExtendComponents | src/engine/hg-ecs/src/archetype.rs:344-352 | `lookup_extend(b, c)` yields the sorted merge of b's components with c |
| Archetypes.LookupRemoveComponents | src/engine/hg-ecs/src/archetype.rs:354-362 | the corrected `lookup_remove(b, c)` yields b's components without c |
| Archetypes.RemoveAsWrittenHitsExtendCache | src/engine/hg-ecs/src/archetype.rs:357 | as written, right after `lookup_extend(b, c)`, `lookup_remove(b, c)` answers the same archetype, which still has c |
| Archetypes.RemoveAsWrittenCounterexampleStore | src/hg-ecs/src/archetype.rs:317 | removing 7 from EMPTY after adding it yields the archetype {7} |
| Archetypes.RemoveAsWrittenKeepsBase | src/hg-ecs/src/archetype.rs:316-322 | as written, removing a component that the base archetype has but not as its smallest answers the base itself, both through an extension shortcut and through the as-written iterator |
| Archetypes.RemoveFixedAfterExtend | src/engine/hg-ecs/src/archetype.rs:354-362 | the corrected removal answers EMPTY in the same situation |
| Archetypes.Advance | src/engine/hg-ecs/src/archetype.rs:300-306 | the cursor moves past exactly the entries below the key |
| Archetypes.KeyAbsent | src/engine/hg-ecs/src/archetype.rs:311-314 | a list whose cursor stopped above the key does not hold it |
| Archetypes.ProbeKey | src/engine/hg-ecs/src/archetype.rs:299-319 | probing the other lists reports Found exactly when all hold the key, Absent when one skips it, Exhausted when one has nothing left at or above it |
| Archetypes.CommonProbe | src/engine/hg-ecs/src/archetype.rs:297-323 | a key of the first list is kept exactly when every other list has it |
| Archetypes.ExhaustedNotCommon | src/engine/hg-ecs/src/archetype.rs:316 | a list exhausted below a key rules out that key and every later one, so the walk can stop |
| Archetypes.WalkStep | src/engine/hg-ecs/src/archetype.rs:297-323 | one step of the walk keeps the output equal to the common keys seen so far |
| Archetypes.Intersect | src/engine/hg-ecs/src/archetype.rs:291-325 | the walk returns exactly the keys of the first list present in every list, ascending |
| Archetypes.ArchetypesWithSet | src/engine/hg-ecs/src/archetype.rs:281-326 | the ascending list of archetypes having every given component; no components gives no archetypes |
| TileMap.FromUsize | src/hg-client/src/base/tile/map.rs:14-16 | `from_usize(v)` is present exactly when v fits 16 bits |
| TileMap.Usize | src/hg-client/src/base/tile/map.rs:18-20 | an id's `usize` is below 65536 |
| TileMap.TileIdRoundTrip | src/hg-client/src/base/tile/map.rs:13-20 | the two conversions are inverse on every value a `u16` holds |
| TileMap.Decompose | src/hg-client/src/base/tile/map.rs:28-36 | the cell index is in [0, 256) and the position is 16 times the chunk plus the index's column and row, negative positions included |
| TileMap.DecomposeCompose | src/hg-client/src/base/tile/map.rs:28-36 | decomposition and composition are inverse bijections between positions and (chunk, index) pairs |
| TileMap.DecomposeInjective | src/hg-client/src/base/tile/map.rs:28-36 | distinct positions decompose differently |
| TileMap.EmptyChunk | src/hg-client/src/base/tile/map.rs:99-106 | a default chunk has 256 zero cells and a correct counter of 0 |
| TileMap.CountZeroMeansEmpty | src/hg-client/src/base/tile/map.rs:59-64 | a chunk whose counter is 0 holds only zero cells, so dropping it loses nothing |
| TileMap.CountUpdate | src/hg-client/src/base/tile/map.rs:89 | overwriting one cell changes the non-zero count by the change in solidity, as the counter update does |
| TileMap.New | src/hg-client/src/base/tile/map.rs:38-43 | a default map is valid, with chunk (0, 0) current and empty |
| TileMap.LoadChunk | src/hg-client/src/base/tile/map.rs:52-72 | loading keeps the map valid and makes the chunk current |
| TileMap.LoadChunkKeepsCells | src/hg-client/src/base/tile/map.rs:52-72 | loading a chunk changes no cell anywhere, whichever chunks are swapped, dropped or reused |
| TileMap.Get | src/hg-client/src/base/tile/map.rs:74-79 | `get` returns the cell held at the position and keeps every cell |
| TileMap.Set | src/hg-client/src/base/tile/map.rs:81-91 | `set` keeps the map valid |
| TileMap.SetCell | src/hg-client/src/base/tile/map.rs:81-91 | after `set(p, v)` the map holds v at p and every other cell is unchanged |
| TileMap.GetAfterSet | src/hg-client/src/base/tile/map.rs:74-91 | `get(p)` after `set(p, v)` returns v |
| TileMap.FreshReadsZero | src/hg-client/src/base/tile/map.rs:38-43 | a fresh map reads zero everywhere, even after reads that load other chunks |
| TilePalette.Empty | src/hg-client/src/game/tile/palette.rs:17-21 | the default palette is valid and empty |
| TilePalette.Register | src/hg-client/src/game/tile/palette.rs:26-31 | the new id is the number of tiles registered before, it panics once 65536 ids exist, and the name now points at it |
| TilePalette.Lookup | src/hg-client/src/game/tile/palette.rs:33-35 | an id never handed out panics; otherwise its descriptor |
| TilePalette.LookupByName | src/hg-client/src/game/tile/palette.rs:37-39 | an unknown name panics; a known one gives a registered id |
| TilePalette.RegisterThenLookup | src/hg-client/src/game/tile/palette.rs:26-39 | the id handed out looks up to its descriptor, and the name resolves to it |
| TilePalette.ReRegisterName | src/hg-client/src/game/tile/palette.rs:29 | registering a name again makes it resolve to the newer id, while the older id keeps its descriptor |
| TilePalette.NewCache | src/hg-client/src/game/tile/palette.rs:73-78 | a new cache has no slots and agrees with any source |
| TilePalette.CacheLookup | src/hg-client/src/game/tile/palette.rs:80-96 | a lookup panics exactly when the slot is empty and the palette fetch panics (unregistered id, or no such component); otherwise the slot list grows to at least id + 1 slots, a filled slot is answered without a fetch, a fetch fills the id's slot, and no other slot changes |
| TilePalette.CacheTransparent | src/hg-client/src/game/tile/palette.rs:80-96 | with a consistent cache, a lookup panics exactly when the palette fetch would, otherwise answers what the palette would and keeps the cache consistent |
| TilePalette.SecondLookupCached | src/hg-client/src/game/tile/palette.rs:85-89 | a second lookup of an id is answered from its slot, without a fetch and without changing the cache |
| AabbI.NewSized | src/hg-client/src/utils/math/aabb.rs:200-205 | the box starts at `min` and its size, `max - min`, is the size asked for |
| AabbI.New | src/hg-client/src/utils/math/aabb.rs:196-198 | `new(x, y, w, h)` has corner (x, y) and size (w, h) |
| AabbI.Normalized | src/hg-client/src/utils/math/aabb.rs:207-211 | the result has ordered corners, takes on each axis the same two coordinates as the input, and leaves an ordered box unchanged |
| AabbI.NormalizedIdempotent | src/hg-client/src/utils/math/aabb.rs:207-211 | normalising twice is normalising once |
| AabbI.Inclusive | src/hg-client/src/utils/math/aabb.rs:213-218 | the same `min`, one more cell along each axis |
| AabbI.EdgeLine | src/hg-client/src/utils/math/aabb.rs:247-268 | the line lies on the face's axis, through the `min` corner for a negative face and the `max` corner for a positive one |
| AabbI.GridMembers | src/hg-client/src/utils/math/aabb.rs:220-234 | a cell is in the row-major grid exactly when it lies in the half-open rectangle |
| AabbI.RunIsGrid | src/hg-client/src/utils/math/aabb.rs:223-233 | the cursor machine yields the rest of the cursor's row, then every later row in full, until it passes `max.y` |
| AabbI.IterAsWrittenCells | src/hg-client/src/utils/math/aabb.rs:220-234 | the iterator as written yields the cells of `[min.x, max.x] x [min.y, max.y)` of the normalised box, row-major |
| AabbI.IterAsWritten | src/hg-client/src/utils/math/aabb.rs:220-234 | the iterator as written yields (width + 1) times height cells: those with x in the closed range `[min.x, max.x]` and y in the half-open range `[min.y, max.y)` of the normalised box |
| AabbI.IterAsWrittenAsymmetric | src/hg-client/src/utils/math/aabb.rs:225-232 | a 1 x 1 box yields two cells while a box of height 0 yields none: the x range is closed and the y range half-open |
| AabbI.Iter | src/hg-client/src/utils/math/aabb.rs:220-234 | the corrected iterator yields width times height cells, exactly those of the half-open normalised box, in row-major order |
| AabbI.IterRowMajor | src/hg-client/src/utils/math/aabb.rs:220-234 | the i-th cell is column `i % w` of row `i / w`, so each cell comes once |
| AabbI.InclusiveIterCoversRows | src/hg-client/src/utils/math/aabb.rs:213-234 | `inclusive().iter()` covers the closed box, both corners included |
| Glam.Mask | src/hg-client/src/utils/math/glam.rs:47-52 | an axis' mask is true in its own component and false in the other |
| Glam.Not | src/hg-client/src/utils/math/glam.rs:21-23 | negating a mask flips each component |
| Glam.MaskVec | src/hg-client/src/utils/math/glam.rs:13-15 | each selected component is kept and each other one is zero |
| Glam.MaskInOut | src/hg-client/src/utils/math/glam.rs:17-23 | masking in an axis keeps only that component; masking it out keeps only the other |
| Glam.AxisUnitMag | src/hg-client/src/utils/math/glam.rs:54-59 | the value lies along the axis, with zero across it |
| Glam.OfBiased | src/hg-client/src/utils/math/glam.rs:71-77 | the sign is negative exactly for values below zero, so zero counts as positive |
| Glam.SignUnitMag | src/hg-client/src/utils/math/glam.rs:79-85 | the value keeps or loses its sign, and keeps it exactly under `Pos` or when it is zero |
| Glam.AddMagnitude | src/hg-client/src/utils/math/glam.rs:88-90 | for a non-negative amount, the magnitude grows by the amount and the biased sign is kept |
| Glam.OfBiasedUnitMag | src/hg-client/src/utils/math/glam.rs:71-85 | a value scaled by its own sign is its magnitude |
| Glam.Compose | src/hg-client/src/utils/math/glam.rs:105-112 | the composed face has the axis and sign it was composed from |
| Glam.ComposeAxisSign | src/hg-client/src/utils/math/glam.rs:105-126 | every face is the composition of its own axis and sign |
| Glam.Invert | src/hg-client/src/utils/math/glam.rs:128-135 | the opposite face has the same axis and the other sign |
| Glam.InvertInvolution | src/hg-client/src/utils/math/glam.rs:128-135 | inverting twice gives the face back, and no face is its own opposite |
| Glam.AsIVec | src/hg-client/src/utils/math/glam.rs:146-153 | the face's unit vector is minus or plus one along its axis by its sign, and zero across it |
| Glam.AsIVecInvert | src/hg-client/src/utils/math/glam.rs:128-153 | the opposite face points the opposite way |
| Glam.AsVec | src/hg-client/src/utils/math/glam.rs:137-144 | the same unit vector over reals |
| Bvh.Union | src/hg-client/src/utils/math/aabb.rs:176-181 | the union contains both boxes and lies inside every box that contains both, so it is the least such box |
| Bvh.UnionAC | src/hg-client/src/utils/math/aabb.rs:176-181 | union is commutative and associative, so refitting in any grouping gives the same box |
| Bvh.IsLeaf | src/hg-client/src/utils/math/bvh.rs:635-647 | `is_leaf` is the complement of `is_branch` and holds exactly for leaf nodes |
| Bvh.FittedBounded | src/hg-client/src/utils/math/bvh.rs:212-214 | a tree whose branch boxes are the unions of their children's boxes has every branch box containing its children |
| Bvh.UniqueParts | src/hg-client/src/utils/math/bvh.rs:40-54 | in a tree with distinct arena indices the two subtrees and the branch share no index |
| Bvh.UniqueSiblingsDistinct | src/hg-client/src/utils/math/bvh.rs:497 | distinct indices make the two children of every branch differ, which the sibling search of `orphan_leaf` relies on |
| Bvh.FindPath | src/hg-client/src/utils/math/bvh.rs:70-80 | a path is found exactly when the index is in the tree, and it leads to a node with that index |
| Bvh.SideCosts | src/hg-client/src/utils/math/bvh.rs:390-419 | a side's two swap costs are finite exactly when `main` is a branch |
| Bvh.FirstMin | src/hg-client/src/utils/math/bvh.rs:420-426 | the chosen cost is a least one, and no earlier cost equals it, as `min_by` keeps the first of equal minima |
| Bvh.Rotation | src/hg-client/src/utils/math/bvh.rs:420-441 | a chosen rotation names a child and grandchild in range, and its `main` child is a branch |
| Bvh.Relink | src/hg-client/src/utils/math/bvh.rs:447-472 | the rotated node keeps its index and box and stays a branch |
| Bvh.Rotate | src/hg-client/src/utils/math/bvh.rs:352-473 | a rotation keeps the node's index, box and kind |
| Bvh.Refit | src/hg-client/src/utils/math/bvh.rs:212-214 | a refitted branch's box contains both children's boxes |
| Bvh.InsertRec | src/hg-client/src/utils/math/bvh.rs:150-222 | inserting below a node yields a branch |
| Bvh.InsertStep | src/hg-client/src/utils/math/bvh.rs:165-222 | the node handed to the refit-and-rotate step is a branch |
| Bvh.Empty | src/hg-client/src/utils/math/bvh.rs:63-68 | a new tree has no root |
| Bvh.InsertAsWritten | src/hg-client/src/utils/math/bvh.rs:108-117 | the handle returned is the next arena index |
| Bvh.Insert | src/hg-client/src/utils/math/bvh.rs:108-117 | the corrected insertion keeps the tree valid, returns a fresh handle and adds exactly one leaf with that handle, box and value |
| Bvh.InsertLeafFacts | src/hg-client/src/utils/math/bvh.rs:150-222 | inserting a fresh leaf keeps the tree valid and grows the leaf multiset by exactly that leaf |
| Bvh.InsertLeaf | src/hg-client/src/utils/math/bvh.rs:150-222 | for a leaf, the tree afterwards holds the old indices plus the leaf's and the new branch's (just the leaf's into an empty tree), and the old leaves plus exactly the new one |
| Bvh.InsertIntoTree | src/hg-client/src/utils/math/bvh.rs:157-222 | inserting into a non-empty valid tree keeps boxes bounding and indices distinct, and adds exactly the new leaf |
| Bvh.FreshUnique | src/hg-client/src/utils/math/bvh.rs:109-113 | adding the two freshly allocated indices keeps indices distinct and below the next free one |
| Bvh.RotateKeepsIds | src/hg-client/src/utils/math/bvh.rs:352-473 | a rotation keeps the multiset of node indices |
| Bvh.RotateKeepsLeaves | src/hg-client/src/utils/math/bvh.rs:352-473 | a rotation keeps the multiset of leaves |
| Bvh.RelinkIds | src/hg-client/src/utils/math/bvh.rs:461-472 | the four links of a rotation keep the node indices |
| Bvh.RelinkLeaves | src/hg-client/src/utils/math/bvh.rs:461-472 | the four links of a rotation keep the leaves |
| Bvh.SwapIds | src/hg-client/src/utils/math/bvh.rs:449-472 | a swapped node holds the same indices as the branch, `main` and `other` before |
| Bvh.SwapLeaves | src/hg-client/src/utils/math/bvh.rs:449-472 | a swapped node holds the same leaves as `main` and `other` before |
| Bvh.AdjustKeepsIds | src/hg-client/src/utils/math/bvh.rs:200-221 | refit then rotate keeps the node indices |
| Bvh.AdjustKeepsLeaves | src/hg-client/src/utils/math/bvh.rs:200-221 | refit then rotate keeps the leaves |
| Bvh.RotateBounded | src/hg-client/src/utils/math/bvh.rs:447-472 | a rotation that refits `main` keeps every box bounding its children |
| Bvh.ContainsTrans | src/hg-client/src/utils/math/aabb.rs:176-181 | box containment is transitive |
| Bvh.RotateFitted | src/hg-client/src/utils/math/bvh.rs:447-472 | a rotation that refits `main` keeps a fitted branch fitted |
| Bvh.InsertRecIds | src/hg-client/src/utils/math/bvh.rs:165-222 | insertion adds exactly the new branch and the leaf to the node indices |
| Bvh.InsertStepIds | src/hg-client/src/utils/math/bvh.rs:165-222 | one step on the way back up adds exactly the new branch and the leaf |
| Bvh.ReplaceChildIds | src/hg-client/src/utils/math/bvh.rs:177-190 | replacing a child adds to the indices what the new child adds |
| Bvh.InsertRecLeaves | src/hg-client/src/utils/math/bvh.rs:165-222 | insertion adds exactly the new leaf to the leaves |
| Bvh.InsertStepLeaves | src/hg-client/src/utils/math/bvh.rs:165-222 | one step on the way back up adds exactly the new leaf |
| Bvh.ReplaceChildLeaves | src/hg-client/src/utils/math/bvh.rs:177-190 | replacing a child adds to the leaves what the new child adds |
| Bvh.InsertRecBounded | src/hg-client/src/utils/math/bvh.rs:165-222 | the corrected insertion keeps every branch box containing its children |
| Bvh.InsertRecFitted | src/hg-client/src/utils/math/bvh.rs:165-222 | the corrected insertion keeps every branch box exactly the union of its children |
| Bvh.InsertFitted | src/hg-client/src/utils/math/bvh.rs:108-117 | insertion into a tree with exact boxes keeps them exact |
| Bvh.OrphanFacts | src/hg-client/src/utils/math/bvh.rs:475-528 | orphaning a leaf below the root succeeds, drops exactly the leaf and its parent, keeps indices distinct and boxes bounding, and the new subtree lies inside the old box |
| Bvh.Orphan | src/hg-client/src/utils/math/bvh.rs:475-528 | a successful orphaning drops exactly the subtree at the path and its parent's index, and exactly that subtree's leaves |
| Bvh.OrphanIds | src/hg-client/src/utils/math/bvh.rs:475-528 | orphaning removes exactly the leaf's and its parent's indices |
| Bvh.OrphanIdsBase | src/hg-client/src/utils/math/bvh.rs:497-523 | orphaning a child of the root leaves the sibling as the root |
| Bvh.OrphanIdsStep | src/hg-client/src/utils/math/bvh.rs:512-520 | orphaning deeper down replaces the grandparent's link to the parent by the sibling |
| Bvh.OrphanLeaves | src/hg-client/src/utils/math/bvh.rs:475-528 | orphaning removes exactly the one leaf from the leaves |
| Bvh.OrphanBounded | src/hg-client/src/utils/math/bvh.rs:475-528 | orphaning keeps every box bounding, and the subtree left lies inside the old box |
| Bvh.Remove | src/hg-client/src/utils/math/bvh.rs:119-136 | a successful removal names a leaf of the tree and returns that leaf's value |
| Bvh.RemoveFacts | src/hg-client/src/utils/math/bvh.rs:119-136 | removing a leaf from a valid tree succeeds, keeps the tree valid and drops exactly that leaf |
| Bvh.RemoveDeep | src/hg-client/src/utils/math/bvh.rs:119-136 | removing a leaf below the root leaves a root and drops exactly that leaf |
| Bvh.RemoveShape | src/hg-client/src/utils/math/bvh.rs:119-136 | removal below the root is the orphaned tree |
| Bvh.BelowSub | src/hg-client/src/utils/math/bvh.rs:40-54 | a tree with fewer indices keeps them below the next free one |
| Bvh.UpdateAabbFacts | src/hg-client/src/utils/math/bvh.rs:138-148 | updating a leaf's box keeps the tree valid, keeps the leaf's handle and value, gives it the new box, and changes no other leaf |
| Bvh.UpdateAabb | src/hg-client/src/utils/math/bvh.rs:138-148 | the update succeeds exactly when the handle names a leaf that can be orphaned; it then allocates one index and swaps that leaf's triple for one with the same handle and value and the new box |
| Bvh.UpdateAabbRoot | src/hg-client/src/utils/math/bvh.rs:138-148 | updating a lone root leaf gives that leaf with the new box |
| Bvh.UpdateAabbDeep | src/hg-client/src/utils/math/bvh.rs:138-148 | updating a leaf below the root swaps its triple for one with the new box |
| Bvh.UpdateAabbShape | src/hg-client/src/utils/math/bvh.rs:138-148 | the update is orphan, re-box, reinsert |
| Bvh.ReinsertFresh | src/hg-client/src/utils/math/bvh.rs:145-147 | reinserting the leaf under a fresh branch index keeps indices distinct |
| Bvh.EmptyInsertAsWritten | src/hg-client/src/utils/math/bvh.rs:153-155 | into an empty tree the as-written insertion pairs the leaf with itself: the index repeats, the value is held twice, and removing it panics |
| Bvh.EmptyInsert | src/hg-client/src/utils/math/bvh.rs:153-155 | the corrected insertion into an empty tree gives the lone leaf, which removes again to an empty tree |
| Bvh.RotationLeavesStaleBox | src/hg-client/src/utils/math/bvh.rs:462-472 | on a concrete tree the as-written rotation leaves `main`'s box not containing a child it gained, while the corrected insertion keeps every box bounding |
| Bvh.StaleValid | src/hg-client/src/utils/math/bvh.rs:40-54 | the example tree has exact boxes and distinct indices |
| Bvh.StaleAsWritten | src/hg-client/src/utils/math/bvh.rs:420-472 | on the example the as-written walk rotates at the root with `main` left unrefitted |
| Bvh.StaleNewBranch | src/hg-client/src/utils/math/bvh.rs:165-221 | on the example no rotation happens at the new branch |
| Bvh.StaleRootRotation | src/hg-client/src/utils/math/bvh.rs:390-441 | on the example the root's best rotation is grandchild 0 of child 0 |
| Bvh.StaleExample | src/hg-client/src/utils/math/bvh.rs:40-54 | the example is a branch whose left child is a branch |
| Vecs.SwapRemove | src/hg-ecs/src/entity.rs:129 | the result is one shorter, the last element stands in the removed slot, every other position keeps its element, and exactly one occurrence of the removed element is gone |
| Vecs.SwapRemoveCount | src/hg-ecs/src/entity.rs:129 | swap-removal drops exactly one occurrence of the removed element |
| Entities.ChildOnce | src/hg-ecs/src/entity.rs:29-34 | in a linked tree a child occurs only once in its parent's list, at the index it records |
| Entities.NewRoot | src/hg-ecs/src/entity.rs:95-104 | the new handle is fresh and gets the EMPTY archetype, no parent and no children; nothing else changes |
| Entities.NewRootValid | src/hg-ecs/src/entity.rs:95-104 | a new root keeps a valid store valid and holds no component |
| Entities.RootLinked | src/hg-ecs/src/entity.rs:95-104 | a fresh entity without parent or children keeps parent pointers and children lists in agreement |
| Entities.RootComps | src/hg-ecs/src/entity.rs:95-104 | an entity of the EMPTY archetype needs no stored component |
| Entities.Default | src/hg-ecs/src/entity.rs:36-47 | the default store is valid and its root is a live parentless, childless entity of the EMPTY archetype |
| Entities.Detach | src/hg-ecs/src/entity.rs:121-133 | detaching keeps the set of live entities |
| Entities.DetachLinked | src/hg-ecs/src/entity.rs:121-133 | detaching from a linked tree succeeds and keeps it linked; the entity loses its parent and keeps its children, the old parent's list loses the entity by swap-remove, and no other parent or archetype changes |
| Entities.DetachMovedLinks | src/hg-ecs/src/entity.rs:129-132 | after the swap-remove and the moved child's index fix, the links agree again |
| Entities.DetachMovedParents | src/hg-ecs/src/entity.rs:129-132 | after the fix every parent pointer finds its entity at its recorded index |
| Entities.DetachMovedChildren | src/hg-ecs/src/entity.rs:129-132 | after the fix every listed child names its list's owner and records its own position |
| Entities.DetachLastLinks | src/hg-ecs/src/entity.rs:129-130 | removing the last child of a list needs no index fix |
| Entities.Attach | src/hg-ecs/src/entity.rs:136-144 | the entity gets the new parent, is appended to the parent's list and records the old length as its index |
| Entities.AttachLinked | src/hg-ecs/src/entity.rs:136-144 | attaching a parentless entity to another live entity keeps the tree linked and changes no archetype |
| Entities.SetParent | src/hg-ecs/src/entity.rs:118-145 | a successful move keeps the live entities, components and archetypes, and gives the entity the parent asked for |
| Entities.SetParentValid | src/hg-ecs/src/entity.rs:118-145 | on a valid store `set_parent` panics exactly for a dead entity or a dead or identical new parent, and otherwise keeps the store valid |
| Entities.RelinkValid | src/hg-ecs/src/entity.rs:118-145 | changing only tree links keeps a store valid when the new links agree |
| Entities.SetParentMoves | src/hg-ecs/src/entity.rs:118-145 | moving under a new parent appends the entity to the new parent's list, and the old parent's list loses exactly that entity |
| Entities.New | src/hg-ecs/src/entity.rs:89-93 | the new entity is the next fresh handle |
| Entities.NewChild | src/hg-ecs/src/entity.rs:89-93 | under a live parent the new entity is alive, of the EMPTY archetype with no component, last in its parent's list, and the store stays valid |
| Entities.Add | src/hg-ecs/src/entity.rs:147-181 | `add` panics exactly for a dead entity; otherwise the store stays valid, the component is stored with the value, the entity's component set gains it, and an existing component is overwritten without changing the archetype |
| Entities.OverwriteValid | src/hg-ecs/src/entity.rs:162-167 | overwriting a stored component keeps the store valid |
| Entities.SameKeysComps | src/hg-ecs/src/entity.rs:162-167 | the stored values play no part in the invariant, only their keys |
| Entities.AddValid | src/hg-ecs/src/entity.rs:171-180 | storing a new component and extending the archetype keeps the store valid and adds the component to the entity's set |
| Entities.RetypeValid | src/hg-ecs/src/entity.rs:176-178 | moving an entity to another archetype keeps the store valid when its stored components are exactly the new archetype's |
| Entities.RetypeSets | src/hg-ecs/src/entity.rs:176-178 | retyping changes no other entity's component set |
| Entities.RetypeComps | src/hg-ecs/src/entity.rs:176-178 | after retyping, stored components and archetypes agree |
| Entities.RetypeLinked | src/hg-ecs/src/entity.rs:176-178 | the archetype plays no part in the tree links |
| Entities.RemoveNow | src/hg-ecs/src/entity.rs:209-224 | with the corrected removal lookup, a dead entity gives nothing and no change; otherwise the stored value, if any, is returned and taken out, and the live entities stay |
| Entities.RemoveNowAsWritten | src/hg-ecs/src/entity.rs:209-224 | `remove_now` through the removal lookup the source calls: the same answer, live entities and storage removal as the corrected one |
| Entities.RemoveNowAsWrittenBreaksValid | src/hg-ecs/src/archetype.rs:316-322 | as written, removing a component that is not the smallest of the entity's archetype leaves the entity in that archetype, which still lists it, while storage drops it, so the store is no longer valid |
| Entities.RemoveSecondOfTwo | src/hg-ecs/src/entity.rs:209-224 | an entity holding exactly {1, 2} loses validity when 2 is removed as written, and keeps it with {1} under the corrected removal |
| Entities.RemoveNowAsWrittenExample | src/hg-ecs/src/entity.rs:147-224 | the default root given components 1 and 2 is such an entity |
| Entities.RemoveNowValid | src/hg-ecs/src/entity.rs:209-237 | with the corrected removal lookup, removal keeps the store valid and takes the component out of the entity's set |
| Entities.RemoveValid | src/hg-ecs/src/entity.rs:219-223 | the corrected removal lookup and the storage removal together keep the store valid |
| Entities.RemovedComps | src/hg-ecs/src/entity.rs:226-237 | taking one key out leaves the entity's other stored components |
| Entities.AddThenRemove | src/hg-ecs/src/entity.rs:147-224 | adding a component and removing it with the corrected lookup gives the value back and leaves the entity's old component set |
| Entities.DestroyRec | src/hg-ecs/src/entity.rs:239-258 | destruction only takes entities out, takes `e` out, and drops exactly the components of the entities it removes |
| Entities.Strip | src/hg-ecs/src/entity.rs:242-253 | one entity and exactly the components its archetype lists are removed |
| Entities.DestroyAll | src/hg-ecs/src/entity.rs:255-257 | destroying a list of children removes each of them and drops exactly the components of removed entities |
| Entities.DestroyRecReach | src/hg-ecs/src/entity.rs:239-258 | the entities removed are `e` and entities whose parent was removed, and every listed child of a removed entity is removed |
| Entities.DestroyAllReach | src/hg-ecs/src/entity.rs:255-257 | the same reach for each child in a list |
| Entities.DestroyNowAsWritten | src/hg-ecs/src/entity.rs:239-258 | the destroyed entity is gone |
| Entities.DestroyNow | src/hg-ecs/src/entity.rs:239-258 | the corrected destruction removes the entity and keeps the store valid |
| Entities.Detached | src/hg-ecs/src/entity.rs:121-133 | `set_parent(None)` keeps the store valid, the entities, the components and every other parent, and leaves the entity parentless |
| Entities.DestroyValid | src/hg-ecs/src/entity.rs:239-258 | destroying a parentless entity's subtree keeps the store valid |
| Entities.PruneLinked | src/hg-ecs/src/entity.rs:255-257 | removing a subtree closed under children from a linked tree, whose root has no parent, leaves it linked |
| Entities.PruneComps | src/hg-ecs/src/entity.rs:246-253 | dropping entities together with exactly their components keeps components and archetypes in agreement |
| Entities.DestroyNowSubtree | src/hg-ecs/src/entity.rs:239-258 | the corrected destruction removes exactly the entity's subtree, and the survivors keep exactly their components |
| Entities.DetachedChild | src/hg-ecs/src/entity.rs:121-133 | a child listed before detaching stays listed, unless it is the detached entity |
| Entities.DestroyAsWrittenLeavesDeadChild | src/hg-ecs/src/entity.rs:239-258 | destroying the last of two children as written leaves it listed under its parent, and a later `set_parent(None)` of the sibling panics |
| Entities.DestroyNowUnlistsChild | src/hg-ecs/src/entity.rs:239-258 | with the correction the destroyed child leaves its parent's list |
| ColliderGroups.ListedRegistered | src/hg-common/src/base/collide/group.rs:96-101 | in valid groups every listed collider is registered at its index and appears once |
| ColliderGroups.NewGroup | src/hg-common/src/base/collide/group.rs:28-31 | a new group has an empty unshared list and keeps the groups valid |
| ColliderGroups.Register | src/hg-common/src/base/collide/group.rs:33-44 | registration panics exactly for a dead or shared group; otherwise the collider is appended to the list and records the group and the old length, no other collider's membership changing |
| ColliderGroups.RegisterValid | src/hg-common/src/base/collide/group.rs:33-44 | registering a collider that is in no list keeps the groups valid, registers it, and grows the list's multiset by it |
| ColliderGroups.Unregister | src/hg-common/src/base/collide/group.rs:112-120 | unregistration panics exactly for a dead or shared group, an index past the list, or a collider moved into the freed slot whose member component is gone; otherwise the list is swap-removed at the recorded index and only the moved member's index changes, to the freed slot |
| ColliderGroups.UnregisterMovedDead | src/engine/hg-engine-common/src/collide/group.rs:121-129 | a two-member group whose second member component is gone panics when the first unregisters |
| ColliderGroups.UnregisterValid | src/hg-common/src/base/collide/group.rs:112-120 | unregistering a registered member of an unshared group succeeds, keeps the groups valid, takes exactly that collider out of its list, and leaves other lists alone |
| ColliderGroups.Members | src/hg-common/src/base/collide/group.rs:46-48 | the clone is the list itself, and while it is held the list is shared |
| ColliderGroups.DropMembers | src/hg-common/src/base/collide/group.rs:46-48 | dropping a clone changes no list, and the list stays shared exactly while another clone is held |
| ColliderGroups.MutationWhileShared | src/engine/hg-engine-common/src/collide/group.rs:52-63 | while a clone is held, registration and unregistration in that group panic; after the only clone drops they work again |
| ColliderGroups.NoGroup | src/engine/hg-engine-common/src/collide/group.rs:24-36 | a collider passes exactly when its entity holds no member component naming this group |
| ColliderGroups.NoGroupExcludesOwn | src/hg-common/src/base/collide/group.rs:67-83 | a group never hits its own registered members and passes every member of another group |
| ColliderGroups.CastHull | src/hg-common/src/base/collide/group.rs:50-93 | a group with no members returns the clear result |
| ColliderGroups.CastHullPicks | src/engine/hg-engine-common/src/collide/group.rs:73-102 | when the combination picks one of its arguments, the result is the clear result or some member's cast |
| RpcWire.Deletion | src/hg-common/src/base/rpc/server.rs:250-252 | the deletion packet is a header-only `DeleteNode` for the node |
| RpcWire.SendTo | src/hg-common/src/base/rpc/server.rs:267-273 | sending appends the packet to that peer's stream and no other |
| RpcWire.SendAll | src/hg-common/src/base/rpc/server.rs:238-240 | each peer of the set gets the packet appended to its stream, every other stream is unchanged |
| RpcVisibility.Connected | src/hg-common/src/base/rpc/server.rs:423-425 | the connected peers are exactly those alive and not disconnected |
| RpcVisibility.SeesKnows | src/hg-common/src/base/rpc/server.rs:299-305 | in a valid state a node's `visible_to` and the peer's `vis_set` agree, and only connected peers see nodes |
| RpcVisibility.AddNode | src/hg-common/src/base/rpc/server.rs:145-153 | a registered node starts visible to nobody |
| RpcVisibility.AddNodeValid | src/hg-common/src/base/rpc/server.rs:145-156 | registering a fresh node keeps visibility valid and changes no other node's visibility |
| RpcVisibility.AddPeer | src/hg-common/src/base/rpc/server.rs:161-167 | a registered peer is connected and sees nothing yet |
| RpcVisibility.AddPeerValid | src/hg-common/src/base/rpc/server.rs:161-167 | registering a fresh peer keeps visibility valid and adds it to the connected peers |
| RpcVisibility.Replicate | src/hg-common/src/base/rpc/server.rs:307-325 | `replicate` checks the peer's connectivity first: a disconnected peer makes it a no-op even for a dead node, and it fails exactly for a dead node with a connected peer; it queues something exactly when the peer is connected and did not see the node, and the peer then sees it, nothing else changing |
| RpcVisibility.ReplicateValid | src/hg-common/src/base/rpc/server.rs:307-325 | every `replicate` that does not panic keeps the two sets mirrored |
| RpcVisibility.ReplicateIdempotent | src/hg-common/src/base/rpc/server.rs:312-314 | a second `replicate` of the same pair changes nothing and queues nothing |
| RpcVisibility.DeReplicate | src/hg-common/src/base/rpc/server.rs:327-342 | `de_replicate` checks the peer's connectivity first: a disconnected peer makes it a no-op even for a dead node, and it fails exactly for a dead node with a connected peer; it queues something exactly when the peer is connected and saw the node, and the peer then no longer sees it, nothing else changing |
| RpcVisibility.DeReplicateValid | src/hg-common/src/base/rpc/server.rs:327-342 | every `de_replicate` that does not panic keeps the two sets mirrored |
| RpcVisibility.ReplicateDeReplicate | src/hg-common/src/base/rpc/server.rs:307-342 | replicating then de-replicating a pair that was not visible restores the visibility state |
| RpcVisibility.Unregister | src/hg-common/src/base/rpc/server.rs:357-369 | the node leaves the id map and no peer changes connection |
| RpcVisibility.UnregisterValid | src/hg-common/src/base/rpc/server.rs:357-369 | unregistering keeps visibility valid and no peer knows the node any more |
| RpcVisibility.Disconnect | src/hg-common/src/base/rpc/server.rs:427-437 | the peer is no longer connected, a first disconnect empties its `vis_set`, and the other peers stay connected |
| RpcVisibility.DisconnectValid | src/hg-common/src/base/rpc/server.rs:427-437 | disconnecting keeps visibility valid, the peer sees no node, other peers see what they saw, and disconnecting twice is disconnecting once |
| RpcServer.ReplaySnoc | src/hg-common/src/base/rpc/server.rs:209-243 | sending one more action moves the known peers by that action's step |
| RpcServer.ReplayDisconnect | src/hg-common/src/base/rpc/server.rs:203-206 | a disconnected peer is out of what every replay ends with |
| RpcServer.ReplayFresh | src/hg-common/src/base/rpc/server.rs:161-167 | a new peer that no queued action names changes no replay |
| RpcServer.New | src/hg-common/src/base/rpc/server.rs:112-118 | a new server is valid, in step and has nothing stranded; ids start at 1 with no queue and no node |
| RpcServer.RegisterNode | src/hg-common/src/base/rpc/server.rs:120-159 | registration fails exactly when the id counter would overflow; otherwise the node takes the current id, the counter moves on by one, and the node gets an empty queue, its kind and no visibility |
| RpcServer.RegisterNodeValid | src/hg-common/src/base/rpc/server.rs:120-159 | registration keeps the server valid, in step and with nothing stranded |
| RpcServer.RegisterIncreasing | src/hg-common/src/base/rpc/server.rs:126-132 | a second registration gets a larger id |
| RpcServer.RegisterPeer | src/hg-common/src/base/rpc/server.rs:161-167 | a new peer is connected and sees nothing; no queue or node changes |
| RpcServer.RegisterPeerValid | src/hg-common/src/base/rpc/server.rs:161-167 | registering a fresh peer keeps the server valid, in step and with nothing stranded |
| RpcServer.LookupNode | src/hg-common/src/base/rpc/server.rs:169-171 | a lookup finds exactly the live nodes |
| RpcServer.LookupRegistered | src/hg-common/src/base/rpc/server.rs:156-171 | a registered node can be looked up by the id it was given |
| RpcServer.MarkDirty | src/hg-common/src/base/rpc/server.rs:396-405 | marking lists the queue for the next flush only when it was not already marked, and changes nothing else |
| RpcServer.MarkDirtyOnce | src/hg-common/src/base/rpc/server.rs:397-404 | marking twice is marking once, and the dirty list keeps each queue once |
| RpcServer.Push | src/hg-common/src/base/rpc/server.rs:322-324 | pushing appends the action to the node's queue and changes nothing else |
| RpcServer.Catchup | src/hg-common/src/base/rpc/server.rs:318-319 | the replication packet creates the node under its kind and carries the catch-up data |
| RpcServer.Replicate | src/hg-common/src/base/rpc/server.rs:307-325 | `replicate` fails exactly for a dead node with a connected peer, since connectivity is checked first; the peer then sees the node exactly when it saw it or is connected; a no-op call changes nothing, otherwise the queue is marked and gains the replication |
| RpcServer.DeReplicate | src/hg-common/src/base/rpc/server.rs:327-342 | `de_replicate` fails exactly for a dead node with a connected peer, since connectivity is checked first; it leaves the peer seeing the node only if it is not connected; a no-op call changes nothing, otherwise the queue is marked and gains the deletion |
| RpcServer.Message | src/hg-common/src/base/rpc/server.rs:347-350 | the broadcast packet is a message header for the node with the data |
| RpcServer.BroadcastAsWritten | src/hg-common/src/base/rpc/server.rs:344-355 | `broadcast` fails for a dead node or another kind; otherwise the message is queued and neither the queue's mark nor the dirty list changes |
| RpcServer.Broadcast | src/hg-common/src/base/rpc/server.rs:344-355 | the corrected broadcast queues the message and marks the queue, leaving visibility alone |
| RpcServer.Unregister | src/hg-common/src/base/rpc/server.rs:357-369 | `unregister` fails only for a dead node; the node then leaves visibility and the kind map while its queue stays, destroyed and marked |
| RpcServer.Disconnect | src/hg-common/src/base/rpc/server.rs:427-437 | the peer is no longer connected, and no queue or dirty list changes |
| RpcServer.RecvPacket | src/hg-common/src/base/rpc/server.rs:173-195 | a bad header or a bad data part is an error, and the data reaches a node's handler exactly when both parts decode and the node is visible to the sender |
| RpcServer.Emit | src/hg-common/src/base/rpc/server.rs:209-241 | a replication or deletion is sent to its own peer at most, and a broadcast is appended for every peer the queue knows about |
| RpcServer.Run | src/hg-common/src/base/rpc/server.rs:209-243 | sending a queue's actions leaves exactly the peers its replay ends with |
| RpcServer.FlushQueue | src/hg-common/src/base/rpc/server.rs:198-263 | a destroyed queue is dropped; any other is emptied and unmarked and knows exactly the peers its replay ends with |
| RpcServer.Flush | src/hg-common/src/base/rpc/server.rs:197-264 | a flush empties the dirty list and changes no visibility, kind or id counter |
| RpcServer.FlushFromEffect | src/hg-common/src/base/rpc/server.rs:198-263 | each listed queue is sent and emptied, or dropped when destroyed, and each unlisted one is left alone |
| RpcServer.FlushQueues | src/hg-common/src/base/rpc/server.rs:197-264 | flushing a valid server empties and unmarks every queue, drops the destroyed ones, and leaves each live node's queue knowing, among connected peers, exactly the peers the node is visible to |
| RpcServer.FlushValid | src/hg-common/src/base/rpc/server.rs:197-264 | a flush keeps the server valid, in step and with nothing stranded |
| RpcServer.EnqueueValid | src/hg-common/src/base/rpc/server.rs:321-324 | pushing an action after a visibility change keeps the server valid, and with the mark nothing is stranded |
| RpcServer.EnqueueDirty | src/hg-common/src/base/rpc/server.rs:397-404 | marking then pushing keeps the dirty list exact |
| RpcServer.PushFlags | src/hg-common/src/base/rpc/server.rs:322-324 | pushing changes no flag and no dirty list |
| RpcServer.EnqueueLife | src/hg-common/src/base/rpc/server.rs:383-384 | a push keeps destroyed queues exactly those of unregistered nodes |
| RpcServer.EnqueueMention | src/hg-common/src/base/rpc/server.rs:322-324 | a push keeps queues naming only registered peers |
| RpcServer.EnqueueSynced | src/hg-common/src/base/rpc/server.rs:307-342 | a push keeps queues in step with visibility when the visibility change is what sending the action will do |
| RpcServer.MarkedEnqueue | src/hg-common/src/base/rpc/server.rs:321-324 | mark then push keeps the server valid, in step and with nothing stranded |
| RpcServer.ReplicateValid | src/hg-common/src/base/rpc/server.rs:307-325 | every `replicate` that does not panic keeps the server valid, in step and with nothing stranded |
| RpcServer.DeReplicateValid | src/hg-common/src/base/rpc/server.rs:327-342 | every `de_replicate` that does not panic keeps the server valid, in step and with nothing stranded |
| RpcServer.BroadcastValid | src/hg-common/src/base/rpc/server.rs:344-355 | the corrected broadcast keeps the server valid, in step and with nothing stranded |
| RpcServer.BroadcastAsWrittenValid | src/hg-common/src/base/rpc/server.rs:344-355 | the broadcast as written keeps validity and the queues in step |
| RpcServer.BroadcastEnqueue | src/hg-common/src/base/rpc/server.rs:344-355 | a broadcast is a push that leaves visibility alone |
| RpcServer.UnregisterValid | src/hg-common/src/base/rpc/server.rs:357-369 | `unregister` keeps the server valid, in step and with nothing stranded |
| RpcServer.UnregisterShape | src/hg-common/src/base/rpc/server.rs:357-369 | `unregister` destroys and marks the queue and drops the node from visibility and the kind map |
| RpcServer.UnregisterDirty | src/hg-common/src/base/rpc/server.rs:359-360 | after `unregister` the dirty list stays exact |
| RpcServer.UnregisterFlags | src/hg-common/src/base/rpc/server.rs:357-369 | `unregister` keeps the wiring, ids, life flags and peer mentions consistent, and nothing becomes stranded |
| RpcServer.UnregisterSynced | src/hg-common/src/base/rpc/server.rs:357-369 | `unregister` keeps the queues in step with visibility |
| RpcServer.DisconnectValid | src/hg-common/src/base/rpc/server.rs:427-437 | disconnecting keeps the server valid, in step and with nothing stranded |
| RpcServer.BroadcastAsWrittenStranded | src/hg-common/src/base/rpc/server.rs:344-355 | after a flush, an as-written broadcast leaves the queue unmarked, so the next flush sends nothing and the message stays queued |
| RpcServer.BroadcastFlushed | src/hg-common/src/base/rpc/server.rs:344-355 | with the correction the next flush delivers the message to exactly the peers that see the node and leaves nothing queued |
| RpcServer.FlushSingle | src/hg-common/src/base/rpc/server.rs:234-241 | a lone queued broadcast is sent to exactly the connected peers its queue knows about |
| EngineRpcServer.ProjSnoc | src/engine/hg-engine-common/src/rpc/server.rs:243-297 | appending an action to the server queue appends it to the projection of its own node only |
| EngineRpcServer.ProjPeers | src/engine/hg-engine-common/src/rpc/server.rs:243-297 | a node's projected actions name only peers the whole queue names |
| EngineRpcServer.New | src/engine/hg-engine-common/src/rpc/server.rs:134-141 | a new server is valid and in step, with ids from 1 and no node |
| EngineRpcServer.RegisterNode | src/engine/hg-engine-common/src/rpc/server.rs:143-184 | registration fails exactly when the id counter would overflow; otherwise the node takes the current id, the counter moves on, and the node gets a fresh queue, its types and no visibility |
| EngineRpcServer.RegisterNodeValid | src/engine/hg-engine-common/src/rpc/server.rs:143-184 | registration keeps the server valid and in step |
| EngineRpcServer.ProjNone | src/engine/hg-engine-common/src/rpc/server.rs:161-167 | a fresh queue has no queued action |
| EngineRpcServer.RegisterPeer | src/engine/hg-engine-common/src/rpc/server.rs:186-192 | a new peer is connected and sees nothing; queues and actions do not change |
| EngineRpcServer.RegisterPeerValid | src/engine/hg-engine-common/src/rpc/server.rs:186-192 | registering a fresh peer keeps the server valid and in step |
| EngineRpcServer.LookupAnyNode | src/engine/hg-engine-common/src/rpc/server.rs:194-199 | a lookup succeeds exactly for live ids and otherwise reports the missing id |
| EngineRpcServer.OptUserdata | src/engine/hg-engine-common/src/rpc/server.rs:410-420 | the userdata is returned exactly when its type matches, and otherwise the error names the expected and actual types |
| EngineRpcServer.LookupNode | src/engine/hg-engine-common/src/rpc/server.rs:201-203 | a lookup succeeds exactly for a live id with the asked userdata type; a missing id is reported before a type mismatch |
| EngineRpcServer.LookupRegistered | src/engine/hg-engine-common/src/rpc/server.rs:143-203 | a registered node is found by its id and its userdata type |
| EngineRpcServer.Replicate | src/engine/hg-engine-common/src/rpc/server.rs:341-360 | as in the game's server, it fails exactly for a dead node with a connected peer, since connectivity is checked first; the peer then sees the node exactly when it saw it or is connected, and only a real change queues a replication, on the server's queue |
| EngineRpcServer.DeReplicate | src/engine/hg-engine-common/src/rpc/server.rs:362-379 | it fails exactly for a dead node with a connected peer, since connectivity is checked first; the peer keeps seeing the node only if not connected, and only a real change queues a deletion |
| EngineRpcServer.Broadcast | src/engine/hg-engine-common/src/rpc/server.rs:381-393 | `broadcast` fails for a dead node or another kind; otherwise the message is appended to the server's queue and visibility is unchanged |
| EngineRpcServer.Unregister | src/engine/hg-engine-common/src/rpc/server.rs:395-408 | `unregister` fails only for a dead node; otherwise the node's destruction is queued and its visibility is dropped |
| EngineRpcServer.Disconnect | src/engine/hg-engine-common/src/rpc/server.rs:447-457 | the peer is no longer connected, and no queue or action changes |
| EngineRpcServer.RecvPacket | src/engine/hg-engine-common/src/rpc/server.rs:205-231 | a bad header or bad data part is an error, and the data reaches a handler exactly when both decode and the node is visible to the sender |
| EngineRpcServer.Apply | src/engine/hg-engine-common/src/rpc/server.rs:243-296 | one action moves only its own queue: a per-node action by its step, a destruction by sending the deletion to every peer the queue knows and dropping the queue |
| EngineRpcServer.Run | src/engine/hg-engine-common/src/rpc/server.rs:243-297 | sending actions never adds a queue |
| EngineRpcServer.RunAppend | src/engine/hg-engine-common/src/rpc/server.rs:243-297 | sending a + b is sending a and then b |
| EngineRpcServer.Retain | src/engine/hg-engine-common/src/rpc/server.rs:235-241 | each queue keeps only its connected peers |
| EngineRpcServer.Flush | src/engine/hg-engine-common/src/rpc/server.rs:233-298 | a flush empties the action queue, drops no live state, and adds no queue |
| EngineRpcServer.RunEffect | src/engine/hg-engine-common/src/rpc/server.rs:243-297 | when each destruction is its queue's last action, a destroyed queue is gone and any other has replayed its own actions in order |
| EngineRpcServer.FlushValid | src/engine/hg-engine-common/src/rpc/server.rs:233-298 | flushing a valid, synchronised server empties the queue, removes exactly the queues of unregistered nodes, and leaves each live node's queue knowing exactly the peers the node is visible to |
| EngineRpcServer.EnqueueValid | src/engine/hg-engine-common/src/rpc/server.rs:355-392 | queueing a per-node action after a visibility change keeps the server valid, and in step when the change is what sending the action will do |
| EngineRpcServer.AppendActionsOk | src/engine/hg-engine-common/src/rpc/server.rs:355-392 | queueing an action on a live node keeps every destruction its queue's last action |
| EngineRpcServer.AppendMentionOk | src/engine/hg-engine-common/src/rpc/server.rs:355-392 | queueing an action keeps the queue naming only registered peers |
| EngineRpcServer.EnqueueSynced | src/engine/hg-engine-common/src/rpc/server.rs:341-379 | queueing the action that moved a node's visibility keeps every queue's replay in step |
| EngineRpcServer.ReplicateValid | src/engine/hg-engine-common/src/rpc/server.rs:341-360 | every `replicate` that does not panic keeps the server valid and in step |
| EngineRpcServer.DeReplicateValid | src/engine/hg-engine-common/src/rpc/server.rs:362-379 | every `de_replicate` that does not panic keeps the server valid and in step |
| EngineRpcServer.BroadcastValid | src/engine/hg-engine-common/src/rpc/server.rs:381-393 | `broadcast` keeps the server valid and in step |
| EngineRpcServer.UnregisterValid | src/engine/hg-engine-common/src/rpc/server.rs:395-408 | `unregister` keeps the server valid and in step |
| EngineRpcServer.UnregisterActionsOk | src/engine/hg-engine-common/src/rpc/server.rs:395-408 | queueing a destruction after unregistration keeps it its queue's last action |
| EngineRpcServer.UnregisterSynced | src/engine/hg-engine-common/src/rpc/server.rs:395-408 | a destruction changes no remaining queue's replay |
| EngineRpcServer.DisconnectValid | src/engine/hg-engine-common/src/rpc/server.rs:447-457 | disconnecting keeps the server valid and in step |
| EngineRpcServer.BroadcastDelivered | src/engine/hg-engine-common/src/rpc/server.rs:381-393 | with one queue for the whole server, a broadcast after a flush is delivered by the next flush to exactly the peers that see the node |
| EngineRpcServer.FlushOneBroadcast | src/engine/hg-engine-common/src/rpc/server.rs:272-279 | a lone queued broadcast is sent once to each connected peer its node's queue knows |
| EngineRpcServer.DestroyNodeSends | src/engine/hg-engine-common/src/rpc/server.rs:280-295 | a destruction sends the deletion to every peer its queue knows and drops the queue |
| RpcClient.New | src/hg-common/src/base/rpc/client.rs:137-140 | a new client is valid and holds no node |
| RpcClient.Define | src/hg-common/src/base/rpc/client.rs:142-160 | defining panics exactly when the type or the name is already taken; otherwise both maps gain the kind, the nodes stay, and the client stays valid |
| RpcClient.DefineOnce | src/hg-common/src/base/rpc/client.rs:142-160 | after defining a kind, defining its type or its name again panics, while an unrelated kind can still be defined |
| RpcClient.LookupNode | src/hg-common/src/base/rpc/client.rs:162-164 | a lookup finds exactly the nodes in the table |
| RpcClient.RecvPacket | src/hg-common/src/base/rpc/client.rs:183-230 | a failed or refused packet leaves the client as it was; each header's own error cases (bad header, bad data, unknown node, node already present, unknown kind) give their errors; a create adds exactly that node and a delete removes exactly that node |
| RpcClient.MessageKeepsTable | src/hg-common/src/base/rpc/client.rs:191-199 | a message never changes the node table |
| RpcClient.CreateThenDelete | src/hg-common/src/base/rpc/client.rs:200-228 | creating a node and deleting it again leaves the client as it was, and a second creation before the deletion fails |
| RpcClient.FailedDestroyKeeps | src/hg-common/src/base/rpc/client.rs:218-228 | a destroy callback that fails keeps the node, which can still be sent messages |
| RpcGroups.Each | src/engine/hg-engine-common/src/rpc/groups.rs:44-61 | the loop panics exactly when it reaches a connected peer for a dead node; otherwise connections and nodes stay and exactly the pairs with a connected peer are made visible or invisible |
| RpcGroups.EachValid | src/engine/hg-engine-common/src/rpc/groups.rs:44-61 | a loop of `replicate` or `de_replicate` calls keeps the visibility machine valid |
| RpcGroups.ToPeers | src/engine/hg-engine-common/src/rpc/groups.rs:49-61 | the pairs are the node with each listed peer other than the excluded one |
| RpcGroups.FromNodes | src/engine/hg-engine-common/src/rpc/groups.rs:77-81 | the pairs are each listed node with the peer, unless the peer is excluded from it |
| RpcGroups.AddNode | src/engine/hg-engine-common/src/rpc/groups.rs:31-64 | `add_node` fails only for a dead node; the node then joins, the group keeps its connected peers, and the node becomes visible to every one of them but its excluded peer, nothing else changing |
| RpcGroups.AddPeer | src/engine/hg-engine-common/src/rpc/groups.rs:66-82 | a disconnected peer changes nothing; a connected one joins, and it comes to see every node not excluding it, failing exactly when one of those is dead |
| RpcGroups.RemovePeer | src/engine/hg-engine-common/src/rpc/groups.rs:84-102 | a peer outside the group changes nothing; otherwise it leaves, and, when connected, stops seeing every node not excluding it |
| RpcGroups.Unregister | src/engine/hg-engine-common/src/rpc/groups.rs:114-137 | the node leaves the group, the group keeps its connected peers, and the node stops being visible to every one of them, the excluded peer included |
| RpcGroups.GameAddNode | src/hg-common/src/base/rpc/groups.rs:31-56 | the game's `add_node` is the engine's with no excluded peer, so the node becomes visible to every connected peer of the group |
| RpcGroups.AddNodeValid | src/engine/hg-engine-common/src/rpc/groups.rs:31-64 | `add_node` keeps the visibility machine valid |
| RpcGroups.AddNodeCovered | src/engine/hg-engine-common/src/rpc/groups.rs:31-64 | a group that covered its nodes still does after adding one |
| RpcGroups.AddPeerCovered | src/engine/hg-engine-common/src/rpc/groups.rs:66-82 | adding a peer keeps the group covering its nodes |
| RpcGroups.RemovePeerCovered | src/engine/hg-engine-common/src/rpc/groups.rs:84-102 | removing a peer keeps the group covering its nodes |
| RpcGroups.UnregisterCovered | src/engine/hg-engine-common/src/rpc/groups.rs:114-137 | unregistering a follower keeps the group covering the rest |
| RpcGroups.ExcludedUntouched | src/engine/hg-engine-common/src/rpc/groups.rs:56-58 | adding the node, adding its excluded peer or removing that peer leaves whether the excluded peer sees the node as it was |
| RpcGroups.UnregisterReachesExcluded | src/engine/hg-engine-common/src/rpc/groups.rs:126-135 | unlike `remove_peer`, `unregister` de-replicates the node from its excluded peer too |
| RpcGroups.AddRemovePeer | src/engine/hg-engine-common/src/rpc/groups.rs:66-102 | adding a peer and removing it again takes away exactly the visibility the group gave it |
| DepthGen.New | src/hg-ctx2d/src/wgpu/utils.rs:20-29 | the new (and reset) generator stands at epoch 0, value 0, in range, before every other in-range generator |
| DepthGen.Next | src/hg-ctx2d/src/wgpu/utils.rs:38-46 | a call panics only from the last value of the last 16-bit epoch; otherwise the generator moves strictly forward and stays in range, and it enters the next epoch, at value 0, exactly when the value was already the bits of 1.0 |
| DepthGen.AdvancePosition | src/hg-ctx2d/src/wgpu/utils.rs:38-46 | k calls move the generator k levels along a numbering with one more level per epoch than the bits of 1.0, panicking exactly when that runs past the last epoch |
| DepthGen.AdvanceIncreases | src/hg-ctx2d/src/wgpu/utils.rs:38-46 | any run of calls ends strictly after where it began, so no depth is handed out twice |
| StreamWrite.PositionedWrite | src/hg-ctx2d/src/misc.rs:78-85 | the write panics exactly when the start lies past the end or the data cannot cover the overwritten tail; otherwise the target keeps its bytes before the start and holds the data from there on |
| StreamWrite.WriteAtEnd | src/hg-ctx2d/src/misc.rs:78-85 | writing at the target's end appends the data |
| StreamWrite.RewriteSameStart | src/hg-ctx2d/src/misc.rs:78-85 | a second write from the same start, at least as long as the first, replaces the first completely |
| StreamWrite.LenIsWritten | src/hg-ctx2d/src/misc.rs:91-117 | `len` of a Bytemuck or a Crevice value is exactly the number of bytes its `write_to` appends, and Crevice writes its std430 layout's bytes |
| DepthRuns.AsIndex | src/hg-ctx2d/src/base/depth.rs:134-138 | epochs start at 1 and index their buckets from 0, one bucket per epoch |
| DepthRuns.NewGen | src/hg-ctx2d/src/base/depth.rs:153-165 | the new (and reset) generator is at the first epoch, depth zero |
| DepthRuns.NextEpoch | src/hg-ctx2d/src/base/depth.rs:184-187 | the next epoch is one further, with depth zero; the checked addition panics exactly at the last 32-bit epoch |
| DepthRuns.New | src/hg-ctx2d/src/base/depth.rs:204-211 | a fresh list has one point at the start position with no epoch, and no runs |
| DepthRuns.RecordPos | src/hg-ctx2d/src/base/depth.rs:213-224 | the last point becomes the new position in its own epoch; in another epoch a new point is added after all the others; the list stays valid |
| DepthRuns.Iter | src/hg-ctx2d/src/base/depth.rs:226-230 | the runs exist exactly when every point after the first has an epoch; run i then goes from point i to point i + 1 and carries point i + 1's epoch |
| DepthRuns.IterValid | src/hg-ctx2d/src/base/depth.rs:226-230 | the runs of a valid list exist, one per pair of neighbours, start at the first point, meet end to end, end at the last position, and carry their end point's epoch, no two neighbours alike |
| DepthRuns.IterRecord | src/hg-ctx2d/src/base/depth.rs:213-230 | recording in the current epoch stretches the last run to the new position; recording in a new epoch adds one run from the old last position to the new one |
| PassScheduler.New | src/hg-ctx2d/src/base/depth.rs:24-27 | a new scheduler is empty and its buckets count its commands |
| PassScheduler.Push | src/hg-ctx2d/src/base/depth.rs:40-56 | the command and its epoch go last in their queues, and every bucket still counts the commands of its epoch |
| PassScheduler.CountAbsent | src/hg-ctx2d/src/base/depth.rs:51-55 | an epoch no queued command has counts zero, so the buckets grown for a new epoch start right |
| PassScheduler.GroupedStable | src/hg-ctx2d/src/base/depth.rs:58-89 | grouping by epoch keeps each epoch's commands in push order and drops the epochs past the last bucket |
| PassScheduler.GroupedSorted | src/hg-ctx2d/src/base/depth.rs:58-89 | the grouped commands come in non-decreasing epoch order |
| PassScheduler.FilterCount | src/hg-ctx2d/src/base/depth.rs:45-55 | each epoch's commands are as many as its count |
| PassScheduler.Exec | src/hg-ctx2d/src/base/depth.rs:58-89 | the intended `exec` of a counted scheduler runs every queued command exactly once (its ascending epoch order is `ExecSorted`) |
| PassScheduler.ExecPermutes | src/hg-ctx2d/src/base/depth.rs:58-89 | the intended `exec` runs every queued command exactly once |
| PassScheduler.ExecSorted | src/hg-ctx2d/src/base/depth.rs:58-89 | the intended `exec` runs the commands in ascending epoch order |
| PassScheduler.ExecStable | src/hg-ctx2d/src/base/depth.rs:58-89 | the reference `exec` keeps each epoch's commands in the order they were pushed; the source promises only a counting sort, so this order within an epoch is the reference's choice |
| PassScheduler.ExecBuckets | src/hg-ctx2d/src/base/depth.rs:62-68 | the commands of epoch k + 1 are exactly as many as bucket k, so they fill the range ending at the running sum through bucket k |
| PassScheduler.EndsPrefix | src/hg-ctx2d/src/base/depth.rs:62-68 | after the prefix-sum loop each bucket holds the sum of the counts before it plus its own, the end of its epoch's range |
| PassScheduler.ExecAsWritten | src/hg-ctx2d/src/base/depth.rs:70-84 | the swap loop as written only exchanges commands, so when it completes it runs every queued command exactly once |
| PassScheduler.ExecAsWrittenPanics | src/hg-ctx2d/src/base/depth.rs:58-89 | as written, a scheduler holding one command panics at its first swap, while the intended order is that command alone |
| Brushes.New | src/hg-ctx2d/src/wgpu/instances.rs:75-86 | a new renderer has no shaders and no brushes and satisfies every invariant |
| Brushes.CreateShader | src/hg-ctx2d/src/wgpu/instances.rs:92-120 | the new shader gets a handle no live shader has, with its two strides, no uniform bytes and no brushes; nothing else changes and the invariants hold |
| Brushes.DestroyShader | src/hg-ctx2d/src/wgpu/instances.rs:122-124 | destroying panics exactly on a handle that is not live; otherwise only that shader goes, and the invariants hold |
| Brushes.StartBrush | src/hg-ctx2d/src/wgpu/instances.rs:126-160 | starting panics exactly on a dead shader, uniform bytes of the wrong length, or a free-list head past the arena's storage; otherwise the brush takes the arena's next slot (the free list's head, popped, or a new slot at the end) in the current era, no other slot changes, and the brush belongs to the shader, has no instances and no runs, and its bytes go after the shader's earlier ones |
| Brushes.StartBrushSlots | src/hg-ctx2d/src/wgpu/instances.rs:143-152 | the new brush's slot was free and is now in use, no other slot changes, and the free list still names distinct slots of the storage |
| Brushes.StartBrushValid | src/hg-ctx2d/src/wgpu/instances.rs:126-160 | starting keeps the invariants, and the n-th brush of a shader owns exactly the n-th uniform stride of its bytes, holding the bytes it was started with |
| Brushes.PushStarts | src/hg-ctx2d/src/wgpu/instances.rs:170-181 | a brush's first instance opens a run at instance 0; a later instance opens a run at the current count only when the depth epoch changed since the last one |
| Brushes.PushInstance | src/hg-ctx2d/src/wgpu/instances.rs:166-195 | a push panics exactly on a handle from before the last reset, a slot not in use, a dead shader, instance bytes of the wrong length, a full 32-bit count or an exhausted depth generator; otherwise only that brush changes, gaining the bytes and one count, and the depth takes one step |
| Brushes.PushInstanceValid | src/hg-ctx2d/src/wgpu/instances.rs:166-195 | a push keeps every brush's runs starting at 0 with strictly increasing epochs and starts, and one stride of bytes per instance |
| Brushes.Reset | src/hg-ctx2d/src/wgpu/instances.rs:215-224 | reset keeps the shaders and their strides, empties their uniform bytes and brush lists, pushes every slot in use onto the arena's free list in ascending order so that no slot stays in use and `len()` is 0, restarts the depth, starts a new era of brush handles and keeps the invariants |
| Brushes.FreeEverySlot | src/hg-ctx2d/src/wgpu/instances.rs:218 | pushing the slots in use onto the free list leaves every slot free and the list distinct slots of the storage |
| Brushes.ResetReusesHighest | src/hg-ctx2d/src/wgpu/instances.rs:215-218 | after a reset a new brush can be started, and it takes the highest slot that was in use before the reset |
| Brushes.StaleHandleAfterReset | src/hg-ctx2d/src/wgpu/instances.rs:215-224 | after a reset the first new brush takes the highest slot in use before it, yet pushing through the pre-reset handle to that slot panics while the new handle works |
| Brushes.StartBrushFresh | src/hg-ctx2d/src/wgpu/instances.rs:166-195 | a push through the handle of a brush just started after a reset succeeds |
| BrushRender.PrepareListPanics | src/hg-ctx2d/src/wgpu/instances.rs:290-306 | the loop over one shader's list panics exactly when its 32-bit running instance total would pass `u32::MAX` |
| BrushRender.PrepareListOffsets | src/hg-ctx2d/src/wgpu/instances.rs:290-306 | when it completes, the loop over one shader's list gives its j-th brush the instance count of the brushes before it, plus where the loop began, and changes nothing else |
| BrushRender.PrepareKeeps | src/hg-ctx2d/src/wgpu/instances.rs:226-308 | on a valid renderer prepare panics exactly when some visited shader's brushes hold more than `u32::MAX` instances in all; otherwise it changes only buffer offsets, keeps the invariants, and leaves the brushes of shaders it does not visit alone |
| BrushRender.PrepareOffsets | src/hg-ctx2d/src/wgpu/instances.rs:290-306 | when prepare completes, every brush of a visited live shader starts in the instance buffer right after the instances of the brushes listed before it |
| BrushRender.Prepare | src/hg-ctx2d/src/wgpu/instances.rs:226-308 | when prepare completes it keeps the shaders, the depth and the number of brushes |
| BrushRender.BrushStep | src/hg-ctx2d/src/wgpu/instances.rs:311-370 | a step draws only the brush's own runs in the pass's epoch, and the corrected step never panics in the modelled state (the `instance_buffer.as_ref().unwrap()` at instances.rs:319 is GPU state this model leaves out) |
| BrushRender.Render | src/hg-ctx2d/src/wgpu/instances.rs:310-374 | render draws only in epochs from 0 up to the generator's; on a valid renderer it draws only brushes in use of visited live shaders, and the corrected render, whose cursor vector has one entry per slot of the arena's storage, never panics in the modelled state (the `instance_buffer` unwrap at instances.rs:319 is GPU state this model leaves out) |
| BrushRender.FlattenListed | src/hg-ctx2d/src/wgpu/instances.rs:317-322 | every brush the shaders' lists name exists and belongs to a visited live shader |
| BrushRender.RunsCover | src/hg-ctx2d/src/wgpu/instances.rs:170-181 | a brush's runs are never empty, start at its buffer offset, meet end to end, end after its last instance, and carry strictly increasing epochs |
| BrushRender.RenderDrawsRuns | src/hg-ctx2d/src/wgpu/instances.rs:310-374 | the corrected render draws every run of a brush in use of a visited live shader, once each, in order, and nothing of any other brush or free slot |
| BrushRender.EpochsSorted | src/hg-ctx2d/src/wgpu/instances.rs:314-374 | the corrected render's draws come in ascending epoch order |
| BrushRender.PassAsWrittenPanics | src/hg-ctx2d/src/wgpu/instances.rs:329-340 | as written, a pass panics on a listed brush whose next run is missing or belongs to a later epoch |
| BrushRender.RenderAsWrittenPanics | src/hg-ctx2d/src/wgpu/instances.rs:310-374 | as written, render panics whenever a visited live brush has no instances or began drawing after epoch 0, where the corrected render completes |
| BrushRender.RenderSlotPanics | src/hg-ctx2d/src/wgpu/instances.rs:311-327 | as written, render panics whenever a visited live brush's slot is not below the arena's `len()`, the length of the cursor vector it indexes by slot, where the corrected render completes |
| BrushRender.SlotReusePanics | src/hg-ctx2d/src/wgpu/instances.rs:215-327 | two brushes on one shader, a reset, then one brush with one instance, prepared: the new brush takes slot 1 while one brush is in use, so render as written panics although the brush's one run is in epoch 0; corrected, it draws that one instance |
| BrushRender.EmptyBrushPanics | src/hg-ctx2d/src/wgpu/instances.rs:310-374 | one shader with one brush started and never drawn with: the render as written panics, the corrected one draws nothing |
| BrushRender.OnlyBrushUndrawn | src/hg-ctx2d/src/wgpu/quad.rs:342-397 | the same holds for the quad renderer's copy: a visited shader whose only brush has no runs panics as written and draws nothing corrected |
| TransformCache.ToBits | src/hg-ctx2d/src/base/transform.rs:90-96 | a transform's key is eight words, the translation's two bit patterns repeated after the six columns |
| TransformCache.ToBitsInjective | src/hg-ctx2d/src/base/transform.rs:87-96 | two transforms get the same key exactly when their bits agree |
| TransformCache.Offset | src/hg-ctx2d/src/base/transform.rs:71 | a record's offset fits 32 bits, and is its exact byte position while that is below 4 GiB |
| TransformCache.New | src/hg-ctx2d/src/base/transform.rs:28-39 | a new manager holds the identity, no records and nothing cached, and is consistent for every record size |
| TransformCache.Reset | src/hg-ctx2d/src/base/transform.rs:41-46 | reset forgets every record, every offset and the cache, and restores the identity |
| TransformCache.SetTransform | src/hg-ctx2d/src/base/transform.rs:57-60 | setting a transform forgets only the cached offset; the records and the offsets stay |
| TransformCache.TransformOffsetFacts | src/hg-ctx2d/src/base/transform.rs:62-84 | the answer is the offset mapped to the current transform's bits; a cached answer changes nothing; no earlier offset changes; known bits add no record, and new bits append exactly one at the buffer's old length |
| TransformCache.OffsetLocatesRecord | src/hg-ctx2d/src/base/transform.rs:62-84 | below 4 GiB the answer is a whole number of records into the buffer, at a record holding the current transform's bits |
| TransformCache.OffsetsDistinct | src/hg-ctx2d/src/base/transform.rs:67-80 | below 4 GiB of records, different keys have different offsets |
| TransformCache.RunConsistent | src/hg-ctx2d/src/base/transform.rs:57-84 | over any run of set and query calls the manager stays consistent, no key's offset ever changes, and every answer is the final offset of the bits queried |
| TransformCache.SameBitsSameOffset | src/hg-ctx2d/src/base/transform.rs:57-84 | bitwise-equal transforms always get the same offset, however many calls lie between the queries |
| TransformCache.SetThenQuery | src/hg-ctx2d/src/base/transform.rs:57-84 | after a new transform is set, the next query answers that transform's offset, not the stale cached one |
| ShaderRefs.New | src/hg-ctx2d/src/base/raw_context.rs:64-83 | a new context has no shaders, no map entries, and only the transform buffer alive |
| ShaderRefs.SetTransform | src/hg-ctx2d/src/base/raw_context.rs:144-147 | setting the transform forgets only the cached offset; shaders, map, buffers, records and offsets stay |
| ShaderRefs.Ref | src/hg-ctx2d/src/base/raw_context.rs:95-119 | taking a reference panics exactly when a mapped asset's count would leave 32 bits (or its handle names no slot); otherwise the asset is mapped to the returned handle, whose slot is live, no other slot changes and no buffer is lost |
| ShaderRefs.Unref | src/hg-ctx2d/src/base/raw_context.rs:121-135 | dropping a reference panics exactly on a handle past the slots, a zero count, or a last reference whose asset is unmapped; otherwise only that slot's count drops by one, and the map entry and the buffer go exactly when it reaches zero |
| ShaderRefs.RefExisting | src/hg-ctx2d/src/base/raw_context.rs:95-103 | a mapped shader asset gets its existing handle back with its count one higher, nothing else touched; only a count leaving 32 bits panics |
| ShaderRefs.RefFresh | src/hg-ctx2d/src/base/raw_context.rs:95-119 | a new shader asset gets a fresh handle past every slot, count one, a map entry, and a buffer never handed out before |
| ShaderRefs.RefValid | src/hg-ctx2d/src/base/raw_context.rs:95-119 | taking a reference keeps the map, the counts and the buffers consistent |
| ShaderRefs.UnrefFacts | src/hg-ctx2d/src/base/raw_context.rs:121-135 | dropping a reference panics exactly on a handle never given out or a shader already dead; otherwise the count drops by one, and the map entry and the buffer go exactly when it reaches zero |
| ShaderRefs.UnrefValid | src/hg-ctx2d/src/base/raw_context.rs:121-135 | dropping a reference keeps the context consistent |
| ShaderRefs.RefUnrefExisting | src/hg-ctx2d/src/base/raw_context.rs:95-135 | taking and dropping a reference to a shader in use restores the context exactly |
| ShaderRefs.RefUnrefFresh | src/hg-ctx2d/src/base/raw_context.rs:95-135 | taking and dropping the only reference to a new shader restores the map and the live buffers, leaving one dead slot |
| ShaderRefs.UnrefTwicePanics | src/hg-ctx2d/src/base/raw_context.rs:121-135 | dropping a shader's last reference twice panics on the count's underflow |
| Assets.ListMatchesIff | src/hg-ctx2d/src/wgpu/assets.rs:298-307 | a list key matches exactly the lists of equal length that agree at every position, although the zipped comparison alone stops at the shorter list |
| Assets.TupleMatchesIff | src/hg-ctx2d/src/wgpu/assets.rs:319-321 | a tuple key matches exactly the tuples whose components all match |
| Assets.MatchesIffEqual | src/hg-ctx2d/src/wgpu/assets.rs:238-326 | matching is equality of keys, for every shape |
| Assets.CheckKeyIff | src/hg-ctx2d/src/wgpu/assets.rs:75-85 | when the stored hash is the hash of the stored key, a candidate passes exactly when it was stored for the same loader and an equal key |
| Assets.New | src/hg-ctx2d/src/wgpu/assets.rs:46-49 | a new manager holds no entries and is consistent |
| Assets.Load | src/hg-ctx2d/src/wgpu/assets.rs:51-153 | after a load the key is alive and its entry names the returned id; no other entry changes; the loader runs exactly when the key was not alive, and then its output is what the new value holds |
| Assets.LoadAlive | src/hg-ctx2d/src/wgpu/assets.rs:51-95 | while a key's value is alive, loading it hands out that same value with the output loaded before, one more handle, and the loader does not run |
| Assets.LoadFresh | src/hg-ctx2d/src/wgpu/assets.rs:51-153 | otherwise loading makes a value with an id never used before, maps the key to it, runs the loader once and keeps its output; a new key adds one entry |
| Assets.LoadValid | src/hg-ctx2d/src/wgpu/assets.rs:51-153 | loading keeps every entry naming a value made for its key, and every live value loaded and named by its key's entry |
| Assets.LoadTwice | src/hg-ctx2d/src/wgpu/assets.rs:51-95 | two loads of one key with no drop between give the same value, and the loader runs at most once for both |
| Assets.Clone | src/hg-ctx2d/src/wgpu/assets.rs:161-165 | a cloned handle adds one to the value's count and changes no entry |
| Assets.Release | src/hg-ctx2d/src/wgpu/assets.rs:211-217 | dropping a handle lowers the count by one and reports the last handle exactly when the count reaches zero |
| Assets.RemoveIfCurrent | src/hg-ctx2d/src/wgpu/assets.rs:219-233 | the removal after the last handle drops the value's key exactly when its entry still names that value's id, and leaves every other entry and every value alone |
| Assets.DropValid | src/hg-ctx2d/src/wgpu/assets.rs:207-233 | dropping a handle, last or not, keeps the manager consistent |
| Assets.DropLastRemoves | src/hg-ctx2d/src/wgpu/assets.rs:219-233 | dropping the last handle to a key's value removes the key's entry and the length falls by one |
| Assets.RevivedSurvivesStaleRemoval | src/hg-ctx2d/src/wgpu/assets.rs:99-232 | a key revived between the last handle's release and its removal gets a fresh id, so the stale removal leaves the revived entry alive |
| Signal.Default | src/hg-ecs/src/signal.rs:11-18 | a new signal is frozen, with no events and no readers |
| Signal.Reset | src/hg-ecs/src/signal.rs:25-30 | reset panics exactly while a reader shares the list; otherwise the signal is unfrozen and empty |
| Signal.Fire | src/hg-ecs/src/signal.rs:32-38 | firing panics exactly on a frozen signal or one whose list a reader shares; otherwise the event goes after all earlier ones |
| Signal.Freeze | src/hg-ecs/src/signal.rs:40-42 | freezing keeps the events and readers |
| Signal.Reader | src/hg-ecs/src/signal.rs:44-50 | a reader can only be taken from a frozen signal, and sees exactly its events |
| Signal.Iter | src/hg-ecs/src/signal.rs:52-56 | iteration panics exactly on an unfrozen signal, and otherwise yields the events |
| Signal.FireAll | src/hg-ecs/src/signal.rs:32-38 | firing a sequence of events panics exactly when there is an event and the signal is frozen or shared by a reader; otherwise the signal takes every event after its earlier ones, in order |
| Signal.CycleObservesFireOrder | src/hg-ecs/src/signal.rs:25-56 | after reset, fire and freeze, iteration yields exactly the events fired, in fire order |
| Signal.ReaderSnapshotStable | src/hg-ecs/src/signal.rs:25-50 | while any reader is alive, no call that completes changes the events, so every reader's snapshot stays the signal's list |
| BackPressure.Wrap | src/hg-common/src/base/net/back_pressure.rs:74 | the wrap-around is the identity on values that fit an isize |
| BackPressure.WrapAdd | src/hg-common/src/base/net/back_pressure.rs:100-104 | wrapping after every step gives what wrapping once at the end gives |
| BackPressure.New | src/hg-common/src/base/net/back_pressure.rs:57-61 | creation panics exactly when the capacity does not fit an isize; otherwise the count and the pressure are the capacity |
| BackPressure.StartValid | src/hg-common/src/base/net/back_pressure.rs:71-86 | a start keeps the count equal to the capacity less what is outstanding and what failed starts took; a successful task holds the size asked for |
| BackPressure.DropTask | src/hg-common/src/base/net/back_pressure.rs:100-104 | dropping a guard clears only that task and adds its size back to the count, with wrap-around, leaving capacity and lost sizes alone |
| BackPressure.DropTaskValid | src/hg-common/src/base/net/back_pressure.rs:100-104 | dropping a task's guard gives its size back, keeping the same relation |
| BackPressure.StartErrIff | src/hg-common/src/base/net/back_pressure.rs:71-86 | a start fails exactly when the count was negative before it, and subtracts the size either way |
| BackPressure.CanSend | src/hg-common/src/base/net/back_pressure.rs:48-69 | `can_send` holds exactly when a start of any size that fits an isize would succeed |
| BackPressure.NoViolationCount | src/hg-common/src/base/net/back_pressure.rs:44-46 | with no failed start, the count is the capacity less the outstanding sizes while that stays in range |
| BackPressure.ViolationNotSticky | src/hg-common/src/base/net/back_pressure.rs:52 | as written a violation is not remembered: a later guard drop brings the count back to non-negative and `can_send` holds again |
| BackPressure.StickyStart | src/hg-common/src/base/net/back_pressure.rs:71-86 | the corrected counter records a violation exactly when a start finds the count negative, or one happened before |
| BackPressure.StickyDrop | src/hg-common/src/base/net/back_pressure.rs:100-104 | a guard drop never clears the recorded violation |
| BackPressure.StickyStaysNegative | src/hg-common/src/base/net/back_pressure.rs:52 | once a violation has occurred, the corrected counter reports itself negative after any starts and drops |
| BackPressure.StickyCounterexampleFixed | src/hg-common/src/base/net/back_pressure.rs:52 | the run that lifts the plain counter leaves the corrected one negative |
| MultiError.WorkerPanicError | src/hg-common/src/utils/lang/error.rs:14-18 | the worker panic error carries the fixed panic message |
| MultiError.Wrap | src/hg-common/src/utils/lang/error.rs:160-169 | a wrapped error is the primary one, with no secondary errors |
| MultiError.ErrorsSplit | src/hg-common/src/utils/lang/error.rs:208-218 | the errors are the primary one followed by the secondary ones, never none |
| MultiError.ErrsAppend | src/hg-common/src/utils/lang/error.rs:171-175 | collecting the errors of joined results gives the first part's errors, then the second's |
| MultiError.FromIterOkIff | src/hg-common/src/utils/lang/error.rs:171-182 | `from_iter` is Ok exactly when every result is Ok |
| MultiError.FromIterPrimary | src/hg-common/src/utils/lang/error.rs:171-182 | the primary error is the first failed result's, and the later failures follow in order |
| MultiError.Push | src/hg-common/src/utils/lang/error.rs:188-196 | an Ok result is handed back and nothing is recorded; an error goes after all earlier ones and nothing is handed back; the primary never changes |
| MultiError.PushErr | src/hg-common/src/utils/lang/error.rs:184-186 | a pushed error goes last among the secondaries and the primary stays |
| MultiError.WithErr | src/hg-common/src/utils/lang/error.rs:198-201 | the builder form of `push_err`: the error goes last among the secondaries and the primary stays |
| MultiError.With | src/hg-common/src/utils/lang/error.rs:203-206 | the builder form of `push`: an Ok result leaves the errors as they were; an error goes after all earlier ones; the primary never changes |
| MultiError.PushAll | src/hg-common/src/utils/lang/error.rs:184-206 | pushing results one by one records exactly the errors `from_iter` would collect from them, in order |
| MultiError.Absorb | src/hg-common/src/utils/lang/error.rs:42-60 | absorbing gives the value exactly for an Ok result, and nothing for an error |
| MultiError.FlattenJoin | src/hg-common/src/utils/lang/error.rs:62-70 | a completed task's result passes through; a failed join becomes its failure under the panic message |
| MultiError.CatchTermination | src/hg-common/src/utils/lang/error.rs:20-26 | a returned result passes through and a panic becomes the worker panic error |
| Steal.Take | src/engine/hg-engine-common/src/utils/lang/steal.rs:42-54 | stealing panics exactly on a stolen place; otherwise it yields the value and leaves the place stolen at the caller's location |
| Steal.Deref | src/engine/hg-engine-common/src/utils/lang/steal.rs:61-79 | reading yields the value exactly when the place holds one, and panics once it is stolen |
| Steal.UnSteal | src/engine/hg-engine-common/src/utils/lang/steal.rs:56-58 | after putting a value back, stolen before or not, reading the place yields that value and stealing it again succeeds with that value |
| Steal.Clone | src/engine/hg-engine-common/src/utils/lang/steal.rs:36-40 | a clone is a present copy, and panics on a stolen place |
| Steal.TakeUnSteal | src/engine/hg-engine-common/src/utils/lang/steal.rs:42-58 | stealing the value and putting it back restores the place |
| Steal.TakeTwicePanics | src/engine/hg-engine-common/src/utils/lang/steal.rs:42-79 | after a steal, stealing or reading the place again panics until the value is put back |
| Steal.StealFromEcs | src/engine/hg-engine-common/src/utils/lang/steal.rs:85-96 | stealing from an entity panics exactly when its field is missing or already stolen; otherwise only that field becomes stolen and the guard holds its value |
| Steal.DropGuard | src/engine/hg-engine-common/src/utils/lang/steal.rs:103-112 | dropping the guard panics exactly when the victim's component is gone; otherwise the victim's field holds the guard's value again and no other field changes |
| Steal.StealThenDrop | src/engine/hg-engine-common/src/utils/lang/steal.rs:85-112 | whatever value the guard holds at its drop is what the victim's field holds afterwards; no other entity's field changes |
| Steal.StealDropRestores | src/engine/hg-engine-common/src/utils/lang/steal.rs:85-112 | a guard dropped untouched leaves every field as it was |
| Steal.NestedStealPanics | src/engine/hg-engine-common/src/utils/lang/steal.rs:85-96 | while a guard is out, stealing from the same victim again panics |
| ColliderBus.One | src/hg-common/src/base/collide/bus.rs:282-284 | a single-layer mask holds exactly the layer asked for, and the shift panics exactly from layer 64 on |
| ColliderBus.OrBit | src/hg-common/src/base/collide/bus.rs:208-214 | a layer is in a union exactly when it is in either mask |
| ColliderBus.AndBit | src/hg-common/src/base/collide/bus.rs:222-228 | a layer is in an intersection exactly when it is in both masks |
| ColliderBus.NotBit | src/hg-common/src/base/collide/bus.rs:250-256 | a layer is in a complement exactly when it is not in the mask |
| ColliderBus.NoneAllBits | src/hg-common/src/base/collide/bus.rs:271-272 | NONE holds no layer and ALL holds every one |
| ColliderBus.MaskIdentities | src/hg-common/src/base/collide/bus.rs:271-272 | NONE is the unit of union, ALL the unit of intersection, and each is the other's complement |
| ColliderBus.MaskIntersectsFacts | src/hg-common/src/base/collide/bus.rs:286-292 | intersection is symmetric, nothing meets NONE, and ALL meets exactly the non-empty masks |
| ColliderBus.IntersectsSingle | src/hg-common/src/base/collide/bus.rs:282-292 | a mask meets a single layer exactly when it holds that layer |
| ColliderBus.FromIterBits | src/hg-common/src/base/collide/bus.rs:258-268 | a layer is in the mask collected from several exactly when one of them holds it |
| ColliderBus.ContainsIntersects | src/hg-client/src/utils/math/aabb.rs:78-89 | a box meeting the query meets it through every box containing it, so pruning a branch that misses the query loses nothing |
| ColliderBus.Visit | src/hg-common/src/base/collide/bus.rs:35-58 | every candidate the pruned walk visits is the value of a leaf whose own box meets the query |
| ColliderBus.VisitComplete | src/hg-common/src/base/collide/bus.rs:35-58 | in a tree whose branch boxes contain their children, every leaf meeting the query is visited |
| ColliderBus.Lookup | src/hg-common/src/base/collide/bus.rs:35-58 | the queue loop visits exactly the candidates of the pruned walk, right subtree before left, and none on an empty tree |
| ColliderBus.PushChildren | src/hg-common/src/base/collide/bus.rs:49-51 | replacing a branch on the queue by its two children owes the right child's candidates, then the left's, and shrinks the work left |
| ColliderBus.NewCollider | src/hg-common/src/base/collide/bus.rs:137-145 | a new collider is on no bus, with the given mask and material |
| ColliderBus.FirstHitIff | src/hg-common/src/base/collide/bus.rs:60-87 | the answer is true exactly when some candidate is accepted by the predicate and passes its material, wherever it stands in the visit order |
| ColliderBus.CheckAabbIff | src/hg-common/src/base/collide/bus.rs:60-87 | in a valid bus, `check_aabb` holds exactly when some registered collider whose box meets the query is accepted and is solid or has a succeeding custom check; a disabled collider never counts |
| ColliderBus.CheckAabb | src/hg-common/src/base/collide/bus.rs:60-87 | a true answer names a registered collider whose leaf box meets the query, which the predicate accepts and whose material passes; an empty tree answers false |
| ColliderBus.FirstHitSound | src/hg-common/src/base/collide/bus.rs:60-87 | a hit among the visited candidates is the collider of a leaf whose box meets the query |
| ColliderBus.FilteredIff | src/hg-client/src/game/collide/bus.rs:28-66 | an entity is reported exactly when one of the visited candidates is its collider, shares a layer with the query mask and passes its material |
| ColliderBus.GameLookup | src/hg-client/src/game/collide/bus.rs:28-66 | the game lookup reports the entities of the visited candidates that pass the mask and material filter, in visit order, and none on an empty tree |
| ColliderBus.Register | src/hg-common/src/base/collide/bus.rs:27-33 | registering panics exactly when the collider is already on a bus; otherwise the tree gains exactly the collider's leaf, the collider records the bus and the leaf, and no other bus or collider changes |
| ColliderBus.Unregister | src/hg-common/src/base/collide/bus.rs:151-155 | a collider on no bus is left alone; otherwise it ends on no bus and no other collider or bus changes |
| ColliderBus.RegisterTwicePanics | src/hg-common/src/base/collide/bus.rs:27-33 | registering a collider a second time, on any bus, panics |
| ColliderBus.UnregisterIdempotent | src/hg-common/src/base/collide/bus.rs:151-155 | a second unregister changes nothing |
| ColliderBus.UnregisterRemovesLeaf | src/hg-common/src/base/collide/bus.rs:151-155 | unregistering a collider whose leaf is in its bus succeeds and takes exactly that leaf out |
| ColliderBus.RegisterThenUnregister | src/hg-common/src/base/collide/bus.rs:27-155 | unregistering right after registering succeeds, gives the bus back the leaves it had and leaves the collider on no bus |

## Left out

- GPU work: shaders, pipelines, buffers, bind groups and every `write_buffer` or draw-state call of the renderers and `RawContext`. The model keeps the offsets and ranges those calls receive.
- Network transports, async workers, timing and file I/O, including the QUIC peers' `kicked` flag. These are foreign calls and concurrency.
- `postcard` serialisation of items and headers: the frame encoder takes the body bytes, and RPC headers are handled decoded.
- Varint: the third-party `varuint` format is not part of this model. A concrete prefix code of one to nine bytes stands in for it, and the framing relies only on its proved round trip and length bound.
- Float geometry: float `Aabb` operations, hull casts (`cast_hull`, `check_hull_percent`) and the collider setters that refit boxes. `f32` boxes and vectors are rectangles over `real`, with no rounding, infinities or NaN.
- Bvh.Insert: the surface-area choice of a sibling is a path parameter rather than the source's search, so the contracts hold for every choice the search could make.
- ECS runtime internals: world, object handles, queries and unsafe storage. Components are maps keyed by entity, and arena handles are fresh naturals.
- Atomics and locks in `BackPressure`, `AssetManager` and the asset handles are sequential state, one call at a time.
- Hash-set and arena iteration orders (RPC groups, shader arenas) are parameters, and the results are proved the same for every order where it matters.
- Entities.RemoveNow: it uses the corrected removal lookup. The lookup `remove_now` calls (src/hg-ecs/src/archetype.rs:316-322) shares extension's cache and uses the as-written remove iterator. As written, it leaves the entity in an archetype that still lists the removed component. Entities.RemoveNowAsWritten models that call, and Entities.RemoveNowAsWrittenBreaksValid proves the store then stops being valid.
- Entities.RemoveNowValid: validity after a removal holds only with the corrected removal lookup; the as-written one breaks it, as the Findings row for src/hg-ecs/src/archetype.rs:316-322 shows.
- Entities.SetParent: the source does not check that the new parent is outside the entity's subtree, and the model does not exclude the cycle such a call makes.
- AabbI.New: `i32` coordinates are unbounded integers, so the overflow at the ends of the `i32` range is not modelled.
- DepthGen.Next: an epoch past `u16::MAX` is modelled as the debug build's overflow panic, not the release build's wrap-around.
- DepthGen.New: `curr()`'s `f32` reading of the value bits is not modelled, only the bits.
- `DepthGenerator::depth` and `next_depth` in the 2D context are `todo!()` in the source, and `RectRenderer` is unfinished. Neither is modelled.
- PassScheduler.Push: the commands' closures and the render pass are left out, and a command is named by its push order.
- BrushRender.RenderDrawsRuns: the uniform offset's `as u32` cast is not modelled, because offsets are unbounded naturals.
- ShaderRefs.New: the dynamic buffer manager is a counter of fresh buffer ids, with no buffer contents.
- Assets.LoadFresh: the loader is a parameter, its output made once. Asset id wrap-around and a loader re-entering the manager are not modelled.
- ColliderBus.Lookup: the callback's `ControlFlow::Break` early exit is not modelled, so the lookup visits every hit. A custom material's check is a pure function of the boxes.
- ShaderRefs.Ref: a reference count past `u32::MAX` is modelled as the debug build's overflow panic on `rc += 1`. A release build wraps the count to 0, and that is not modelled.
- ShaderRefs.Unref: `rc -= 1` on a zero count is modelled as the debug build's overflow panic. A release build wraps the count to `u32::MAX` and returns, so a second `unref_shader` of a dead handle passes silently; that is not modelled.
- BrushRender.PrepareList: an instance total past `u32::MAX`, like a brush count past it in Brushes.PushInstance, is modelled as the debug build's overflow panic, not the release build's wrap-around.
- Brushes.BrushHandle: the era of a brush handle is an unbounded count of resets. The arena keeps a 32-bit generation per slot, and what happens once one slot has been reused that many times is not modelled.
- Brushes.Reset: thunderdome's source is not part of this model. Its arena is modelled as a storage of slots with a last-in-first-out free list: inserting reuses the list's head or appends a slot, `clear` pushes the slots in use onto the list in ascending order, and `len()` counts the slots in use.
- ColliderBus.One: a shift by 64 or more is modelled as the debug build's overflow panic. A release build masks the shift amount instead, and that is not modelled.
- `Debug` and `Display` formatting of `MultiError`, tracing, `catch_termination_async`, and the logging around `absorb_result_*`.
- MultiError.FromIter: the function has no contract of its own. `FromIterOkIff` and `FromIterPrimary` state its meaning.
- BackPressure.Start: the function has no contract of its own. `StartErrIff`, `StartValid` and the contract of `CanSend` state its meaning.
- RpcGroups.UnregisterReachesExcluded: the engine's `unregister` de-replicates the node from its excluded peer too. This is stated as it is written, not claimed as a bug.

## Findings

| source | as written | input that shows it | evidently intended | confidence | as-written member | corrected member |
|---|---|---|---|---|---|---|
| src/engine/hg-utils/src/iter/merge.rs:97-106 | `RemoveIter` discards the right head when the left head is smaller, yields the left head when it is larger, and drops an equal left head | removing [2] from [1, 2] yields [1, 2] | the sorted difference: the right head is skipped when it is smaller, and the left head is yielded when it is smaller | not executed | MergeIter.RemoveAsWrittenCounterexample | MergeIter.RemoveIsDifference |
| src/engine/hg-ecs/src/archetype.rs:357 | removal's lookup mode has the same `POLARITY` as extension's, so `lookup_remove` reads and fills the extension cache | in a new store, `lookup_extend(EMPTY, 7)` and then `lookup_remove(EMPTY, 7)` answers the archetype {7} | removal has its own cache, and `lookup_remove(EMPTY, 7)` is EMPTY | not executed | Archetypes.RemoveAsWrittenHitsExtendCache | Archetypes.RemoveFixedAfterExtend |
| src/hg-ecs/src/archetype.rs:316-322 | the hg-ecs copy of removal's lookup mode has extension's `POLARITY` and the as-written `RemoveIter`, and `remove_now` (src/hg-ecs/src/entity.rs:219-221) retypes the entity with it | an entity holding components 1 and 2, then `remove_now` of 2: the lookup answers the archetype {1, 2} while 2 leaves storage | the entity moves to the archetype {1}, and its archetype keeps matching its stored components | not executed | Entities.RemoveNowAsWrittenBreaksValid | Entities.RemoveNowValid |
| src/hg-client/src/utils/math/bvh.rs:153-155 | `insert_leaf` into an empty tree sets the root and then goes on to pair the leaf with itself under a new branch | one insertion into an empty tree holds the leaf twice, and removing it panics | the lone leaf becomes the root and the function returns | not executed | Bvh.EmptyInsertAsWritten | Bvh.EmptyInsert |
| src/hg-client/src/utils/math/bvh.rs:462-472 | the rotation swaps a grandchild under `main` without refitting `main`'s box | boxes [[D 0..10, E 20..21], C 21..22] plus L 22..23 with sibling C, rotated at the root | every branch box contains its children after insertion | not executed | Bvh.RotationLeavesStaleBox | Bvh.InsertRecBounded |
| src/hg-ctx2d/src/wgpu/instances.rs:329-340 | `render` indexes `epoch_starts` past its end, and reaches `unreachable!()` for a brush whose next run is for a later epoch | one shader with one brush that was started but never drew | a brush with no run left, or one for a later epoch, is skipped in this epoch | not executed | BrushRender.RenderAsWrittenPanics | BrushRender.RenderDrawsRuns |
| src/hg-ctx2d/src/wgpu/instances.rs:311-327 | `render` sizes its cursor vector by the arena's `len()`, the brushes in use, and indexes it by slot, while `clear` makes the next frame reuse the highest freed slot first (quad.rs:343-359 does the same) | two brushes on one shader, a reset, then one brush with one instance: its slot is 1 and the vector has length 1 | one cursor per slot of the arena's storage, so every frame renders | not executed | BrushRender.SlotReusePanics | BrushRender.RenderDrawsRuns |
| src/hg-ctx2d/src/base/depth.rs:58-89 | the counting sort's prefix sums give each bucket its end, one past the last slot, and the swap loop uses that as an index | a scheduler holding one command panics at its first swap | every command is run once, in ascending epoch order | not executed | PassScheduler.ExecAsWrittenPanics | PassScheduler.ExecPermutes |
| src/hg-common/src/base/rpc/server.rs:344-355 | `broadcast` queues the message but does not mark the node's queue dirty | a flushed server, then one broadcast: the next flush sends nothing and the message stays queued | the queue is marked dirty, and the next flush delivers the message | not executed | RpcServer.BroadcastAsWrittenStranded | RpcServer.BroadcastFlushed |
| src/hg-client/src/utils/math/aabb.rs:225-232 | `iter` steps x up to and including `max.x` but stops y before `max.y` | a 1 x 1 box yields two cells, while a box of height 0 yields none | the half-open cells of the box on both axes, as `inclusive().iter()` callers expect | not executed | AabbI.IterAsWrittenAsymmetric | AabbI.Iter |
| src/hg-common/src/base/net/codec.rs:70 | the encoder drops the unused header space with `advance`, which removes bytes from the front of the whole buffer | one byte already queued before a frame is encoded is lost | only the unused header space before this frame is removed | not executed | FrameCodec.AsWrittenEatsQueuedBytes | FrameCodec.EncodeFixed |
| src/hg-ecs/src/entity.rs:239-258 | `destroy_now` removes the entity but never takes it off its parent's child list | destroying the second of two children, then `set_parent(None)` of the first, panics | the destroyed entity is detached from its parent first | not executed | Entities.DestroyAsWrittenLeavesDeadChild | Entities.DestroyNowUnlistsChild |
| src/hg-common/src/base/net/back_pressure.rs:52 | the counter's documentation says a violation forces it negative for good, but nothing records a violation | capacity 1: start 2 succeeds, start 1 is a violation, and dropping the first task brings the count back to 0, so `can_send` holds | once violated, the counter reports itself negative | not executed | BackPressure.ViolationNotSticky | BackPressure.StickyStaysNegative |

=== FILE: aabb_i.dfy ===
/** Integer axis-aligned boxes (`AabbI`): a `min` and a `max` corner, used
    for tile ranges. The `i32` coordinates are unbounded integers here; the
    source's arithmetic would overflow only at the ends of the `i32` range. */
module AabbI {
  import opened Glam

  datatype AabbI = AabbI(min: IVec, max: IVec)

  function Min(a: int, b: int): int { if a <= b then a else b }
  function Max(a: int, b: int): int { if a <= b then b else a }

  /** `AabbI::new_sized`: the box at `min` spanning `size`. */
  function NewSized(min: IVec, size: IVec): (b: AabbI)
    ensures b.min == min && Size(b) == size
  {
    AabbI(min, IVec(min.x + size.x, min.y + size.y))
  }

  /** `AabbI::new(x, y, w, h)`. */
  function New(x: int, y: int, w: int, h: int): (b: AabbI)
    ensures b.min == IVec(x, y) && Size(b) == IVec(w, h)
  {
    NewSized(IVec(x, y), IVec(w, h))
  }

  /** `AabbI::size`. */
  function Size(b: AabbI): IVec {
    IVec(b.max.x - b.min.x, b.max.y - b.min.y)
  }

  predicate IsNormal(b: AabbI) {
    b.min.x <= b.max.x && b.min.y <= b.max.y
  }

  /** `AabbI::normalized`: the same box with its corners ordered on each
      axis. */
  function Normalized(b: AabbI): (r: AabbI)
    ensures IsNormal(r)
    ensures IsNormal(b) ==> r == b
    ensures forall a ::
              (IGet(r.min, a) == IGet(b.min, a) && IGet(r.max, a) == IGet(b.max, a)) ||
              (IGet(r.min, a) == IGet(b.max, a) && IGet(r.max, a) == IGet(b.min, a))
  {
    AabbI(IVec(Min(b.min.x, b.max.x), Min(b.min.y, b.max.y)),
          IVec(Max(b.min.x, b.max.x), Max(b.min.y, b.max.y)))
  }

  lemma NormalizedIdempotent(b: AabbI)
    ensures Normalized(Normalized(b)) == Normalized(b)
  {
  }

  /** `AabbI::inclusive`: one more cell on each axis, same `min`. */
  function Inclusive(b: AabbI): (r: AabbI)
    ensures r.min == b.min && Size(r) == IVec(Size(b).x + 1, Size(b).y + 1)
  {
    AabbI(b.min, IVec(b.max.x + 1, b.max.y + 1))
  }

  datatype AaLineI = AaLineI(axis: Axis2, norm: int)

  /** `AabbI::edge_line`: the line on the face's axis through the `min`
      corner for a negative face and the `max` corner for a positive one. */
  function EdgeLine(b: AabbI, face: TileFace): (l: AaLineI)
    ensures l.axis == FaceAxis(face)
    ensures l.norm == IGet(if FaceSign(face) == Neg then b.min else b.max, FaceAxis(face))
  {
    match face
    case Left => AaLineI(X, b.min.x)
    case Right => AaLineI(X, b.max.x)
    case Top => AaLineI(Y, b.min.y)
    case Bottom => AaLineI(Y, b.max.y)
  }

  // ---------------------------------------------------------------------
  // Row-major enumeration

  /** The cells `(x, y)` for `lo <= x < hi`, in ascending `x`. */
  function Row(lo: int, hi: int, y: int): (r: seq<IVec>)
    ensures |r| == if lo < hi then hi - lo else 0
    decreases hi - lo
  {
    if lo >= hi then [] else [IVec(lo, y)] + Row(lo + 1, hi, y)
  }

  /** The `i`-th cell of a row is `(lo + i, y)`. */
  lemma {:induction false} RowAt(lo: int, hi: int, y: int)
    ensures forall i :: 0 <= i < |Row(lo, hi, y)| ==> Row(lo, hi, y)[i] == IVec(lo + i, y)
    decreases hi - lo
  {
    if lo < hi {
      RowAt(lo + 1, hi, y);
    }
  }

  /** The half-open rectangle `[xlo, xhi) x [ylo, yhi)`, row by row (y
      outer, x inner). */
  function Grid(xlo: int, xhi: int, ylo: int, yhi: int): (r: seq<IVec>)
    decreases yhi - ylo
  {
    if ylo >= yhi then [] else Row(xlo, xhi, ylo) + Grid(xlo, xhi, ylo + 1, yhi)
  }

  /** The grid holds exactly the cells of the rectangle, each at its
      row-major position. */
  lemma {:induction false} GridIndex(xlo: int, xhi: int, ylo: int, yhi: int)
    requires xlo < xhi
    ensures |Grid(xlo, xhi, ylo, yhi)| == if ylo < yhi then (xhi - xlo) * (yhi - ylo) else 0
    ensures forall i :: 0 <= i < |Grid(xlo, xhi, ylo, yhi)| ==>
              Grid(xlo, xhi, ylo, yhi)[i] == IVec(xlo + i % (xhi - xlo), ylo + i / (xhi - xlo))
    decreases yhi - ylo
  {
    if ylo < yhi {
      var w := xhi - xlo;
      var row := Row(xlo, xhi, ylo);
      var rest := Grid(xlo, xhi, ylo + 1, yhi);
      RowAt(xlo, xhi, ylo);
      GridIndex(xlo, xhi, ylo + 1, yhi);
      MulSucc(w, yhi - ylo - 1);
      GridIndexStep(row, rest, xlo, w, ylo);
    }
  }

  lemma MulSucc(w: int, k: int)
    ensures w * k + w == w * (k + 1)
  {
  }

  /** A row followed by the grid below it keeps the row-major positions. */
  lemma GridIndexStep(row: seq<IVec>, rest: seq<IVec>, xlo: int, w: int, ylo: int)
    requires w > 0 && |row| == w
    requires forall i :: 0 <= i < |row| ==> row[i] == IVec(xlo + i, ylo)
    requires forall j :: 0 <= j < |rest| ==> rest[j] == IVec(xlo + j % w, ylo + 1 + j / w)
    ensures forall i :: 0 <= i < |row + rest| ==> (row + rest)[i] == IVec(xlo + i % w, ylo + i / w)
  {
    forall i | 0 <= i < |row + rest|
      ensures (row + rest)[i] == IVec(xlo + i % w, ylo + i / w)
    {
      if i >= w {
        var j := i - w;
        assert (row + rest)[i] == rest[j];
        DivModShift(j, w);
      } else {
        DivModUnique(i, w, 0, i);
      }
    }
  }

  lemma DivModShift(j: nat, w: int)
    requires w > 0
    ensures (j + w) % w == j % w && (j + w) / w == j / w + 1
  {
    var q, r := j / w, j % w;
    assert j == q * w + r;
    assert j + w == (q + 1) * w + r;
    DivModUnique(j + w, w, q + 1, r);
  }

  /** Euclidean division is determined by quotient and remainder. */
  lemma DivModUnique(n: int, w: int, q: int, r: int)
    requires w > 0 && 0 <= r < w && n == q * w + r
    ensures n / w == q && n % w == r
  {
    var q', r' := n / w, n % w;
    assert (q - q') * w == r' - r;
    if q > q' {
      MulAtLeast(q - q', w);
    } else if q < q' {
      MulAtLeast(q' - q, w);
    }
  }

  lemma MulAtLeast(a: int, w: int)
    requires a >= 1 && w > 0
    ensures a * w >= w
  {
  }

  /** A cell is in the grid exactly when it lies in the rectangle. */
  lemma {:induction false} GridMembers(xlo: int, xhi: int, ylo: int, yhi: int, p: IVec)
    ensures p in Grid(xlo, xhi, ylo, yhi) <==> xlo <= p.x < xhi && ylo <= p.y < yhi
    decreases yhi - ylo
  {
    if ylo < yhi {
      GridMembers(xlo, xhi, ylo + 1, yhi, p);
      var row := Row(xlo, xhi, ylo);
      RowAt(xlo, xhi, ylo);
      assert p in row <==> xlo <= p.x < xhi && p.y == ylo by {
        if xlo <= p.x < xhi && p.y == ylo {
          assert row[p.x - xlo] == p;
        }
      }
    }
  }

  // ---------------------------------------------------------------------
  // `AabbI::iter`

  /** One call of the iterator's closure on a normalised box: step the
      cursor to the right while `x` is below `xLast`, otherwise wrap to
      `min.x` on the next row; the new cursor is yielded while it is above
      `max.y`. The source has `xLast == max.x`. */
  function Advance(n: AabbI, xLast: int, pos: IVec): (p: IVec)
  {
    if pos.x < xLast then IVec(pos.x + 1, pos.y) else IVec(n.min.x, pos.y + 1)
  }

  /** All the cells the iterator yields from cursor `pos` until the
      closure's first `None`. */
  function Run(n: AabbI, xLast: int, pos: IVec): (r: seq<IVec>)
    requires n.min.x <= xLast && n.min.x - 1 <= pos.x <= xLast
    decreases n.max.y - pos.y, xLast - pos.x
  {
    var p := Advance(n, xLast, pos);
    if p.y < n.max.y then [p] + Run(n, xLast, p)
    else []
  }

  /** What the iterator yields from a cursor: the rest of the cursor's row
      (up to `xLast`), then every later row in full. */
  lemma {:induction false} RunIsGrid(n: AabbI, xLast: int, pos: IVec)
    requires n.min.x <= xLast && n.min.x - 1 <= pos.x <= xLast
    ensures Run(n, xLast, pos) ==
              if pos.y < n.max.y then Row(pos.x + 1, xLast + 1, pos.y) + Grid(n.min.x, xLast + 1, pos.y + 1, n.max.y)
              else []
    decreases n.max.y - pos.y, xLast - pos.x
  {
    var p := Advance(n, xLast, pos);
    if p.y < n.max.y {
      RunIsGrid(n, xLast, p);
      RunIsGridStep(n, xLast, pos);
    } else if pos.y < n.max.y {
      assert pos.x == xLast;
      assert Row(pos.x + 1, xLast + 1, pos.y) == [];
    }
  }

  /** The step of `RunIsGrid`: the cell yielded next heads the rest of the
      current row, or, at the row's end, the next row. */
  lemma RunIsGridStep(n: AabbI, xLast: int, pos: IVec)
    requires n.min.x <= xLast && n.min.x - 1 <= pos.x <= xLast && pos.y < n.max.y
    requires Advance(n, xLast, pos).y < n.max.y
    ensures var p := Advance(n, xLast, pos);
            [p] + (Row(p.x + 1, xLast + 1, p.y) + Grid(n.min.x, xLast + 1, p.y + 1, n.max.y)) ==
            Row(pos.x + 1, xLast + 1, pos.y) + Grid(n.min.x, xLast + 1, pos.y + 1, n.max.y)
  {
    var p := Advance(n, xLast, pos);
    var hi := xLast + 1;
    var tail := Row(p.x + 1, hi, p.y);
    var below := Grid(n.min.x, hi, p.y + 1, n.max.y);
    if pos.x < xLast {
      Cons3(p, tail, below, Row(pos.x + 1, hi, pos.y), Grid(n.min.x, hi, pos.y + 1, n.max.y));
    } else {
      assert Grid(n.min.x, hi, pos.y + 1, n.max.y) == Row(n.min.x, hi, p.y) + below;
      Cons3(p, tail, below, [], Row(n.min.x, hi, p.y) + below);
    }
  }

  /** Regrouping a cell in front of a row and the rows below it. */
  lemma Cons3(p: IVec, tail: seq<IVec>, below: seq<IVec>, row: seq<IVec>, rest: seq<IVec>)
    requires row + rest == ([p] + tail) + below
    ensures [p] + (tail + below) == row + rest
  {
  }

  /** `AabbI::iter` as written: from the cursor just left of `min`, with
      the row ending at `max.x` INCLUSIVE while the column range stops
      before `max.y`. */
  function IterAsWritten(b: AabbI): (r: seq<IVec>)
    ensures |r| == (Size(Normalized(b)).x + 1) * Size(Normalized(b)).y
    ensures forall p :: p in r <==> Normalized(b).min.x <= p.x <= Normalized(b).max.x &&
                                    Normalized(b).min.y <= p.y < Normalized(b).max.y
  {
    var n := Normalized(b);
    AsWrittenCells(n);
    Run(n, n.max.x, IVec(n.min.x - 1, n.min.y))
  }

  lemma AsWrittenCells(n: AabbI)
    requires IsNormal(n)
    ensures |Run(n, n.max.x, IVec(n.min.x - 1, n.min.y))| == (Size(n).x + 1) * Size(n).y
    ensures forall p :: p in Run(n, n.max.x, IVec(n.min.x - 1, n.min.y)) <==>
              n.min.x <= p.x <= n.max.x && n.min.y <= p.y < n.max.y
  {
    AsWrittenGrid(n);
    GridCells(n.min.x, n.max.x + 1, n.min.y, n.max.y);
    assert Size(n).x + 1 == n.max.x + 1 - n.min.x && Size(n).y == n.max.y - n.min.y;
  }

  /** A non-empty-width grid over ordered rows: its size and its cells. */
  lemma GridCells(xlo: int, xhi: int, ylo: int, yhi: int)
    requires xlo < xhi && ylo <= yhi
    ensures |Grid(xlo, xhi, ylo, yhi)| == (xhi - xlo) * (yhi - ylo)
    ensures forall p :: p in Grid(xlo, xhi, ylo, yhi) <==> xlo <= p.x < xhi && ylo <= p.y < yhi
  {
    GridIndex(xlo, xhi, ylo, yhi);
    forall p ensures p in Grid(xlo, xhi, ylo, yhi) <==> xlo <= p.x < xhi && ylo <= p.y < yhi {
      GridMembers(xlo, xhi, ylo, yhi, p);
    }
  }

  /** The cells `iter` as written yields: `[min.x, max.x] x [min.y, max.y)`
      of the normalised box, row-major. */
  lemma IterAsWrittenCells(b: AabbI)
    ensures IterAsWritten(b) == Grid(Normalized(b).min.x, Normalized(b).max.x + 1, Normalized(b).min.y, Normalized(b).max.y)
  {
    AsWrittenGrid(Normalized(b));
  }

  lemma AsWrittenGrid(n: AabbI)
    requires IsNormal(n)
    ensures Run(n, n.max.x, IVec(n.min.x - 1, n.min.y)) == Grid(n.min.x, n.max.x + 1, n.min.y, n.max.y)
  {
    RunIsGrid(n, n.max.x, IVec(n.min.x - 1, n.min.y));
    if n.min.y < n.max.y {
      assert Row(n.min.x, n.max.x + 1, n.min.y) + Grid(n.min.x, n.max.x + 1, n.min.y + 1, n.max.y) ==
             Grid(n.min.x, n.max.x + 1, n.min.y, n.max.y);
    } else {
      assert Grid(n.min.x, n.max.x + 1, n.min.y, n.max.y) == [];
    }
  }

  /** The asymmetry: a 1 x 1 box yields two cells, the one at `max.x`
      included, while a box of height 0 yields none. */
  lemma IterAsWrittenAsymmetric(x: int, y: int)
    ensures IterAsWritten(New(x, y, 1, 1)) == [IVec(x, y), IVec(x + 1, y)]
    ensures IterAsWritten(New(x, y, 1, 0)) == []
  {
    var b := New(x, y, 1, 1);
    assert Normalized(b) == b;
    IterAsWrittenCells(b);
    assert Grid(x, x + 2, y + 1, y + 1) == [];
    assert Grid(x, x + 2, y, y + 1) == Row(x, x + 2, y);
    var c := New(x, y, 1, 0);
    assert Normalized(c) == c;
    IterAsWrittenCells(c);
  }

  /** The corrected iterator: the same cursor machine with rows ending at
      `max.x - 1`, so both axes are half-open; a box of width 0 yields
      nothing. Callers wanting the closed range use `inclusive()` first. */
  function Iter(b: AabbI): (r: seq<IVec>)
    ensures |r| == Size(Normalized(b)).x * Size(Normalized(b)).y
    ensures forall p :: p in r <==> Normalized(b).min.x <= p.x < Normalized(b).max.x &&
                                    Normalized(b).min.y <= p.y < Normalized(b).max.y
    ensures Size(Normalized(b)).x > 0 ==>
              r == Grid(Normalized(b).min.x, Normalized(b).max.x, Normalized(b).min.y, Normalized(b).max.y)
  {
    var n := Normalized(b);
    if n.min.x == n.max.x then []
    else
      var r := Run(n, n.max.x - 1, IVec(n.min.x - 1, n.min.y));
      IterCells(n);
      r
  }

  lemma IterCells(n: AabbI)
    requires IsNormal(n) && n.min.x < n.max.x
    ensures Run(n, n.max.x - 1, IVec(n.min.x - 1, n.min.y)) == Grid(n.min.x, n.max.x, n.min.y, n.max.y)
    ensures |Grid(n.min.x, n.max.x, n.min.y, n.max.y)| == Size(n).x * Size(n).y
    ensures forall p :: p in Grid(n.min.x, n.max.x, n.min.y, n.max.y) <==>
              n.min.x <= p.x < n.max.x && n.min.y <= p.y < n.max.y
  {
    IterCellsRun(n);
    GridIndex(n.min.x, n.max.x, n.min.y, n.max.y);
    assert Size(n).x == n.max.x - n.min.x && Size(n).y == n.max.y - n.min.y;
    forall p ensures p in Grid(n.min.x, n.max.x, n.min.y, n.max.y) <==>
                     n.min.x <= p.x < n.max.x && n.min.y <= p.y < n.max.y {
      GridMembers(n.min.x, n.max.x, n.min.y, n.max.y, p);
    }
  }

  lemma IterCellsRun(n: AabbI)
    requires IsNormal(n) && n.min.x < n.max.x
    ensures Run(n, n.max.x - 1, IVec(n.min.x - 1, n.min.y)) == Grid(n.min.x, n.max.x, n.min.y, n.max.y)
  {
    RunIsGrid(n, n.max.x - 1, IVec(n.min.x - 1, n.min.y));
    if n.min.y < n.max.y {
      assert Row(n.min.x, n.max.x, n.min.y) + Grid(n.min.x, n.max.x, n.min.y + 1, n.max.y) == Grid(n.min.x, n.max.x, n.min.y, n.max.y);
    }
  }

  /** The corrected iterator visits the cells row-major, each once: the
      `i`-th cell is column `i % w` of row `i / w`. */
  lemma IterRowMajor(b: AabbI, i: nat)
    requires Size(Normalized(b)).x > 0 && i < |Iter(b)|
    ensures Iter(b)[i] == IVec(Normalized(b).min.x + i % Size(Normalized(b)).x,
                               Normalized(b).min.y + i / Size(Normalized(b)).x)
  {
    var n := Normalized(b);
    GridAt(n.min.x, n.max.x, n.min.y, n.max.y, i);
  }

  lemma GridAt(xlo: int, xhi: int, ylo: int, yhi: int, i: nat)
    requires xlo < xhi && i < |Grid(xlo, xhi, ylo, yhi)|
    ensures Grid(xlo, xhi, ylo, yhi)[i] == IVec(xlo + i % (xhi - xlo), ylo + i / (xhi - xlo))
  {
    GridIndex(xlo, xhi, ylo, yhi);
  }

  /** The callers' `inclusive().iter()` covers the closed box, both
      corners included. */
  lemma InclusiveIterCoversRows(b: AabbI)
    requires IsNormal(b)
    ensures forall p :: p in Iter(Inclusive(b)) <==> b.min.x <= p.x <= b.max.x && b.min.y <= p.y <= b.max.y
  {
  }
}

=== FILE: archetypes.dfy ===
/** The ECS archetype store. An archetype is a strictly ascending list of
    component ids; the store gives each distinct list exactly one id, keeps
    per-archetype shortcut caches for "this archetype plus/minus component c",
    and keeps, per component, the ascending list of archetypes that have it.

    The source packs every archetype's component list into one shared buffer
    and stores a range into it; here each archetype holds its list directly,
    which is what the range denotes. The hash map keyed by component lists is
    a map from the list itself. Component ids are integers ordered as the
    source orders them. */
module Archetypes {
  import opened SortedSeqs
  import opened MergeIter

  /** One archetype: its components as a list and as a set, and the two
      shortcut caches (`pos` for extension, `neg` for removal). */
  datatype ArchData = ArchData(comps: seq<int>, compSet: set<int>, pos: map<int, nat>, neg: map<int, nat>)

  /** `arena[0]` is the EMPTY archetype. */
  datatype Store = Store(arena: seq<ArchData>, index: map<seq<int>, nat>, compArches: map<int, seq<nat>>)

  const EMPTY: nat := 0

  /** Which lookup: extension, removal as the source writes it (shared `pos`
      cache and the as-written remove iterator), or removal as intended. */
  datatype Mode = Extend | RemoveAsWritten | RemoveFixed

  /** Which cache a mode reads and fills; `true` is `pos`. */
  function Polarity(m: Mode): bool {
    m != RemoveFixed
  }

  /** `archetypes_with(c)`: the stored list, or empty when there is none. */
  function ArchesIn(ca: map<int, seq<nat>>, c: int): seq<nat> {
    if c in ca then ca[c] else []
  }

  // ---------------------------------------------------------------------
  // Invariants

  ghost predicate RootIsEmpty(s: Store) {
    |s.arena| > 0 && s.arena[EMPTY].comps == []
  }

  ghost predicate CompsSorted(s: Store) {
    forall i :: 0 <= i < |s.arena| ==>
      StrictlySorted(s.arena[i].comps) && s.arena[i].compSet == Elems(s.arena[i].comps)
  }

  /** The map sends each component list to the one archetype holding it. */
  ghost predicate IndexExact(s: Store) {
    (forall k :: k in s.index ==> s.index[k] < |s.arena| && s.arena[s.index[k]].comps == k) &&
    (forall i :: 0 <= i < |s.arena| ==> s.arena[i].comps in s.index && s.index[s.arena[i].comps] == i)
  }

  /** Each per-component list is ascending and holds exactly the archetypes
      having that component. */
  ghost predicate ListsExact(s: Store) {
    forall c ::
      StrictlySorted(ArchesIn(s.compArches, c)) &&
      (forall a :: a in ArchesIn(s.compArches, c) <==> 0 <= a < |s.arena| && c in s.arena[a].comps)
  }

  ghost predicate ShortcutsInRange(s: Store) {
    forall i :: 0 <= i < |s.arena| ==>
      (forall c :: c in s.arena[i].pos ==> s.arena[i].pos[c] < |s.arena|) &&
      (forall c :: c in s.arena[i].neg ==> s.arena[i].neg[c] < |s.arena|)
  }

  ghost predicate WellFormed(s: Store) {
    RootIsEmpty(s) && CompsSorted(s) && IndexExact(s) && ListsExact(s) && ShortcutsInRange(s)
  }

  /** Every cached shortcut is right: `pos[c]` holds the components plus c,
      `neg[c]` the components minus c. */
  ghost predicate CachesCorrect(s: Store)
    requires ShortcutsInRange(s)
  {
    forall i :: 0 <= i < |s.arena| ==>
      (forall c :: c in s.arena[i].pos ==>
         Elems(s.arena[s.arena[i].pos[c]].comps) == Elems(s.arena[i].comps) + {c}) &&
      (forall c :: c in s.arena[i].neg ==>
         Elems(s.arena[s.arena[i].neg[c]].comps) == Elems(s.arena[i].comps) - {c})
  }

  ghost predicate Valid(s: Store) {
    WellFormed(s) && CachesCorrect(s)
  }

  /** EMPTY holds no component. */
  lemma EmptyHasNone(s: Store)
    requires WellFormed(s)
    ensures |s.arena| > EMPTY && s.arena[EMPTY].compSet == {}
  {
    assert s.arena[EMPTY].compSet == Elems(s.arena[EMPTY].comps);
  }

  // ---------------------------------------------------------------------
  // Operations

  /** `ArchetypeStore::new`: only EMPTY, with no components. */
  function New(): (s: Store)
    ensures Valid(s)
    ensures |s.arena| == 1 && s.arena[EMPTY].comps == []
    ensures forall c :: ArchesIn(s.compArches, c) == []
  {
    Store([ArchData([], {}, map[], map[])], map[[] := EMPTY], map[])
  }

  /** The component list a lookup is after, built by the mode's iterator. */
  function TargetComps(m: Mode, base: seq<int>, with: int): seq<int> {
    match m
    case Extend => Merge(base, [with])
    case RemoveAsWritten => MergeIter.RemoveAsWritten(base, [with])
    case RemoveFixed => Remove(base, [with])
  }

  lemma TargetCompsFacts(m: Mode, base: seq<int>, with: int)
    requires StrictlySorted(base)
    ensures StrictlySorted(TargetComps(m, base, with))
    ensures m == Extend ==> Elems(TargetComps(m, base, with)) == Elems(base) + {with}
    ensures m == RemoveFixed ==> Elems(TargetComps(m, base, with)) == Elems(base) - {with}
  {
    match m
    case Extend =>
      MergeIsSortedUnion(base, [with]);
    case RemoveAsWritten =>
      RemoveAsWrittenSingle(base, with);
      if |base| > 0 { SortedTail(base); }
    case RemoveFixed =>
      RemoveIsDifference(base, [with]);
  }

  /** Record `base --with--> target` in the cache the polarity selects. */
  function SetShortcut(s: Store, base: nat, pol: bool, with: int, target: nat): (r: Store)
    requires base < |s.arena|
    ensures |r.arena| == |s.arena| && r.index == s.index && r.compArches == s.compArches
    ensures forall i :: 0 <= i < |s.arena| ==> r.arena[i].comps == s.arena[i].comps
    ensures forall i :: 0 <= i < |s.arena| ==> r.arena[i].compSet == s.arena[i].compSet
    ensures pol ==> r.arena[base].pos == s.arena[base].pos[with := target] && r.arena[base].neg == s.arena[base].neg
    ensures !pol ==> r.arena[base].neg == s.arena[base].neg[with := target] && r.arena[base].pos == s.arena[base].pos
  {
    var b := s.arena[base];
    var b' := if pol then b.(pos := b.pos[with := target]) else b.(neg := b.neg[with := target]);
    s.(arena := s.arena[base := b'])
  }

  /** Append archetype `id` to the list of every component in `comps`. */
  function AddToLists(ca: map<int, seq<nat>>, comps: seq<int>, id: nat): (r: map<int, seq<nat>>)
    requires StrictlySorted(comps)
    ensures forall c :: ArchesIn(r, c) == if c in comps then ArchesIn(ca, c) + [id] else ArchesIn(ca, c)
    decreases |comps|
  {
    if |comps| == 0 then ca
    else
      SortedTail(comps);
      AddToLists(ca[comps[0] := ArchesIn(ca, comps[0]) + [id]], comps[1..], id)
  }

  /** `ArchetypeStore::lookup`: the shortcut cache first, then the map of
      known component lists, and only then a brand-new archetype, whose own
      opposite cache points back at `base`. */
  function Lookup(s: Store, m: Mode, base: nat, with: int): (r: (Store, nat))
    requires WellFormed(s) && base < |s.arena|
    ensures r.1 < |r.0.arena| && |r.0.arena| >= |s.arena|
  {
    var b := s.arena[base];
    var cache := if Polarity(m) then b.pos else b.neg;
    if with in cache then
      (s, cache[with])
    else
      TargetCompsFacts(m, b.comps, with);
      var comps := TargetComps(m, b.comps, with);
      if comps in s.index then
        var target := s.index[comps];
        (SetShortcut(s, base, Polarity(m), with, target), target)
      else
        var id := |s.arena|;
        var s1 := Append(s, Created(m, comps, base, with));
        (SetShortcut(s1, base, Polarity(m), with, id), id)
  }

  /** A lookup keeps the store well formed. */
  lemma LookupWellFormed(s: Store, m: Mode, base: nat, with: int)
    requires WellFormed(s) && base < |s.arena|
    ensures WellFormed(Lookup(s, m, base, with).0)
  {
    var b := s.arena[base];
    if with !in CacheOf(s, m, base) {
      TargetCompsFacts(m, b.comps, with);
      var comps := TargetComps(m, b.comps, with);
      if comps in s.index {
        SetShortcutWellFormed(s, base, Polarity(m), with, s.index[comps]);
      } else {
        var created := Created(m, comps, base, with);
        AppendWellFormed(s, created);
        SetShortcutWellFormed(Append(s, created), base, Polarity(m), with, |s.arena|);
        LookupNewShape(s, m, base, with, comps);
      }
    }
  }

  /** A lookup only ever adds archetypes: every existing id keeps its
      components. */
  lemma LookupKeepsArchetypes(s: Store, m: Mode, base: nat, with: int)
    requires WellFormed(s) && base < |s.arena|
    ensures |Lookup(s, m, base, with).0.arena| >= |s.arena|
    ensures forall i :: 0 <= i < |s.arena| ==> Lookup(s, m, base, with).0.arena[i].comps == s.arena[i].comps
  {
    var b := s.arena[base];
    if with !in CacheOf(s, m, base) {
      TargetCompsFacts(m, b.comps, with);
      var comps := TargetComps(m, b.comps, with);
      if comps !in s.index {
        var created := Created(m, comps, base, with);
        AppendKeeps(s, created);
        LookupNewShape(s, m, base, with, comps);
      }
    }
  }

  lemma AppendKeeps(s: Store, created: ArchData)
    requires StrictlySorted(created.comps)
    ensures |Append(s, created).arena| == |s.arena| + 1
    ensures forall i :: 0 <= i < |s.arena| ==> Append(s, created).arena[i] == s.arena[i]
  {
  }

  /** A new archetype: no shortcuts but the one back to `base` in the
      opposite cache. */
  function Created(m: Mode, comps: seq<int>, base: nat, with: int): (a: ArchData)
    ensures a.comps == comps && a.compSet == Elems(comps)
    ensures Polarity(m) ==> a.pos == map[] && a.neg == map[with := base]
    ensures !Polarity(m) ==> a.neg == map[] && a.pos == map[with := base]
  {
    if Polarity(m) then ArchData(comps, Elems(comps), map[], map[with := base])
    else ArchData(comps, Elems(comps), map[with := base], map[])
  }

  /** A lookup that finds its target neither in the cache nor in the map
      appends it under the next id. */
  lemma LookupNewShape(s: Store, m: Mode, base: nat, with: int, comps: seq<int>)
    requires WellFormed(s) && base < |s.arena|
    requires with !in CacheOf(s, m, base)
    requires comps == TargetComps(m, s.arena[base].comps, with) && comps !in s.index
    requires StrictlySorted(comps)
    ensures Lookup(s, m, base, with)
              == (SetShortcut(Append(s, Created(m, comps, base, with)), base, Polarity(m), with, |s.arena|), |s.arena|)
  {
  }

  lemma SetShortcutWellFormed(s: Store, base: nat, pol: bool, with: int, target: nat)
    requires WellFormed(s) && base < |s.arena| && target < |s.arena|
    ensures WellFormed(SetShortcut(s, base, pol, with, target))
  {
    var r := SetShortcut(s, base, pol, with, target);
    assert ListsExact(r) by {
      forall c
        ensures StrictlySorted(ArchesIn(r.compArches, c)) &&
                (forall a :: a in ArchesIn(r.compArches, c) <==> 0 <= a < |r.arena| && c in r.arena[a].comps)
      {
        assert forall a :: 0 <= a < |r.arena| ==> r.arena[a].comps == s.arena[a].comps;
      }
    }
  }

  /** The store with archetype `created` appended under the next id. */
  function Append(s: Store, created: ArchData): (s1: Store)
    requires StrictlySorted(created.comps)
  {
    Store(s.arena + [created], s.index[created.comps := |s.arena|],
          AddToLists(s.compArches, created.comps, |s.arena|))
  }

  /** Appending a brand-new archetype whose list is not yet known keeps the
      structure well formed. */
  lemma AppendWellFormed(s: Store, created: ArchData)
    requires WellFormed(s)
    requires StrictlySorted(created.comps) && created.compSet == Elems(created.comps)
    requires created.comps !in s.index
    requires forall c :: c in created.pos ==> created.pos[c] < |s.arena|
    requires forall c :: c in created.neg ==> created.neg[c] < |s.arena|
    ensures WellFormed(Append(s, created))
  {
    var s1 := Append(s, created);
    assert RootIsEmpty(s1);
    assert CompsSorted(s1) by {
      assert forall i :: 0 <= i < |s.arena| ==> s1.arena[i] == s.arena[i];
    }
    AppendIndex(s, created);
    AppendLists(s, created);
    AppendShortcuts(s, created);
  }

  lemma AppendIndex(s: Store, created: ArchData)
    requires IndexExact(s)
    requires StrictlySorted(created.comps)
    requires created.comps !in s.index
    ensures IndexExact(Append(s, created))
  {
    var s1 := Append(s, created);
    var id := |s.arena|;
    forall i | 0 <= i < |s1.arena|
      ensures s1.arena[i].comps in s1.index && s1.index[s1.arena[i].comps] == i
    {
      if i < id {
        assert s1.arena[i] == s.arena[i];
        assert s.arena[i].comps in s.index;
      }
    }
    forall k | k in s1.index
      ensures s1.index[k] < |s1.arena| && s1.arena[s1.index[k]].comps == k
    {
      if k != created.comps {
        assert s1.arena[s.index[k]] == s.arena[s.index[k]];
      }
    }
  }

  lemma AppendLists(s: Store, created: ArchData)
    requires ListsExact(s)
    requires StrictlySorted(created.comps)
    ensures ListsExact(Append(s, created))
  {
    var s1 := Append(s, created);
    forall c
      ensures StrictlySorted(ArchesIn(s1.compArches, c)) &&
              (forall a :: a in ArchesIn(s1.compArches, c) <==> 0 <= a < |s1.arena| && c in s1.arena[a].comps)
    {
      AppendListOf(s, created, c);
    }
  }

  /** One component's list after an append. */
  lemma AppendListOf(s: Store, created: ArchData, c: int)
    requires ListsExact(s)
    requires StrictlySorted(created.comps)
    ensures var s1 := Append(s, created);
            StrictlySorted(ArchesIn(s1.compArches, c)) &&
            (forall a :: a in ArchesIn(s1.compArches, c) <==> 0 <= a < |s1.arena| && c in s1.arena[a].comps)
  {
    var s1 := Append(s, created);
    var id := |s.arena|;
    var old_ := ArchesIn(s.compArches, c);
    assert StrictlySorted(old_) &&
           (forall a :: a in old_ <==> 0 <= a < |s.arena| && c in s.arena[a].comps);
    assert forall a :: a in old_ ==> a < id;
    AppendKeeps(s, created);
    if c in created.comps {
      AppendSorted(old_, id);
      assert ArchesIn(s1.compArches, c) == old_ + [id];
    } else {
      assert ArchesIn(s1.compArches, c) == old_;
    }
  }

  lemma AppendShortcuts(s: Store, created: ArchData)
    requires ShortcutsInRange(s)
    requires StrictlySorted(created.comps)
    requires forall c :: c in created.pos ==> created.pos[c] < |s.arena|
    requires forall c :: c in created.neg ==> created.neg[c] < |s.arena|
    ensures ShortcutsInRange(Append(s, created))
  {
    var s1 := Append(s, created);
    forall i | 0 <= i < |s1.arena|
      ensures (forall c :: c in s1.arena[i].pos ==> s1.arena[i].pos[c] < |s1.arena|) &&
              (forall c :: c in s1.arena[i].neg ==> s1.arena[i].neg[c] < |s1.arena|)
    {
      if i < |s.arena| {
        assert s1.arena[i] == s.arena[i];
      }
    }
  }

  lemma AppendSorted(l: seq<nat>, x: nat)
    requires StrictlySorted(l)
    requires forall y :: y in l ==> y < x
    ensures StrictlySorted(l + [x])
  {
    var t := l + [x];
    forall i, j | 0 <= i < j < |t|
      ensures t[i] < t[j]
    {
      if j == |l| {
        assert t[i] == l[i] && l[i] in l;
      }
    }
  }

  /** `lookup_extend`. */
  function LookupExtend(s: Store, base: nat, with: int): (r: (Store, nat))
    requires WellFormed(s) && base < |s.arena|
    ensures WellFormed(r.0) && r.1 < |r.0.arena|
  {
    LookupWellFormed(s, Extend, base, with);
    Lookup(s, Extend, base, with)
  }

  /** `lookup_remove` as the source writes it. */
  function LookupRemoveAsWritten(s: Store, base: nat, without: int): (r: (Store, nat))
    requires WellFormed(s) && base < |s.arena|
    ensures WellFormed(r.0) && r.1 < |r.0.arena| && |r.0.arena| >= |s.arena|
  {
    LookupWellFormed(s, RemoveAsWritten, base, without);
    Lookup(s, RemoveAsWritten, base, without)
  }

  /** `lookup_remove` with `neg` as its cache and the corrected iterator. */
  function LookupRemove(s: Store, base: nat, without: int): (r: (Store, nat))
    requires WellFormed(s) && base < |s.arena|
    ensures WellFormed(r.0) && r.1 < |r.0.arena|
  {
    LookupWellFormed(s, RemoveFixed, base, without);
    Lookup(s, RemoveFixed, base, without)
  }

  /** `components(id)`. */
  function Components(s: Store, id: nat): (r: seq<int>)
    requires WellFormed(s) && id < |s.arena|
    ensures StrictlySorted(r)
  {
    s.arena[id].comps
  }

  /** `components_set(id)`: the same components, as a set. */
  function ComponentsSet(s: Store, id: nat): (r: set<int>)
    requires WellFormed(s) && id < |s.arena|
    ensures forall c :: c in r <==> c in Components(s, id)
  {
    s.arena[id].compSet
  }

  /** `archetypes_with(c)`: the ascending list of archetypes having c. */
  function ArchetypesWith(s: Store, c: int): (r: seq<nat>)
    requires WellFormed(s)
    ensures StrictlySorted(r)
    ensures forall a :: a in r <==> 0 <= a < |s.arena| && c in Components(s, a)
  {
    ArchesIn(s.compArches, c)
  }

  // ---------------------------------------------------------------------
  // Properties of lookup

  /** Equal component sets have one id. */
  lemma Canonical(s: Store, i: nat, j: nat)
    requires WellFormed(s) && i < |s.arena| && j < |s.arena|
    requires Elems(s.arena[i].comps) == Elems(s.arena[j].comps)
    ensures i == j
  {
    SortedUnique(s.arena[i].comps, s.arena[j].comps);
  }

  /** The cache a mode reads, on archetype `a`. */
  function CacheOf(s: Store, m: Mode, a: nat): map<int, nat>
    requires a < |s.arena|
  {
    if Polarity(m) then s.arena[a].pos else s.arena[a].neg
  }

  /** After a lookup the base's cache answers the looked-up component. */
  lemma LookupFillsCache(s: Store, m: Mode, base: nat, with: int)
    requires WellFormed(s) && base < |s.arena|
    ensures base < |Lookup(s, m, base, with).0.arena|
    ensures with in CacheOf(Lookup(s, m, base, with).0, m, base)
    ensures CacheOf(Lookup(s, m, base, with).0, m, base)[with] == Lookup(s, m, base, with).1
  {
    var r := Lookup(s, m, base, with);
    var b := s.arena[base];
    if with !in CacheOf(s, m, base) {
      var comps := TargetComps(m, b.comps, with);
      TargetCompsFacts(m, b.comps, with);
      if comps in s.index {
        assert r == (SetShortcut(s, base, Polarity(m), with, s.index[comps]), s.index[comps]);
      } else {
        var created := Created(m, comps, base, with);
        var s0 := Append(s, created);
        assert r == (SetShortcut(s0, base, Polarity(m), with, |s.arena|), |s.arena|);
      }
    }
  }

  /** A repeat of the same lookup is answered from the shortcut cache: same
      id, store unchanged. */
  lemma LookupRepeats(s: Store, m: Mode, base: nat, with: int)
    requires WellFormed(s) && base < |s.arena|
    ensures base < |Lookup(s, m, base, with).0.arena| && WellFormed(Lookup(s, m, base, with).0)
    ensures Lookup(Lookup(s, m, base, with).0, m, base, with) == Lookup(s, m, base, with)
  {
    LookupWellFormed(s, m, base, with);
    LookupFillsCache(s, m, base, with);
    var r := Lookup(s, m, base, with);
    CacheHitShape(r.0, m, base, with);
  }

  /** What a lookup should answer: the base's components plus or minus
      the given one. */
  function Wanted(m: Mode, base: seq<int>, with: int): set<int> {
    if m == Extend then Elems(base) + {with} else Elems(base) - {with}
  }

  /** With correct caches, a corrected-mode lookup keeps the caches correct
      and returns the archetype whose components are the base's plus (or
      minus) the given one. */
  lemma LookupCorrect(s: Store, m: Mode, base: nat, with: int)
    requires Valid(s) && base < |s.arena| && m != RemoveAsWritten
    ensures Valid(Lookup(s, m, base, with).0)
    ensures Elems(Lookup(s, m, base, with).0.arena[Lookup(s, m, base, with).1].comps)
              == Wanted(m, s.arena[base].comps, with)
  {
    var b := s.arena[base];
    if with in CacheOf(s, m, base) {
      assert Lookup(s, m, base, with) == (s, CacheOf(s, m, base)[with]);
    } else {
      TargetCompsFacts(m, b.comps, with);
      var comps := TargetComps(m, b.comps, with);
      if comps in s.index {
        LookupCorrectKnown(s, m, base, with, comps);
      } else {
        LookupCorrectNew(s, m, base, with, comps);
      }
    }
  }

  /** The target list is already known: only the shortcut is recorded. */
  lemma LookupCorrectKnown(s: Store, m: Mode, base: nat, with: int, comps: seq<int>)
    requires Valid(s) && base < |s.arena| && m != RemoveAsWritten
    requires with !in CacheOf(s, m, base)
    requires comps == TargetComps(m, s.arena[base].comps, with) && comps in s.index
    requires Elems(comps) == Wanted(m, s.arena[base].comps, with)
    ensures Valid(Lookup(s, m, base, with).0)
    ensures Elems(Lookup(s, m, base, with).0.arena[Lookup(s, m, base, with).1].comps)
              == Wanted(m, s.arena[base].comps, with)
  {
    var target := s.index[comps];
    assert Lookup(s, m, base, with) == (SetShortcut(s, base, Polarity(m), with, target), target);
    ShortcutKeepsCaches(s, base, Polarity(m), with, target);
  }

  /** The target list is new: it is appended, with a back-reference. */
  lemma LookupCorrectNew(s: Store, m: Mode, base: nat, with: int, comps: seq<int>)
    requires Valid(s) && base < |s.arena| && m != RemoveAsWritten
    requires with !in CacheOf(s, m, base)
    requires comps == TargetComps(m, s.arena[base].comps, with) && comps !in s.index
    requires StrictlySorted(comps) && Elems(comps) == Wanted(m, s.arena[base].comps, with)
    ensures Valid(Lookup(s, m, base, with).0)
    ensures Elems(Lookup(s, m, base, with).0.arena[Lookup(s, m, base, with).1].comps)
              == Wanted(m, s.arena[base].comps, with)
  {
    LookupNewShape(s, m, base, with, comps);
    NewArchetypeCorrect(s, m, base, with, comps);
  }

  lemma NewArchetypeCorrect(s: Store, m: Mode, base: nat, with: int, comps: seq<int>)
    requires Valid(s) && base < |s.arena| && m != RemoveAsWritten
    requires comps !in s.index
    requires StrictlySorted(comps) && Elems(comps) == Wanted(m, s.arena[base].comps, with)
    ensures var s0 := Append(s, Created(m, comps, base, with));
            base < |s0.arena| &&
            Valid(SetShortcut(s0, base, Polarity(m), with, |s.arena|)) &&
            Elems(SetShortcut(s0, base, Polarity(m), with, |s.arena|).arena[|s.arena|].comps)
              == Wanted(m, s.arena[base].comps, with)
  {
    var created := Created(m, comps, base, with);
    var s0 := Append(s, created);
    AppendWellFormed(s, created);
    NewTargetDiffers(s, base, comps);
    AppendKeepsCaches(s, created, s0, m, base, with);
    AppendKeeps(s, created);
    ShortcutKeepsCaches(s0, base, Polarity(m), with, |s.arena|);
  }

  /** A list the map does not know differs, even as a set, from the base's,
      so `with` really was added or removed. */
  lemma NewTargetDiffers(s: Store, base: nat, comps: seq<int>)
    requires WellFormed(s) && base < |s.arena|
    requires comps !in s.index && StrictlySorted(comps)
    ensures Elems(comps) != Elems(s.arena[base].comps)
  {
    var b := s.arena[base];
    assert comps != b.comps by { assert b.comps in s.index; }
    if Elems(comps) == Elems(b.comps) { SortedUnique(comps, b.comps); }
  }

  lemma AppendKeepsCaches(s: Store, created: ArchData, s0: Store, m: Mode, base: nat, with: int)
    requires Valid(s) && base < |s.arena| && m != RemoveAsWritten
    requires WellFormed(s0)
    requires s0.arena == s.arena + [created]
    requires m == Extend ==> Elems(created.comps) == Elems(s.arena[base].comps) + {with}
    requires m == RemoveFixed ==> Elems(created.comps) == Elems(s.arena[base].comps) - {with}
    requires Elems(created.comps) != Elems(s.arena[base].comps)
    requires Polarity(m) ==> created.pos == map[] && created.neg == map[with := base]
    requires !Polarity(m) ==> created.neg == map[] && created.pos == map[with := base]
    ensures CachesCorrect(s0)
  {
    var id := |s.arena|;
    forall i | 0 <= i < |s0.arena|
      ensures (forall c :: c in s0.arena[i].pos ==>
                 Elems(s0.arena[s0.arena[i].pos[c]].comps) == Elems(s0.arena[i].comps) + {c}) &&
              (forall c :: c in s0.arena[i].neg ==>
                 Elems(s0.arena[s0.arena[i].neg[c]].comps) == Elems(s0.arena[i].comps) - {c})
    {
      if i < id {
        OldCachesKept(s, created, s0, i);
      } else {
        NewCachesRight(s, created, s0, m, base, with);
      }
    }
  }

  /** An old archetype's shortcuts point at old archetypes, which are
      unchanged. */
  lemma OldCachesKept(s: Store, created: ArchData, s0: Store, i: nat)
    requires ShortcutsInRange(s) && CachesCorrect(s) && i < |s.arena|
    requires s0.arena == s.arena + [created]
    ensures (forall c :: c in s0.arena[i].pos ==>
               Elems(s0.arena[s0.arena[i].pos[c]].comps) == Elems(s0.arena[i].comps) + {c}) &&
            (forall c :: c in s0.arena[i].neg ==>
               Elems(s0.arena[s0.arena[i].neg[c]].comps) == Elems(s0.arena[i].comps) - {c})
  {
    assert s0.arena[i] == s.arena[i];
    assert forall c :: c in s.arena[i].pos ==> s0.arena[s.arena[i].pos[c]] == s.arena[s.arena[i].pos[c]];
    assert forall c :: c in s.arena[i].neg ==> s0.arena[s.arena[i].neg[c]] == s.arena[s.arena[i].neg[c]];
  }

  /** The new archetype's one shortcut leads back to the base. */
  lemma NewCachesRight(s: Store, created: ArchData, s0: Store, m: Mode, base: nat, with: int)
    requires base < |s.arena| && m != RemoveAsWritten
    requires s0.arena == s.arena + [created]
    requires m == Extend ==> Elems(created.comps) == Elems(s.arena[base].comps) + {with}
    requires m == RemoveFixed ==> Elems(created.comps) == Elems(s.arena[base].comps) - {with}
    requires Elems(created.comps) != Elems(s.arena[base].comps)
    requires Polarity(m) ==> created.pos == map[] && created.neg == map[with := base]
    requires !Polarity(m) ==> created.neg == map[] && created.pos == map[with := base]
    ensures var i := |s.arena|;
            (forall c :: c in s0.arena[i].pos ==>
               Elems(s0.arena[s0.arena[i].pos[c]].comps) == Elems(s0.arena[i].comps) + {c}) &&
            (forall c :: c in s0.arena[i].neg ==>
               Elems(s0.arena[s0.arena[i].neg[c]].comps) == Elems(s0.arena[i].comps) - {c})
  {
    assert s0.arena[|s.arena|] == created;
    assert s0.arena[base] == s.arena[base];
    if m == Extend {
      assert with !in Elems(s.arena[base].comps);
    } else {
      assert with in Elems(s.arena[base].comps);
    }
  }

  lemma ShortcutKeepsCaches(s: Store, base: nat, pol: bool, with: int, target: nat)
    requires WellFormed(s) && CachesCorrect(s) && base < |s.arena| && target < |s.arena|
    requires pol ==> Elems(s.arena[target].comps) == Elems(s.arena[base].comps) + {with}
    requires !pol ==> Elems(s.arena[target].comps) == Elems(s.arena[base].comps) - {with}
    ensures var r := SetShortcut(s, base, pol, with, target);
            WellFormed(r) && CachesCorrect(r)
  {
    SetShortcutWellFormed(s, base, pol, with, target);
  }

  /** `lookup_extend(b, c)` yields the sorted merge of b's components with c. */
  lemma LookupExtendComponents(s: Store, base: nat, with: int)
    requires Valid(s) && base < |s.arena|
    ensures Valid(LookupExtend(s, base, with).0)
    ensures Components(LookupExtend(s, base, with).0, LookupExtend(s, base, with).1)
              == Merge(Components(s, base), [with])
  {
    LookupCorrect(s, Extend, base, with);
    var r := LookupExtend(s, base, with);
    MergeIsSortedUnion(s.arena[base].comps, [with]);
    SortedUnique(r.0.arena[r.1].comps, Merge(s.arena[base].comps, [with]));
  }

  /** The corrected `lookup_remove(b, c)` yields b's components without c. */
  lemma LookupRemoveComponents(s: Store, base: nat, without: int)
    requires Valid(s) && base < |s.arena|
    ensures Valid(LookupRemove(s, base, without).0)
    ensures Components(LookupRemove(s, base, without).0, LookupRemove(s, base, without).1)
              == Without(Components(s, base), {without})
  {
    LookupCorrect(s, RemoveFixed, base, without);
    var r := LookupRemove(s, base, without);
    WithoutSorted(s.arena[base].comps, {without});
    SortedUnique(r.0.arena[r.1].comps, Without(s.arena[base].comps, {without}));
  }

  /** The as-written removal shares the extension cache: right after
      `lookup_extend(b, c)`, `lookup_remove(b, c)` answers the same archetype,
      which has c, instead of one without it. */
  lemma RemoveAsWrittenHitsExtendCache(s: Store, base: nat, with: int)
    requires Valid(s) && base < |s.arena|
    ensures LookupRemoveAsWritten(LookupExtend(s, base, with).0, base, with).1
              == LookupExtend(s, base, with).1
    ensures with in Components(LookupExtend(s, base, with).0, LookupExtend(s, base, with).1)
  {
    LookupCorrect(s, Extend, base, with);
    LookupFillsCache(s, Extend, base, with);
    var r1 := LookupExtend(s, base, with);
    CacheHitShape(r1.0, RemoveAsWritten, base, with);
  }

  /** The smallest instance: removing 7 from EMPTY after adding it yields
      the archetype {7}. */
  lemma RemoveAsWrittenCounterexampleStore()
    ensures LookupRemoveAsWritten(LookupExtend(New(), EMPTY, 7).0, EMPTY, 7).1 != EMPTY
  {
    var s0 := New();
    RemoveAsWrittenHitsExtendCache(s0, EMPTY, 7);
    var r1 := LookupExtend(s0, EMPTY, 7);
    assert r1.0.arena[EMPTY].comps == [] by { assert r1.0.arena[EMPTY].comps == s0.arena[EMPTY].comps; }
  }

  /** As written, removing a component that the base archetype has but not
      as its smallest answers the base itself: a `pos` shortcut for it holds
      the extension, which adds nothing, and otherwise the as-written
      iterator drops the component's only copy on the right before it meets
      it on the left. */
  lemma RemoveAsWrittenKeepsBase(s: Store, base: nat, without: int)
    requires Valid(s) && base < |s.arena|
    requires without in Components(s, base) && Components(s, base)[0] != without
    ensures LookupRemoveAsWritten(s, base, without).1 == base
    ensures without in Components(LookupRemoveAsWritten(s, base, without).0, base)
  {
    var b := s.arena[base];
    LookupKeepsArchetypes(s, RemoveAsWritten, base, without);
    if without in CacheOf(s, RemoveAsWritten, base) {
      var t := b.pos[without];
      assert Elems(s.arena[t].comps) == Elems(b.comps) + {without};
      Canonical(s, t, base);
    } else {
      RemoveAsWrittenSingle(b.comps, without);
      assert TargetComps(RemoveAsWritten, b.comps, without) == b.comps;
      assert s.index[b.comps] == base;
    }
  }

  /** A lookup whose cache already answers returns the answer and leaves
      the store alone. */
  lemma CacheHitShape(s: Store, m: Mode, base: nat, with: int)
    requires WellFormed(s) && base < |s.arena|
    requires with in CacheOf(s, m, base)
    ensures Lookup(s, m, base, with) == (s, CacheOf(s, m, base)[with])
  {
  }

  /** The corrected removal answers EMPTY in the same situation. */
  lemma RemoveFixedAfterExtend()
    ensures LookupRemove(LookupExtend(New(), EMPTY, 7).0, EMPTY, 7).1 == EMPTY
  {
    var s0 := New();
    LookupCorrect(s0, Extend, EMPTY, 7);
    var r1 := LookupExtend(s0, EMPTY, 7);
    LookupCorrect(r1.0, RemoveFixed, EMPTY, 7);
    var r2 := LookupRemove(r1.0, EMPTY, 7);
    assert r1.0.arena[EMPTY].comps == [];
    assert Elems(r2.0.arena[r2.1].comps) == {};
    assert r2.0.arena[EMPTY].comps == [];
    Canonical(r2.0, r2.1, EMPTY);
  }

  // ---------------------------------------------------------------------
  // archetypes_with_set

  /** Keys of `lists[0]` present in every list. */
  function Common(lists: seq<seq<int>>): set<int>
    requires |lists| > 0
  {
    set x | x in lists[0] && forall i :: 0 <= i < |lists| ==> x in lists[i]
  }

  lemma {:induction false} WithinAppend(a: seq<int>, b: seq<int>, keep: set<int>)
    ensures Within(a + b, keep) == Within(a, keep) + Within(b, keep)
    decreases |a|
  {
    if |a| == 0 {
      assert a + b == b;
    } else {
      assert (a + b)[0] == a[0];
      assert (a + b)[1..] == a[1..] + b;
      WithinAppend(a[1..], b, keep);
    }
  }

  lemma {:induction false} WithinNone(a: seq<int>, keep: set<int>)
    requires forall i :: 0 <= i < |a| ==> a[i] !in keep
    ensures Within(a, keep) == []
  {
    if |a| > 0 {
      WithinNone(a[1..], keep);
    }
  }

  /** Every entry of `l` before position `p` lies below `key`. */
  ghost predicate Below(l: seq<int>, p: int, key: int)
    requires 0 <= p <= |l|
  {
    forall t :: 0 <= t < p ==> l[t] < key
  }

  /** Advance a cursor past the entries below `key`. */
  method Advance(l: seq<int>, p: nat, key: int) returns (q: nat)
    requires p <= |l| && Below(l, p, key)
    ensures p <= q <= |l| && Below(l, q, key)
    ensures q < |l| ==> l[q] >= key
  {
    q := p;
    while q < |l| && l[q] < key
      invariant p <= q <= |l| && Below(l, q, key)
    {
      q := q + 1;
    }
  }

  /** A cursor that stopped above `key` proves `key` absent. */
  lemma KeyAbsent(l: seq<int>, p: nat, key: int)
    requires StrictlySorted(l) && p < |l| && Below(l, p, key) && l[p] > key
    ensures key !in l
  {
    forall t | 0 <= t < |l|
      ensures l[t] != key
    {
      if t > p { assert l[p] < l[t]; }
    }
  }

  /** What probing the other lists for one key of the first list found. */
  datatype Probe = Found | Absent | Exhausted

  /** Cursors into every list but the first, each at or before its list's
      first entry not below `key`. */
  ghost predicate CursorsBelow(lists: seq<seq<int>>, pos: seq<nat>, key: int) {
    |pos| == |lists| &&
    (forall j :: 1 <= j < |lists| ==> pos[j] <= |lists[j]|) &&
    (forall j :: 1 <= j < |lists| ==> Below(lists[j], pos[j], key))
  }

  /** Probe lists 1.. for `key`, advancing their cursors: `Found` when every
      list has it, `Absent` when some list skips over it, `Exhausted` when
      some list has nothing left at or above it. */
  method ProbeKey(lists: seq<seq<int>>, pos: seq<nat>, key: int) returns (pos': seq<nat>, r: Probe)
    requires |lists| > 0 && forall i :: 0 <= i < |lists| ==> StrictlySorted(lists[i])
    requires CursorsBelow(lists, pos, key)
    ensures CursorsBelow(lists, pos', key)
    ensures r == Found ==> forall j :: 1 <= j < |lists| ==> key in lists[j]
    ensures r == Absent ==> exists j :: 1 <= j < |lists| && key !in lists[j]
    ensures r == Exhausted ==> exists j :: 1 <= j < |lists| && pos'[j] == |lists[j]|
  {
    pos' := pos;
    var j := 1;
    while j < |lists|
      invariant 1 <= j <= |lists|
      invariant CursorsBelow(lists, pos', key)
      invariant forall j' :: 1 <= j' < j ==> key in lists[j']
    {
      var p := Advance(lists[j], pos'[j], key);
      pos' := pos'[j := p];
      if p == |lists[j]| {
        return pos', Exhausted;
      } else if lists[j][p] > key {
        KeyAbsent(lists[j], p, key);
        return pos', Absent;
      }
      j := j + 1;
    }
    r := Found;
  }

  /** A list whose every entry lies below `key` has none of the keys from
      `key` upward. */
  lemma ExhaustedAbove(l: seq<int>, key: int, first: seq<int>, k: nat)
    requires Below(l, |l|, key) && StrictlySorted(first) && k < |first| && first[k] == key
    ensures forall i :: k <= i < |first| ==> first[i] !in l
  {
  }

  lemma WithinStep(s: seq<int>, k: nat, keep: set<int>)
    requires k < |s|
    ensures Within(s[..k + 1], keep) == Within(s[..k], keep) + (if s[k] in keep then [s[k]] else [])
  {
    assert s[..k + 1] == s[..k] + [s[k]];
    WithinAppend(s[..k], [s[k]], keep);
  }

  lemma CursorsMove(lists: seq<seq<int>>, pos: seq<nat>, key: int, key': int)
    requires CursorsBelow(lists, pos, key) && key <= key'
    ensures CursorsBelow(lists, pos, key')
  {
    forall j | 1 <= j < |lists|
      ensures Below(lists[j], pos[j], key')
    {
      assert Below(lists[j], pos[j], key);
    }
  }

  /** A key of the first list is common exactly when every other list
      has it. */
  lemma CommonProbe(lists: seq<seq<int>>, k: nat, found: bool)
    requires |lists| > 0 && k < |lists[0]|
    requires found ==> forall j :: 1 <= j < |lists| ==> lists[0][k] in lists[j]
    requires !found ==> exists j :: 1 <= j < |lists| && lists[0][k] !in lists[j]
    ensures lists[0][k] in Common(lists) <==> found
  {
  }

  /** A list exhausted below the k-th key of the first list rules out that
      key and every later one. */
  lemma ExhaustedNotCommon(lists: seq<seq<int>>, j: nat, k: nat)
    requires |lists| > 0 && StrictlySorted(lists[0]) && k < |lists[0]|
    requires 1 <= j < |lists| && Below(lists[j], |lists[j]|, lists[0][k])
    ensures forall i :: k <= i < |lists[0]| ==> lists[0][i] !in Common(lists)
  {
    ExhaustedAbove(lists[j], lists[0][k], lists[0], k);
  }

  /** Closing the walk: the unvisited rest adds nothing. */
  lemma WithinRest(s: seq<int>, k: nat, keep: set<int>, stop: bool)
    requires k <= |s|
    requires !stop ==> k == |s|
    requires stop ==> forall i :: k <= i < |s| ==> s[i] !in keep
    ensures Within(s, keep) == Within(s[..k], keep)
  {
    assert s == s[..k] + s[k..];
    WithinAppend(s[..k], s[k..], keep);
    if stop {
      assert forall i :: 0 <= i < |s[k..]| ==> s[k..][i] == s[k + i];
      WithinNone(s[k..], keep);
    } else {
      assert s[k..] == [];
    }
  }

  /** One key of the walk: probe the other lists for the `k`-th key of the
      first; keep it when all have it, move on unless a list ran out. */
  method WalkStep(lists: seq<seq<int>>, pos: seq<nat>, k: nat, out: seq<int>)
    returns (pos': seq<nat>, out': seq<int>, k': nat, stop: bool)
    requires |lists| > 0 && forall i :: 0 <= i < |lists| ==> StrictlySorted(lists[i])
    requires k < |lists[0]| && CursorsBelow(lists, pos, lists[0][k])
    requires out == Within(lists[0][..k], Common(lists))
    ensures stop ==> k' == k && out' == out && CursorsBelow(lists, pos', lists[0][k]) &&
                     forall i :: k <= i < |lists[0]| ==> lists[0][i] !in Common(lists)
    ensures !stop ==> k' == k + 1 && out' == Within(lists[0][..k'], Common(lists)) &&
                      (k' < |lists[0]| ==> CursorsBelow(lists, pos', lists[0][k']))
  {
    var first := lists[0];
    var key := first[k];
    var r;
    pos', r := ProbeKey(lists, pos, key);
    out' := out;
    k' := k;
    stop := r == Exhausted;
    if stop {
      var j :| 1 <= j < |lists| && pos'[j] == |lists[j]|;
      ExhaustedNotCommon(lists, j, k);
    } else {
      WithinStep(first, k, Common(lists));
      CommonProbe(lists, k, r == Found);
      if r == Found {
        out' := out + [key];
      }
      if k + 1 < |first| {
        CursorsMove(lists, pos', key, first[k + 1]);
      }
      k' := k + 1;
    }
  }

  /** The k-way intersection of `archetypes_with_set`: walk the first list;
      every other list is advanced past keys below the current one; a list
      whose head is above the key rejects it, and an exhausted list ends the
      walk. The output is the ascending intersection. */
  method Intersect(lists: seq<seq<int>>) returns (out: seq<int>)
    requires forall i :: 0 <= i < |lists| ==> StrictlySorted(lists[i])
    ensures |lists| == 0 ==> out == []
    ensures |lists| > 0 ==> out == Within(lists[0], Common(lists))
  {
    out := [];
    if |lists| == 0 {
      return;
    }
    var first := lists[0];
    var pos: seq<nat> := seq(|lists|, _ => 0);
    var k := 0;
    var stop := false;
    while k < |first| && !stop
      invariant 0 <= k <= |first|
      invariant k < |first| ==> CursorsBelow(lists, pos, first[k])
      invariant out == Within(first[..k], Common(lists))
      invariant stop ==> k < |first| && forall i :: k <= i < |first| ==> first[i] !in Common(lists)
      decreases |first| - k, if stop then 0 else 1
    {
      pos, out, k, stop := WalkStep(lists, pos, k, out);
    }
    WithinRest(first, k, Common(lists), stop);
  }

  /** `archetypes_with_set(ids)`: the ascending list of archetypes having
      every component of `ids`; no ids gives no archetypes. The source first
      sorts the per-component lists by length, which only changes which list
      drives the walk; the result is the same intersection either way. */
  method ArchetypesWithSet(s: Store, ids: seq<int>) returns (out: seq<int>)
    requires WellFormed(s)
    ensures |ids| == 0 ==> out == []
    ensures StrictlySorted(out)
    ensures |ids| > 0 ==> forall a :: a in out <==>
              0 <= a < |s.arena| && forall c :: c in ids ==> c in Components(s, a)
  {
    var lists := seq(|ids|, i requires 0 <= i < |ids| => ArchetypesWith(s, ids[i]));
    assert forall i :: 0 <= i < |lists| ==> StrictlySorted(lists[i]);
    out := Intersect(lists);
    if |ids| > 0 {
      WithinSorted(lists[0], Common(lists));
      forall a
        ensures a in out <==> 0 <= a < |s.arena| && forall c :: c in ids ==> c in Components(s, a)
      {
        if 0 <= a < |s.arena| && forall c :: c in ids ==> c in Components(s, a) {
          assert forall i :: 0 <= i < |lists| ==> a in lists[i];
        }
        if a in out {
          forall c | c in ids
            ensures c in Components(s, a)
          {
            var i :| 0 <= i < |ids| && ids[i] == c;
            assert a in lists[i];
          }
        }
      }
    }
  }
}

=== FILE: assets.dfy ===
/** The asset manager's deduplicating cache. A key is a loader function
    (`func`, compared by address) together with an asset key; the map sends
    it to the id of the shared value last made for it, held weakly. A value
    lives while some `Asset` handle holds it (its strong count is positive)
    and carries its loaded output, made once by the loader. The map is
    searched by hash and `check_key`; the hash is a function of the key, so
    the search finds exactly the entry with an equal key (`CheckKeyIff`), and
    the map is modelled as keyed by the key itself. Locks and atomics are
    sequential state; the loader's output is a parameter. */
module Assets {
  import opened Wrappers

  /** The shapes of asset key: a `CloneKey`/`RefKey` of one value, a
      `ListKey` of values, and a tuple of keys. A key and its owned form
      are the same value here. */
  datatype AssetKey = Atom(v: int) | List(items: seq<int>) | Tuple(parts: seq<AssetKey>)

  /** `ListKey::matches`'s zipped comparison, which stops at the shorter
      list. */
  function ZipAllEq(a: seq<int>, b: seq<int>): bool
    decreases |a|
  {
    if |a| == 0 || |b| == 0 then true else a[0] == b[0] && ZipAllEq(a[1..], b[1..])
  }

  /** `AssetKey::matches`: a key only matches an owned key of its own type
      (otherwise `downcast_ref` fails); one value compares by equality, a
      list by length and then element by element, a tuple component by
      component. */
  function Matches(k: AssetKey, owned: AssetKey): bool {
    match (k, owned)
    case (Atom(v), Atom(w)) => v == w
    case (List(a), List(b)) => |a| == |b| && ZipAllEq(a, b)
    case (Tuple(ps), Tuple(qs)) => |ps| == |qs| && forall i :: 0 <= i < |ps| ==> Matches(ps[i], qs[i])
    case _ => false
  }

  lemma {:induction false} ZipAllEqIff(a: seq<int>, b: seq<int>)
    requires |a| == |b|
    ensures ZipAllEq(a, b) <==> forall i :: 0 <= i < |a| ==> a[i] == b[i]
    decreases |a|
  {
    if |a| > 0 {
      ZipAllEqIff(a[1..], b[1..]);
      if a[0] == b[0] && ZipAllEq(a[1..], b[1..]) {
        forall i | 0 <= i < |a| ensures a[i] == b[i] {
          if i > 0 { assert a[i] == a[1..][i - 1] && b[i] == b[1..][i - 1]; }
        }
      }
    }
  }

  /** A list key matches exactly the lists of the same length that agree
      element by element. */
  lemma ListMatchesIff(a: seq<int>, b: seq<int>)
    ensures Matches(List(a), List(b)) <==> |a| == |b| && forall i :: 0 <= i < |a| ==> a[i] == b[i]
  {
    if |a| == |b| { ZipAllEqIff(a, b); }
  }

  /** A tuple key matches exactly the tuples whose components all match. */
  lemma TupleMatchesIff(ps: seq<AssetKey>, qs: seq<AssetKey>)
    requires |ps| == |qs|
    ensures Matches(Tuple(ps), Tuple(qs)) <==> forall i :: 0 <= i < |ps| ==> Matches(ps[i], qs[i])
  {
  }

  /** Matching is equality of keys. */
  lemma {:induction false} MatchesIffEqual(k: AssetKey, owned: AssetKey)
    ensures Matches(k, owned) <==> k == owned
  {
    match (k, owned)
    case (List(a), List(b)) =>
      ListMatchesIff(a, b);
    case (Tuple(ps), Tuple(qs)) =>
      if |ps| == |qs| {
        forall i | 0 <= i < |ps| ensures Matches(ps[i], qs[i]) <==> ps[i] == qs[i] {
          MatchesIffEqual(ps[i], qs[i]);
        }
      }
    case _ =>
  }

  /** The full key of a map entry: the loader's address and the asset key. */
  datatype FullKey = FullKey(func: nat, key: AssetKey)

  /** A stored `Key`: its hash, the loader's address and the owned key. */
  datatype StoredKey = StoredKey(hash: nat, func: nat, value: AssetKey)

  /** `check_key`: equal hash, equal loader and a matching key. */
  function CheckKey(hash: nat, func: nat, key: AssetKey, candidate: StoredKey): bool {
    candidate.hash == hash && candidate.func == func && Matches(key, candidate.value)
  }

  /** With the stored hash the hash of the stored key, `check_key` accepts
      exactly the candidate stored for this very loader and key. */
  lemma CheckKeyIff(h: FullKey -> nat, func: nat, key: AssetKey, candidate: StoredKey)
    requires candidate.hash == h(FullKey(candidate.func, candidate.value))
    ensures CheckKey(h(FullKey(func, key)), func, key, candidate) <==> candidate.func == func && candidate.value == key
  {
    MatchesIffEqual(key, candidate.value);
  }

  /** A shared `Value`: the key it was made for, the number of `Asset`
      handles holding it, and its `OnceLock`. */
  datatype Value = Value(key: FullKey, strong: nat, loaded: Option<int>)

  /** `values` holds every value ever made, by id, the dead ones with no
      strong count; `loads` counts the loader's runs. */
  datatype Manager = Manager(entries: map<FullKey, nat>, values: map<nat, Value>, idGen: nat, loads: nat)

  /** Every entry names a value made for its key; ids are handed out in
      order; a live value is loaded and is what its key's entry names. */
  ghost predicate Valid(m: Manager) {
    (forall k :: k in m.entries ==> m.entries[k] in m.values && m.values[m.entries[k]].key == k) &&
    (forall id :: id in m.values ==> id < m.idGen) &&
    (forall id :: id in m.values && m.values[id].strong > 0 ==>
       m.values[id].loaded.Some? && m.values[id].key in m.entries && m.entries[m.values[id].key] == id)
  }

  function New(): (m: Manager)
    ensures Valid(m) && Len(m) == 0
  {
    Manager(map[], map[], 0, 0)
  }

  /** Whether a key's entry names a value still alive. */
  predicate Alive(m: Manager, k: FullKey) {
    k in m.entries && m.entries[k] in m.values && m.values[m.entries[k]].strong > 0
  }

  /** `load`: a key whose value is alive gets a new handle to it and its
      loader does not run; otherwise a value with a fresh id replaces the
      entry (a dead one or none) and the loader fills it. Returns the
      value's id. */
  function Load(m: Manager, k: FullKey, output: int): (r: (Manager, nat))
    ensures Alive(r.0, k) && r.0.entries[k] == r.1
    ensures r.0.entries.Keys == m.entries.Keys + {k}
    ensures forall j :: j in m.entries && j != k ==> r.0.entries[j] == m.entries[j]
    ensures r.0.loads == if Alive(m, k) then m.loads else m.loads + 1
    ensures !Alive(m, k) ==> r.0.values[r.1].loaded == Some(output)
  {
    if Alive(m, k) then
      var id := m.entries[k];
      var v := m.values[id];
      (m.(values := m.values[id := v.(strong := v.strong + 1)]), id)
    else
      var id := m.idGen;
      (Manager(m.entries[k := id], m.values[id := Value(k, 1, Some(output))], id + 1, m.loads + 1), id)
  }

  /** `Asset::clone`: one more handle. */
  function Clone(m: Manager, id: nat): (r: Manager)
    requires id in m.values
    ensures r.entries == m.entries && r.values.Keys == m.values.Keys && r.values[id].strong == m.values[id].strong + 1
  {
    m.(values := m.values[id := m.values[id].(strong := m.values[id].strong + 1)])
  }

  /** The first half of `Asset::drop`: the handle's count goes down; the
      result says whether it was the last one (`Arc::into_inner`). */
  function Release(m: Manager, id: nat): (r: (Manager, bool))
    requires id in m.values && m.values[id].strong > 0
    ensures r.0.entries == m.entries && r.0.values.Keys == m.values.Keys
    ensures r.0.values[id].strong + 1 == m.values[id].strong
    ensures r.1 <==> r.0.values[id].strong == 0
  {
    var v := m.values[id];
    (m.(values := m.values[id := v.(strong := v.strong - 1)]), v.strong == 1)
  }

  /** The second half, after the last handle went: under the write lock,
      the entry for the value's key is removed only if it still names this
      value's id. */
  function RemoveIfCurrent(m: Manager, id: nat): (r: Manager)
    requires id in m.values
    ensures r.values == m.values && r.idGen == m.idGen && r.loads == m.loads
    ensures forall k :: k in r.entries ==> k in m.entries && r.entries[k] == m.entries[k]
    ensures forall k :: k in m.entries && (m.entries[k] != id || k != m.values[id].key) ==> k in r.entries
    ensures m.values[id].key in m.entries && m.entries[m.values[id].key] == id ==> m.values[id].key !in r.entries
  {
    var k := m.values[id].key;
    if k in m.entries && m.entries[k] == id then m.(entries := m.entries - {k}) else m
  }

  /** `Asset::drop` with nothing in between its two halves. */
  function Drop(m: Manager, id: nat): (r: Manager)
    requires id in m.values && m.values[id].strong > 0
  {
    var (m1, last) := Release(m, id);
    if last then RemoveIfCurrent(m1, id) else m1
  }

  /** `len`: the number of entries, dead ones not yet removed included. */
  function Len(m: Manager): nat {
    |m.entries|
  }

  /** While a key's value is alive, `load` hands out that same value, with
      the output loaded before, and the loader does not run. */
  lemma LoadAlive(m: Manager, k: FullKey, output: int)
    requires Valid(m) && Alive(m, k)
    ensures var (m', id) := Load(m, k, output);
            id == m.entries[k] && m'.loads == m.loads && m'.entries == m.entries &&
            m'.values[id].loaded == m.values[id].loaded && m'.values[id].strong == m.values[id].strong + 1
  {
  }

  /** Otherwise `load` makes a value with an id never used before, for this
      key, runs the loader once and keeps its output. */
  lemma LoadFresh(m: Manager, k: FullKey, output: int)
    requires Valid(m) && !Alive(m, k)
    ensures var (m', id) := Load(m, k, output);
            id !in m.values && m'.entries == m.entries[k := id] && m'.loads == m.loads + 1 &&
            m'.values[id] == Value(k, 1, Some(output)) && Len(m') == Len(m) + (if k in m.entries then 0 else 1)
  {
  }

  /** `load` keeps the manager valid. */
  lemma LoadValid(m: Manager, k: FullKey, output: int)
    requires Valid(m)
    ensures Valid(Load(m, k, output).0)
  {
    var (m', id) := Load(m, k, output);
    if !Alive(m, k) {
      forall j | j in m'.values && m'.values[j].strong > 0
        ensures m'.values[j].loaded.Some? && m'.values[j].key in m'.entries && m'.entries[m'.values[j].key] == j
      {
        if j != id {
          assert m.values[j].key != k;
        }
      }
    }
  }

  /** Two loads of one key with no drop between give the same value, and
      the loader runs at most once for both. */
  lemma LoadTwice(m: Manager, k: FullKey, o1: int, o2: int)
    requires Valid(m)
    ensures var (m1, id1) := Load(m, k, o1);
            var (m2, id2) := Load(m1, k, o2);
            id2 == id1 && m2.loads <= m.loads + 1 && m2.values[id2].loaded == m1.values[id1].loaded
  {
    LoadValid(m, k, o1);
  }

  /** Dropping a handle keeps the manager valid, whether or not it is the
      last. */
  lemma DropValid(m: Manager, id: nat)
    requires Valid(m) && id in m.values && m.values[id].strong > 0
    ensures Valid(Drop(m, id))
  {
    var (m1, last) := Release(m, id);
    forall j | j in m1.values && m1.values[j].strong > 0
      ensures m1.values[j].loaded.Some? && m1.values[j].key in m1.entries && m1.entries[m1.values[j].key] == j
    {
      assert m1.values[j] == m.values[j] || j == id;
    }
    if last {
      var r := RemoveIfCurrent(m1, id);
      forall j | j in r.values && r.values[j].strong > 0
        ensures r.values[j].key in r.entries && r.entries[r.values[j].key] == j
      {
        assert j != id;
        assert m1.entries[m1.values[j].key] == j;
      }
    }
  }

  /** Dropping the last handle to a key's value removes the key's entry. */
  lemma DropLastRemoves(m: Manager, k: FullKey)
    requires Valid(m) && Alive(m, k) && m.values[m.entries[k]].strong == 1
    ensures var m' := Drop(m, m.entries[k]);
            k !in m'.entries && Len(m') + 1 == Len(m) && !Alive(m', k)
  {
  }

  /** The race the fresh id guards against: the last handle is released,
      a `load` of the same key revives the entry before the dropping thread
      takes the write lock, and the stale removal then leaves the revived
      entry, alive, in place. */
  lemma RevivedSurvivesStaleRemoval(m: Manager, k: FullKey, output: int)
    requires Valid(m) && Alive(m, k) && m.values[m.entries[k]].strong == 1
    ensures var old_id := m.entries[k];
            var (m1, _) := Release(m, old_id);
            var (m2, new_id) := Load(m1, k, output);
            var m3 := RemoveIfCurrent(m2, old_id);
            new_id != old_id && k in m3.entries && m3.entries[k] == new_id && Alive(m3, k)
  {
  }
}

=== FILE: back_pressure.dfy ===
/** `BackPressure`: a signed counter of what may still be queued. `start`
    subtracts a task's size and fails if the count was already negative
    before; dropping a task's guard adds its size back. The counter is an
    `AtomicIsize` on a 64-bit target, whose `fetch_sub`/`fetch_add` wrap;
    its atomicity is modelled as sequential calls. Tasks are numbered in
    start order, `tasks[t]` holding task t's size until its guard drops.
    `lost` sums the sizes subtracted by failed starts, which no guard will
    ever give back. A `try_from`/`expect` panic is `None`. */
module BackPressure {
  import opened Wrappers

  const ISIZE_MAX: int := 0x7FFF_FFFF_FFFF_FFFF
  const ISIZE_MIN: int := -0x8000_0000_0000_0000
  const MODULUS: int := 0x1_0000_0000_0000_0000

  type ISize = x: int | ISIZE_MIN <= x <= ISIZE_MAX

  /** Two's-complement wrap-around into `isize`. */
  function Wrap(x: int): (r: ISize)
    ensures ISIZE_MIN <= x <= ISIZE_MAX ==> r == x
  {
    (x - ISIZE_MIN) % MODULUS + ISIZE_MIN
  }

  /** Wrapping after each step is wrapping once at the end. */
  lemma WrapAdd(x: int, d: int)
    ensures Wrap(Wrap(x) + d) == Wrap(x + d)
  {
    var y := x - ISIZE_MIN;
    assert y == (y / MODULUS) * MODULUS + y % MODULUS;
    var z := y % MODULUS + d;
    assert y + d == z + (y / MODULUS) * MODULUS;
    assert z == (z / MODULUS) * MODULUS + z % MODULUS;
    DivModUnique(y + d, z / MODULUS + y / MODULUS, z % MODULUS);
  }

  lemma DivModUnique(n: int, q: int, r: int)
    requires 0 <= r < MODULUS && n == q * MODULUS + r
    ensures n % MODULUS == r
  {
    var q', r' := n / MODULUS, n % MODULUS;
    assert (q - q') * MODULUS == r' - r;
  }

  datatype BP = BP(capacity: nat, count: ISize, tasks: seq<Option<nat>>, lost: int)

  /** The sizes of the tasks whose guards are still alive. */
  function Outstanding(tasks: seq<Option<nat>>): (n: nat)
    decreases |tasks|
  {
    if |tasks| == 0 then 0
    else Outstanding(tasks[..|tasks| - 1]) + (match tasks[|tasks| - 1] case Some(s) => s case None => 0)
  }

  /** The count is the capacity less what is outstanding and what was
      lost, wrapped into `isize`. */
  ghost predicate Valid(b: BP) {
    b.capacity <= ISIZE_MAX &&
    b.count == Wrap(b.capacity - Outstanding(b.tasks) - b.lost)
  }

  /** `new`: the count starts at the capacity, which must fit an
      `isize`. */
  function New(capacity: nat): (r: Option<BP>)
    ensures r.Some? <==> capacity <= ISIZE_MAX
    ensures r.Some? ==> Valid(r.value) && r.value.count == capacity && Pressure(r.value) == capacity
  {
    if capacity > ISIZE_MAX then None else Some(BP(capacity, capacity, [], 0))
  }

  function Pressure(b: BP): int {
    b.count
  }

  /** `can_send`: observing it before a start means the start succeeds,
      for any size that fits an `isize`. */
  function CanSend(b: BP): (ok: bool)
    ensures ok <==> forall size: nat :: size <= ISIZE_MAX ==> Start(b, size).Some? && Start(b, size).value.1.Ok?
  {
    assert Start(b, 0).value.1.Ok? <==> b.count >= 0;
    b.count >= 0
  }

  /** `start`: a size that does not fit an `isize` panics; otherwise the
      size is subtracted in any case, and the result is an error exactly
      when the count was negative before. A task is its number. */
  function Start(b: BP, size: nat): (r: Option<(BP, Result<nat, ()>)>)
  {
    if size > ISIZE_MAX then None
    else
      var b1 := b.(count := Wrap(b.count - size));
      if b.count < 0 then Some((b1.(lost := b.lost + size), Err(())))
      else Some((b1.(tasks := b.tasks + [Some(size)]), Ok(|b.tasks|)))
  }

  /** `BackPressureTask::size`. */
  function TaskSize(b: BP, t: nat): Option<nat> {
    if t < |b.tasks| then b.tasks[t] else None
  }

  /** Dropping task t's guard gives its size back. */
  function DropTask(b: BP, t: nat): (r: BP)
    requires t < |b.tasks| && b.tasks[t].Some?
    ensures r.capacity == b.capacity && r.lost == b.lost && |r.tasks| == |b.tasks|
    ensures TaskSize(r, t).None? && forall u :: 0 <= u < |b.tasks| && u != t ==> r.tasks[u] == b.tasks[u]
    ensures Wrap(r.count - b.tasks[t].value) == b.count
  {
    WrapAdd(b.count + b.tasks[t].value, -(b.tasks[t].value as int));
    BP(b.capacity, Wrap(b.count + b.tasks[t].value), b.tasks[t := None], b.lost)
  }

  lemma {:induction false} OutstandingDrop(tasks: seq<Option<nat>>, t: nat)
    requires t < |tasks| && tasks[t].Some?
    ensures Outstanding(tasks[t := None]) + tasks[t].value == Outstanding(tasks)
    decreases |tasks|
  {
    var n := |tasks| - 1;
    if t < n {
      OutstandingDrop(tasks[..n], t);
      assert tasks[t := None][..n] == tasks[..n][t := None];
    } else {
      assert tasks[t := None][..n] == tasks[..n];
    }
  }

  /** `start` keeps the count's relation to what is outstanding: a
      successful start adds a task of the size asked for, a failed one adds
      the size to what is lost. */
  lemma StartValid(b: BP, size: nat)
    requires Valid(b)
    ensures var r := Start(b, size);
            r.Some? ==> (Valid(r.value.0) &&
                         (r.value.1.Ok? ==> TaskSize(r.value.0, r.value.1.value) == Some(size)))
  {
    if size <= ISIZE_MAX {
      WrapAdd(b.capacity - Outstanding(b.tasks) - b.lost, -(size as int));
      var ts := b.tasks + [Some(size)];
      assert ts[..|ts| - 1] == b.tasks;
    }
  }

  /** Dropping a guard keeps the relation too. */
  lemma DropTaskValid(b: BP, t: nat)
    requires Valid(b) && t < |b.tasks| && b.tasks[t].Some?
    ensures Valid(DropTask(b, t))
  {
    OutstandingDrop(b.tasks, t);
    WrapAdd(b.capacity - Outstanding(b.tasks) - b.lost, b.tasks[t].value);
  }

  /** `start` errs exactly when the count was negative, and subtracts the
      size either way. */
  lemma StartErrIff(b: BP, size: nat)
    requires size <= ISIZE_MAX
    ensures Start(b, size).Some?
    ensures Start(b, size).value.1.Err? <==> b.count < 0
    ensures Start(b, size).value.0.count == Wrap(b.count - size)
  {
  }

  /** With no violation so far, the count is exactly the capacity less the
      outstanding sizes, while that stays in range. */
  lemma NoViolationCount(b: BP)
    requires Valid(b) && b.lost == 0 && Outstanding(b.tasks) <= b.capacity
    ensures b.count == b.capacity - Outstanding(b.tasks)
  {
  }

  /** The documented promise of line 52 does not hold: with capacity 1, a
      start of 2 succeeds (count -1), a start of 1 is then a violation
      (count -2), and dropping the first task lifts the count back to 0,
      where `can_send` holds again. */
  lemma ViolationNotSticky()
    ensures var b0 := New(1).value;
            var (b1, t) := Start(b0, 2).value;
            var (b2, e) := Start(b1, 1).value;
            t == Ok(0) && e.Err? && b2.count == -2 && CanSend(DropTask(b2, 0)) && DropTask(b2, 0).count == 0
  {
  }

  /** The counter as its documentation describes it: a violation is
      remembered, and from then on the counter reports itself negative. */
  datatype Sticky = Sticky(inner: BP, violated: bool)

  function StickyPressure(s: Sticky): int {
    if s.violated && s.inner.count >= 0 then -1 else s.inner.count
  }

  function StickyStart(s: Sticky, size: nat): (r: Option<(Sticky, Result<nat, ()>)>)
    ensures r.Some? <==> size <= ISIZE_MAX
    ensures r.Some? ==> (r.value.0.violated <==> s.violated || s.inner.count < 0)
  {
    match Start(s.inner, size)
    case None => None
    case Some((b, res)) => Some((Sticky(b, s.violated || res.Err?), res))
  }

  function StickyDrop(s: Sticky, t: nat): (r: Sticky)
    requires t < |s.inner.tasks| && s.inner.tasks[t].Some?
    ensures r.violated == s.violated
  {
    Sticky(DropTask(s.inner, t), s.violated)
  }

  function StickyCanSend(s: Sticky): bool {
    StickyPressure(s) >= 0
  }

  /** A guard drop or a start. */
  datatype Step = StartStep(size: nat) | DropStep(t: nat)

  /** Run the steps in order; a step that panics or names no live task ends
      the run. */
  function StickyRun(s: Sticky, steps: seq<Step>): (r: Sticky)
    decreases |steps|
  {
    if |steps| == 0 then s
    else
      match steps[0]
      case StartStep(size) =>
        (match StickyStart(s, size)
         case None => s
         case Some((s1, _)) => StickyRun(s1, steps[1..]))
      case DropStep(t) =>
        if t < |s.inner.tasks| && s.inner.tasks[t].Some? then StickyRun(StickyDrop(s, t), steps[1..]) else s
  }

  /** Once a violation has occurred the counter stays negative, whatever
      starts and drops follow. */
  lemma {:induction false} StickyStaysNegative(s: Sticky, steps: seq<Step>)
    requires s.violated
    ensures StickyRun(s, steps).violated && !StickyCanSend(StickyRun(s, steps))
    decreases |steps|
  {
    if |steps| > 0 {
      match steps[0]
      case StartStep(size) =>
        if size <= ISIZE_MAX {
          StickyStaysNegative(StickyStart(s, size).value.0, steps[1..]);
        }
      case DropStep(t) =>
        if t < |s.inner.tasks| && s.inner.tasks[t].Some? {
          StickyStaysNegative(StickyDrop(s, t), steps[1..]);
        }
    }
  }

  /** The same run that lifts the plain counter leaves the sticky one
      negative. */
  lemma StickyCounterexampleFixed()
    ensures var s0 := Sticky(New(1).value, false);
            var (s1, _) := StickyStart(s0, 2).value;
            var (s2, e) := StickyStart(s1, 1).value;
            e.Err? && s2.violated && !StickyCanSend(StickyDrop(s2, 0))
  {
    var s0 := Sticky(New(1).value, false);
    assert s0.inner.count == 1;
    var (s1, t) := StickyStart(s0, 2).value;
    assert s1.inner.count == -1 && s1.inner.tasks == [Some(2)];
    var (s2, e) := StickyStart(s1, 1).value;
    assert e.Err? && s2.violated && s2.inner.tasks == [Some(2)];
    assert StickyDrop(s2, 0).violated;
  }
}

=== FILE: brush_render.dfy ===
/** What the brush renderers do with their brushes once a frame is built:
    `prepare` lays each shader's brushes out one after another in the
    shader's instance buffer, and `render` walks the depth epochs from 0 up
    to the generator's, drawing in each epoch the run of instances every
    brush recorded for it. Shaders are visited in the arena's order, which
    is a parameter here. A draw is the pass's epoch, the brush, its uniform
    offset and the absolute instance range; the pipeline and bind-group
    calls around it are left out. */
module BrushRender {
  import opened Wrappers
  import opened Brushes
  import DepthRuns

  // ---------------------------------------------------------------------
  // prepare

  /** The instances of the listed brushes, in total. */
  function Counts(brushes: seq<Brush>, list: seq<nat>): nat
    requires forall j :: 0 <= j < |list| ==> list[j] < |brushes|
  {
    if |list| == 0 then 0 else brushes[list[0]].count + Counts(brushes, list[1..])
  }

  /** The instance-offset loop of `prepare` over one shader's list: each
      brush gets the running total of the counts before it. The total is a
      32-bit integer whose addition is checked, once per brush, the last
      one included. */
  function PrepareList(brushes: seq<Brush>, list: seq<nat>, accum: nat): (r: Option<seq<Brush>>)
    ensures r.Some? ==> |r.value| == |brushes|
    decreases |list|
  {
    if |list| == 0 then Some(brushes)
    else if list[0] >= |brushes| then None
    else
      var k := list[0];
      if accum + brushes[k].count > DepthRuns.U32_MAX then None
      else PrepareList(brushes[k := brushes[k].(bufOffset := accum)], list[1..], accum + brushes[k].count)
  }

  /** Every visited live shader's brushes hold at most `u32::MAX`
      instances in total. */
  ghost predicate Fits(r: Renderer, order: seq<nat>) {
    Listed(r.shaders, r.brushes) &&
    forall h :: h in order && h in r.shaders ==> Counts(r.brushes, r.shaders[h].brushes) <= DepthRuns.U32_MAX
  }

  /** `prepare`, shader by shader in the given order (the arena yields only
      live shaders, so other handles are passed over). */
  function Prepare(r: Renderer, order: seq<nat>): (r': Option<Renderer>)
    ensures r'.Some? ==> r'.value.shaders == r.shaders && r'.value.depth == r.depth && |r'.value.brushes| == |r.brushes|
    ensures r'.Some? ==> r'.value == r.(brushes := r'.value.brushes)
    decreases |order|
  {
    if |order| == 0 then Some(r)
    else if order[0] !in r.shaders then Prepare(r, order[1..])
    else
      match PrepareList(r.brushes, r.shaders[order[0]].brushes, 0)
      case None => None
      case Some(b) => Prepare(r.(brushes := b), order[1..])
  }

  /** `b` differs from `a` at most in the brushes' buffer offsets. */
  ghost predicate OnlyOffsets(a: seq<Brush>, b: seq<Brush>) {
    |a| == |b| && forall k :: 0 <= k < |a| ==> b[k] == a[k].(bufOffset := b[k].bufOffset)
  }

  lemma {:induction false} CountsSame(a: seq<Brush>, b: seq<Brush>, list: seq<nat>)
    requires OnlyOffsets(a, b) && forall j :: 0 <= j < |list| ==> list[j] < |a|
    ensures Counts(a, list) == Counts(b, list)
  {
    if |list| > 0 {
      assert b[list[0]] == a[list[0]].(bufOffset := b[list[0]].bufOffset);
      CountsSame(a, b, list[1..]);
    }
  }

  /** One shader's loop panics exactly when the running total would pass
      `u32::MAX`. */
  lemma {:induction false} PrepareListPanics(brushes: seq<Brush>, list: seq<nat>, accum: nat)
    requires forall j :: 0 <= j < |list| ==> list[j] < |brushes|
    requires accum <= DepthRuns.U32_MAX
    ensures PrepareList(brushes, list, accum).None? <==> accum + Counts(brushes, list) > DepthRuns.U32_MAX
    decreases |list|
  {
    if |list| > 0 {
      var k := list[0];
      var b1 := brushes[k := brushes[k].(bufOffset := accum)];
      assert OnlyOffsets(brushes, b1);
      assert Counts(brushes, list) == brushes[k].count + Counts(brushes, list[1..]);
      CountsSame(brushes, b1, list[1..]);
      if accum + brushes[k].count <= DepthRuns.U32_MAX {
        PrepareListPanics(b1, list[1..], accum + brushes[k].count);
      }
    }
  }

  /** One shader's loop, when it completes: the j-th listed brush's offset
      is the running total before it, and nothing else changes. */
  lemma {:induction false} PrepareListOffsets(brushes: seq<Brush>, list: seq<nat>, accum: nat)
    requires forall j :: 0 <= j < |list| ==> list[j] < |brushes|
    requires Distinct(list)
    ensures var r := PrepareList(brushes, list, accum);
            r.Some? ==>
              OnlyOffsets(brushes, r.value) &&
              (forall j :: 0 <= j < |list| ==> r.value[list[j]].bufOffset == accum + Counts(brushes, list[..j])) &&
              (forall k :: 0 <= k < |brushes| && k !in list ==> r.value[k] == brushes[k])
    decreases |list|
  {
    if |list| > 0 && PrepareList(brushes, list, accum).Some? {
      var k := list[0];
      var b1 := brushes[k := brushes[k].(bufOffset := accum)];
      PrepareListOffsets(b1, list[1..], accum + brushes[k].count);
      PrepareListStep(brushes, list, accum, PrepareList(b1, list[1..], accum + brushes[k].count).value);
    }
  }

  /** The step of `PrepareListOffsets`: the first brush takes the running
      total, and the rest of the loop, run on the result, lays out the
      others after it. */
  lemma PrepareListStep(brushes: seq<Brush>, list: seq<nat>, accum: nat, r: seq<Brush>)
    requires |list| > 0 && (forall j :: 0 <= j < |list| ==> list[j] < |brushes|) && Distinct(list)
    requires var k := list[0];
             var b1 := brushes[k := brushes[k].(bufOffset := accum)];
             var rest := list[1..];
             OnlyOffsets(b1, r) &&
             (forall j :: 0 <= j < |rest| ==> r[rest[j]].bufOffset == accum + brushes[k].count + Counts(b1, rest[..j])) &&
             (forall i :: 0 <= i < |b1| && i !in rest ==> r[i] == b1[i])
    ensures OnlyOffsets(brushes, r)
    ensures forall j :: 0 <= j < |list| ==> r[list[j]].bufOffset == accum + Counts(brushes, list[..j])
    ensures forall i :: 0 <= i < |brushes| && i !in list ==> r[i] == brushes[i]
  {
    var k := list[0];
    var b1 := brushes[k := brushes[k].(bufOffset := accum)];
    var rest := list[1..];
    assert OnlyOffsets(brushes, b1);
    forall j | 0 <= j < |list| ensures r[list[j]].bufOffset == accum + Counts(brushes, list[..j]) {
      if j == 0 {
        assert k !in rest;
      } else {
        assert list[..j][1..] == rest[..j - 1];
        CountsSame(brushes, b1, rest[..j - 1]);
      }
    }
  }

  /** Only buffer offsets changed, so every invariant still holds. */
  lemma OffsetsKeepValid(r: Renderer, b: seq<Brush>)
    requires Valid(r) && OnlyOffsets(r.brushes, b)
    ensures Valid(r.(brushes := b))
  {
    var r' := r.(brushes := b);
    forall k | InUse(r', k) ensures BrushOk(b[k], r'.depth.epoch) && b[k].shader < r'.nextShader && Owned(r', k) {
      assert Owned(r, k);
    }
    forall h | h in r'.shaders ensures ShaderOk(r', h) {
      assert ShaderOk(r, h);
    }
  }

  /** A brush of another shader is not in this shader's list. */
  lemma NotListed(r: Renderer, h: nat, k: nat)
    requires Valid(r) && h in r.shaders && k < |r.brushes| && r.brushes[k].shader != h
    ensures k !in r.shaders[h].brushes
  {
    assert ShaderOk(r, h);
  }

  /** On a valid renderer `prepare` panics exactly when some visited
      shader's brushes hold more than `u32::MAX` instances in all;
      otherwise it changes nothing but offsets and leaves the brushes of
      unvisited shaders alone. */
  lemma {:induction false} PrepareKeeps(r: Renderer, order: seq<nat>)
    requires Valid(r) && Distinct(order)
    ensures var r' := Prepare(r, order);
            (r'.Some? <==> Fits(r, order)) &&
            (r'.Some? ==>
               Valid(r'.value) && OnlyOffsets(r.brushes, r'.value.brushes) &&
               (forall k :: 0 <= k < |r.brushes| && r.brushes[k].shader !in order ==> r'.value.brushes[k] == r.brushes[k]))
    decreases |order|
  {
    ValidListed(r);
    if |order| > 0 {
      var h0 := order[0];
      var rest := order[1..];
      assert Distinct(rest);
      assert forall h :: h in order <==> h == h0 || h in rest;
      if h0 !in r.shaders {
        PrepareKeeps(r, rest);
      } else {
        var list := r.shaders[h0].brushes;
        assert ShaderOk(r, h0);
        PrepareListPanics(r.brushes, list, 0);
        if PrepareList(r.brushes, list, 0).Some? {
          PrepareListOffsets(r.brushes, list, 0);
          var b1 := PrepareList(r.brushes, list, 0).value;
          var r1 := r.(brushes := b1);
          OffsetsKeepValid(r, b1);
          PrepareKeeps(r1, rest);
          FitsAfterFirst(r, h0, rest, b1);
          if Prepare(r1, rest).Some? {
            var r2 := Prepare(r1, rest).value;
            forall k | 0 <= k < |r.brushes| && r.brushes[k].shader !in order ensures r2.brushes[k] == r.brushes[k] {
              NotListed(r, h0, k);
            }
          }
        }
      }
    }
  }

  /** Changing only offsets changes no shader's total, so the rest of the
      order fits after the first shader's loop exactly when it fitted
      before; and the whole order fits when the first shader and the rest
      do. */
  lemma FitsAfterFirst(r: Renderer, h0: nat, rest: seq<nat>, b1: seq<Brush>)
    requires Listed(r.shaders, r.brushes) && h0 in r.shaders && OnlyOffsets(r.brushes, b1)
    ensures Listed(r.shaders, b1)
    ensures Fits(r.(brushes := b1), rest) <==> Fits(r, rest)
    ensures Fits(r, [h0] + rest) <==> Counts(r.brushes, r.shaders[h0].brushes) <= DepthRuns.U32_MAX && Fits(r, rest)
  {
    forall h, j | h in r.shaders && 0 <= j < |r.shaders[h].brushes|
      ensures r.shaders[h].brushes[j] < |b1| && b1[r.shaders[h].brushes[j]].shader == h
    {
      assert b1[r.shaders[h].brushes[j]] == r.brushes[r.shaders[h].brushes[j]].(bufOffset := b1[r.shaders[h].brushes[j]].bufOffset);
    }
    forall h | h in r.shaders
      ensures Counts(b1, r.shaders[h].brushes) == Counts(r.brushes, r.shaders[h].brushes)
    {
      CountsSame(r.brushes, b1, r.shaders[h].brushes);
    }
    assert forall h :: h in [h0] + rest <==> h == h0 || h in rest;
  }

  /** When it completes, `prepare` lays every visited shader out as the
      prefix sums of its brushes' counts: the j-th brush starts after the
      instances of the brushes before it. */
  lemma {:induction false} PrepareOffsets(r: Renderer, order: seq<nat>)
    requires Valid(r) && Distinct(order)
    ensures var r' := Prepare(r, order);
            r'.Some? ==>
              forall h, j :: h in order && h in r.shaders && 0 <= j < |r.shaders[h].brushes| ==>
                r'.value.brushes[r.shaders[h].brushes[j]].bufOffset == Counts(r.brushes, r.shaders[h].brushes[..j])
    decreases |order|
  {
    if |order| > 0 && Prepare(r, order).Some? {
      var h0 := order[0];
      var rest := order[1..];
      assert Distinct(rest);
      if h0 !in r.shaders {
        PrepareOffsets(r, rest);
      } else {
        var list := r.shaders[h0].brushes;
        assert ShaderOk(r, h0);
        PrepareListOffsets(r.brushes, list, 0);
        var b1 := PrepareList(r.brushes, list, 0).value;
        var r1 := r.(brushes := b1);
        OffsetsKeepValid(r, b1);
        PrepareOffsets(r1, rest);
        PrepareOffsetsStep(r, order, b1);
      }
    }
  }

  /** The first shader's loop then the rest, combined. */
  lemma PrepareOffsetsStep(r: Renderer, order: seq<nat>, b1: seq<Brush>)
    requires Valid(r) && Distinct(order) && |order| > 0 && order[0] in r.shaders
    requires PrepareList(r.brushes, r.shaders[order[0]].brushes, 0) == Some(b1)
    requires Prepare(r, order).Some? && Valid(r.(brushes := b1)) && OnlyOffsets(r.brushes, b1)
    requires var list := r.shaders[order[0]].brushes;
             (forall j :: 0 <= j < |list| ==> b1[list[j]].bufOffset == Counts(r.brushes, list[..j])) &&
             (forall k :: 0 <= k < |r.brushes| && k !in list ==> b1[k] == r.brushes[k])
    requires var r1 := r.(brushes := b1);
             Prepare(r1, order[1..]).Some? ==>
               forall h, j :: h in order[1..] && h in r1.shaders && 0 <= j < |r1.shaders[h].brushes| ==>
                 Prepare(r1, order[1..]).value.brushes[r1.shaders[h].brushes[j]].bufOffset == Counts(r1.brushes, r1.shaders[h].brushes[..j])
    ensures forall h, j :: h in order && h in r.shaders && 0 <= j < |r.shaders[h].brushes| ==>
              Prepare(r, order).value.brushes[r.shaders[h].brushes[j]].bufOffset == Counts(r.brushes, r.shaders[h].brushes[..j])
  {
    var h0 := order[0];
    var rest := order[1..];
    assert Distinct(rest);
    var r1 := r.(brushes := b1);
    PrepareKeeps(r1, rest);
    var r2 := Prepare(r1, rest).value;
    ValidListed(r);
    PrepareCombine(r, h0, rest, b1, r2);
    assert forall h :: h in order <==> h == h0 || h in rest;
  }

  /** Every listed brush exists and belongs to the shader listing it. */
  ghost predicate Listed(shaders: map<nat, Shader>, brushes: seq<Brush>) {
    forall h, j :: h in shaders && 0 <= j < |shaders[h].brushes| ==>
      shaders[h].brushes[j] < |brushes| && brushes[shaders[h].brushes[j]].shader == h
  }

  lemma ValidListed(r: Renderer)
    requires Valid(r)
    ensures Listed(r.shaders, r.brushes)
  {
    forall h, j | h in r.shaders && 0 <= j < |r.shaders[h].brushes|
      ensures r.shaders[h].brushes[j] < |r.brushes| && r.brushes[r.shaders[h].brushes[j]].shader == h
    {
      assert ShaderOk(r, h);
    }
  }

  /** The step of `PrepareOffsets`: the first shader's loop, then the
      rest. */
  lemma PrepareCombine(r: Renderer, h0: nat, rest: seq<nat>, b1: seq<Brush>, r2: Renderer)
    requires Listed(r.shaders, r.brushes) && h0 in r.shaders && h0 !in rest
    requires var list := r.shaders[h0].brushes;
             OnlyOffsets(r.brushes, b1) &&
             (forall j :: 0 <= j < |list| ==> b1[list[j]].bufOffset == Counts(r.brushes, list[..j])) &&
             (forall k :: 0 <= k < |r.brushes| && k !in list ==> b1[k] == r.brushes[k])
    requires |r2.brushes| == |b1| && r2.shaders == r.shaders
    requires forall k :: 0 <= k < |b1| && b1[k].shader !in rest ==> r2.brushes[k] == b1[k]
    requires forall h, j :: h in rest && h in r.shaders && 0 <= j < |r.shaders[h].brushes| ==>
               r2.brushes[r.shaders[h].brushes[j]].bufOffset == Counts(b1, r.shaders[h].brushes[..j])
    ensures forall h, j :: (h == h0 || h in rest) && h in r.shaders && 0 <= j < |r.shaders[h].brushes| ==>
              r2.brushes[r.shaders[h].brushes[j]].bufOffset == Counts(r.brushes, r.shaders[h].brushes[..j])
  {
    forall h, j | (h == h0 || h in rest) && h in r.shaders && 0 <= j < |r.shaders[h].brushes|
      ensures r2.brushes[r.shaders[h].brushes[j]].bufOffset == Counts(r.brushes, r.shaders[h].brushes[..j])
    {
      var k := r.shaders[h].brushes[j];
      assert b1[k] == r.brushes[k].(bufOffset := b1[k].bufOffset);
      if h != h0 {
        CountsSame(r.brushes, b1, r.shaders[h].brushes[..j]);
        assert k !in r.shaders[h0].brushes by {
          forall i | 0 <= i < |r.shaders[h0].brushes| ensures r.shaders[h0].brushes[i] != k {
            assert r.brushes[r.shaders[h0].brushes[i]].shader == h0;
          }
        }
      }
    }
  }

  // ---------------------------------------------------------------------
  // render

  datatype Draw = Draw(epoch: nat, brush: nat, uniformOffset: nat, lo: nat, hi: nat)

  /** `render` as written, and corrected: the comparison's arms put right
      and the cursor vector sized by the arena's storage, so that every
      slot can index it. */
  datatype Variant = AsWritten | Corrected

  /** Where run j of a brush ends: where the next begins, or at its count. */
  function RunEnd(b: Brush, j: nat): nat
    requires j < |b.starts|
  {
    if j + 1 < |b.starts| then b.starts[j + 1].1 else b.count
  }

  /** The draw of run j of brush k. */
  function RunDraw(b: Brush, k: nat, j: nat): Draw
    requires j < |b.starts|
  {
    Draw(b.starts[j].0, k, b.uniformOffset, b.starts[j].1 + b.bufOffset, RunEnd(b, j) + b.bufOffset)
  }

  /** Every run of brush k, in order: what rendering the brush should draw. */
  function Runs(b: Brush, k: nat): (ds: seq<Draw>)
    ensures |ds| == |b.starts| && forall j :: 0 <= j < |ds| ==> ds[j] == RunDraw(b, k, j)
  {
    seq(|b.starts|, j requires 0 <= j < |b.starts| => RunDraw(b, k, j))
  }

  /** One brush in the pass of epoch e, its next run being run i: the draws
      it makes (none or one) and its next run afterwards. As written, a run
      index past the end panics, an earlier epoch is passed over, and a
      later one is `unreachable!()`; corrected, the brush draws exactly when
      its next run belongs to this epoch. */
  function BrushStep(v: Variant, b: Brush, k: nat, i: nat, e: nat): (r: Option<(seq<Draw>, nat)>)
    ensures v == Corrected ==> r.Some?
    ensures r.Some? ==> forall d :: d in r.value.0 ==> d.brush == k && d.epoch == e
  {
    match v
    case AsWritten =>
      if i >= |b.starts| then None
      else if b.starts[i].0 < e then Some(([], i))
      else if b.starts[i].0 > e then None
      else Some(([RunDraw(b, k, i)], i + 1))
    case Corrected =>
      if i < |b.starts| && b.starts[i].0 == e then Some(([RunDraw(b, k, i)], i + 1))
      else Some(([], i))
  }

  /** The pass of one epoch over the brushes in `order`, threading each
      brush's next-run index, kept at the brush's slot in `idx`; a slot
      past `idx` panics. */
  function Pass(v: Variant, brushes: seq<Brush>, idx: seq<nat>, order: seq<nat>, e: nat): (r: Option<(seq<Draw>, seq<nat>)>)
    ensures r.Some? ==> |r.value.1| == |idx|
    ensures r.Some? ==> forall d :: d in r.value.0 ==> d.epoch == e && d.brush in order
    decreases |order|
  {
    if |order| == 0 then Some(([], idx))
    else if order[0] >= |brushes| || order[0] >= |idx| then None
    else
      var k := order[0];
      match BrushStep(v, brushes[k], k, idx[k], e)
      case None => None
      case Some((ds, i)) =>
        match Pass(v, brushes, idx[k := i], order[1..], e)
        case None => None
        case Some((rest, idx')) => Some((ds + rest, idx'))
  }

  /** The passes of epochs e up to `last`. */
  function Epochs(v: Variant, brushes: seq<Brush>, idx: seq<nat>, order: seq<nat>, e: nat, last: nat): (r: Option<seq<Draw>>)
    ensures r.Some? ==> forall d :: d in r.value ==> d.brush in order && e <= d.epoch <= last
    decreases last + 1 - e
  {
    if e > last then Some([])
    else
      match Pass(v, brushes, idx, order, e)
      case None => None
      case Some((ds, idx')) =>
        match Epochs(v, brushes, idx', order, e + 1, last)
        case None => None
        case Some(rest) => Some(ds + rest)
  }

  /** The brush lists of the shaders in `order`, one after another. */
  function Flatten(shaders: map<nat, Shader>, order: seq<nat>): seq<nat>
  {
    if |order| == 0 then []
    else (if order[0] in shaders then shaders[order[0]].brushes else []) + Flatten(shaders, order[1..])
  }

  /** `render`: every brush's next run is its first; epochs 0 up to the
      generator's, shaders in the given order, each shader's brushes in
      its list's order. As written the cursor vector has one entry per
      brush in use, the arena's `len()`, while it is indexed by slot;
      corrected it has one per slot of the storage. */
  function Render(v: Variant, r: Renderer, order: seq<nat>): (res: Option<seq<Draw>>)
    ensures res.Some? ==> forall d :: d in res.value ==> d.epoch <= r.depth.epoch
    ensures Valid(r) && v == Corrected ==> res.Some?
    ensures Valid(r) && res.Some? ==>
              forall d :: d in res.value ==>
                InUse(r, d.brush) && r.brushes[d.brush].shader in order && r.brushes[d.brush].shader in r.shaders
  {
    var f := Flatten(r.shaders, order);
    var idx := seq(Width(v, r), _ => 0);
    var res := Epochs(v, r.brushes, idx, f, 0, r.depth.epoch);
    assert Valid(r) ==> (v == Corrected ==> res.Some?) && (res.Some? ==>
              forall d :: d in res.value ==>
                InUse(r, d.brush) && r.brushes[d.brush].shader in order && r.brushes[d.brush].shader in r.shaders) by {
      if Valid(r) {
        FlattenListed(r, order);
        assert forall j :: 0 <= j < |f| ==> Visited(r, order, f[j]);
        if v == Corrected {
          EpochsSorted(r.brushes, idx, f, 0, r.depth.epoch);
        }
        if res.Some? {
          forall d | d in res.value
            ensures InUse(r, d.brush) && r.brushes[d.brush].shader in order && r.brushes[d.brush].shader in r.shaders
          {
            var j :| 0 <= j < |f| && f[j] == d.brush;
            assert Visited(r, order, f[j]);
          }
        }
      }
    }
    res
  }

  /** The length of the cursor vector. */
  function Width(v: Variant, r: Renderer): nat {
    if v == AsWritten then Len(r) else |r.brushes|
  }

  /** Brush k is in use and belongs to a live shader in `order`. */
  ghost predicate Visited(r: Renderer, order: seq<nat>, k: nat) {
    InUse(r, k) && r.brushes[k].shader in order && r.brushes[k].shader in r.shaders
  }

  /** Every flattened brush exists and belongs to a visited live shader. */
  lemma {:induction false} FlattenListed(r: Renderer, order: seq<nat>)
    requires Valid(r)
    ensures forall j :: 0 <= j < |Flatten(r.shaders, order)| ==> Visited(r, order, Flatten(r.shaders, order)[j])
    decreases |order|
  {
    if |order| > 0 {
      var h := order[0];
      FlattenListed(r, order[1..]);
      var list := if h in r.shaders then r.shaders[h].brushes else [];
      var rest := Flatten(r.shaders, order[1..]);
      var f := Flatten(r.shaders, order);
      assert f == list + rest;
      assert order == [h] + order[1..];
      if h in r.shaders {
        assert ShaderOk(r, h);
      }
      forall j | 0 <= j < |f| ensures Visited(r, order, f[j]) {
        if j < |list| {
          assert f[j] == list[j];
          assert r.brushes[list[j]].shader == h;
        } else {
          var i := j - |list|;
          assert f[j] == rest[i];
          assert Visited(r, order[1..], rest[i]);
        }
      }
    }
  }

  /** The draws of brush k. */
  function Proj(ds: seq<Draw>, k: nat): (p: seq<Draw>)
    ensures forall d :: d in p ==> d in ds && d.brush == k
  {
    if |ds| == 0 then [] else (if ds[0].brush == k then [ds[0]] else []) + Proj(ds[1..], k)
  }

  /** How often k is listed. */
  function Occ(s: seq<nat>, k: nat): nat
  {
    if |s| == 0 then 0 else (if s[0] == k then 1 else 0) + Occ(s[1..], k)
  }

  lemma {:induction false} ProjAppend(a: seq<Draw>, b: seq<Draw>, k: nat)
    ensures Proj(a + b, k) == Proj(a, k) + Proj(b, k)
    decreases |a|
  {
    if |a| > 0 {
      assert (a + b)[1..] == a[1..] + b;
      ProjAppend(a[1..], b, k);
    } else {
      assert a + b == b;
    }
  }

  lemma {:induction false} ProjOther(ds: seq<Draw>, k: nat)
    requires forall d :: d in ds ==> d.brush != k
    ensures Proj(ds, k) == []
    decreases |ds|
  {
    if |ds| > 0 {
      assert ds[0] in ds;
      ProjOther(ds[1..], k);
    }
  }

  lemma {:induction false} OccAppend(a: seq<nat>, b: seq<nat>, k: nat)
    ensures Occ(a + b, k) == Occ(a, k) + Occ(b, k)
    decreases |a|
  {
    if |a| > 0 {
      assert (a + b)[1..] == a[1..] + b;
      OccAppend(a[1..], b, k);
    } else {
      assert a + b == b;
    }
  }

  lemma {:induction false} OccDistinct(s: seq<nat>, k: nat)
    requires Distinct(s)
    ensures Occ(s, k) == if k in s then 1 else 0
    decreases |s|
  {
    if |s| > 0 {
      OccDistinct(s[1..], k);
      if s[0] == k {
        forall i | 0 <= i < |s[1..]| ensures s[1..][i] != k {
          assert s[1..][i] == s[i + 1];
        }
      } else {
        assert k in s <==> k in s[1..] by {
          if k in s {
            var i :| 0 <= i < |s| && s[i] == k;
            assert s[1..][i - 1] == k;
          }
        }
      }
    }
  }

  /** One epoch's pass, seen from brush k listed at most once: it takes one
      step of k, or none when k is not listed. */
  lemma {:induction false} PassProj(brushes: seq<Brush>, idx: seq<nat>, order: seq<nat>, e: nat, k: nat)
    requires |idx| == |brushes| && k < |brushes|
    requires forall j :: 0 <= j < |order| ==> order[j] < |brushes|
    requires Occ(order, k) <= 1
    ensures var r := Pass(Corrected, brushes, idx, order, e);
            var step := BrushStep(Corrected, brushes[k], k, idx[k], e).value;
            r.Some? &&
            (Occ(order, k) == 0 ==> Proj(r.value.0, k) == [] && r.value.1[k] == idx[k]) &&
            (Occ(order, k) == 1 ==> Proj(r.value.0, k) == step.0 && r.value.1[k] == step.1)
    decreases |order|
  {
    if |order| > 0 {
      var h := order[0];
      var (ds, i) := BrushStep(Corrected, brushes[h], h, idx[h], e).value;
      PassProj(brushes, idx[h := i], order[1..], e, k);
      var (rest, idx') := Pass(Corrected, brushes, idx[h := i], order[1..], e).value;
      ProjAppend(ds, rest, k);
      if h == k {
        assert Proj(ds, k) == ds by {
          if |ds| > 0 {
            assert ds[0] in ds;
            assert ds[1..] == [];
          }
        }
      } else {
        ProjOther(ds, k);
      }
    }
  }

  /** Every corrected pass completes when the listed brushes exist. */
  lemma {:induction false} PassCompletes(brushes: seq<Brush>, idx: seq<nat>, order: seq<nat>, e: nat)
    requires |idx| == |brushes|
    requires forall j :: 0 <= j < |order| ==> order[j] < |brushes|
    ensures Pass(Corrected, brushes, idx, order, e).Some?
    decreases |order|
  {
    if |order| > 0 {
      var h := order[0];
      var (ds, i) := BrushStep(Corrected, brushes[h], h, idx[h], e).value;
      PassCompletes(brushes, idx[h := i], order[1..], e);
    }
  }

  /** Brush b's next run is run i in the pass of epoch e: the runs before
      it belong to earlier epochs, it and the later ones to e or later,
      none to an epoch past `last`, and the epochs ascend. */
  ghost predicate Pending(b: Brush, i: nat, e: nat, last: nat) {
    i <= |b.starts| &&
    (forall i, j :: 0 <= i < j < |b.starts| ==> b.starts[i].0 < b.starts[j].0) &&
    (forall j :: 0 <= j < |b.starts| ==> b.starts[j].0 <= last) &&
    (forall j :: 0 <= j < i ==> b.starts[j].0 < e) &&
    (forall j :: i <= j < |b.starts| ==> b.starts[j].0 >= e) &&
    (i < |b.starts| ==> b.starts[i].0 >= e)
  }

  /** After epoch e's pass the brush is pending in epoch e + 1. */
  lemma PendingStep(b: Brush, k: nat, i: nat, e: nat, last: nat)
    requires Pending(b, i, e, last)
    ensures Pending(b, BrushStep(Corrected, b, k, i, e).value.1, e + 1, last)
  {
  }

  /** Past the last epoch nothing is pending. */
  lemma PendingDone(b: Brush, i: nat, e: nat, last: nat)
    requires Pending(b, i, e, last) && e > last
    ensures i == |b.starts|
  {
  }

  /** Drawing run i, if it belongs to epoch e, then the runs after the
      step draws the runs from i on. */
  lemma RunsFrom(b: Brush, k: nat, i: nat, e: nat)
    requires i <= |b.starts|
    ensures var (ds, i') := BrushStep(Corrected, b, k, i, e).value;
            i' <= |b.starts| && ds + Runs(b, k)[i'..] == Runs(b, k)[i..]
  {
    if i < |b.starts| && b.starts[i].0 == e {
      assert Runs(b, k)[i..] == [RunDraw(b, k, i)] + Runs(b, k)[i + 1..];
    }
  }

  /** The runs of brush k are drawn from its pending run on, one per pass,
      in order. */
  lemma {:induction false} EpochsProj(brushes: seq<Brush>, idx: seq<nat>, order: seq<nat>, e: nat, last: nat, k: nat)
    requires |idx| == |brushes| && k < |brushes|
    requires forall j :: 0 <= j < |order| ==> order[j] < |brushes|
    requires Occ(order, k) == 1
    requires Pending(brushes[k], idx[k], e, last)
    ensures var r := Epochs(Corrected, brushes, idx, order, e, last);
            r.Some? && Proj(r.value, k) == Runs(brushes[k], k)[idx[k]..]
    decreases last + 1 - e
  {
    if e > last {
      PendingDone(brushes[k], idx[k], e, last);
    } else {
      PassPending(brushes, idx, order, e, last, k);
      var (ds, idx') := Pass(Corrected, brushes, idx, order, e).value;
      EpochsProj(brushes, idx', order, e + 1, last, k);
      EpochsProjStep(brushes[k], k, idx[k], idx'[k], e, ds, Epochs(Corrected, brushes, idx', order, e + 1, last).value);
    }
  }

  /** Epoch e's pass leaves brush k pending in epoch e + 1, having drawn its
      step for e. */
  lemma PassPending(brushes: seq<Brush>, idx: seq<nat>, order: seq<nat>, e: nat, last: nat, k: nat)
    requires |idx| == |brushes| && k < |brushes|
    requires forall j :: 0 <= j < |order| ==> order[j] < |brushes|
    requires Occ(order, k) == 1
    requires Pending(brushes[k], idx[k], e, last)
    ensures var r := Pass(Corrected, brushes, idx, order, e);
            var step := BrushStep(Corrected, brushes[k], k, idx[k], e).value;
            r.Some? && Proj(r.value.0, k) == step.0 && r.value.1[k] == step.1 &&
            Pending(brushes[k], r.value.1[k], e + 1, last)
  {
    PassProj(brushes, idx, order, e, k);
    PendingStep(brushes[k], k, idx[k], e, last);
  }

  /** The step of `EpochsProj`: this pass's draws of the brush, then the
      later passes', are its runs from run i on. */
  lemma EpochsProjStep(b: Brush, k: nat, i: nat, i': nat, e: nat, ds: seq<Draw>, rest: seq<Draw>)
    requires i <= |b.starts|
    requires var step := BrushStep(Corrected, b, k, i, e).value;
             Proj(ds, k) == step.0 && i' == step.1
    requires i' <= |b.starts| && Proj(rest, k) == Runs(b, k)[i'..]
    ensures Proj(ds + rest, k) == Runs(b, k)[i..]
  {
    ProjAppend(ds, rest, k);
    RunsFrom(b, k, i, e);
  }

  /** A brush listed nowhere draws nothing. */
  lemma {:induction false} EpochsAbsent(brushes: seq<Brush>, idx: seq<nat>, order: seq<nat>, e: nat, last: nat, k: nat)
    requires |idx| == |brushes| && k < |brushes|
    requires forall j :: 0 <= j < |order| ==> order[j] < |brushes|
    requires Occ(order, k) == 0
    ensures var r := Epochs(Corrected, brushes, idx, order, e, last);
            r.Some? && Proj(r.value, k) == []
    decreases last + 1 - e
  {
    if e <= last {
      PassProj(brushes, idx, order, e, k);
      var (ds, idx') := Pass(Corrected, brushes, idx, order, e).value;
      EpochsAbsent(brushes, idx', order, e + 1, last, k);
      ProjAppend(ds, Epochs(Corrected, brushes, idx', order, e + 1, last).value, k);
    }
  }

  /** The flattened lists name existing brushes, and list a brush once if
      its shader is visited and live, else not at all. */
  lemma {:induction false} FlattenOcc(r: Renderer, order: seq<nat>, k: nat)
    requires Valid(r) && Distinct(order) && k < |r.brushes|
    ensures var f := Flatten(r.shaders, order);
            (forall j :: 0 <= j < |f| ==> f[j] < |r.brushes|) &&
            Occ(f, k) == if Visited(r, order, k) then 1 else 0
    decreases |order|
  {
    if |order| > 0 {
      var h := order[0];
      assert Distinct(order[1..]);
      FlattenOcc(r, order[1..], k);
      var list := if h in r.shaders then r.shaders[h].brushes else [];
      OccAppend(list, Flatten(r.shaders, order[1..]), k);
      assert r.brushes[k].shader in order <==> r.brushes[k].shader == h || r.brushes[k].shader in order[1..];
      if h in r.shaders {
        assert ShaderOk(r, h);
        OccDistinct(list, k);
        if InUse(r, k) {
          assert Owned(r, k);
        }
        if k in list {
          var i :| 0 <= i < |list| && list[i] == k;
          assert r.brushes[list[i]].shader == h;
        }
        assert r.brushes[k].shader == h ==> h !in order[1..];
      }
    }
  }

  /** What `render` should do, and the corrected version does: brush k of
      a live shader that is visited gets exactly its runs drawn, in order;
      any other brush draws nothing. */
  lemma RenderDrawsRuns(r: Renderer, order: seq<nat>, k: nat)
    requires Valid(r) && Distinct(order) && k < |r.brushes|
    ensures var ds := Render(Corrected, r, order);
            ds.Some? &&
            Proj(ds.value, k) == if Visited(r, order, k) then Runs(r.brushes[k], k) else []
  {
    var f := Flatten(r.shaders, order);
    var idx := seq(|r.brushes|, _ => 0);
    FlattenOcc(r, order, k);
    if Occ(f, k) == 1 {
      assert BrushOk(r.brushes[k], r.depth.epoch);
      EpochsProj(r.brushes, idx, f, 0, r.depth.epoch, k);
    } else {
      EpochsAbsent(r.brushes, idx, f, 0, r.depth.epoch, k);
    }
  }

  /** A brush's runs cover its instances exactly once: they start at its
      buffer offset, meet end to end, are never empty, end after its last
      instance, and their epochs ascend. */
  lemma RunsCover(b: Brush, k: nat, epoch: nat)
    requires BrushOk(b, epoch)
    ensures var rs := Runs(b, k);
            (|rs| == 0 <==> b.count == 0) &&
            (|rs| > 0 ==> rs[0].lo == b.bufOffset && rs[|rs| - 1].hi == b.bufOffset + b.count) &&
            (forall j :: 0 <= j < |rs| ==> rs[j].lo < rs[j].hi) &&
            (forall j :: 0 <= j < |rs| - 1 ==> rs[j].hi == rs[j + 1].lo && rs[j].epoch < rs[j + 1].epoch)
  {
    var rs := Runs(b, k);
    forall j | 0 <= j < |rs| ensures rs[j].lo < rs[j].hi {
      if j + 1 < |b.starts| {
        assert b.starts[j].1 < b.starts[j + 1].1;
      }
    }
  }

  /** The corrected draws come in ascending epoch order. */
  lemma {:induction false} EpochsSorted(brushes: seq<Brush>, idx: seq<nat>, order: seq<nat>, e: nat, last: nat)
    requires |idx| == |brushes|
    requires forall j :: 0 <= j < |order| ==> order[j] < |brushes|
    ensures var r := Epochs(Corrected, brushes, idx, order, e, last);
            r.Some? &&
            (forall d :: d in r.value ==> d.epoch >= e) &&
            (forall i, j :: 0 <= i < j < |r.value| ==> r.value[i].epoch <= r.value[j].epoch)
    decreases last + 1 - e
  {
    if e <= last {
      PassCompletes(brushes, idx, order, e);
      var (ds, idx') := Pass(Corrected, brushes, idx, order, e).value;
      EpochsSorted(brushes, idx', order, e + 1, last);
      var rest := Epochs(Corrected, brushes, idx', order, e + 1, last).value;
      var all := ds + rest;
      forall i, j | 0 <= i < j < |all| ensures all[i].epoch <= all[j].epoch {
        if i < |ds| {
          assert all[i] in ds;
          if j < |ds| {
            assert all[j] in ds;
          } else {
            assert all[j] == rest[j - |ds|];
            assert all[j] in rest;
          }
        } else {
          assert all[i] == rest[i - |ds|] && all[j] == rest[j - |ds|];
        }
      }
      forall d | d in all ensures d.epoch >= e {
        if d in ds {
        } else {
          assert d in rest;
        }
      }
    }
  }

  /** `render` as written panics in the first pass over a listed brush
      whose slot is past the cursor vector, or whose next run is missing
      or belongs to a later epoch, whatever the other brushes do. */
  lemma {:induction false} PassAsWrittenPanics(brushes: seq<Brush>, idx: seq<nat>, order: seq<nat>, e: nat, k: nat)
    requires k < |brushes| && Occ(order, k) >= 1
    requires k >= |idx| || idx[k] >= |brushes[k].starts| || brushes[k].starts[idx[k]].0 > e
    ensures Pass(AsWritten, brushes, idx, order, e).None?
    decreases |order|
  {
    var h := order[0];
    if h != k && h < |brushes| && h < |idx| {
      match BrushStep(AsWritten, brushes[h], h, idx[h], e)
      case None =>
      case Some((ds, i)) =>
        PassAsWrittenPanics(brushes, idx[h := i], order[1..], e, k);
    }
  }

  /** So `render` as written panics on any live, visited brush that has no
      instances or whose first instance is not in epoch 0 — a brush started
      and never drawn with, or first drawn with after a depth epoch rolled
      over. The corrected version completes. */
  lemma RenderAsWrittenPanics(r: Renderer, order: seq<nat>, k: nat)
    requires Valid(r) && Distinct(order) && Visited(r, order, k)
    requires |r.brushes[k].starts| == 0 || r.brushes[k].starts[0].0 > 0
    ensures Render(AsWritten, r, order).None? && Render(Corrected, r, order).Some?
  {
    var f := Flatten(r.shaders, order);
    var idx := seq(Len(r), _ => 0);
    FlattenOcc(r, order, k);
    PassAsWrittenPanics(r.brushes, idx, f, 0, k);
  }

  /** `render` as written also panics on a visited brush whose slot is not
      below the number of brushes in use: the cursor vector is too short
      for it. The arena hands out the highest freed slot first, so this is
      any frame that starts fewer brushes than some frame before it. The
      corrected render completes. */
  lemma RenderSlotPanics(r: Renderer, order: seq<nat>, k: nat)
    requires Valid(r) && Distinct(order) && Visited(r, order, k) && k >= Len(r)
    ensures Render(AsWritten, r, order).None? && Render(Corrected, r, order).Some?
  {
    var f := Flatten(r.shaders, order);
    var idx := seq(Len(r), _ => 0);
    FlattenOcc(r, order, k);
    PassAsWrittenPanics(r.brushes, idx, f, 0, k);
  }

  /** The smallest such frame: two brushes on one shader, a reset, then one
      brush with one instance, prepared. The new brush takes slot 1 while
      one brush is in use, so rendering as written panics, although its
      single run is in epoch 0 and the comparison's arms alone would let it
      through; corrected, it draws its one instance. */
  lemma SlotReusePanics()
    ensures var (r1, h) := CreateShader(New(), 0, 0);
            var s2 := StartBrush(r1, h, []);
            s2.Some? && StartBrush(s2.value.0, h, []).Some? &&
            var s4 := StartBrush(Reset(StartBrush(s2.value.0, h, []).value.0), h, []);
            s4.Some? && PushInstance(s4.value.0, s4.value.1, []).Some? &&
            var r5 := Prepare(PushInstance(s4.value.0, s4.value.1, []).value, [h]);
            r5.Some? && s4.value.1.slot == 1 && Len(r5.value) == 1 && r5.value.brushes[1].starts == [(0, 0)] &&
            Render(AsWritten, r5.value, [h]).None? &&
            Render(Corrected, r5.value, [h]) == Some([Draw(0, 1, 0, 0, 1)])
  {
    var (r1, h) := CreateShader(New(), 0, 0);
    TwoBrushes();
    var r2 := StartBrush(r1, h, []).value.0;
    var r3 := StartBrush(r2, h, []).value.0;
    OneAfterReset(r3, h);
    var (r4, hb) := StartBrush(Reset(r3), h, []).value;
    PushPrepare(r4, hb, h);
    var r5 := Prepare(PushInstance(r4, hb, []).value, [h]).value;
    RenderSlotPanics(r5, [h], 1);
    SlotReuseDraws(r5, h);
  }

  /** Two brushes started on a fresh zero-stride shader fill slots 0 and 1. */
  lemma TwoBrushes()
    ensures var (r1, h) := CreateShader(New(), 0, 0);
            var s2 := StartBrush(r1, h, []);
            s2.Some? && StartBrush(s2.value.0, h, []).Some? &&
            var r3 := StartBrush(s2.value.0, h, []).value.0;
            Valid(r3) && |r3.brushes| == 2 && r3.free == [] && h in r3.shaders &&
            r3.shaders[h].uniformStride == 0 && r3.shaders[h].instanceStride == 0
  {
    var (r1, h) := CreateShader(New(), 0, 0);
    StartBrushValid(r1, h, []);
    var (r2, _) := StartBrush(r1, h, []).value;
    StartBrushValid(r2, h, []);
  }

  /** After the reset the one new brush takes slot 1, the higher one. */
  lemma OneAfterReset(r3: Renderer, h: nat)
    requires Valid(r3) && |r3.brushes| == 2 && r3.free == [] && h in r3.shaders
    requires r3.shaders[h].uniformStride == 0
    ensures StartBrush(Reset(r3), h, []).Some?
    ensures var (r4, hb) := StartBrush(Reset(r3), h, []).value;
            Valid(r4) && hb.slot == 1 && hb.era == r4.era && r4.free == [0] && |r4.brushes| == 2 &&
            h in r4.shaders && r4.shaders[h].brushes == [1] && r4.shaders[h].instanceStride == r3.shaders[h].instanceStride &&
            r4.depth == DepthGen.New() && r4.brushes[1].count == 0 && r4.brushes[1].starts == [] && r4.brushes[1].shader == h
  {
    assert SlotsInUse(2, []) == [0, 1] by {
      assert SlotsInUse(1, []) == [0];
    }
    var r3' := Reset(r3);
    assert r3'.free == [0, 1];
    assert r3'.shaders[h].brushes == [];
    StartBrushValid(r3', h, []);
    var r4 := StartBrush(r3', h, []).value.0;
    assert r4.free == [0, 1][..1];
  }

  /** One instance pushed and prepared: slot 1 holds one run in epoch 0. */
  lemma PushPrepare(r4: Renderer, hb: BrushHandle, h: nat)
    requires Valid(r4) && hb.slot == 1 && hb.era == r4.era && r4.free == [0] && |r4.brushes| == 2
    requires h in r4.shaders && r4.shaders[h].brushes == [1] && r4.shaders[h].instanceStride == 0
    requires r4.depth == DepthGen.New() && r4.brushes[1].count == 0 && r4.brushes[1].starts == [] && r4.brushes[1].shader == h
    ensures var r5' := PushInstance(r4, hb, []);
            r5'.Some? && Prepare(r5'.value, [h]).Some? &&
            var r5 := Prepare(r5'.value, [h]).value;
            Valid(r5) && Len(r5) == 1 && Visited(r5, [h], 1) && r5.shaders[h].brushes == [1] &&
            r5.depth.epoch == 0 && r5.brushes[1].starts == [(0, 0)] && r5.brushes[1].count == 1 &&
            r5.brushes[1].bufOffset == 0 && r5.brushes[1].uniformOffset == 0
  {
    PushOne(r4, hb, h);
    var r5' := PushInstance(r4, hb, []).value;
    PrepareOne(r5', h);
    var r5 := Prepare(r5', [h]).value;
    OneInUse(r5);
  }

  /** The push opens slot 1's run at instance 0 in epoch 0. */
  lemma PushOne(r4: Renderer, hb: BrushHandle, h: nat)
    requires Valid(r4) && hb.slot == 1 && hb.era == r4.era && r4.free == [0] && |r4.brushes| == 2
    requires h in r4.shaders && r4.shaders[h].brushes == [1] && r4.shaders[h].instanceStride == 0
    requires r4.depth == DepthGen.New() && r4.brushes[1].count == 0 && r4.brushes[1].starts == [] && r4.brushes[1].shader == h
    ensures var r5 := PushInstance(r4, hb, []);
            r5.Some? && Valid(r5.value) && r5.value.free == [0] && |r5.value.brushes| == 2 &&
            r5.value.shaders == r4.shaders && r5.value.depth.epoch == 0 &&
            r5.value.brushes[1].starts == [(0, 0)] && r5.value.brushes[1].count == 1 &&
            r5.value.brushes[1].shader == h && r5.value.brushes[1].uniformOffset == r4.brushes[1].uniformOffset
  {
    assert InUse(r4, 1);
    PushInstanceValid(r4, hb, []);
  }

  /** Preparing a one-brush shader puts the brush at offset 0. */
  lemma PrepareOne(r5: Renderer, h: nat)
    requires Valid(r5) && h in r5.shaders && r5.shaders[h].brushes == [1] && 1 < |r5.brushes| && r5.brushes[1].count == 1
    ensures Prepare(r5, [h]).Some? &&
            var r6 := Prepare(r5, [h]).value;
            Valid(r6) && r6 == r5.(brushes := r6.brushes) && r6.brushes[1] == r5.brushes[1].(bufOffset := 0)
  {
    assert Counts(r5.brushes, [1]) == 1;
    PrepareKeeps(r5, [h]);
    PrepareOffsets(r5, [h]);
    var r6 := Prepare(r5, [h]).value;
    assert r6.brushes[1].bufOffset == Counts(r5.brushes, [1][..0]);
  }

  /** With slot 0 free and slot 1 not, one brush is in use. */
  lemma OneInUse(r: Renderer)
    requires r.free == [0] && |r.brushes| == 2
    ensures Len(r) == 1 && InUse(r, 1)
  {
    assert SlotsInUse(2, [0]) == [1] by {
      assert SlotsInUse(1, [0]) == [];
    }
  }

  /** The corrected render's draws in that frame are slot 1's one run. */
  lemma SlotReuseDraws(r5: Renderer, h: nat)
    requires Valid(r5) && Visited(r5, [h], 1) && r5.shaders[h].brushes == [1] && r5.depth.epoch == 0
    requires r5.brushes[1].starts == [(0, 0)] && r5.brushes[1].count == 1
    requires r5.brushes[1].bufOffset == 0 && r5.brushes[1].uniformOffset == 0
    ensures Render(Corrected, r5, [h]) == Some([Draw(0, 1, 0, 0, 1)])
  {
    RenderDrawsRuns(r5, [h], 1);
    assert Flatten(r5.shaders, [h]) == [1] + Flatten(r5.shaders, []);
    var ds := Render(Corrected, r5, [h]).value;
    AllOne(ds, 1);
    assert Runs(r5.brushes[1], 1) == [RunDraw(r5.brushes[1], 1, 0)];
  }

  /** The smallest case: one shader, one brush started on it and never
      drawn with. Rendering as written panics; corrected, it draws nothing. */
  lemma EmptyBrushPanics()
    ensures var (r1, h) := CreateShader(New(), 0, 0);
            var (r2, _) := StartBrush(r1, h, []).value;
            Render(AsWritten, r2, [h]).None? && Render(Corrected, r2, [h]) == Some([])
  {
    var (r1, h) := CreateShader(New(), 0, 0);
    var (r2, hb) := StartBrush(r1, h, []).value;
    var k := hb.slot;
    assert k == 0 && r1.shaders[h].brushes == [];
    assert r2.shaders[h].brushes == [] + [0];
    StartBrushValid(r1, h, []);
    assert Valid(r2) && k < |r2.brushes| && r2.brushes[k].starts == [];
    OnlyBrushUndrawn(r2, h, k);
  }

  /** A visited shader whose only brush has no runs: as written the render
      panics, corrected it draws nothing. */
  lemma OnlyBrushUndrawn(r: Renderer, h: nat, k: nat)
    requires Valid(r) && h in r.shaders && r.shaders[h].brushes == [k]
    requires k < |r.brushes| && r.brushes[k].starts == []
    ensures Render(AsWritten, r, [h]).None? && Render(Corrected, r, [h]) == Some([])
  {
    assert ShaderOk(r, h);
    assert r.shaders[h].brushes[0] == k;
    assert r.brushes[k].shader == h;
    assert Flatten(r.shaders, [h]) == [k] + Flatten(r.shaders, []);
    RenderAsWrittenPanics(r, [h], k);
    var ds := Render(Corrected, r, [h]).value;
    RenderDrawsRuns(r, [h], k);
    AllOne(ds, k);
  }

  /** When every draw is of brush k, those are all of k's draws. */
  lemma {:induction false} AllOne(ds: seq<Draw>, k: nat)
    requires forall d :: d in ds ==> d.brush == k
    ensures Proj(ds, k) == ds
    decreases |ds|
  {
    if |ds| > 0 {
      assert ds[0] in ds;
      AllOne(ds[1..], k);
    }
  }
}

=== FILE: brushes.dfy ===
/** The brush bookkeeping shared by the wgpu instance renderer and the quad
    renderer (the two are the same code over different shader options). A
    shader holds its uniform and instance strides, the uniform bytes of the
    brushes started on it since the last reset, and their list. A brush
    holds its instances' bytes and count, its place in the shader's buffers,
    and `epoch_starts`: for each depth epoch it drew in, the index of its
    first instance in that epoch. GPU objects (pipelines, buffers, bind
    groups) are left out. Shader handles are numbers, a fresh one each (the
    arena's generations never repeat a handle).

    Brushes live in a thunderdome arena: a storage of slots, some in use,
    the rest on a last-in-first-out free list. Inserting reuses the head of
    the free list, or appends a slot when it is empty; `clear` frees the
    slots in use in ascending order, so the highest of them is reused first.
    The arena's `len()` is the number of slots in use. A brush handle is its
    slot paired with the era it was started in: clearing bumps the
    generation of every slot in use, so a handle kept across a reset never
    reaches a brush again. A panic (a failed index, `unwrap`, `assert_eq`
    or checked addition) is `None`. thunderdome's source is not part of
    this model; its free list is modelled as just described. */
module Brushes {
  import opened Wrappers
  import opened Varint
  import DepthGen
  import DepthRuns

  datatype Shader = Shader(uniformStride: nat, instanceStride: nat, uniformData: seq<byte>, brushes: seq<nat>)

  /** `bufOffset` is `shader_instance_buf_offset`; `starts` is
      `epoch_starts`, pairs of (epoch, first instance). */
  datatype Brush = Brush(
    shader: nat, uniformOffset: nat, data: seq<byte>, bufOffset: nat,
    count: nat, starts: seq<(nat, nat)>, lastEpoch: nat)

  /** `brushes` is the arena's storage, one entry per slot ever used (a
      free slot keeps its last brush, which nothing reads); `free` is its
      free list, the next slot to reuse last; `era` counts the resets so
      far. */
  datatype Renderer = Renderer(depth: DepthGen.Gen, nextShader: nat, shaders: map<nat, Shader>, brushes: seq<Brush>, free: seq<nat>, era: nat)

  /** A `BrushHandle`: the brush's slot, and the era it was started in. */
  datatype BrushHandle = BrushHandle(slot: nat, era: nat)

  predicate Distinct(s: seq<nat>) {
    forall i, j :: 0 <= i < j < |s| ==> s[i] != s[j]
  }

  /** The slots below n that are not on the free list, ascending. */
  function SlotsInUse(n: nat, free: seq<nat>): (s: seq<nat>)
    ensures forall k :: k in s <==> 0 <= k < n && k !in free
    ensures forall i, j :: 0 <= i < j < |s| ==> s[i] < s[j]
  {
    if n == 0 then []
    else
      var below := SlotsInUse(n - 1, free);
      assert forall i :: 0 <= i < |below| ==> below[i] in below;
      below + (if n - 1 in free then [] else [n - 1])
  }

  /** The arena's `len()`: how many slots are in use. */
  function Len(r: Renderer): nat {
    |SlotsInUse(|r.brushes|, r.free)|
  }

  /** A slot holds a live brush. */
  predicate InUse(r: Renderer, k: int) {
    0 <= k < |r.brushes| && k !in r.free
  }

  /** The `epoch_starts` invariant against the current depth epoch: the
      first run starts at instance 0, epochs and starts strictly increase,
      every start is an existing instance, no epoch is ahead of the
      generator, and the last run's epoch is the remembered one. A brush
      with no runs has no instances. */
  ghost predicate BrushOk(b: Brush, epoch: nat) {
    (|b.starts| == 0 ==> b.count == 0 && |b.data| == 0) &&
    (|b.starts| > 0 ==> b.starts[0].1 == 0 && b.lastEpoch == b.starts[|b.starts| - 1].0) &&
    (forall i, j :: 0 <= i < j < |b.starts| ==> b.starts[i].0 < b.starts[j].0 && b.starts[i].1 < b.starts[j].1) &&
    (forall j :: 0 <= j < |b.starts| ==> b.starts[j].0 <= epoch && b.starts[j].1 < b.count) &&
    b.count <= DepthRuns.U32_MAX
  }

  /** Brush j of a shader's list belongs to it and owns the j-th uniform
      slot; the uniform bytes are exactly the slots; no brush is listed
      twice. */
  ghost predicate ShaderOk(r: Renderer, h: nat)
    requires h in r.shaders
  {
    var s := r.shaders[h];
    |s.uniformData| == |s.brushes| * s.uniformStride &&
    (forall j :: 0 <= j < |s.brushes| ==>
      InUse(r, s.brushes[j]) && r.brushes[s.brushes[j]].shader == h &&
      r.brushes[s.brushes[j]].uniformOffset == j * s.uniformStride) &&
    (forall i, j :: 0 <= i < j < |s.brushes| ==> s.brushes[i] != s.brushes[j])
  }

  /** A brush of a live shader is in its list and holds one instance
      stride of bytes per instance. */
  ghost predicate Owned(r: Renderer, k: nat)
    requires k < |r.brushes|
  {
    var b := r.brushes[k];
    b.shader in r.shaders ==>
      k in r.shaders[b.shader].brushes && |b.data| == b.count * r.shaders[b.shader].instanceStride
  }

  /** The free list names distinct slots of the storage, and every brush
      in use keeps its invariants. */
  ghost predicate Valid(r: Renderer) {
    DepthGen.InRange(r.depth) &&
    (forall i :: 0 <= i < |r.free| ==> r.free[i] < |r.brushes|) && Distinct(r.free) &&
    (forall k :: InUse(r, k) ==> BrushOk(r.brushes[k], r.depth.epoch) && r.brushes[k].shader < r.nextShader) &&
    (forall k :: InUse(r, k) ==> Owned(r, k)) &&
    (forall h :: h in r.shaders ==> h < r.nextShader && ShaderOk(r, h))
  }

  /** `new`. */
  function New(): (r: Renderer)
    ensures Valid(r) && r.shaders == map[] && r.brushes == []
  {
    Renderer(DepthGen.New(), 0, map[], [], [], 0)
  }

  /** `create_shader`: a fresh handle for a shader with no brushes. */
  function CreateShader(r: Renderer, uniformStride: nat, instanceStride: nat): (res: (Renderer, nat))
    ensures var (r', h) := res;
            r'.shaders == r.shaders[h := Shader(uniformStride, instanceStride, [], [])] &&
            r'.brushes == r.brushes && r'.free == r.free && r'.depth == r.depth
    ensures Valid(r) ==> res.1 !in r.shaders && Valid(res.0)
  {
    var h := r.nextShader;
    var r' := r.(nextShader := h + 1, shaders := r.shaders[h := Shader(uniformStride, instanceStride, [], [])]);
    assert Valid(r) ==> Valid(r') by {
      if Valid(r) {
        forall g | g in r'.shaders ensures ShaderOk(r', g) {
          if g != h {
            assert ShaderOk(r, g);
          }
        }
        forall k | InUse(r', k) ensures Owned(r', k) {
          assert Owned(r, k);
        }
      }
    }
    (r', h)
  }

  /** `destroy_shader`: the handle must be live. Its brushes stay, no longer
      listed anywhere. */
  function DestroyShader(r: Renderer, h: nat): (r': Option<Renderer>)
    ensures r'.None? <==> h !in r.shaders
    ensures r'.Some? ==> r'.value.shaders == r.shaders - {h} && r'.value.brushes == r.brushes && r'.value.free == r.free
    ensures r'.Some? && Valid(r) ==> Valid(r'.value)
  {
    if h !in r.shaders then None
    else
      var r' := r.(shaders := r.shaders - {h});
      assert Valid(r) ==> Valid(r') by {
        if Valid(r) {
          forall g | g in r'.shaders ensures ShaderOk(r', g) {
            assert ShaderOk(r, g);
          }
          forall k | InUse(r', k) ensures Owned(r', k) {
            assert Owned(r, k);
          }
        }
      }
      Some(r')
  }

  /** The slot the arena's next insertion takes: the head of the free
      list, or a new slot past the storage. */
  function NextSlot(r: Renderer): nat {
    if |r.free| > 0 then r.free[|r.free| - 1] else |r.brushes|
  }

  /** `start_brush`: the uniform bytes are appended to the shader's, and
      must be exactly one uniform stride long; the new brush takes the
      arena's next slot, in this era, and goes at the end of the shader's
      list, with no instances. A free-list head past the storage is the
      arena's `unreachable!()`. */
  function StartBrush(r: Renderer, h: nat, uniform: seq<byte>): (res: Option<(Renderer, BrushHandle)>)
    ensures res.None? <==>
      h !in r.shaders || |uniform| != r.shaders[h].uniformStride || (|r.free| > 0 && NextSlot(r) >= |r.brushes|)
    ensures res.Some? ==> res.value.1 == BrushHandle(NextSlot(r), r.era) && res.value.0.era == r.era
    ensures res.Some? ==>
      var (r', hb) := res.value;
      var k := hb.slot;
      var s := r.shaders[h];
      (if |r.free| > 0 then
         |r'.brushes| == |r.brushes| && r'.free == r.free[..|r.free| - 1] &&
         forall j :: 0 <= j < |r.brushes| && j != k ==> r'.brushes[j] == r.brushes[j]
       else
         |r'.brushes| == k + 1 && r'.brushes[..k] == r.brushes && r'.free == []) &&
      r'.brushes[k].shader == h && r'.brushes[k].count == 0 && r'.brushes[k].starts == [] &&
      r'.shaders == r.shaders[h := s.(uniformData := s.uniformData + uniform, brushes := s.brushes + [k])] &&
      r'.depth == r.depth && r'.nextShader == r.nextShader
  {
    var k := NextSlot(r);
    if h !in r.shaders || |uniform| != r.shaders[h].uniformStride || (|r.free| > 0 && k >= |r.brushes|) then None
    else
      var s := r.shaders[h];
      var b := Brush(h, |s.uniformData|, [], 0, 0, [], r.depth.epoch);
      var brushes := if k < |r.brushes| then r.brushes[k := b] else r.brushes + [b];
      var free := if |r.free| > 0 then r.free[..|r.free| - 1] else r.free;
      Some((r.(shaders := r.shaders[h := s.(uniformData := s.uniformData + uniform, brushes := s.brushes + [k])],
               brushes := brushes, free := free), BrushHandle(k, r.era)))
  }

  /** Starting a brush keeps every invariant, and the n-th brush started
      on a shader since the reset owns uniform bytes n·stride up to
      (n+1)·stride: the bytes it was started with. */
  lemma StartBrushValid(r: Renderer, h: nat, uniform: seq<byte>)
    requires Valid(r) && StartBrush(r, h, uniform).Some?
    ensures var (r', hb) := StartBrush(r, h, uniform).value;
            var k := hb.slot;
            var s := r'.shaders[h];
            var n := |s.brushes| - 1;
            Valid(r') && n >= 0 && s.brushes[n] == k &&
            r'.brushes[k].uniformOffset == n * s.uniformStride &&
            s.uniformData[n * s.uniformStride..(n + 1) * s.uniformStride] == uniform
  {
    var (r', hb) := StartBrush(r, h, uniform).value;
    var k := hb.slot;
    StartBrushValidParts(r, h, uniform);
    StartBrushSame(r, h, uniform);
    var s := r.shaders[h];
    var s' := r'.shaders[h];
    assert ShaderOk(r, h);
    assert s'.brushes[|s.brushes|] == k;
    assert r'.brushes[s'.brushes[|s.brushes|]].uniformOffset == |s.brushes| * s'.uniformStride;
    SlotSlice(s.uniformData, uniform, |s.brushes|, s.uniformStride);
  }

  lemma StartBrushValidParts(r: Renderer, h: nat, uniform: seq<byte>)
    requires Valid(r) && StartBrush(r, h, uniform).Some?
    ensures Valid(StartBrush(r, h, uniform).value.0)
  {
    var (r', hb) := StartBrush(r, h, uniform).value;
    var k := hb.slot;
    StartBrushSlots(r, h, uniform);
    forall g | g in r'.shaders ensures g < r'.nextShader && ShaderOk(r', g) {
      if g != h {
        StartBrushOther(r, h, uniform, g);
      } else {
        StartBrushSame(r, h, uniform);
      }
    }
    forall j | InUse(r', j) ensures Owned(r', j) {
      if j != k {
        assert Owned(r, j);
      }
    }
  }

  /** The new brush's slot was not in use and now is; no other slot
      changes, and the free list stays distinct slots of the storage. */
  lemma StartBrushSlots(r: Renderer, h: nat, uniform: seq<byte>)
    requires Valid(r) && StartBrush(r, h, uniform).Some?
    ensures var (r', hb) := StartBrush(r, h, uniform).value;
            !InUse(r, hb.slot) && InUse(r', hb.slot) &&
            (forall j :: InUse(r', j) <==> InUse(r, j) || j == hb.slot) &&
            (forall j :: InUse(r, j) ==> r'.brushes[j] == r.brushes[j]) &&
            (forall i :: 0 <= i < |r'.free| ==> r'.free[i] < |r'.brushes|) && Distinct(r'.free)
  {
    var (r', hb) := StartBrush(r, h, uniform).value;
    var k := hb.slot;
    if |r.free| > 0 {
      var n := |r.free| - 1;
      assert r.free[n] == k;
      assert k !in r'.free by {
        forall i | 0 <= i < |r'.free| ensures r'.free[i] != k {
          assert r'.free[i] == r.free[i];
        }
      }
      forall j ensures InUse(r', j) <==> InUse(r, j) || j == k {
        assert j in r.free <==> j in r'.free || j == k by {
          assert r.free == r'.free + [k];
        }
      }
    }
  }

  /** Appending one slot's bytes to n full slots puts them at slot n. */
  lemma SlotSlice(data: seq<byte>, slot: seq<byte>, n: nat, stride: nat)
    requires |data| == n * stride && |slot| == stride
    ensures (n + 1) * stride == |data + slot|
    ensures (data + slot)[n * stride..(n + 1) * stride] == slot
  {
    assert (n + 1) * stride == n * stride + stride;
  }

  lemma StartBrushOther(r: Renderer, h: nat, uniform: seq<byte>, g: nat)
    requires Valid(r) && StartBrush(r, h, uniform).Some? && g in r.shaders && g != h
    ensures ShaderOk(StartBrush(r, h, uniform).value.0, g)
  {
    var r' := StartBrush(r, h, uniform).value.0;
    StartBrushSlots(r, h, uniform);
    assert ShaderOk(r, g);
    assert r'.shaders[g] == r.shaders[g];
    forall j | 0 <= j < |r.shaders[g].brushes|
      ensures InUse(r', r.shaders[g].brushes[j]) && r'.brushes[r.shaders[g].brushes[j]] == r.brushes[r.shaders[g].brushes[j]]
    {
      assert InUse(r, r.shaders[g].brushes[j]);
    }
  }

  lemma StartBrushSame(r: Renderer, h: nat, uniform: seq<byte>)
    requires Valid(r) && StartBrush(r, h, uniform).Some?
    ensures ShaderOk(StartBrush(r, h, uniform).value.0, h)
  {
    var (r', hb) := StartBrush(r, h, uniform).value;
    var k := hb.slot;
    var s := r.shaders[h];
    var s' := r'.shaders[h];
    StartBrushSlots(r, h, uniform);
    assert ShaderOk(r, h);
    var n := |s.brushes|;
    assert (n + 1) * s.uniformStride == n * s.uniformStride + s.uniformStride;
    forall j | 0 <= j < |s'.brushes|
      ensures InUse(r', s'.brushes[j]) && r'.brushes[s'.brushes[j]].shader == h &&
              r'.brushes[s'.brushes[j]].uniformOffset == j * s'.uniformStride
    {
      if j < n {
        assert s'.brushes[j] == s.brushes[j] && InUse(r, s.brushes[j]);
      }
    }
    forall i, j | 0 <= i < j < |s'.brushes| ensures s'.brushes[i] != s'.brushes[j] {
      if j == n {
        assert InUse(r, s.brushes[i]);
      } else {
        assert s'.brushes[i] == s.brushes[i] && s'.brushes[j] == s.brushes[j];
      }
    }
  }

  /** The epoch runs after pushing one instance in epoch `curr` onto `b`. */
  function PushStarts(b: Brush, curr: nat): (res: (seq<(nat, nat)>, nat))
    ensures var (starts, last) := res;
            last == curr &&
            (if |b.starts| > 0 && b.lastEpoch == curr then starts == b.starts
             else if |b.starts| == 0 then starts == [(curr, 0)]
             else starts == b.starts + [(curr, b.count)])
  {
    var (starts1, last1) := if |b.starts| == 0 then ([(curr, 0)], curr) else (b.starts, b.lastEpoch);
    if curr != last1 then (starts1 + [(curr, b.count)], curr) else (starts1, last1)
  }

  /** `push_instance`: open a run when the depth epoch changed since the
      brush's last instance, append the instance's bytes (which must be
      one instance stride long), count it (a 32-bit checked addition), and
      take one depth step. A handle from an earlier era, or to a free
      slot, panics. */
  function PushInstance(r: Renderer, hb: BrushHandle, instance: seq<byte>): (r': Option<Renderer>)
    requires DepthGen.InRange(r.depth)
    ensures var k := hb.slot;
      r'.None? <==>
      hb.era != r.era || !InUse(r, k) || r.brushes[k].shader !in r.shaders ||
      |instance| != r.shaders[r.brushes[k].shader].instanceStride ||
      r.brushes[k].count >= DepthRuns.U32_MAX || DepthGen.Next(r.depth).None?
    ensures r'.Some? ==> InUse(r, hb.slot) && |r'.value.brushes| == |r.brushes| && r'.value.free == r.free && r'.value.era == r.era
    ensures r'.Some? ==>
      var k := hb.slot;
      var b := r.brushes[k];
      var b' := r'.value.brushes[k];
      r'.value.depth == DepthGen.Next(r.depth).value &&
      |r'.value.brushes| == |r.brushes| &&
      (forall j :: 0 <= j < |r.brushes| && j != k ==> r'.value.brushes[j] == r.brushes[j]) &&
      r'.value.shaders == r.shaders &&
      b'.data == b.data + instance && b'.count == b.count + 1 &&
      b'.shader == b.shader && b'.uniformOffset == b.uniformOffset && b'.bufOffset == b.bufOffset &&
      b'.starts == PushStarts(b, r.depth.epoch).0
  {
    var k := hb.slot;
    if hb.era != r.era || !InUse(r, k) then None
    else
      var b := r.brushes[k];
      var (starts, last) := PushStarts(b, r.depth.epoch);
      if b.shader !in r.shaders || |instance| != r.shaders[b.shader].instanceStride then None
      else if b.count + 1 > DepthRuns.U32_MAX then None
      else
        match DepthGen.Next(r.depth)
        case None => None
        case Some(g) =>
          Some(r.(depth := g, brushes := r.brushes[k := b.(data := b.data + instance, count := b.count + 1, starts := starts, lastEpoch := last)]))
  }

  /** A push keeps every invariant: the brush's runs still start at 0 with
      strictly increasing epochs and starts, and its bytes are still one
      stride per instance. */
  lemma PushInstanceValid(r: Renderer, hb: BrushHandle, instance: seq<byte>)
    requires Valid(r) && PushInstance(r, hb, instance).Some?
    ensures Valid(PushInstance(r, hb, instance).value)
  {
    var r' := PushInstance(r, hb, instance).value;
    PushKeepsBrushes(r, hb, instance);
    PushKeepsOwned(r, hb, instance);
    forall h | h in r'.shaders ensures ShaderOk(r', h) {
      assert ShaderOk(r, h);
    }
  }

  /** After a push every brush still has increasing epochs and starts. */
  lemma PushKeepsBrushes(r: Renderer, hb: BrushHandle, instance: seq<byte>)
    requires Valid(r) && PushInstance(r, hb, instance).Some?
    ensures var r' := PushInstance(r, hb, instance).value;
      forall j :: InUse(r', j) ==> BrushOk(r'.brushes[j], r'.depth.epoch) && r'.brushes[j].shader < r'.nextShader
  {
    var r' := PushInstance(r, hb, instance).value;
    var k := hb.slot;
    var b := r.brushes[k];
    var b' := r'.brushes[k];
    assert BrushOk(b, r.depth.epoch);
    assert r.depth.epoch <= r'.depth.epoch;
    assert BrushOk(b', r'.depth.epoch) by {
      if |b.starts| > 0 && b.lastEpoch != r.depth.epoch {
        assert b.lastEpoch < r.depth.epoch;
      }
    }
    forall j | InUse(r', j) ensures BrushOk(r'.brushes[j], r'.depth.epoch) {
      if j != k {
        assert BrushOk(r.brushes[j], r.depth.epoch);
      }
    }
  }

  /** After a push every brush's bytes are still one stride per instance. */
  lemma PushKeepsOwned(r: Renderer, hb: BrushHandle, instance: seq<byte>)
    requires Valid(r) && PushInstance(r, hb, instance).Some?
    ensures var r' := PushInstance(r, hb, instance).value;
      forall j :: InUse(r', j) ==> Owned(r', j)
  {
    var r' := PushInstance(r, hb, instance).value;
    var b := r.brushes[hb.slot];
    forall j | InUse(r', j) ensures Owned(r', j) {
      assert Owned(r, j);
      if j == hb.slot {
        var stride := r.shaders[b.shader].instanceStride;
        assert (b.count + 1) * stride == b.count * stride + stride;
      }
    }
  }

  /** `reset`: depth back to the start, every shader's uniform bytes and
      brush list emptied, a new era of brush handles; shader handles and
      strides stay. Clearing the arena pushes the slots in use onto its
      free list in ascending order, so afterwards no slot is in use and the
      highest one formerly in use is the first to be reused. */
  function Reset(r: Renderer): (r': Renderer)
    ensures Valid(r) ==> Valid(r')
    ensures r'.depth == DepthGen.New() && r'.era > r.era && r'.nextShader == r.nextShader
    ensures r'.brushes == r.brushes && r'.free == r.free + SlotsInUse(|r.brushes|, r.free)
    ensures (forall k :: !InUse(r', k)) && Len(r') == 0
    ensures r'.shaders.Keys == r.shaders.Keys
    ensures forall h :: h in r.shaders ==>
      r'.shaders[h] == r.shaders[h].(uniformData := [], brushes := [])
  {
    var used := SlotsInUse(|r.brushes|, r.free);
    var r' := Renderer(DepthGen.New(), r.nextShader,
                       map h | h in r.shaders :: r.shaders[h].(uniformData := [], brushes := []),
                       r.brushes, r.free + used, r.era + 1);
    FreeEverySlot(|r.brushes|, r.free);
    r'
  }

  /** Pushing the slots in use onto the free list frees every slot: the
      list still names distinct slots of the storage, and none is left in
      use. */
  lemma FreeEverySlot(n: nat, free: seq<nat>)
    ensures var free' := free + SlotsInUse(n, free);
            (forall k :: 0 <= k < n ==> k in free') && SlotsInUse(n, free') == [] &&
            ((forall i :: 0 <= i < |free| ==> free[i] < n) && Distinct(free) ==>
               (forall i :: 0 <= i < |free'| ==> free'[i] < n) && Distinct(free'))
  {
    var used := SlotsInUse(n, free);
    var free' := free + used;
    assert forall k :: 0 <= k < n ==> k in free';
    NoneInUse(n, free');
    if (forall i :: 0 <= i < |free| ==> free[i] < n) && Distinct(free) {
      forall i, j | 0 <= i < j < |free'| ensures free'[i] != free'[j] {
        if j < |free| {
        } else if i < |free| {
          assert free'[j] in used;
        } else {
          assert free'[i] == used[i - |free|] && free'[j] == used[j - |free|];
        }
      }
      forall i | 0 <= i < |free'| ensures free'[i] < n {
        if i >= |free| {
          assert free'[i] in used;
        }
      }
    }
  }

  /** When every slot below n is free, none is in use. */
  lemma {:induction false} NoneInUse(n: nat, free: seq<nat>)
    requires forall k :: 0 <= k < n ==> k in free
    ensures SlotsInUse(n, free) == []
  {
    if n > 0 {
      NoneInUse(n - 1, free);
    }
  }

  /** A brush handle kept across a reset is dead even once a new brush
      takes its slot: the first brush started after the reset takes the
      highest slot in use before it, yet pushing through the pre-reset
      handle to that slot panics while the new handle works. */
  lemma StaleHandleAfterReset(r: Renderer, h: nat, uniform: seq<byte>, instance: seq<byte>)
    requires Valid(r) && h in r.shaders && |uniform| == r.shaders[h].uniformStride
    requires |instance| == r.shaders[h].instanceStride
    ensures var used := SlotsInUse(|r.brushes|, r.free);
            var res := StartBrush(Reset(r), h, uniform);
            res.Some? &&
            (|used| > 0 ==> res.value.1.slot == used[|used| - 1] && forall k :: k in used ==> k <= res.value.1.slot) &&
            PushInstance(res.value.0, BrushHandle(res.value.1.slot, r.era), instance).None? &&
            PushInstance(res.value.0, res.value.1, instance).Some?
  {
    var r1 := Reset(r);
    ResetReusesHighest(r, h, uniform);
    var (r2, hb) := StartBrush(r1, h, uniform).value;
    StartBrushFresh(r1, h, uniform, instance);
    assert r2.era == r1.era > r.era;
  }

  /** After a reset a start succeeds, taking the highest slot in use
      before the reset when there was one. */
  lemma ResetReusesHighest(r: Renderer, h: nat, uniform: seq<byte>)
    requires Valid(r) && h in r.shaders && |uniform| == r.shaders[h].uniformStride
    ensures var used := SlotsInUse(|r.brushes|, r.free);
            var res := StartBrush(Reset(r), h, uniform);
            Valid(Reset(r)) && Reset(r).depth == DepthGen.New() && res.Some? &&
            res.value.0.shaders[h].instanceStride == r.shaders[h].instanceStride &&
            (|used| > 0 ==> res.value.1.slot == used[|used| - 1] && forall k :: k in used ==> k <= res.value.1.slot)
  {
    var used := SlotsInUse(|r.brushes|, r.free);
    var r1 := Reset(r);
    assert r1.shaders[h] == r.shaders[h].(uniformData := [], brushes := []);
    if |r1.free| > 0 {
      assert r1.free[|r1.free| - 1] < |r1.brushes|;
    }
    assert StartBrush(r1, h, uniform).Some?;
    if |used| > 0 {
      assert r1.free[|r1.free| - 1] == used[|used| - 1];
      LastIsHighest(used);
    }
  }

  /** The last of an ascending list is its highest element. */
  lemma LastIsHighest(s: seq<nat>)
    requires |s| > 0 && forall i, j :: 0 <= i < j < |s| ==> s[i] < s[j]
    ensures forall k :: k in s ==> k <= s[|s| - 1]
  {
    forall k | k in s ensures k <= s[|s| - 1] {
      var i :| 0 <= i < |s| && s[i] == k;
    }
  }

  /** A brush just started takes instances of its shader's stride. */
  lemma StartBrushFresh(r: Renderer, h: nat, uniform: seq<byte>, instance: seq<byte>)
    requires Valid(r) && StartBrush(r, h, uniform).Some? && |instance| == r.shaders[h].instanceStride
    requires r.depth == DepthGen.New()
    ensures var (r2, hb) := StartBrush(r, h, uniform).value;
            PushInstance(r2, hb, instance).Some?
  {
    var (r2, hb) := StartBrush(r, h, uniform).value;
    StartBrushValid(r, h, uniform);
    StartBrushSlots(r, h, uniform);
    assert r2.shaders[h].instanceStride == r.shaders[h].instanceStride;
    assert r2.brushes[hb.slot].count == 0 && r2.brushes[hb.slot].shader == h;
  }
}

=== FILE: bvh.dfy ===
/** The dynamic bounding volume hierarchy of the client (`Bhv`): a binary
    tree whose leaves hold values with boxes and whose branches hold a box
    meant to bound their children. The arena of the source is represented
    by the tree itself: every node carries its arena index (`id`), and a
    node's parent is the branch that holds it, so parent and child links
    agree by construction. Boxes are `f32` rectangles in the source and
    rectangles over `real` here. The choice of sibling for a new leaf (a
    surface-area search) is a parameter; the rotation choice is computed by
    the source's cost formula. */
module Bvh {
  import opened Wrappers

  // ---------------------------------------------------------------------
  // Boxes

  datatype Box = Box(minX: real, minY: real, maxX: real, maxY: real)

  predicate Contains(outer: Box, inner: Box) {
    outer.minX <= inner.minX && outer.minY <= inner.minY &&
    inner.maxX <= outer.maxX && inner.maxY <= outer.maxY
  }

  function RMin(a: real, b: real): real { if a <= b then a else b }
  function RMax(a: real, b: real): real { if a <= b then b else a }

  /** `Aabb::union`: the least box containing both. */
  function Union(a: Box, b: Box): (u: Box)
    ensures Contains(u, a) && Contains(u, b)
    ensures forall c :: Contains(c, a) && Contains(c, b) ==> Contains(c, u)
  {
    Box(RMin(a.minX, b.minX), RMin(a.minY, b.minY), RMax(a.maxX, b.maxX), RMax(a.maxY, b.maxY))
  }

  /** `GenericAabb::surface_area`: twice width plus height. */
  function SurfaceArea(a: Box): real {
    ((a.maxX - a.minX) + (a.maxY - a.minY)) * 2.0
  }

  lemma UnionAC(a: Box, b: Box, c: Box)
    ensures Union(a, b) == Union(b, a)
    ensures Union(Union(a, b), c) == Union(a, Union(b, c))
  {
  }

  // ---------------------------------------------------------------------
  // Trees

  datatype Tree<T> =
    | Leaf(id: nat, aabb: Box, value: T)
    | Branch(id: nat, aabb: Box, left: Tree<T>, right: Tree<T>)

  /** `BvhNodeView::is_branch`. */
  function IsBranch<T>(t: Tree<T>): bool {
    match t
    case Branch(_, _, _, _) => true
    case Leaf(_, _, _) => false
  }

  /** `BvhNodeView::is_leaf`: the complement of `is_branch`. */
  function IsLeaf<T>(t: Tree<T>): (b: bool)
    ensures b == !IsBranch(t)
    ensures b <==> t.Leaf?
  {
    match t
    case Branch(_, _, _, _) => false
    case Leaf(_, _, _) => true
  }

  /** Every branch's box contains its children's boxes, all the way down,
      so a query pruned by a branch box misses no leaf. */
  ghost predicate Bounded<T>(t: Tree<T>) {
    t.Branch? ==>
      Contains(t.aabb, t.left.aabb) && Contains(t.aabb, t.right.aabb) &&
      Bounded(t.left) && Bounded(t.right)
  }

  /** Every branch's box is exactly the union of its children's boxes. */
  ghost predicate Fitted<T>(t: Tree<T>) {
    t.Branch? ==>
      t.aabb == Union(t.left.aabb, t.right.aabb) && Fitted(t.left) && Fitted(t.right)
  }

  lemma {:induction false} FittedBounded<T>(t: Tree<T>)
    requires Fitted(t)
    ensures Bounded(t)
  {
    if t.Branch? {
      FittedBounded(t.left);
      FittedBounded(t.right);
    }
  }

  /** The arena indices of all nodes. */
  function Ids<T>(t: Tree<T>): multiset<nat> {
    match t
    case Leaf(id, _, _) => multiset{id}
    case Branch(id, _, l, r) => multiset{id} + Ids(l) + Ids(r)
  }

  /** The leaves as (index, box, value) triples, with multiplicity. */
  function Leaves<T(==)>(t: Tree<T>): multiset<(nat, Box, T)> {
    match t
    case Leaf(id, box, v) => multiset{(id, box, v)}
    case Branch(_, _, l, r) => Leaves(l) + Leaves(r)
  }

  /** No arena index occurs twice. */
  ghost predicate Unique<T>(t: Tree<T>) {
    forall i :: Ids(t)[i] <= 1
  }

  /** Every index was handed out before `next`. */
  ghost predicate Below<T>(t: Tree<T>, next: nat) {
    forall i :: i in Ids(t) ==> i < next
  }

  lemma UniqueParts<T>(t: Tree<T>)
    requires t.Branch? && Unique(t)
    ensures Unique(t.left) && Unique(t.right)
    ensures t.left.id != t.right.id
    ensures t.left.id != t.id && t.right.id != t.id
    ensures forall i :: i in Ids(t.left) ==> i !in Ids(t.right) && i != t.id
  {
    forall i ensures Ids(t.left)[i] <= 1 && Ids(t.right)[i] <= 1 {
      assert Ids(t)[i] == multiset{t.id}[i] + Ids(t.left)[i] + Ids(t.right)[i];
    }
    IdIn(t.left);
    IdIn(t.right);
    var ids := Ids(t);
    assert ids[t.left.id] == multiset{t.id}[t.left.id] + Ids(t.left)[t.left.id] + Ids(t.right)[t.left.id];
    assert ids[t.right.id] == multiset{t.id}[t.right.id] + Ids(t.left)[t.right.id] + Ids(t.right)[t.right.id];
    forall i | i in Ids(t.left)
      ensures i !in Ids(t.right) && i != t.id
    {
      assert Ids(t)[i] == multiset{t.id}[i] + Ids(t.left)[i] + Ids(t.right)[i];
    }
  }

  /** The two children of every branch carry different indices. */
  ghost predicate SiblingsDistinct<T>(t: Tree<T>) {
    t.Branch? ==> t.left.id != t.right.id && SiblingsDistinct(t.left) && SiblingsDistinct(t.right)
  }

  lemma {:induction false} UniqueSiblingsDistinct<T>(t: Tree<T>)
    requires Unique(t)
    ensures SiblingsDistinct(t)
  {
    if t.Branch? {
      UniqueParts(t);
      UniqueSiblingsDistinct(t.left);
      UniqueSiblingsDistinct(t.right);
    }
  }

  lemma IdIn<T>(t: Tree<T>)
    ensures t.id in Ids(t)
  {
  }

  // ---------------------------------------------------------------------
  // Paths

  /** A path names a node by its left (`false`) and right (`true`) turns
      from the root. */
  predicate ValidPath<T>(t: Tree<T>, p: seq<bool>)
    decreases |p|
  {
    |p| == 0 || (t.Branch? && ValidPath(if p[0] then t.right else t.left, p[1..]))
  }

  function At<T>(t: Tree<T>, p: seq<bool>): Tree<T>
    requires ValidPath(t, p)
    decreases |p|
  {
    if |p| == 0 then t else At(if p[0] then t.right else t.left, p[1..])
  }

  /** The path to the first node (in pre-order) with index `id`. */
  function FindPath<T>(t: Tree<T>, id: nat): (r: Option<seq<bool>>)
    ensures r.Some? ==> ValidPath(t, r.value) && At(t, r.value).id == id
    ensures r.None? <==> id !in Ids(t)
  {
    if t.id == id then Some([])
    else if t.Leaf? then None
    else match FindPath(t.left, id)
      case Some(p) => Some([false] + p)
      case None =>
        match FindPath(t.right, id)
        case Some(p) => Some([true] + p)
        case None => None
  }

  // ---------------------------------------------------------------------
  // Rotation

  /** `true` when cost `a` is below cost `b`; `None` is an infinite cost. */
  predicate CostLess(a: Option<real>, b: Option<real>) {
    a.Some? && (b.None? || a.value < b.value)
  }

  /** The cost of swapping each child of `main` with `other`: the box of
      `other` with the grandchild's sibling, less `main`'s area; infinite
      when `main` is a leaf. */
  function SideCosts<T>(main: Tree<T>, other: Tree<T>): (r: seq<Option<real>>)
    ensures |r| == 2
    ensures r[0].Some? <==> main.Branch?
    ensures r[1].Some? <==> main.Branch?
  {
    match main
    case Leaf(_, _, _) => [None, None]
    case Branch(_, mbox, g0, g1) =>
      [Some(SurfaceArea(Union(other.aabb, g1.aabb)) - SurfaceArea(mbox)),
       Some(SurfaceArea(Union(other.aabb, g0.aabb)) - SurfaceArea(mbox))]
  }

  /** The index of the first least cost, as `min_by` over the flattened
      table keeps the earlier of two equal costs. */
  function FirstMin(s: seq<Option<real>>): (i: nat)
    requires |s| > 0
    ensures i < |s|
    ensures forall j :: 0 <= j < |s| ==> !CostLess(s[j], s[i])
    ensures forall j :: 0 <= j < i ==> CostLess(s[i], s[j])
  {
    if |s| == 1 then 0
    else
      var k := FirstMin(s[..|s| - 1]);
      assert forall j :: 0 <= j < |s| - 1 ==> s[..|s| - 1][j] == s[j];
      if CostLess(s[|s| - 1], s[k]) then |s| - 1 else k
  }

  /** `rotate_branch_optimally`'s choice: which child is `main` and which
      of its children is swapped, or `None` when the best cost is positive
      (or infinite). */
  function Rotation<T>(c0: Tree<T>, c1: Tree<T>): (r: Option<(nat, nat)>)
    ensures r.Some? ==> r.value.0 < 2 && r.value.1 < 2
    ensures r.Some? && r.value.0 == 0 ==> c0.Branch?
    ensures r.Some? && r.value.0 == 1 ==> c1.Branch?
  {
    var costs := SideCosts(c0, c1) + SideCosts(c1, c0);
    var i := FirstMin(costs);
    if costs[i].None? || costs[i].value > 0.0 then None
    else Some((i / 2, i % 2))
  }

  /** The four links of a rotation: the grandchild takes `other`'s place
      under the branch, and `other` takes the grandchild's place under
      `main`. With `refit` the box of `main` is recomputed from its new
      children; without it (as the source does) it is left as it was. */
  function Relink<T>(n: Tree<T>, m: nat, g: nat, refit: bool): (r: Tree<T>)
    requires n.Branch? && m < 2 && g < 2
    requires (if m == 0 then n.left else n.right).Branch?
    ensures r.Branch? && r.id == n.id && r.aabb == n.aabb
  {
    var main := if m == 0 then n.left else n.right;
    var other := if m == 0 then n.right else n.left;
    var gc := if g == 0 then main.left else main.right;
    var kept := if g == 0 then main.right else main.left;
    var ml := if g == 0 then other else kept;
    var mr := if g == 0 then kept else other;
    var newMain := Branch(main.id, if refit then Union(ml.aabb, mr.aabb) else main.aabb, ml, mr);
    if m == 0 then Branch(n.id, n.aabb, newMain, gc) else Branch(n.id, n.aabb, gc, newMain)
  }

  function Rotate<T>(n: Tree<T>, refit: bool): (r: Tree<T>)
    ensures r.id == n.id && r.aabb == n.aabb && r.Branch? == n.Branch?
  {
    if n.Leaf? then n
    else match Rotation(n.left, n.right)
      case None => n
      case Some((m, g)) => Relink(n, m, g, refit)
  }

  /** Refit a branch's box to its children. */
  function Refit<T>(n: Tree<T>): (r: Tree<T>)
    ensures r.Branch? ==> Contains(r.aabb, r.left.aabb) && Contains(r.aabb, r.right.aabb)
  {
    match n
    case Leaf(_, _, _) => n
    case Branch(id, _, l, r) => Branch(id, Union(l.aabb, r.aabb), l, r)
  }

  /** One step of the walk back up: refit, then rotate. */
  function Adjust<T>(n: Tree<T>, refit: bool): Tree<T> {
    Rotate(Refit(n), refit)
  }

  // ---------------------------------------------------------------------
  // insert_leaf

  /** Insert `leaf` next to the node at `path` under a new branch `pid`,
      then adjust every node from the new branch back up to `node`,
      deepest first. A path that runs into a leaf stops there, so every
      node of the tree is a possible sibling. */
  function InsertRec<T>(node: Tree<T>, path: seq<bool>, leaf: Tree<T>, pid: nat, refit: bool): (r: Tree<T>)
    ensures r.Branch?
    decreases |path|, 1
  {
    Adjust(InsertStep(node, path, leaf, pid, refit), refit)
  }

  /** The branch handed to `Adjust` at `node` on the way back up: the new
      branch itself at the end of the path, otherwise `node` with the child
      on the path replaced by the result of inserting below it. */
  function InsertStep<T>(node: Tree<T>, path: seq<bool>, leaf: Tree<T>, pid: nat, refit: bool): (a: Tree<T>)
    ensures a.Branch?
    decreases |path|, 0
  {
    if |path| == 0 || node.Leaf? then Branch(pid, Union(leaf.aabb, node.aabb), node, leaf)
    else if !path[0] then Branch(node.id, node.aabb, InsertRec(node.left, path[1..], leaf, pid, refit), node.right)
    else Branch(node.id, node.aabb, node.left, InsertRec(node.right, path[1..], leaf, pid, refit))
  }

  datatype Bvh<T> = Bvh(root: Option<Tree<T>>, next: nat)

  /** `Bhv::new`. */
  function Empty<T>(): (b: Bvh<T>)
    ensures b.root.None?
  {
    Bvh(None, 0)
  }

  ghost predicate Valid<T>(b: Bvh<T>) {
    b.root.Some? ==> Bounded(b.root.value) && Unique(b.root.value) && Below(b.root.value, b.next)
  }

  /** `insert_leaf` as written: on an empty tree the root is set to the
      leaf and the routine carries on, so the sibling search (which can
      only find the root) pairs the leaf with itself; rotations leave the
      box of `main` stale. */
  function InsertLeafAsWritten<T>(root: Option<Tree<T>>, leaf: Tree<T>, path: seq<bool>, pid: nat): (r: Tree<T>)
  {
    match root
    case None => InsertRec(leaf, [], leaf, pid, false)
    case Some(t) => InsertRec(t, path, leaf, pid, false)
  }

  /** `Bhv::insert` as written: the new leaf takes the next index, the new
      branch the one after. */
  function InsertAsWritten<T>(b: Bvh<T>, aabb: Box, value: T, path: seq<bool>): (r: (Bvh<T>, nat))
    ensures r.1 == b.next
  {
    var leaf := Leaf(b.next, aabb, value);
    (Bvh(Some(InsertLeafAsWritten(b.root, leaf, path, b.next + 1)), b.next + 2), b.next)
  }

  /** The corrected `insert_leaf`: an empty tree becomes the leaf alone,
      and a rotation refits `main`. */
  function InsertLeaf<T>(root: Option<Tree<T>>, leaf: Tree<T>, path: seq<bool>, pid: nat): (r: Tree<T>)
    ensures leaf.Leaf? ==>
      Ids(r) == if root.None? then Ids(leaf) else Ids(root.value) + multiset{pid, leaf.id}
    ensures leaf.Leaf? ==>
      Leaves(r) == (if root.None? then multiset{} else Leaves(root.value)) + multiset{(leaf.id, leaf.aabb, leaf.value)}
  {
    match root
    case None => leaf
    case Some(t) =>
      if leaf.Leaf? then
        InsertRecIds(t, path, leaf, pid, true);
        InsertRecLeaves(t, path, leaf, pid, true);
        InsertRec(t, path, leaf, pid, true)
      else InsertRec(t, path, leaf, pid, true)
  }

  /** The corrected `Bhv::insert`: the handle returned is fresh, and the
      leaf multiset gains exactly one leaf, with that handle, box and
      value. */
  function Insert<T(==)>(b: Bvh<T>, aabb: Box, value: T, path: seq<bool>): (r: (Bvh<T>, nat))
    requires Valid(b)
    ensures Valid(r.0) && r.0.root.Some?
    ensures r.1 == b.next
    ensures Leaves(r.0.root.value) == (if b.root.None? then multiset{} else Leaves(b.root.value)) + multiset{(r.1, aabb, value)}
  {
    var leaf := Leaf(b.next, aabb, value);
    var root := InsertLeaf(b.root, leaf, path, b.next + 1);
    InsertLeafFacts(b, leaf, path);
    (Bvh(Some(root), b.next + 2), b.next)
  }

  lemma InsertLeafFacts<T>(b: Bvh<T>, leaf: Tree<T>, path: seq<bool>)
    requires Valid(b) && leaf.Leaf? && leaf.id == b.next
    ensures Valid(Bvh(Some(InsertLeaf(b.root, leaf, path, b.next + 1)), b.next + 2))
    ensures Leaves(InsertLeaf(b.root, leaf, path, b.next + 1)) ==
              (if b.root.None? then multiset{} else Leaves(b.root.value)) + multiset{(leaf.id, leaf.aabb, leaf.value)}
  {
    if b.root.Some? {
      assert InsertLeaf(b.root, leaf, path, b.next + 1) == InsertRec(b.root.value, path, leaf, b.next + 1, true);
      InsertIntoTree(b.root.value, b.next, leaf, path);
    } else {
      LoneLeafValid(b, leaf, path);
    }
  }

  /** A lone leaf whose index is the next free one makes a valid tree. */
  lemma LoneLeafValid<T>(b: Bvh<T>, leaf: Tree<T>, path: seq<bool>)
    requires b.root.None? && leaf.Leaf? && leaf.id == b.next
    ensures Valid(Bvh(Some(InsertLeaf(b.root, leaf, path, b.next + 1)), b.next + 2))
  {
    assert InsertLeaf(b.root, leaf, path, b.next + 1) == leaf;
    assert Ids(leaf) == multiset{b.next};
  }

  lemma InsertIntoTree<T>(t: Tree<T>, next: nat, leaf: Tree<T>, path: seq<bool>)
    requires Bounded(t) && Unique(t) && Below(t, next) && leaf.Leaf? && leaf.id == next
    ensures Valid(Bvh(Some(InsertRec(t, path, leaf, next + 1, true)), next + 2))
    ensures Leaves(InsertRec(t, path, leaf, next + 1, true)) == Leaves(t) + multiset{(leaf.id, leaf.aabb, leaf.value)}
  {
    var root := InsertRec(t, path, leaf, next + 1, true);
    InsertRecIds(t, path, leaf, next + 1, true);
    InsertRecLeaves(t, path, leaf, next + 1, true);
    InsertRecBounded(t, path, leaf, next + 1);
    FreshUnique(t, next, root);
  }

  lemma FreshUnique<T>(t: Tree<T>, next: nat, r: Tree<T>)
    requires Unique(t) && Below(t, next)
    requires Ids(r) == Ids(t) + multiset{next + 1, next}
    ensures Unique(r) && Below(r, next + 2)
  {
    forall i ensures Ids(r)[i] <= 1 {
      if i == next || i == next + 1 {
        assert i !in Ids(t);
      }
    }
  }

  // ---------------------------------------------------------------------
  // Rotation keeps the nodes and leaves

  lemma RotateKeepsIds<T>(n: Tree<T>, refit: bool)
    ensures Ids(Rotate(n, refit)) == Ids(n)
  {
    if n.Branch? {
      match Rotation(n.left, n.right)
      case None =>
      case Some((m, g)) => RelinkIds(n, m, g, refit);
    }
  }

  lemma RotateKeepsLeaves<T>(n: Tree<T>, refit: bool)
    ensures Leaves(Rotate(n, refit)) == Leaves(n)
  {
    if n.Branch? {
      match Rotation(n.left, n.right)
      case None =>
      case Some((m, g)) => RelinkLeaves(n, m, g, refit);
    }
  }

  lemma RelinkIds<T>(n: Tree<T>, m: nat, g: nat, refit: bool)
    requires n.Branch? && m < 2 && g < 2
    requires (if m == 0 then n.left else n.right).Branch?
    ensures Ids(Relink(n, m, g, refit)) == Ids(n)
  {
    var main := if m == 0 then n.left else n.right;
    var other := if m == 0 then n.right else n.left;
    var gc := if g == 0 then main.left else main.right;
    var kept := if g == 0 then main.right else main.left;
    SwapIds(n.id, n.aabb, main, other, gc, kept, Relink(n, m, g, refit));
  }

  lemma RelinkLeaves<T>(n: Tree<T>, m: nat, g: nat, refit: bool)
    requires n.Branch? && m < 2 && g < 2
    requires (if m == 0 then n.left else n.right).Branch?
    ensures Leaves(Relink(n, m, g, refit)) == Leaves(n)
  {
    var main := if m == 0 then n.left else n.right;
    var other := if m == 0 then n.right else n.left;
    var gc := if g == 0 then main.left else main.right;
    var kept := if g == 0 then main.right else main.left;
    SwapLeaves(n.id, n.aabb, main, other, gc, kept, Relink(n, m, g, refit));
  }

  /** The nodes after a rotation: the branch, `main` (re-boxed), and the
      three moved subtrees, one of them now a child of the branch. */
  ghost predicate Rotated<T>(id: nat, aabb: Box, main: Tree<T>, other: Tree<T>, gc: Tree<T>, kept: Tree<T>, r: Tree<T>) {
    main.Branch? && r.Branch? && r.id == id &&
    ((r.left == gc && r.right.Branch? && r.right.id == main.id &&
      ((r.right.left == other && r.right.right == kept) || (r.right.left == kept && r.right.right == other))) ||
     (r.right == gc && r.left.Branch? && r.left.id == main.id &&
      ((r.left.left == other && r.left.right == kept) || (r.left.left == kept && r.left.right == other))))
  }

  lemma SwapIds<T>(id: nat, aabb: Box, main: Tree<T>, other: Tree<T>, gc: Tree<T>, kept: Tree<T>, r: Tree<T>)
    requires Rotated(id, aabb, main, other, gc, kept, r)
    requires (main.left == gc && main.right == kept) || (main.left == kept && main.right == gc)
    ensures Ids(r) == multiset{id} + Ids(main) + Ids(other)
  {
    assert Ids(main) == multiset{main.id} + Ids(gc) + Ids(kept);
  }

  lemma SwapLeaves<T>(id: nat, aabb: Box, main: Tree<T>, other: Tree<T>, gc: Tree<T>, kept: Tree<T>, r: Tree<T>)
    requires Rotated(id, aabb, main, other, gc, kept, r)
    requires (main.left == gc && main.right == kept) || (main.left == kept && main.right == gc)
    ensures Leaves(r) == Leaves(main) + Leaves(other)
  {
    assert Leaves(main) == Leaves(gc) + Leaves(kept);
  }

  lemma AdjustKeepsIds<T>(n: Tree<T>, refit: bool)
    ensures Ids(Adjust(n, refit)) == Ids(n)
  {
    RotateKeepsIds(Refit(n), refit);
  }

  lemma AdjustKeepsLeaves<T>(n: Tree<T>, refit: bool)
    ensures Leaves(Adjust(n, refit)) == Leaves(n)
  {
    RotateKeepsLeaves(Refit(n), refit);
  }

  /** A refitting rotation of a branch whose box bounds its children keeps
      every box bounding. */
  lemma RotateBounded<T>(n: Tree<T>)
    requires n.Branch? && Contains(n.aabb, n.left.aabb) && Contains(n.aabb, n.right.aabb)
    requires Bounded(n.left) && Bounded(n.right)
    ensures Bounded(Rotate(n, true))
  {
    match Rotation(n.left, n.right)
    case None =>
    case Some((m, g)) =>
      var main := if m == 0 then n.left else n.right;
      var other := if m == 0 then n.right else n.left;
      var gc := if g == 0 then main.left else main.right;
      var kept := if g == 0 then main.right else main.left;
      ContainsTrans(n.aabb, main.aabb, gc.aabb);
      ContainsTrans(n.aabb, main.aabb, kept.aabb);
  }

  lemma ContainsTrans(a: Box, b: Box, c: Box)
    requires Contains(a, b) && Contains(b, c)
    ensures Contains(a, c)
  {
  }

  /** A refitting rotation of a fitted branch keeps it fitted: the branch
      box is the union of the same four boxes in another grouping. */
  lemma RotateFitted<T>(n: Tree<T>)
    requires Fitted(n)
    ensures Fitted(Rotate(n, true))
  {
    if n.Branch? {
      match Rotation(n.left, n.right)
      case None =>
      case Some((m, g)) =>
        var main := if m == 0 then n.left else n.right;
        var other := if m == 0 then n.right else n.left;
        var gc := if g == 0 then main.left else main.right;
        var kept := if g == 0 then main.right else main.left;
        UnionAC(gc.aabb, kept.aabb, other.aabb);
        UnionAC(other.aabb, kept.aabb, gc.aabb);
        UnionAC(kept.aabb, other.aabb, gc.aabb);
        UnionAC(kept.aabb, gc.aabb, other.aabb);
    }
  }

  // ---------------------------------------------------------------------
  // Insertion facts

  /** Inserting adds exactly the new branch and the leaf to the indices. */
  lemma {:induction false} InsertRecIds<T>(node: Tree<T>, path: seq<bool>, leaf: Tree<T>, pid: nat, refit: bool)
    requires leaf.Leaf?
    ensures Ids(InsertRec(node, path, leaf, pid, refit)) == Ids(node) + multiset{pid, leaf.id}
    decreases |path|
  {
    if |path| > 0 && node.Branch? {
      InsertRecIds(if path[0] then node.right else node.left, path[1..], leaf, pid, refit);
    }
    InsertStepIds(node, path, leaf, pid, refit);
    AdjustKeepsIds(InsertStep(node, path, leaf, pid, refit), refit);
  }

  /** One step of `InsertRecIds`: given the indices below, those of the
      branch handed to `Adjust`. */
  lemma InsertStepIds<T>(node: Tree<T>, path: seq<bool>, leaf: Tree<T>, pid: nat, refit: bool)
    requires leaf.Leaf?
    requires |path| > 0 && node.Branch? ==>
      Ids(InsertRec(if path[0] then node.right else node.left, path[1..], leaf, pid, refit)) ==
      Ids(if path[0] then node.right else node.left) + multiset{pid, leaf.id}
    ensures Ids(InsertStep(node, path, leaf, pid, refit)) == Ids(node) + multiset{pid, leaf.id}
  {
    if |path| == 0 || node.Leaf? {
      assert Ids(leaf) == multiset{leaf.id};
    } else {
      ReplaceChildIds(node, path[0], InsertRec(if path[0] then node.right else node.left, path[1..], leaf, pid, refit), multiset{pid, leaf.id});
    }
  }

  lemma ReplaceChildIds<T>(node: Tree<T>, right: bool, c: Tree<T>, x: multiset<nat>)
    requires node.Branch? && Ids(c) == Ids(if right then node.right else node.left) + x
    ensures Ids(if right then Branch(node.id, node.aabb, node.left, c) else Branch(node.id, node.aabb, c, node.right)) ==
            Ids(node) + x
  {
  }

  /** Inserting adds exactly the new leaf to the leaves. */
  lemma {:induction false} InsertRecLeaves<T>(node: Tree<T>, path: seq<bool>, leaf: Tree<T>, pid: nat, refit: bool)
    requires leaf.Leaf?
    ensures Leaves(InsertRec(node, path, leaf, pid, refit)) == Leaves(node) + multiset{(leaf.id, leaf.aabb, leaf.value)}
    decreases |path|
  {
    if |path| > 0 && node.Branch? {
      InsertRecLeaves(if path[0] then node.right else node.left, path[1..], leaf, pid, refit);
    }
    InsertStepLeaves(node, path, leaf, pid, refit);
    AdjustKeepsLeaves(InsertStep(node, path, leaf, pid, refit), refit);
  }

  lemma InsertStepLeaves<T>(node: Tree<T>, path: seq<bool>, leaf: Tree<T>, pid: nat, refit: bool)
    requires leaf.Leaf?
    requires |path| > 0 && node.Branch? ==>
      Leaves(InsertRec(if path[0] then node.right else node.left, path[1..], leaf, pid, refit)) ==
      Leaves(if path[0] then node.right else node.left) + multiset{(leaf.id, leaf.aabb, leaf.value)}
    ensures Leaves(InsertStep(node, path, leaf, pid, refit)) == Leaves(node) + multiset{(leaf.id, leaf.aabb, leaf.value)}
  {
    if |path| == 0 || node.Leaf? {
      assert Leaves(leaf) == multiset{(leaf.id, leaf.aabb, leaf.value)};
    } else {
      ReplaceChildLeaves(node, path[0], InsertRec(if path[0] then node.right else node.left, path[1..], leaf, pid, refit), multiset{(leaf.id, leaf.aabb, leaf.value)});
    }
  }

  lemma ReplaceChildLeaves<T>(node: Tree<T>, right: bool, c: Tree<T>, x: multiset<(nat, Box, T)>)
    requires node.Branch? && Leaves(c) == Leaves(if right then node.right else node.left) + x
    ensures Leaves(if right then Branch(node.id, node.aabb, node.left, c) else Branch(node.id, node.aabb, c, node.right)) ==
            Leaves(node) + x
  {
  }

  /** The corrected insertion keeps every box bounding. */
  lemma {:induction false} InsertRecBounded<T>(node: Tree<T>, path: seq<bool>, leaf: Tree<T>, pid: nat)
    requires Bounded(node) && leaf.Leaf?
    ensures Bounded(InsertRec(node, path, leaf, pid, true))
    decreases |path|
  {
    if |path| == 0 || node.Leaf? {
      RotateBounded(Refit(Branch(pid, Union(leaf.aabb, node.aabb), node, leaf)));
    } else if !path[0] {
      var c := InsertRec(node.left, path[1..], leaf, pid, true);
      InsertRecBounded(node.left, path[1..], leaf, pid);
      RotateBounded(Refit(Branch(node.id, node.aabb, c, node.right)));
    } else {
      var c := InsertRec(node.right, path[1..], leaf, pid, true);
      InsertRecBounded(node.right, path[1..], leaf, pid);
      RotateBounded(Refit(Branch(node.id, node.aabb, node.left, c)));
    }
  }

  /** The corrected insertion into a fitted tree leaves it fitted. */
  lemma {:induction false} InsertRecFitted<T>(node: Tree<T>, path: seq<bool>, leaf: Tree<T>, pid: nat)
    requires Fitted(node) && leaf.Leaf?
    ensures Fitted(InsertRec(node, path, leaf, pid, true))
    decreases |path|
  {
    if |path| == 0 || node.Leaf? {
      RotateFitted(Refit(Branch(pid, Union(leaf.aabb, node.aabb), node, leaf)));
    } else if !path[0] {
      var c := InsertRec(node.left, path[1..], leaf, pid, true);
      InsertRecFitted(node.left, path[1..], leaf, pid);
      RotateFitted(Refit(Branch(node.id, node.aabb, c, node.right)));
    } else {
      var c := InsertRec(node.right, path[1..], leaf, pid, true);
      InsertRecFitted(node.right, path[1..], leaf, pid);
      RotateFitted(Refit(Branch(node.id, node.aabb, node.left, c)));
    }
  }

  /** Insertion into a tree whose boxes are exact keeps them exact. */
  lemma InsertFitted<T>(b: Bvh<T>, aabb: Box, value: T, path: seq<bool>)
    requires Valid(b) && (b.root.Some? ==> Fitted(b.root.value))
    ensures Fitted(Insert(b, aabb, value, path).0.root.value)
  {
    var leaf := Leaf(b.next, aabb, value);
    InsertLeafFitted(b.root, leaf, path, b.next + 1);
    assert Insert(b, aabb, value, path).0.root.value == InsertLeaf(b.root, leaf, path, b.next + 1);
  }

  lemma InsertLeafFitted<T>(root: Option<Tree<T>>, leaf: Tree<T>, path: seq<bool>, pid: nat)
    requires (root.Some? ==> Fitted(root.value)) && leaf.Leaf?
    ensures Fitted(InsertLeaf(root, leaf, path, pid))
  {
    if root.Some? {
      assert InsertLeaf(root, leaf, path, pid) == InsertRec(root.value, path, leaf, pid, true);
      InsertRecFitted(root.value, path, leaf, pid);
    }
  }

  // ---------------------------------------------------------------------
  // orphan_leaf and remove

  /** `orphan_leaf` below the root: the leaf's parent is replaced by the
      leaf's sibling, the first child whose index differs from the leaf's.
      `None` when both children carry the leaf's index (an `unwrap` panic
      in the source). Ancestor boxes are not refitted. */
  function Orphan<T>(node: Tree<T>, path: seq<bool>): (r: Option<Tree<T>>)
    requires |path| >= 1 && ValidPath(node, path)
    ensures r.Some? ==> Ids(r.value) + Ids(At(node, path)) + multiset{ParentId(node, path)} == Ids(node)
    ensures r.Some? ==> Leaves(r.value) + Leaves(At(node, path)) == Leaves(node)
    decreases |path|
  {
    var child := if path[0] then node.right else node.left;
    assert At(node, path) == At(child, path[1..]);
    if |path| == 1 then
      if node.left.id != child.id then Some(node.left)
      else if node.right.id != child.id then Some(node.right)
      else None
    else
      assert ParentId(node, path) == ParentId(child, path[1..]);
      match Orphan(child, path[1..])
      case None => None
      case Some(c) =>
        OrphanLink(node, path, c);
        Some(if path[0] then Branch(node.id, node.aabb, node.left, c) else Branch(node.id, node.aabb, c, node.right))
  }

  /** Relinking a branch to the orphaned subtree of its child on the path
      removes from the branch what orphaning removed from the child. */
  lemma OrphanLink<T>(node: Tree<T>, path: seq<bool>, c: Tree<T>)
    requires |path| >= 2 && ValidPath(node, path)
    requires var child := if path[0] then node.right else node.left;
      Ids(c) + Ids(At(child, path[1..])) + multiset{ParentId(child, path[1..])} == Ids(child) &&
      Leaves(c) + Leaves(At(child, path[1..])) == Leaves(child)
    ensures var n := if path[0] then Branch(node.id, node.aabb, node.left, c) else Branch(node.id, node.aabb, c, node.right);
      Ids(n) + Ids(At(node, path)) + multiset{ParentId(node, path)} == Ids(node) &&
      Leaves(n) + Leaves(At(node, path)) == Leaves(node)
  {
    var child := if path[0] then node.right else node.left;
    var other := if path[0] then node.left else node.right;
    var n := if path[0] then Branch(node.id, node.aabb, node.left, c) else Branch(node.id, node.aabb, c, node.right);
    assert At(node, path) == At(child, path[1..]);
    assert ParentId(node, path) == ParentId(child, path[1..]);
    Regroup(multiset{node.id}, Ids(other), Ids(c), Ids(At(child, path[1..])), multiset{ParentId(child, path[1..])}, Ids(child));
    Regroup(multiset{}, Leaves(other), Leaves(c), Leaves(At(child, path[1..])), multiset{}, Leaves(child));
  }

  /** Replacing `c` by `child` inside a sum, where `c + y + z == child`. */
  lemma Regroup<X>(a: multiset<X>, o: multiset<X>, c: multiset<X>, y: multiset<X>, z: multiset<X>, child: multiset<X>)
    requires c + y + z == child
    ensures a + o + c + y + z == a + o + child
    ensures a + c + o + y + z == a + child + o
    ensures o + c + y + z == o + child && c + o + y + z == child + o
  {
  }

  /** The index of the parent of the node at a non-empty path. */
  function ParentId<T>(t: Tree<T>, p: seq<bool>): nat
    requires |p| >= 1 && ValidPath(t, p)
    decreases |p|
  {
    if |p| == 1 then t.id else ParentId(if p[0] then t.right else t.left, p[1..])
  }

  /** Orphaning from a tree with distinct indices succeeds and drops
      exactly the leaf and its parent; boxes keep bounding, and the new
      subtree's box sits inside the old one. */
  lemma OrphanFacts<T>(node: Tree<T>, path: seq<bool>)
    requires |path| >= 1 && ValidPath(node, path) && At(node, path).Leaf?
    requires Unique(node) && Bounded(node)
    ensures Orphan(node, path).Some?
    ensures Ids(Orphan(node, path).value) + multiset{At(node, path).id, ParentId(node, path)} == Ids(node)
    ensures Leaves(Orphan(node, path).value) + multiset{(At(node, path).id, At(node, path).aabb, At(node, path).value)} == Leaves(node)
    ensures Bounded(Orphan(node, path).value) && Contains(node.aabb, Orphan(node, path).value.aabb)
    ensures Unique(Orphan(node, path).value)
  {
    UniqueSiblingsDistinct(node);
    OrphanIds(node, path);
    OrphanLeaves(node, path);
    OrphanBounded(node, path);
    var r := Orphan(node, path).value;
    forall i ensures Ids(r)[i] <= 1 {
      assert Ids(r)[i] <= Ids(node)[i];
    }
  }

  lemma {:induction false} OrphanIds<T>(node: Tree<T>, path: seq<bool>)
    requires |path| >= 1 && ValidPath(node, path) && At(node, path).Leaf?
    requires SiblingsDistinct(node)
    ensures Orphan(node, path).Some?
    ensures Ids(Orphan(node, path).value) + multiset{At(node, path).id, ParentId(node, path)} == Ids(node)
    decreases |path|
  {
    if |path| == 1 {
      OrphanIdsBase(node, path);
    } else {
      var child := if path[0] then node.right else node.left;
      OrphanIds(child, path[1..]);
      OrphanIdsStep(node, path);
    }
  }

  lemma OrphanIdsBase<T>(node: Tree<T>, path: seq<bool>)
    requires |path| == 1 && ValidPath(node, path) && At(node, path).Leaf?
    requires SiblingsDistinct(node)
    ensures Orphan(node, path).Some?
    ensures Ids(Orphan(node, path).value) + multiset{At(node, path).id, ParentId(node, path)} == Ids(node)
  {
    var child := if path[0] then node.right else node.left;
    assert At(node, path) == child;
    assert Ids(child) == multiset{child.id};
  }

  lemma OrphanIdsStep<T>(node: Tree<T>, path: seq<bool>)
    requires |path| >= 2 && ValidPath(node, path)
    requires Orphan(if path[0] then node.right else node.left, path[1..]).Some?
    requires Ids(Orphan(if path[0] then node.right else node.left, path[1..]).value) +
             multiset{At(node, path).id, ParentId(node, path)} == Ids(if path[0] then node.right else node.left)
    ensures Orphan(node, path).Some?
    ensures Ids(Orphan(node, path).value) + multiset{At(node, path).id, ParentId(node, path)} == Ids(node)
  {
    var child := if path[0] then node.right else node.left;
    var c := Orphan(child, path[1..]).value;
    if path[0] {
      assert Ids(Orphan(node, path).value) == multiset{node.id} + Ids(node.left) + Ids(c);
    } else {
      assert Ids(Orphan(node, path).value) == multiset{node.id} + Ids(c) + Ids(node.right);
    }
  }

  lemma {:induction false} OrphanLeaves<T>(node: Tree<T>, path: seq<bool>)
    requires |path| >= 1 && ValidPath(node, path) && At(node, path).Leaf?
    requires Orphan(node, path).Some?
    ensures Leaves(Orphan(node, path).value) + multiset{(At(node, path).id, At(node, path).aabb, At(node, path).value)} == Leaves(node)
    decreases |path|
  {
    var child := if path[0] then node.right else node.left;
    assert At(child, path[1..]) == At(node, path);
    if |path| == 1 {
      assert Leaves(child) == multiset{(child.id, child.aabb, child.value)};
    } else {
      OrphanLeaves(child, path[1..]);
      var c := Orphan(child, path[1..]).value;
      var x := multiset{(At(node, path).id, At(node, path).aabb, At(node, path).value)};
      assert Leaves(c) + x == Leaves(child);
      if path[0] {
        assert Leaves(Orphan(node, path).value) == Leaves(node.left) + Leaves(c);
      } else {
        assert Leaves(Orphan(node, path).value) == Leaves(c) + Leaves(node.right);
      }
    }
  }

  lemma {:induction false} OrphanBounded<T>(node: Tree<T>, path: seq<bool>)
    requires |path| >= 1 && ValidPath(node, path)
    requires Orphan(node, path).Some? && Bounded(node)
    ensures Bounded(Orphan(node, path).value) && Contains(node.aabb, Orphan(node, path).value.aabb)
    decreases |path|
  {
    var child := if path[0] then node.right else node.left;
    if |path| > 1 {
      OrphanBounded(child, path[1..]);
      ContainsTrans(node.aabb, child.aabb, Orphan(child, path[1..]).value.aabb);
    }
  }

  /** `Bhv::remove`: `None` stands for the source's panics (no such node,
      a branch given, or a leaf whose parent has no other child). */
  function Remove<T>(b: Bvh<T>, id: nat): (r: Option<(Bvh<T>, T)>)
    ensures r.Some? ==> b.root.Some? && FindPath(b.root.value, id).Some?
    ensures r.Some? ==> At(b.root.value, FindPath(b.root.value, id).value) == Leaf(id, At(b.root.value, FindPath(b.root.value, id).value).aabb, r.value.1)
  {
    match b.root
    case None => None
    case Some(t) =>
      match FindPath(t, id)
      case None => None
      case Some(p) =>
        var node := At(t, p);
        if node.Branch? then None
        else if |p| == 0 then Some((Bvh(None, b.next), node.value))
        else match Orphan(t, p)
          case None => None
          case Some(t') => Some((Bvh(Some(t'), b.next), node.value))
  }

  /** Removal from a valid tree succeeds exactly for leaf indices, returns
      the leaf's value, keeps the tree valid, and drops exactly that leaf
      from the multiset. */
  lemma RemoveFacts<T>(b: Bvh<T>, id: nat)
    requires Valid(b) && b.root.Some?
    requires FindPath(b.root.value, id).Some? && At(b.root.value, FindPath(b.root.value, id).value).Leaf?
    ensures Remove(b, id).Some?
    ensures Valid(Remove(b, id).value.0)
    ensures (if Remove(b, id).value.0.root.None? then multiset{} else Leaves(Remove(b, id).value.0.root.value))
              + multiset{(id, At(b.root.value, FindPath(b.root.value, id).value).aabb, Remove(b, id).value.1)} == Leaves(b.root.value)
  {
    if |FindPath(b.root.value, id).value| == 0 {
      assert At(b.root.value, FindPath(b.root.value, id).value) == b.root.value;
    } else {
      RemoveDeep(b, id);
    }
  }

  lemma RemoveDeep<T>(b: Bvh<T>, id: nat)
    requires Valid(b) && b.root.Some?
    requires FindPath(b.root.value, id).Some? && |FindPath(b.root.value, id).value| > 0
    requires At(b.root.value, FindPath(b.root.value, id).value).Leaf?
    ensures Remove(b, id).Some? && Remove(b, id).value.0.root.Some?
    ensures Valid(Remove(b, id).value.0)
    ensures Leaves(Remove(b, id).value.0.root.value) + multiset{(id, At(b.root.value, FindPath(b.root.value, id).value).aabb, Remove(b, id).value.1)} == Leaves(b.root.value)
  {
    var t := b.root.value;
    var p := FindPath(t, id).value;
    OrphanFacts(t, p);
    RemoveShape(b, id);
    BelowSub(t, Orphan(t, p).value, b.next);
  }

  lemma RemoveShape<T>(b: Bvh<T>, id: nat)
    requires b.root.Some? && FindPath(b.root.value, id).Some? && |FindPath(b.root.value, id).value| > 0
    requires At(b.root.value, FindPath(b.root.value, id).value).Leaf?
    requires Orphan(b.root.value, FindPath(b.root.value, id).value).Some?
    ensures var t := b.root.value;
            var p := FindPath(t, id).value;
            Remove(b, id) == Some((Bvh(Some(Orphan(t, p).value), b.next), At(t, p).value))
  {
  }

  lemma BelowSub<T>(t: Tree<T>, s: Tree<T>, next: nat)
    requires Ids(s) <= Ids(t) && Below(t, next)
    ensures Below(s, next)
  {
    forall i | i in Ids(s) ensures i < next {
      assert i in Ids(t);
    }
  }

  /** `Bhv::update_aabb`: orphan the leaf, give it the new box, and insert
      it again (under a new branch index); `None` for a non-leaf. This is
      the corrected insertion; the source's carries both of its defects. */
  function UpdateAabb<T>(b: Bvh<T>, id: nat, aabb: Box, path: seq<bool>): (r: Option<Bvh<T>>)
    ensures r.Some? <==>
      b.root.Some? && FindPath(b.root.value, id).Some? && At(b.root.value, FindPath(b.root.value, id).value).Leaf? &&
      (|FindPath(b.root.value, id).value| == 0 || Orphan(b.root.value, FindPath(b.root.value, id).value).Some?)
    ensures r.Some? ==> r.value.root.Some? && r.value.next == b.next + 1
    ensures r.Some? ==>
      var prev := At(b.root.value, FindPath(b.root.value, id).value);
      Leaves(r.value.root.value) + multiset{(id, prev.aabb, prev.value)} == Leaves(b.root.value) + multiset{(id, aabb, prev.value)}
  {
    match b.root
    case None => None
    case Some(t) =>
      match FindPath(t, id)
      case None => None
      case Some(p) =>
        var node := At(t, p);
        if node.Branch? then None
        else
          var leaf := Leaf(id, aabb, node.value);
          var rest := if |p| == 0 then Some(None) else match Orphan(t, p) case None => None case Some(t') => Some(Some(t'));
          match rest
          case None => None
          case Some(root) => Some(Bvh(Some(InsertLeaf(root, leaf, path, b.next)), b.next + 1))
  }

  /** Updating a leaf's box keeps the tree valid and changes exactly one
      leaf triple: the leaf keeps its index (the handle) and value and takes
      the new box; every other leaf stays as it was. */
  lemma UpdateAabbFacts<T>(b: Bvh<T>, id: nat, aabb: Box, path: seq<bool>)
    requires Valid(b) && b.root.Some?
    requires FindPath(b.root.value, id).Some? && At(b.root.value, FindPath(b.root.value, id).value).Leaf?
    ensures UpdateAabb(b, id, aabb, path).Some?
    ensures Valid(UpdateAabb(b, id, aabb, path).value)
    ensures var prev := At(b.root.value, FindPath(b.root.value, id).value);
            Leaves(UpdateAabb(b, id, aabb, path).value.root.value) + multiset{(id, prev.aabb, prev.value)} ==
            Leaves(b.root.value) + multiset{(id, aabb, prev.value)}
  {
    if |FindPath(b.root.value, id).value| == 0 {
      UpdateAabbRoot(b, id, aabb, path);
    } else {
      UpdateAabbDeep(b, id, aabb, path);
    }
  }

  lemma UpdateAabbRoot<T>(b: Bvh<T>, id: nat, aabb: Box, path: seq<bool>)
    requires Valid(b) && b.root.Some?
    requires FindPath(b.root.value, id).Some? && |FindPath(b.root.value, id).value| == 0
    requires b.root.value.Leaf?
    ensures UpdateAabb(b, id, aabb, path) == Some(Bvh(Some(Leaf(id, aabb, b.root.value.value)), b.next + 1))
    ensures Valid(UpdateAabb(b, id, aabb, path).value)
    ensures var prev := At(b.root.value, FindPath(b.root.value, id).value);
            Leaves(UpdateAabb(b, id, aabb, path).value.root.value) + multiset{(id, prev.aabb, prev.value)} ==
            Leaves(b.root.value) + multiset{(id, aabb, prev.value)}
  {
  }

  lemma UpdateAabbDeep<T>(b: Bvh<T>, id: nat, aabb: Box, path: seq<bool>)
    requires Valid(b) && b.root.Some?
    requires FindPath(b.root.value, id).Some? && |FindPath(b.root.value, id).value| > 0
    requires At(b.root.value, FindPath(b.root.value, id).value).Leaf?
    ensures UpdateAabb(b, id, aabb, path).Some?
    ensures Valid(UpdateAabb(b, id, aabb, path).value)
    ensures var prev := At(b.root.value, FindPath(b.root.value, id).value);
            Leaves(UpdateAabb(b, id, aabb, path).value.root.value) + multiset{(id, prev.aabb, prev.value)} ==
            Leaves(b.root.value) + multiset{(id, aabb, prev.value)}
  {
    var t := b.root.value;
    var p := FindPath(t, id).value;
    var leaf := Leaf(id, aabb, At(t, p).value);
    OrphanFacts(t, p);
    var t' := Orphan(t, p).value;
    var r := InsertRec(t', path, leaf, b.next, true);
    UpdateAabbShape(b, id, aabb, path);
    InsertRecIds(t', path, leaf, b.next, true);
    InsertRecLeaves(t', path, leaf, b.next, true);
    InsertRecBounded(t', path, leaf, b.next);
    ReinsertFresh(t, t', r, id, ParentId(t, p), b.next);
  }

  lemma UpdateAabbShape<T>(b: Bvh<T>, id: nat, aabb: Box, path: seq<bool>)
    requires b.root.Some? && FindPath(b.root.value, id).Some? && |FindPath(b.root.value, id).value| > 0
    requires At(b.root.value, FindPath(b.root.value, id).value).Leaf?
    requires Orphan(b.root.value, FindPath(b.root.value, id).value).Some?
    ensures var t := b.root.value;
            var p := FindPath(t, id).value;
            UpdateAabb(b, id, aabb, path) ==
              Some(Bvh(Some(InsertRec(Orphan(t, p).value, path, Leaf(id, aabb, At(t, p).value), b.next, true)), b.next + 1))
  {
  }

  /** Taking out a leaf and its parent and putting the leaf back under a
      fresh branch index keeps the indices distinct and below `next + 1`. */
  lemma ReinsertFresh<T>(t: Tree<T>, t': Tree<T>, r: Tree<T>, id: nat, parent: nat, next: nat)
    requires Unique(t) && Below(t, next)
    requires Ids(t') + multiset{id, parent} == Ids(t)
    requires Ids(r) == Ids(t') + multiset{next, id}
    ensures Unique(r) && Below(r, next + 1)
  {
    forall i ensures Ids(r)[i] <= 1 {
      if i == next {
        assert i !in Ids(t);
      } else {
        assert Ids(r)[i] <= Ids(t)[i];
      }
    }
    forall i | i in Ids(r) ensures i < next + 1 {
      if i != next {
        assert i in Ids(t);
      }
    }
  }

  // ---------------------------------------------------------------------
  // The two defects

  /** Into an empty tree, the as-written insertion builds a branch whose
      two children are the same leaf: indices repeat, the value is held
      twice, and removing the leaf then panics. */
  lemma EmptyInsertAsWritten<T>(aabb: Box, value: T, path: seq<bool>)
    ensures InsertAsWritten(Empty(), aabb, value, path).0.root ==
              Some(Branch(1, Union(aabb, aabb), Leaf(0, aabb, value), Leaf(0, aabb, value)))
    ensures !Unique(InsertAsWritten(Empty(), aabb, value, path).0.root.value)
    ensures Leaves(InsertAsWritten(Empty(), aabb, value, path).0.root.value) == multiset{(0, aabb, value), (0, aabb, value)}
    ensures Remove(InsertAsWritten(Empty(), aabb, value, path).0, 0).None?
  {
    var leaf := Leaf(0, aabb, value);
    var t := Branch(1, Union(aabb, aabb), leaf, leaf);
    assert Rotation(leaf, leaf).None?;
    assert Ids(t)[0] == 2;
    assert FindPath(leaf, 0) == Some([]);
    assert [false] + [] == [false];
    assert FindPath(t, 0) == Some([false]);
    assert Orphan(t, [false]).None?;
  }

  /** The corrected insertion into an empty tree gives the leaf alone,
      which removes again to the empty tree. */
  lemma EmptyInsert<T>(aabb: Box, value: T, path: seq<bool>)
    ensures Insert(Empty(), aabb, value, path).0.root == Some(Leaf(0, aabb, value))
    ensures Remove(Insert(Empty(), aabb, value, path).0, 0) == Some((Bvh(None, 2), value))
  {
  }

  /** The stale box after a rotation. Leaves D, E and C form the tree
      `[[D, E], C]` with exact boxes; a new leaf L just right of C picks C
      as its sibling (it has the least sibling cost); the walk back up then
      rotates the root, swapping D with the new branch [C, L]. The old box
      of [D, E] is kept for [[C, L], E], which no longer contains C or L.
      The corrected insertion of the same leaf keeps every box bounding. */
  lemma RotationLeavesStaleBox<T>(v: T)
    ensures Fitted(StaleExample(v)) && Valid(Bvh(Some(StaleExample(v)), 5))
    ensures SiblingCost(StaleExample(v), [true], StaleLeafBox()) < SiblingCost(StaleExample(v), [], StaleLeafBox())
    ensures SiblingCost(StaleExample(v), [true], StaleLeafBox()) < SiblingCost(StaleExample(v), [false], StaleLeafBox())
    ensures SiblingCost(StaleExample(v), [true], StaleLeafBox()) < SiblingCost(StaleExample(v), [false, false], StaleLeafBox())
    ensures SiblingCost(StaleExample(v), [true], StaleLeafBox()) < SiblingCost(StaleExample(v), [false, true], StaleLeafBox())
    ensures !Bounded(InsertAsWritten(Bvh(Some(StaleExample(v)), 5), StaleLeafBox(), v, [true]).0.root.value)
    ensures Bounded(Insert(Bvh(Some(StaleExample(v)), 5), StaleLeafBox(), v, [true]).0.root.value)
  {
    StaleValid(v);
    StaleAsWritten(v);
  }

  lemma StaleValid<T>(v: T)
    ensures Fitted(StaleExample(v)) && Valid(Bvh(Some(StaleExample(v)), 5))
  {
    var t := StaleExample(v);
    FittedBounded(t);
    assert Ids(t.left.left) == multiset{2};
    assert Ids(t.left.right) == multiset{3};
    assert Ids(t.left) == multiset{1} + multiset{2} + multiset{3};
    assert Ids(t.right) == multiset{4};
    assert Ids(t) == multiset{0} + multiset{1} + multiset{2} + multiset{3} + multiset{4};
    forall i ensures Ids(t)[i] <= 1 {
      assert Ids(t)[i] == multiset{0}[i] + multiset{1}[i] + multiset{2}[i] + multiset{3}[i] + multiset{4}[i];
    }
  }

  /** The as-written walk on the example: no rotation at the new branch,
      then the root rotation with index (0, 0) and a stale `main` box. */
  lemma StaleAsWritten<T>(v: T)
    ensures var r := InsertAsWritten(Bvh(Some(StaleExample(v)), 5), StaleLeafBox(), v, [true]).0.root.value;
            r.Branch? && r.left.Branch? && r.left.aabb == Box(0.0, 0.0, 21.0, 10.0) &&
            r.left.left.aabb == Box(21.0, 0.0, 23.0, 1.0)
  {
    var t := StaleExample(v);
    var leaf := Leaf(5, StaleLeafBox(), v);
    var p := Branch(6, Box(21.0, 0.0, 23.0, 1.0), t.right, leaf);
    StaleNewBranch(v);
    var n := Branch(0, Box(0.0, 0.0, 23.0, 10.0), t.left, p);
    assert InsertStep(t, [true], leaf, 6, false) == Branch(0, t.aabb, t.left, p);
    assert Refit(Branch(0, t.aabb, t.left, p)) == n;
    StaleRootRotation(v);
    assert InsertRec(t, [true], leaf, 6, false) == Relink(n, 0, 0, false);
  }

  lemma StaleNewBranch<T>(v: T)
    ensures InsertRec(StaleExample(v).right, [], Leaf(5, StaleLeafBox(), v), 6, false) ==
            Branch(6, Box(21.0, 0.0, 23.0, 1.0), StaleExample(v).right, Leaf(5, StaleLeafBox(), v))
  {
    var c := StaleExample(v).right;
    var leaf := Leaf(5, StaleLeafBox(), v);
    var a := InsertStep(c, [], leaf, 6, false);
    assert Refit(a) == Branch(6, Box(21.0, 0.0, 23.0, 1.0), c, leaf);
    assert SideCosts(c, leaf) == [None, None];
    assert SideCosts(leaf, c) == [None, None];
    assert Rotation(c, leaf).None?;
  }

  lemma StaleRootRotation<T>(v: T)
    ensures var t := StaleExample(v);
            var p := Branch(6, Box(21.0, 0.0, 23.0, 1.0), t.right, Leaf(5, StaleLeafBox(), v));
            Rotation(t.left, p) == Some((0, 0))
  {
    var t := StaleExample(v);
    var p := Branch(6, Box(21.0, 0.0, 23.0, 1.0), t.right, Leaf(5, StaleLeafBox(), v));
    var costs := SideCosts(t.left, p) + SideCosts(p, t.left);
    assert costs == [Some(-54.0), Some(4.0), Some(60.0), Some(58.0)];
    assert FirstMin(costs[..1]) == 0;
    assert costs[..2][..1] == costs[..1];
    assert FirstMin(costs[..2]) == 0;
    assert costs[..3][..2] == costs[..2];
    assert FirstMin(costs[..3]) == 0;
    assert costs[..3] == costs[..|costs| - 1];
    assert FirstMin(costs) == 0;
  }

  function StaleExample<T>(v: T): (t: Tree<T>)
    ensures t.Branch? && t.left.Branch?
  {
    Branch(0, Box(0.0, 0.0, 22.0, 10.0),
      Branch(1, Box(0.0, 0.0, 21.0, 10.0),
        Leaf(2, Box(0.0, 0.0, 10.0, 10.0), v),
        Leaf(3, Box(20.0, 0.0, 21.0, 1.0), v)),
      Leaf(4, Box(21.0, 0.0, 22.0, 1.0), v))
  }

  function StaleLeafBox(): Box {
    Box(22.0, 0.0, 23.0, 1.0)
  }

  /** The cost `find_best_sibling` assigns to choosing the node at `path`
      as the sibling of a new box: the area of their union, plus the
      growth in area of every ancestor below the root. */
  function SiblingCost<T>(t: Tree<T>, path: seq<bool>, aabb: Box): real
    requires ValidPath(t, path)
    decreases |path|
  {
    if |path| == 0 then SurfaceArea(Union(t.aabb, aabb))
    else
      var child := if path[0] then t.right else t.left;
      SiblingCost(child, path[1..], aabb) + (if |path| >= 2 then Growth(child, aabb) else 0.0)
  }

  function Growth<T>(t: Tree<T>, aabb: Box): real {
    SurfaceArea(Union(t.aabb, aabb)) - SurfaceArea(t.aabb)
  }
}

=== FILE: collider_bus.dfy ===
/** The collider bus: colliders registered into a bounding volume hierarchy
    and looked up by box. A collider names its bus and its leaf while it is
    registered; its mask is a 64-bit set of layers and its material decides
    whether a touching box counts. The shared and the client copies of the
    bus agree on everything modelled here; the game copy's `lookup` filters
    by mask and material itself. Colliders and buses are ECS objects,
    modelled as maps from their handles; a custom material's check is a
    function parameter, the world it may touch left out. A panic (an
    `assert!`, a dead object, a failed `remove`) is `None`. */
module ColliderBus {
  import opened Wrappers
  import Bvh

  // ---------------------------------------------------------------------
  // Masks

  type Mask = bv64

  /** A layer index that a shift of a 64-bit mask accepts. */
  type Layer = j: bv8 | j < 64

  const NONE: Mask := 0
  const ALL: Mask := 0xFFFF_FFFF_FFFF_FFFF

  /** Layer j is in the mask. */
  predicate Bit(m: Mask, j: Layer) {
    (m >> j) & 1 == 1
  }

  /** `ColliderMask::one`: exactly layer `at`. A shift by 64 or more
      overflows, which panics in a debug build. */
  function One(at: nat): (r: Option<Mask>)
    ensures r.Some? <==> at < 64
    ensures r.Some? ==> forall j: Layer :: Bit(r.value, j) <==> j == at as bv8
  {
    if at < 64 then
      var l := at as bv8;
      var m := (1 as bv64) << l;
      assert forall j: Layer :: Bit(m, j) <==> j == l by {
        forall j: Layer ensures Bit(m, j) <==> j == l {
          SingleBit(l, j);
        }
      }
      Some(m)
    else None
  }

  lemma SingleBit(at: Layer, j: Layer)
    ensures Bit((1 as bv64) << at, j) <==> j == at
  {
  }

  function IsEmpty(m: Mask): bool {
    m == NONE
  }

  /** `ColliderMask::intersects`: the masks share a layer. */
  function MaskIntersects(a: Mask, b: Mask): bool {
    !IsEmpty(a & b)
  }

  /** A layer is in a union when it is in either part. */
  lemma OrBit(a: Mask, b: Mask, j: Layer)
    ensures Bit(a | b, j) <==> Bit(a, j) || Bit(b, j)
  {
  }

  /** A layer is in an intersection when it is in both parts. */
  lemma AndBit(a: Mask, b: Mask, j: Layer)
    ensures Bit(a & b, j) <==> Bit(a, j) && Bit(b, j)
  {
  }

  /** A layer is in a complement when it is not in the mask. */
  lemma NotBit(a: Mask, j: Layer)
    ensures Bit(!a, j) <==> !Bit(a, j)
  {
  }

  /** NONE is the unit of `|`, ALL the unit of `&`, and each is the
      other's complement. */
  lemma MaskIdentities(a: Mask)
    ensures a | NONE == a && NONE | a == a
    ensures a & ALL == a && ALL & a == a
    ensures !NONE == ALL && !ALL == NONE
  {
  }

  /** NONE holds no layer and ALL holds every layer. */
  lemma NoneAllBits(j: Layer)
    ensures !Bit(NONE, j) && Bit(ALL, j)
  {
  }

  /** Intersection is symmetric, NONE meets nothing and ALL meets every
      non-empty mask. */
  lemma MaskIntersectsFacts(a: Mask, b: Mask)
    ensures MaskIntersects(a, b) <==> MaskIntersects(b, a)
    ensures !MaskIntersects(a, NONE)
    ensures MaskIntersects(a, ALL) <==> !IsEmpty(a)
  {
  }

  /** Meeting a single layer is holding it. */
  lemma IntersectsSingle(m: Mask, at: Layer)
    ensures MaskIntersects(m, (1 as bv64) << at) <==> Bit(m, at)
  {
  }

  /** `from_iter`: the union of the masks, folded from NONE in order. */
  function FromIter(ms: seq<Mask>): Mask
    decreases |ms|
  {
    if |ms| == 0 then NONE else FromIter(ms[..|ms| - 1]) | ms[|ms| - 1]
  }

  /** A layer is in `from_iter` of some masks exactly when one of them
      holds it. */
  lemma {:induction false} FromIterBits(ms: seq<Mask>, j: Layer)
    ensures Bit(FromIter(ms), j) <==> exists i :: 0 <= i < |ms| && Bit(ms[i], j)
    decreases |ms|
  {
    if |ms| == 0 {
      NoneAllBits(j);
    } else {
      var n := |ms| - 1;
      var init := ms[..n];
      FromIterBits(init, j);
      OrBit(FromIter(init), ms[n], j);
      if exists i :: 0 <= i < |init| && Bit(init[i], j) {
        var i :| 0 <= i < |init| && Bit(init[i], j);
        assert Bit(ms[i], j);
      }
      if exists i :: 0 <= i < |ms| && Bit(ms[i], j) {
        var i :| 0 <= i < |ms| && Bit(ms[i], j);
        if i < n {
          assert Bit(init[i], j);
        }
      }
    }
  }

  // ---------------------------------------------------------------------
  // Boxes

  /** `Aabb::intersects`: neither box lies wholly to one side of the
      other; touching edges count. */
  predicate BoxIntersects(a: Bvh.Box, b: Bvh.Box) {
    !(a.maxX < b.minX || b.maxX < a.minX || a.maxY < b.minY || b.maxY < a.minY)
  }

  /** A box that meets the query meets it through every box containing
      it, which is what makes pruning at a branch safe. */
  lemma ContainsIntersects(outer: Bvh.Box, inner: Bvh.Box, q: Bvh.Box)
    requires Bvh.Contains(outer, inner) && BoxIntersects(inner, q)
    ensures BoxIntersects(outer, q)
  {
  }

  // ---------------------------------------------------------------------
  // Lookup

  /** Some leaf of `t` holds `v` and has a box that meets the query. */
  ghost predicate LeafMeets(t: Bvh.Tree<nat>, q: Bvh.Box, v: nat) {
    exists id, box :: (id, box, v) in Bvh.Leaves(t) && BoxIntersects(box, q)
  }

  /** The candidates a lookup visits: subtrees whose box misses the query
      are skipped, and the children pushed as (left, right) are popped
      right first, so the right subtree is finished before the left. */
  function Visit(t: Bvh.Tree<nat>, q: Bvh.Box): (cands: seq<nat>)
    ensures forall v :: v in cands ==> LeafMeets(t, q, v)
  {
    if !BoxIntersects(t.aabb, q) then []
    else
      match t
      case Leaf(id, box, v) =>
        assert (id, box, v) in Bvh.Leaves(t);
        [v]
      case Branch(_, _, l, r) =>
        LeafMeetsBranch(t, q);
        Visit(r, q) + Visit(l, q)
  }

  /** A leaf of either child is a leaf of the branch. */
  lemma LeafMeetsBranch(t: Bvh.Tree<nat>, q: Bvh.Box)
    requires t.Branch?
    ensures forall v: nat :: LeafMeets(t.left, q, v) || LeafMeets(t.right, q, v) ==> LeafMeets(t, q, v)
  {
    forall v: nat | LeafMeets(t.left, q, v) || LeafMeets(t.right, q, v) ensures LeafMeets(t, q, v) {
      var sub := if LeafMeets(t.left, q, v) then t.left else t.right;
      var id, box :| (id, box, v) in Bvh.Leaves(sub) && BoxIntersects(box, q);
      assert (id, box, v) in Bvh.Leaves(t);
    }
  }

  /** In a tree whose branch boxes contain their children, no leaf that
      meets the query is pruned. */
  lemma {:induction false} VisitComplete(t: Bvh.Tree<nat>, q: Bvh.Box, id: nat, box: Bvh.Box, v: nat)
    requires Bvh.Bounded(t) && (id, box, v) in Bvh.Leaves(t) && BoxIntersects(box, q)
    ensures v in Visit(t, q)
  {
    if t.Branch? {
      var sub := if (id, box, v) in Bvh.Leaves(t.left) then t.left else t.right;
      VisitComplete(sub, q, id, box, v);
      LeafInside(sub, id, box, v);
      ContainsIntersects(sub.aabb, box, q);
      ContainsIntersects(t.aabb, sub.aabb, q);
    }
  }

  /** A leaf's box lies inside the box of every subtree holding it. */
  lemma {:induction false} LeafInside(t: Bvh.Tree<nat>, id: nat, box: Bvh.Box, v: nat)
    requires Bvh.Bounded(t) && (id, box, v) in Bvh.Leaves(t)
    ensures Bvh.Contains(t.aabb, box)
  {
    if t.Branch? {
      if (id, box, v) in Bvh.Leaves(t.left) {
        LeafInside(t.left, id, box, v);
      } else {
        LeafInside(t.right, id, box, v);
      }
    }
  }

  /** The candidates still owed by the stack: its top's, then the rest's. */
  function Pending(stack: seq<Bvh.Tree<nat>>, q: Bvh.Box): seq<nat>
    decreases |stack|
  {
    if |stack| == 0 then [] else Visit(stack[|stack| - 1], q) + Pending(stack[..|stack| - 1], q)
  }

  function Size(t: Bvh.Tree<nat>): nat {
    match t
    case Leaf(_, _, _) => 1
    case Branch(_, _, l, r) => 1 + Size(l) + Size(r)
  }

  function StackSize(stack: seq<Bvh.Tree<nat>>): nat
    decreases |stack|
  {
    if |stack| == 0 then 0 else StackSize(stack[..|stack| - 1]) + Size(stack[|stack| - 1])
  }

  /** `ColliderBus::lookup` with a predicate that never breaks: the queue
      starts with the root, each popped node that meets the query either
      yields its value or pushes its two children. The candidates come
      out in the order of `Visit`. */
  method Lookup(root: Option<Bvh.Tree<nat>>, q: Bvh.Box) returns (out: seq<nat>)
    ensures root.None? ==> out == []
    ensures root.Some? ==> out == Visit(root.value, q)
  {
    var stack: seq<Bvh.Tree<nat>> := if root.Some? then [root.value] else [];
    out := [];
    assert root.Some? ==> Pending(stack, q) == Visit(root.value, q) by {
      if root.Some? {
        assert stack[..0] == [];
      }
    }
    while |stack| > 0
      invariant root.None? ==> stack == [] && out == []
      invariant root.Some? ==> out + Pending(stack, q) == Visit(root.value, q)
      decreases StackSize(stack)
    {
      var n := |stack| - 1;
      var curr := stack[n];
      var rest := stack[..n];
      assert Pending(stack, q) == Visit(curr, q) + Pending(rest, q);
      assert StackSize(stack) == StackSize(rest) + Size(curr);
      if !BoxIntersects(curr.aabb, q) {
        stack := rest;
      } else if curr.Leaf? {
        out := out + [curr.value];
        stack := rest;
      } else {
        var next := rest + [curr.left, curr.right];
        PushChildren(rest, curr.left, curr.right, q);
        stack := next;
      }
    }
  }

  /** Pushing a branch's two children in place of the branch owes the
      right child's candidates, then the left's, and shrinks the stack. */
  lemma PushChildren(rest: seq<Bvh.Tree<nat>>, l: Bvh.Tree<nat>, r: Bvh.Tree<nat>, q: Bvh.Box)
    ensures Pending(rest + [l, r], q) == Visit(r, q) + Visit(l, q) + Pending(rest, q)
    ensures StackSize(rest + [l, r]) == StackSize(rest) + Size(l) + Size(r)
  {
    var s := rest + [l, r];
    assert s[..|s| - 1] == rest + [l];
    assert (rest + [l])[..|rest|] == rest;
  }

  // ---------------------------------------------------------------------
  // Colliders

  datatype Material = Solid | Disabled | Custom(mat: nat)

  /** A collider: its entity, the bus and leaf it is registered under, its
      box, mask and material. */
  datatype Collider = Collider(entity: nat, bus: Option<nat>, idx: nat, aabb: Bvh.Box, mask: Mask, material: Material)

  /** `Collider::new`: unregistered, with a zero box. */
  function NewCollider(entity: nat, mask: Mask, material: Material): (c: Collider)
    ensures c.bus.None? && c.entity == entity && c.mask == mask && c.material == material
  {
    Collider(entity, None, 0, Bvh.Box(0.0, 0.0, 0.0, 0.0), mask, material)
  }

  /** Whether a collider touched by a box counts as a hit: a solid one
      always, a disabled one never, a custom one when its material's check
      (given the entity and the box) says so. */
  predicate Passes(c: Collider, custom: (nat, nat, Bvh.Box) -> bool, aabb: Bvh.Box) {
    match c.material
    case Solid => true
    case Disabled => false
    case Custom(mat) => custom(mat, c.entity, aabb)
  }

  predicate AllLive(cands: seq<nat>, cs: map<nat, Collider>) {
    forall i :: 0 <= i < |cands| ==> cands[i] in cs
  }

  /** The body of `check_aabb` over the visited candidates: stop with
      `true` at the first one the predicate accepts and that passes. */
  function FirstHit(cands: seq<nat>, cs: map<nat, Collider>, pred: nat -> bool,
                    custom: (nat, nat, Bvh.Box) -> bool, aabb: Bvh.Box): bool
    requires AllLive(cands, cs)
    decreases |cands|
  {
    if |cands| == 0 then false
    else if pred(cands[0]) && Passes(cs[cands[0]], custom, aabb) then true
    else FirstHit(cands[1..], cs, pred, custom, aabb)
  }

  /** `check_aabb` answers whether any candidate is accepted and passes,
      whatever its position. */
  lemma {:induction false} FirstHitIff(cands: seq<nat>, cs: map<nat, Collider>, pred: nat -> bool,
                                       custom: (nat, nat, Bvh.Box) -> bool, aabb: Bvh.Box)
    requires AllLive(cands, cs)
    ensures FirstHit(cands, cs, pred, custom, aabb) <==>
            exists i :: 0 <= i < |cands| && pred(cands[i]) && Passes(cs[cands[i]], custom, aabb)
    decreases |cands|
  {
    if |cands| > 0 {
      var tail := cands[1..];
      FirstHitIff(tail, cs, pred, custom, aabb);
      if exists i :: 0 <= i < |tail| && pred(tail[i]) && Passes(cs[tail[i]], custom, aabb) {
        var i :| 0 <= i < |tail| && pred(tail[i]) && Passes(cs[tail[i]], custom, aabb);
        assert cands[i + 1] == tail[i];
      }
      if exists i :: 0 <= i < |cands| && pred(cands[i]) && Passes(cs[cands[i]], custom, aabb) {
        var i :| 0 <= i < |cands| && pred(cands[i]) && Passes(cs[cands[i]], custom, aabb);
        if i > 0 {
          assert tail[i - 1] == cands[i];
        }
      }
    }
  }

  /** `ColliderBus::check_aabb` over a bus's tree. */
  function CheckAabb(bus: Bvh.Bvh<nat>, cs: map<nat, Collider>, aabb: Bvh.Box, pred: nat -> bool,
                     custom: (nat, nat, Bvh.Box) -> bool): (hit: bool)
    requires bus.root.Some? ==> AllLive(Visit(bus.root.value, aabb), cs)
    ensures hit ==> bus.root.Some? && exists id, box, v :: (id, box, v) in Bvh.Leaves(bus.root.value) && BoxIntersects(box, aabb) &&
                                        v in cs && pred(v) && Passes(cs[v], custom, aabb)
  {
    if bus.root.None? then false
    else
      FirstHitSound(bus.root.value, cs, aabb, pred, custom);
      FirstHit(Visit(bus.root.value, aabb), cs, pred, custom, aabb)
  }

  /** A hit among the visited candidates is a collider of a leaf whose box
      meets the query. */
  lemma FirstHitSound(t: Bvh.Tree<nat>, cs: map<nat, Collider>, aabb: Bvh.Box, pred: nat -> bool,
                      custom: (nat, nat, Bvh.Box) -> bool)
    requires AllLive(Visit(t, aabb), cs)
    ensures FirstHit(Visit(t, aabb), cs, pred, custom, aabb) ==>
            exists id, box, v :: (id, box, v) in Bvh.Leaves(t) && BoxIntersects(box, aabb) &&
                                 v in cs && pred(v) && Passes(cs[v], custom, aabb)
  {
    var cands := Visit(t, aabb);
    FirstHitIff(cands, cs, pred, custom, aabb);
    if FirstHit(cands, cs, pred, custom, aabb) {
      var i :| 0 <= i < |cands| && pred(cands[i]) && Passes(cs[cands[i]], custom, aabb);
      assert cands[i] in cands;
    }
  }

  /** In a valid bus, `check_aabb` holds exactly when some registered
      collider whose own box meets the query is accepted by the predicate
      and is solid or has a custom check that succeeds; a disabled collider
      never makes it true. */
  lemma CheckAabbIff(bus: Bvh.Bvh<nat>, cs: map<nat, Collider>, aabb: Bvh.Box, pred: nat -> bool,
                     custom: (nat, nat, Bvh.Box) -> bool)
    requires Bvh.Valid(bus) && (bus.root.Some? ==> AllLive(Visit(bus.root.value, aabb), cs))
    ensures CheckAabb(bus, cs, aabb, pred, custom) <==>
            bus.root.Some? && exists id, box, v :: (id, box, v) in Bvh.Leaves(bus.root.value) && BoxIntersects(box, aabb) &&
                                 v in cs && pred(v) && Passes(cs[v], custom, aabb)
  {
    if bus.root.Some? {
      var t := bus.root.value;
      var cands := Visit(t, aabb);
      FirstHitIff(cands, cs, pred, custom, aabb);
      if CheckAabb(bus, cs, aabb, pred, custom) {
        var i :| 0 <= i < |cands| && pred(cands[i]) && Passes(cs[cands[i]], custom, aabb);
        assert cands[i] in cands;
      }
      if exists id, box, v :: (id, box, v) in Bvh.Leaves(t) && BoxIntersects(box, aabb) &&
                              v in cs && pred(v) && Passes(cs[v], custom, aabb) {
        var id, box, v :| (id, box, v) in Bvh.Leaves(t) && BoxIntersects(box, aabb) &&
                          v in cs && pred(v) && Passes(cs[v], custom, aabb);
        VisitComplete(t, aabb, id, box, v);
        var i :| 0 <= i < |cands| && cands[i] == v;
      }
    }
  }

  // ---------------------------------------------------------------------
  // The game bus's lookup

  /** The game `lookup`'s filter over the visited candidates: the entity
      of each candidate whose mask meets the query mask and that passes,
      in visit order. */
  function Filtered(cands: seq<nat>, cs: map<nat, Collider>, mask: Mask,
                    custom: (nat, nat, Bvh.Box) -> bool, q: Bvh.Box): seq<nat>
    requires AllLive(cands, cs)
    decreases |cands|
  {
    if |cands| == 0 then []
    else
      var c := cs[cands[0]];
      (if MaskIntersects(c.mask, mask) && Passes(c, custom, q) then [c.entity] else [])
        + Filtered(cands[1..], cs, mask, custom, q)
  }

  /** An entity is reported exactly when one of the candidates is its
      collider, meets the mask and passes; a disabled collider or one on
      no shared layer is never reported. */
  lemma {:induction false} FilteredIff(cands: seq<nat>, cs: map<nat, Collider>, mask: Mask,
                                       custom: (nat, nat, Bvh.Box) -> bool, q: Bvh.Box, e: nat)
    requires AllLive(cands, cs)
    ensures e in Filtered(cands, cs, mask, custom, q) <==>
            exists i :: 0 <= i < |cands| && cs[cands[i]].entity == e &&
                        MaskIntersects(cs[cands[i]].mask, mask) && Passes(cs[cands[i]], custom, q)
    decreases |cands|
  {
    if |cands| > 0 {
      var tail := cands[1..];
      FilteredIff(tail, cs, mask, custom, q, e);
      if exists i :: 0 <= i < |tail| && cs[tail[i]].entity == e &&
                     MaskIntersects(cs[tail[i]].mask, mask) && Passes(cs[tail[i]], custom, q) {
        var i :| 0 <= i < |tail| && cs[tail[i]].entity == e &&
                 MaskIntersects(cs[tail[i]].mask, mask) && Passes(cs[tail[i]], custom, q);
        assert cands[i + 1] == tail[i];
      }
      if exists i :: 0 <= i < |cands| && cs[cands[i]].entity == e &&
                     MaskIntersects(cs[cands[i]].mask, mask) && Passes(cs[cands[i]], custom, q) {
        var i :| 0 <= i < |cands| && cs[cands[i]].entity == e &&
                 MaskIntersects(cs[cands[i]].mask, mask) && Passes(cs[cands[i]], custom, q);
        if i > 0 {
          assert tail[i - 1] == cands[i];
        }
      }
    }
  }

  /** The game bus's `lookup`: the visit, then the filter. */
  method GameLookup(bus: Bvh.Bvh<nat>, cs: map<nat, Collider>, q: Bvh.Box, mask: Mask,
                    custom: (nat, nat, Bvh.Box) -> bool) returns (ents: seq<nat>)
    requires bus.root.Some? ==> AllLive(Visit(bus.root.value, q), cs)
    ensures bus.root.None? ==> ents == []
    ensures bus.root.Some? ==> ents == Filtered(Visit(bus.root.value, q), cs, mask, custom, q)
  {
    var cands := Lookup(bus.root, q);
    if bus.root.None? {
      return [];
    }
    ents := Filtered(cands, cs, mask, custom, q);
  }

  // ---------------------------------------------------------------------
  // Registration

  /** The leaves of a bus, none when it is empty. */
  function Leaves(b: Bvh.Bvh<nat>): multiset<(nat, Bvh.Box, nat)> {
    if b.root.None? then multiset{} else Bvh.Leaves(b.root.value)
  }

  datatype World = World(buses: map<nat, Bvh.Bvh<nat>>, colliders: map<nat, Collider>)

  /** `ColliderBus::register`: a collider already on a bus fails the
      assertion; otherwise its box is inserted (the sibling choice given as
      a path) and it records the bus and the leaf. */
  function Register(w: World, bus: nat, c: nat, path: seq<bool>): (r: Option<World>)
    requires bus in w.buses && c in w.colliders && Bvh.Valid(w.buses[bus])
    ensures r.Some? <==> w.colliders[c].bus.None?
    ensures r.Some? ==> bus in r.value.buses && c in r.value.colliders && Bvh.Valid(r.value.buses[bus])
    ensures r.Some? ==> r.value.colliders[c] == w.colliders[c].(bus := Some(bus), idx := w.buses[bus].next)
    ensures r.Some? ==> Leaves(r.value.buses[bus]) == Leaves(w.buses[bus]) + multiset{(w.buses[bus].next, w.colliders[c].aabb, c)}
    ensures r.Some? ==> r.value.buses.Keys == w.buses.Keys && r.value.colliders.Keys == w.colliders.Keys
    ensures r.Some? ==> forall b :: b in w.buses && b != bus ==> r.value.buses[b] == w.buses[b]
    ensures r.Some? ==> forall d :: d in w.colliders && d != c ==> r.value.colliders[d] == w.colliders[d]
  {
    var col := w.colliders[c];
    if col.bus.Some? then None
    else
      var (b, idx) := Bvh.Insert(w.buses[bus], col.aabb, c, path);
      Some(World(w.buses[bus := b], w.colliders[c := col.(bus := Some(bus), idx := idx)]))
  }

  /** `Collider::unregister`: a collider on no bus is left alone; otherwise
      its bus is taken and its leaf removed, which panics when the bus is
      gone or the leaf is not there. */
  function Unregister(w: World, c: nat): (r: Option<World>)
    requires c in w.colliders
    ensures w.colliders[c].bus.None? ==> r == Some(w)
    ensures r.Some? ==> c in r.value.colliders && r.value.colliders[c] == w.colliders[c].(bus := None)
    ensures r.Some? ==> r.value.buses.Keys == w.buses.Keys && r.value.colliders.Keys == w.colliders.Keys
    ensures r.Some? ==> forall b :: b in w.buses && Some(b) != w.colliders[c].bus ==> r.value.buses[b] == w.buses[b]
    ensures r.Some? ==> forall d :: d in w.colliders && d != c ==> r.value.colliders[d] == w.colliders[d]
  {
    var col := w.colliders[c];
    match col.bus
    case None => assert w.colliders[c := col.(bus := None)] == w.colliders; Some(w)
    case Some(b) =>
      if b !in w.buses then None
      else
        match Bvh.Remove(w.buses[b], col.idx)
        case None => None
        case Some((b', _)) => Some(World(w.buses[b := b'], w.colliders[c := col.(bus := None)]))
  }

  /** Registering twice fails the assertion. */
  lemma RegisterTwicePanics(w: World, bus: nat, bus2: nat, c: nat, path: seq<bool>, path2: seq<bool>)
    requires bus in w.buses && c in w.colliders && Bvh.Valid(w.buses[bus])
    requires Register(w, bus, c, path).Some?
    requires bus2 in Register(w, bus, c, path).value.buses
    requires Bvh.Valid(Register(w, bus, c, path).value.buses[bus2])
    ensures Register(Register(w, bus, c, path).value, bus2, c, path2).None?
  {
  }

  /** Unregistering clears the bus, so a second unregister changes
      nothing. */
  lemma UnregisterIdempotent(w: World, c: nat)
    requires c in w.colliders && Unregister(w, c).Some?
    ensures Unregister(Unregister(w, c).value, c) == Unregister(w, c)
  {
  }

  /** A leaf held by a tree with distinct indices is the node its index
      leads to. */
  lemma {:induction false} LeafFound(t: Bvh.Tree<nat>, id: nat, box: Bvh.Box, v: nat)
    requires Bvh.Unique(t) && (id, box, v) in Bvh.Leaves(t)
    ensures Bvh.FindPath(t, id).Some?
    ensures Bvh.At(t, Bvh.FindPath(t, id).value) == Bvh.Leaf(id, box, v)
  {
    if t.Branch? {
      Bvh.UniqueParts(t);
      if (id, box, v) in Bvh.Leaves(t.left) {
        LeafIdIn(t.left, id, box, v);
        LeafFound(t.left, id, box, v);
        var p := Bvh.FindPath(t.left, id).value;
        assert Bvh.FindPath(t, id) == Some([false] + p);
        assert ([false] + p)[1..] == p;
      } else {
        LeafIdIn(t.right, id, box, v);
        LeafFound(t.right, id, box, v);
        var p := Bvh.FindPath(t.right, id).value;
        assert Bvh.FindPath(t.left, id).None?;
        assert Bvh.FindPath(t, id) == Some([true] + p);
        assert ([true] + p)[1..] == p;
      }
    }
  }

  lemma {:induction false} LeafIdIn(t: Bvh.Tree<nat>, id: nat, box: Bvh.Box, v: nat)
    requires (id, box, v) in Bvh.Leaves(t)
    ensures id in Bvh.Ids(t)
  {
    if t.Branch? {
      if (id, box, v) in Bvh.Leaves(t.left) {
        LeafIdIn(t.left, id, box, v);
      } else {
        LeafIdIn(t.right, id, box, v);
      }
    }
  }

  /** Unregistering a collider whose leaf is in its bus succeeds, clears
      the bus and takes exactly that leaf out. */
  lemma UnregisterRemovesLeaf(w: World, c: nat, box: Bvh.Box)
    requires c in w.colliders && w.colliders[c].bus.Some?
    requires w.colliders[c].bus.value in w.buses
    requires Bvh.Valid(w.buses[w.colliders[c].bus.value])
    requires (w.colliders[c].idx, box, c) in Leaves(w.buses[w.colliders[c].bus.value])
    ensures Unregister(w, c).Some?
    ensures Leaves(Unregister(w, c).value.buses[w.colliders[c].bus.value]) + multiset{(w.colliders[c].idx, box, c)}
              == Leaves(w.buses[w.colliders[c].bus.value])
  {
    var col := w.colliders[c];
    var b := w.buses[col.bus.value];
    LeafFound(b.root.value, col.idx, box, c);
    Bvh.RemoveFacts(b, col.idx);
  }

  lemma MultisetCancel(a: multiset<(nat, Bvh.Box, nat)>, b: multiset<(nat, Bvh.Box, nat)>, t: (nat, Bvh.Box, nat))
    requires a + multiset{t} == b + multiset{t}
    ensures a == b
  {
    assert a == (a + multiset{t}) - multiset{t};
  }

  /** Unregistering right after registering succeeds, hands the bus back
      the leaves it had and leaves the collider on no bus. */
  lemma RegisterThenUnregister(w: World, bus: nat, c: nat, path: seq<bool>)
    requires bus in w.buses && c in w.colliders && Bvh.Valid(w.buses[bus])
    requires w.colliders[c].bus.None?
    ensures var w1 := Register(w, bus, c, path).value;
            Unregister(w1, c).Some? &&
            Unregister(w1, c).value.colliders[c].bus.None? &&
            Leaves(Unregister(w1, c).value.buses[bus]) == Leaves(w.buses[bus])
  {
    var w1 := Register(w, bus, c, path).value;
    var t := (w.buses[bus].next, w.colliders[c].aabb, c);
    assert w1.colliders[c].bus == Some(bus) && w1.colliders[c].idx == w.buses[bus].next;
    assert Leaves(w1.buses[bus]) == Leaves(w.buses[bus]) + multiset{t};
    assert t in Leaves(w1.buses[bus]);
    UnregisterRemovesLeaf(w1, c, w.colliders[c].aabb);
    var u := Unregister(w1, c).value;
    assert Leaves(u.buses[bus]) + multiset{t} == Leaves(w.buses[bus]) + multiset{t};
    MultisetCancel(Leaves(u.buses[bus]), Leaves(w.buses[bus]), t);
  }
}

=== FILE: collider_groups.dfy ===
/** Collider groups: each group keeps the list of its members, and each
    member component remembers its group and its index in that list, kept
    up to date by swap-remove on unregistration. The member list sits behind
    a shared pointer that `members()` clones; mutating it while a clone is
    alive panics. A member component is keyed by its collider's entity, and
    a panic is `None`. Both copies of the file (the game's and the engine's)
    have the same group bookkeeping. */
module ColliderGroups {
  import opened Wrappers
  import opened Vecs

  type GroupId = nat
  type Collider = nat

  /** `ColliderGroupMember`, minus the collider handle that keys it. */
  datatype Member = Member(group: GroupId, index: nat)

  /** `readers[g]` counts the outstanding clones of group g's list. */
  datatype Groups = Groups(lists: map<GroupId, seq<Collider>>, members: map<Collider, Member>, readers: map<GroupId, nat>)

  /** The i-th listed member of g is a member of g recorded at index i. */
  ghost predicate Listed(s: Groups, g: GroupId, i: nat)
    requires g in s.lists && i < |s.lists[g]|
  {
    var c := s.lists[g][i];
    c in s.members && s.members[c] == Member(g, i)
  }

  ghost predicate Valid(s: Groups) {
    (forall g, i: nat {:trigger Listed(s, g, i)} :: g in s.lists && i < |s.lists[g]| ==> Listed(s, g, i))
  }

  /** A member still in its group's list, at the index it records. */
  ghost predicate Registered(s: Groups, c: Collider) {
    c in s.members && s.members[c].group in s.lists &&
    s.members[c].index < |s.lists[s.members[c].group]| &&
    s.lists[s.members[c].group][s.members[c].index] == c
  }

  /** Every listed collider is registered, once. */
  lemma ListedRegistered(s: Groups, g: GroupId, i: nat, j: nat)
    requires Valid(s) && g in s.lists && i < |s.lists[g]| && j < |s.lists[g]|
    ensures Registered(s, s.lists[g][i])
    ensures s.lists[g][i] == s.lists[g][j] ==> i == j
  {
    assert Listed(s, g, i) && Listed(s, g, j);
  }

  function Shared(s: Groups, g: GroupId): bool {
    g in s.readers && s.readers[g] > 0
  }

  /** `ColliderGroup::new` on a fresh handle: an empty list, no readers. */
  function NewGroup(s: Groups, g: GroupId): (r: Groups)
    requires g !in s.lists
    ensures Valid(s) ==> Valid(r)
    ensures g in r.lists && r.lists[g] == [] && !Shared(r, g)
  {
    var r := Groups(s.lists[g := []], s.members, s.readers - {g});
    assert Valid(s) ==> Valid(r) by {
      if Valid(s) {
        forall h, i: nat | h in r.lists && i < |r.lists[h]| ensures Listed(r, h, i) {
          assert Listed(s, h, i);
        }
      }
    }
    r
  }

  /** `register`: the collider's entity gets a member component recording
      the group and the current list length (overwriting one it already
      had), then the list grows by it. `None` for a dead group or a shared
      list. */
  function Register(s: Groups, g: GroupId, c: Collider): (r: Option<Groups>)
    ensures r.None? <==> g !in s.lists || Shared(s, g)
    ensures r.Some? ==> r.value.lists == s.lists[g := s.lists[g] + [c]]
    ensures r.Some? ==> c in r.value.members && r.value.members[c] == Member(g, |s.lists[g]|)
    ensures r.Some? ==> forall x :: x != c ==> (x in r.value.members <==> x in s.members)
  {
    if g !in s.lists || Shared(s, g) then None
    else
      Some(Groups(s.lists[g := s.lists[g] + [c]], s.members[c := Member(g, |s.lists[g]|)], s.readers))
  }

  /** Registering a collider that is in no list keeps the groups valid and
      makes it registered at the end of the list. */
  lemma RegisterValid(s: Groups, g: GroupId, c: Collider)
    requires Valid(s) && g in s.lists && !Shared(s, g)
    requires forall h, i :: h in s.lists && 0 <= i < |s.lists[h]| ==> s.lists[h][i] != c
    ensures Valid(Register(s, g, c).value) && Registered(Register(s, g, c).value, c)
    ensures multiset(Register(s, g, c).value.lists[g]) == multiset(s.lists[g]) + multiset{c}
  {
    var r := Register(s, g, c).value;
    forall h, i: nat | h in r.lists && i < |r.lists[h]| ensures Listed(r, h, i) {
      if h != g || i < |s.lists[g]| {
        assert Listed(s, h, i);
      }
    }
  }

  /** The collider swap-remove moves into slot i of g's list, if any: the
      last one, when i is not already the last slot. */
  function MovedInto(s: Groups, g: GroupId, i: nat): (r: Option<Collider>)
    requires g in s.lists && i < |s.lists[g]|
    ensures r.Some? <==> i < |s.lists[g]| - 1
    ensures r.Some? ==> r.value == s.lists[g][|s.lists[g]| - 1]
  {
    if i < |s.lists[g]| - 1 then Some(s.lists[g][|s.lists[g]| - 1]) else None
  }

  /** `unregister`: swap-remove the member's slot and fix the index of the
      member moved into it. The member component itself is left in place.
      `None` for a dead group, a shared list, an index past the end, or a
      moved collider whose member component is gone (writing its index
      goes through a dead handle). */
  function Unregister(s: Groups, c: Collider): (r: Option<Groups>)
    requires c in s.members
    ensures r.Some? ==> r.value.members.Keys == s.members.Keys && r.value.lists.Keys == s.lists.Keys
    ensures r.None? <==>
              var m := s.members[c];
              m.group !in s.lists || Shared(s, m.group) || m.index >= |s.lists[m.group]| ||
              (MovedInto(s, m.group, m.index).Some? && MovedInto(s, m.group, m.index).value !in s.members)
    ensures r.Some? ==>
              var m := s.members[c];
              r.value.lists == s.lists[m.group := SwapRemove(s.lists[m.group], m.index)] &&
              (MovedInto(s, m.group, m.index).Some? ==>
                 var d := MovedInto(s, m.group, m.index).value;
                 r.value.members == s.members[d := s.members[d].(index := m.index)]) &&
              (MovedInto(s, m.group, m.index).None? ==> r.value.members == s.members)
  {
    var m := s.members[c];
    if m.group !in s.lists || Shared(s, m.group) || m.index >= |s.lists[m.group]| then None
    else
      var list := SwapRemove(s.lists[m.group], m.index);
      if m.index < |list| then
        if list[m.index] in s.members then
          Some(Groups(s.lists[m.group := list],
                      s.members[list[m.index] := s.members[list[m.index]].(index := m.index)], s.readers))
        else None
      else Some(Groups(s.lists[m.group := list], s.members, s.readers))
  }

  /** The panic on a dead moved member is reachable: a group listing two
      colliders whose second lost its member component. */
  lemma UnregisterMovedDead()
    ensures var s := Groups(map[0 := [1, 2]], map[1 := Member(0, 0)], map[]);
            Unregister(s, 1).None?
  {
    var s := Groups(map[0 := [1, 2]], map[1 := Member(0, 0)], map[]);
    assert MovedInto(s, 0, 0) == Some(2);
  }

  /** Unregistering a registered member of an unshared group keeps the
      groups valid, takes exactly that collider out of its list, and leaves
      every other list alone. */
  lemma UnregisterValid(s: Groups, c: Collider)
    requires Valid(s) && Registered(s, c) && !Shared(s, s.members[c].group)
    ensures Unregister(s, c).Some?
    ensures var r := Unregister(s, c).value;
            var g := s.members[c].group;
            Valid(r) && !Registered(r, c) &&
            multiset(r.lists[g]) == multiset(s.lists[g]) - multiset{c} &&
            (forall h :: h in s.lists && h != g ==> r.lists[h] == s.lists[h])
  {
    var m := s.members[c];
    var g := m.group;
    var n := |s.lists[g]| - 1;
    if m.index < n {
      assert Listed(s, g, n);
      ListedRegistered(s, g, n, m.index);
    }
    var r := Unregister(s, c).value;
    forall h, i: nat | h in r.lists && i < |r.lists[h]| ensures Listed(r, h, i) {
      if h == g && i != m.index {
        assert Listed(s, g, i) && Listed(s, g, n);
        ListedRegistered(s, g, i, n);
      } else if h == g {
        assert Listed(s, g, n);
      } else {
        assert Listed(s, h, i);
      }
    }
  }

  /** `members()` while the caller holds the clone. */
  function Members(s: Groups, g: GroupId): (r: (Groups, seq<Collider>))
    requires g in s.lists
    ensures r.1 == s.lists[g] && Shared(r.0, g)
    ensures r.0.lists == s.lists && r.0.members == s.members
  {
    var n := if g in s.readers then s.readers[g] else 0;
    (s.(readers := s.readers[g := n + 1]), s.lists[g])
  }

  /** Dropping a clone returned by `members()`. */
  function DropMembers(s: Groups, g: GroupId): (r: Groups)
    requires Shared(s, g)
    ensures r.lists == s.lists && r.members == s.members
    ensures Shared(r, g) <==> s.readers[g] > 1
  {
    s.(readers := s.readers[g := s.readers[g] - 1])
  }

  /** While a clone of the list is alive, registration and unregistration
      in that group both panic; once the only clone is dropped they work
      again. */
  lemma MutationWhileShared(s: Groups, g: GroupId, c: Collider, d: Collider)
    requires g in s.lists && !Shared(s, g)
    requires d in s.members && s.members[d].group == g
    ensures var held := Members(s, g).0;
            Register(held, g, c).None? && Unregister(held, d).None? &&
            Register(DropMembers(held, g), g, c).Some?
  {
  }

  // ---------------------------------------------------------------------
  // Casting a hull from a group

  /** The group-exclusion predicate (`collide_no_group`, and the inline
      check in the game's `cast_hull`): a collider passes unless its entity
      holds a member component naming this group. */
  function NoGroup(s: Groups, g: GroupId, c: Collider): (r: bool)
    ensures r <==> !(c in s.members && s.members[c].group == g)
  {
    c !in s.members || s.members[c].group != g
  }

  /** A group never hits its own registered members, and passes every
      collider registered in another group. */
  lemma NoGroupExcludesOwn(s: Groups, g: GroupId, h: GroupId, i: nat)
    requires Valid(s) && h in s.lists && i < |s.lists[h]|
    ensures NoGroup(s, g, s.lists[h][i]) <==> h != g
  {
    assert Listed(s, h, i);
  }

  /** `cast_hull`: starting from the clear result, combine the bus casts
      for every member with `min`. The casts and the combination are floating
      point, so they are parameters here. */
  function CastHull<R>(members: seq<Collider>, clear: R, cast: Collider -> R, min: (R, R) -> R): (r: R)
    ensures |members| == 0 ==> r == clear
  {
    if |members| == 0 then clear
    else min(CastHull(members[..|members| - 1], clear, cast, min), cast(members[|members| - 1]))
  }

  ghost predicate Picks<R>(min: (R, R) -> R, a: R, b: R) {
    min(a, b) == a || min(a, b) == b
  }

  /** When `min` picks one of its arguments, the result of a cast is the
      clear result or the cast of some member. */
  lemma {:induction false} CastHullPicks<R>(members: seq<Collider>, clear: R, cast: Collider -> R, min: (R, R) -> R)
    requires forall a: R, b: R :: Picks(min, a, b)
    ensures CastHull(members, clear, cast, min) == clear ||
            exists i :: 0 <= i < |members| && CastHull(members, clear, cast, min) == cast(members[i])
  {
    if |members| > 0 {
      var init := members[..|members| - 1];
      CastHullPicks(init, clear, cast, min);
      var prev := CastHull(init, clear, cast, min);
      var last := |members| - 1;
      assert CastHull(members, clear, cast, min) == min(prev, cast(members[last]));
      assert Picks(min, prev, cast(members[last]));
      if min(prev, cast(members[last])) == cast(members[last]) {
        assert CastHull(members, clear, cast, min) == cast(members[last]);
      } else if prev != clear {
        var i :| 0 <= i < |init| && prev == cast(init[i]);
        assert members[i] == init[i];
        assert CastHull(members, clear, cast, min) == cast(members[i]);
      }
    }
  }
}

=== FILE: depth_gen.dfy ===
/** The renderers' depth generator (`DepthGenerator` in the wgpu utilities
    and its copy among the 2D context's helpers): a 16-bit epoch and a 32-bit
    value that counts up to the bit pattern of 1.0f32 and then rolls over
    into the next epoch. The value is handed to the GPU as the float with
    those bits; only the bits are modelled. The increments are plain `+=`:
    an epoch that would overflow its 16 bits panics as a debug build's
    overflow check makes it (a release build wraps to 0), and a panic is
    `None`. */
module DepthGen {
  import opened Wrappers

  /** `1.0f32.to_bits()`. */
  const ONE_BITS: nat := 0x3F80_0000
  const EPOCH_MAX: nat := 0xFFFF

  datatype Gen = Gen(epoch: nat, value: nat)

  /** The value never passes the bits of 1.0, and the epoch fits 16 bits. */
  predicate InRange(g: Gen) {
    g.value <= ONE_BITS && g.epoch <= EPOCH_MAX
  }

  /** Lexicographic order on (epoch, value). */
  predicate Before(a: Gen, b: Gen) {
    a.epoch < b.epoch || (a.epoch == b.epoch && a.value < b.value)
  }

  /** `new`, and what `reset` restores. */
  function New(): (g: Gen)
    ensures InRange(g) && g.epoch == 0 && g.value == 0
    ensures forall h :: InRange(h) && h != g ==> Before(g, h)
  {
    Gen(0, 0)
  }

  /** `next`: one more depth level; past 1.0 the value restarts at 0 in the
      next epoch. */
  function Next(g: Gen): (r: Option<Gen>)
    requires InRange(g)
    ensures r.None? <==> g.value == ONE_BITS && g.epoch == EPOCH_MAX
    ensures r.Some? ==> InRange(r.value) && Before(g, r.value)
    ensures r.Some? ==> (r.value.epoch == g.epoch + 1 <==> g.value == ONE_BITS)
    ensures r.Some? && r.value.epoch != g.epoch ==> r.value.value == 0
  {
    if g.value + 1 > ONE_BITS then
      if g.epoch + 1 > EPOCH_MAX then None else Some(Gen(g.epoch + 1, 0))
    else Some(Gen(g.epoch, g.value + 1))
  }

  /** The generator after k more calls to `next`. */
  function Advance(g: Gen, k: nat): (r: Option<Gen>)
    requires InRange(g)
    ensures r.Some? ==> InRange(r.value)
    decreases k
  {
    if k == 0 then Some(g)
    else match Next(g)
      case None => None
      case Some(h) => Advance(h, k - 1)
  }

  /** Where the generator stands after k calls from (epoch, value): each
      epoch holds `ONE_BITS + 1` depth levels, so the position is k levels
      further along in that numbering, and the calls panic only once the
      last epoch is used up. */
  lemma {:induction false} AdvancePosition(g: Gen, k: nat)
    requires InRange(g)
    ensures var pos := g.epoch * (ONE_BITS + 1) + g.value + k;
            var r := Advance(g, k);
            (r.Some? <==> pos < (EPOCH_MAX + 1) * (ONE_BITS + 1)) &&
            (r.Some? ==> r.value.epoch == pos / (ONE_BITS + 1) && r.value.value == pos % (ONE_BITS + 1))
    decreases k
  {
    var n := ONE_BITS + 1;
    var pos := g.epoch * n + g.value + k;
    if k == 0 {
      assert g.epoch * n + g.value == pos;
      DivModUnique(pos, n, g.epoch, g.value);
    } else {
      match Next(g)
      case None =>
        assert g.epoch * n + g.value == (EPOCH_MAX + 1) * n - 1;
      case Some(h) =>
        assert h.epoch * n + h.value == g.epoch * n + g.value + 1;
        AdvancePosition(h, k - 1);
    }
  }

  lemma DivModUnique(x: nat, n: nat, q: nat, r: nat)
    requires n > 0 && r < n && x == q * n + r
    ensures x / n == q && x % n == r
  {
    QuotientUnique(q, r, x / n, x % n, n);
  }

  /** Two quotient-remainder pairs of one number agree. */
  lemma QuotientUnique(q: nat, r: nat, d: nat, m: nat, n: nat)
    requires r < n && m < n && q * n + r == d * n + m
    ensures q == d && r == m
  {
    if q > d {
      MulStep(d, q, n);
    } else if q < d {
      MulStep(q, d, n);
    }
  }

  lemma MulStep(a: nat, b: nat, n: nat)
    requires a < b
    ensures a * n + n <= b * n
  {
    var c: nat := b - a;
    assert (a + c) * n == a * n + c * n;
    assert c * n == (c - 1) * n + n;
  }

  /** Each call moves the generator strictly forward, so the depths a run of
      calls hands out are all distinct. */
  lemma {:induction false} AdvanceIncreases(g: Gen, k: nat)
    requires InRange(g) && k > 0 && Advance(g, k).Some?
    ensures Before(g, Advance(g, k).value)
    decreases k
  {
    var h := Next(g).value;
    if k > 1 {
      AdvanceIncreases(h, k - 1);
    }
  }
}

=== FILE: depth_runs.dfy ===
/** The 2D context's depth epochs (`DepthEpoch`, a non-zero 32-bit number),
    its epoch generator, and `DepthRuns`: a list of points, each a position
    and the epoch that was current when it was recorded, which splits a
    stream of positions into runs of one epoch each. The generator's float
    depth is unimplemented in the source (`depth` is `todo!()`), so only its
    epoch counter is modelled. A panic is `None`. */
module DepthRuns {
  import opened Wrappers

  const U32_MAX: nat := 0xFFFF_FFFF

  type Epoch = e: nat | 1 <= e <= U32_MAX witness 1

  /** `as_index`: epochs number the buckets of a scheduler from 0. */
  function AsIndex(e: Epoch): (i: nat)
    ensures i < U32_MAX && i + 1 == e
  {
    e - 1
  }

  // ---------------------------------------------------------------------
  // The epoch generator

  datatype Gen = Gen(epoch: Epoch, depth: nat)

  /** `new`, and what `reset` restores: the first epoch, depth zero. */
  function NewGen(): (g: Gen)
    ensures g.depth == 0 && AsIndex(g.epoch) == 0
  {
    Gen(1, 0)
  }

  /** `next_epoch`: depth back to zero in the next epoch; the checked
      addition panics past the last epoch. */
  function NextEpoch(g: Gen): (r: Option<Gen>)
    ensures r.None? <==> g.epoch == U32_MAX
    ensures r.Some? ==> r.value.depth == 0 && r.value.epoch > g.epoch && AsIndex(r.value.epoch) == AsIndex(g.epoch) + 1
  {
    if g.epoch == U32_MAX then None else Some(Gen(g.epoch + 1, 0))
  }

  // ---------------------------------------------------------------------
  // Runs

  datatype Point = Point(epoch: Option<Epoch>, pos: int)

  datatype Runs = Runs(points: seq<Point>)

  /** The first point has no epoch, every other point has one, and no two
      neighbouring points share an epoch. */
  ghost predicate Valid(r: Runs) {
    |r.points| >= 1 && r.points[0].epoch.None? &&
    (forall i :: 1 <= i < |r.points| ==> r.points[i].epoch.Some?) &&
    (forall i :: 0 <= i < |r.points| - 1 ==> r.points[i].epoch != r.points[i + 1].epoch)
  }

  /** `new` and `reset`: a single point at `start`. */
  function New(start: int): (r: Runs)
    ensures Valid(r) && LastPos(r) == start && LastEpoch(r).None?
    ensures Iter(r) == Some([])
  {
    Runs([Point(None, start)])
  }

  /** `last_pos` (which panics on an empty list). */
  function LastPos(r: Runs): (p: int)
    requires |r.points| >= 1
  {
    r.points[|r.points| - 1].pos
  }

  /** `last_epoch`. */
  function LastEpoch(r: Runs): (e: Option<Epoch>)
    requires |r.points| >= 1
  {
    r.points[|r.points| - 1].epoch
  }

  /** `record_pos`: in the last point's epoch, move the last point;
      otherwise start a new run. */
  function RecordPos(r: Runs, e: Epoch, pos: int): (r': Runs)
    requires |r.points| >= 1
    ensures Valid(r) ==> Valid(r')
    ensures |r'.points| >= 1 && LastPos(r') == pos && LastEpoch(r') == Some(e)
    ensures LastEpoch(r) == Some(e) ==> r'.points == r.points[..|r.points| - 1] + [Point(Some(e), pos)]
    ensures LastEpoch(r) != Some(e) ==> r'.points == r.points + [Point(Some(e), pos)]
  {
    var n := |r.points|;
    if r.points[n - 1].epoch != Some(e) then Runs(r.points + [Point(Some(e), pos)])
    else Runs(r.points[..n - 1] + [Point(Some(e), pos)])
  }

  /** One run: its epoch and its positions `lo..hi`. */
  datatype Run = Run(epoch: Epoch, lo: int, hi: int)

  /** `iter`: one run per pair of neighbouring points, tagged with the
      second point's epoch. `None` when that epoch is missing (the source
      unwraps it). */
  function Iter(r: Runs): (runs: Option<seq<Run>>)
    ensures runs.Some? <==> forall i :: 1 <= i < |r.points| ==> r.points[i].epoch.Some?
    ensures runs.Some? ==> |runs.value| == if |r.points| == 0 then 0 else |r.points| - 1
    ensures runs.Some? ==>
      forall i :: 0 <= i < |runs.value| ==>
        runs.value[i] == Run(r.points[i + 1].epoch.value, r.points[i].pos, r.points[i + 1].pos)
    decreases |r.points|
  {
    if |r.points| < 2 then Some([])
    else
      var n := |r.points|;
      var (a, b) := (r.points[n - 2], r.points[n - 1]);
      match b.epoch
      case None => None
      case Some(e) =>
        match Iter(Runs(r.points[..n - 1]))
        case None => None
        case Some(init) => Some(init + [Run(e, a.pos, b.pos)])
  }

  /** The runs of a valid list always exist, start at the first point, meet
      end to end, end at the last point, and no two neighbours share an
      epoch. */
  lemma {:induction false} IterValid(r: Runs)
    requires Valid(r)
    ensures Iter(r).Some?
    ensures var runs := Iter(r).value;
            (|runs| > 0 ==> runs[0].lo == r.points[0].pos && runs[|runs| - 1].hi == LastPos(r)) &&
            (forall i :: 0 <= i < |runs| - 1 ==> runs[i].hi == runs[i + 1].lo && runs[i].epoch != runs[i + 1].epoch) &&
            (forall i :: 0 <= i < |runs| ==> Some(runs[i].epoch) == r.points[i + 1].epoch)
    decreases |r.points|
  {
    var n := |r.points|;
    if n >= 2 {
      var init := Runs(r.points[..n - 1]);
      assert Valid(init);
      IterValid(init);
    }
  }

  /** What recording a position does to the runs: in the current epoch the
      last run now ends at the new position; in a new epoch a run from the
      old last position to the new one is added. */
  lemma IterRecord(r: Runs, e: Epoch, pos: int)
    requires Valid(r)
    ensures Iter(r).Some?
    ensures var before := Iter(r).value;
            var after := Iter(RecordPos(r, e, pos));
            after.Some? &&
            if LastEpoch(r) == Some(e) then
              |before| > 0 && after.value == before[..|before| - 1] + [Run(e, before[|before| - 1].lo, pos)]
            else after.value == before + [Run(e, LastPos(r), pos)]
  {
    IterValid(r);
    var r' := RecordPos(r, e, pos);
    var n := |r.points|;
    IterValid(r');
    if LastEpoch(r) == Some(e) {
      assert n >= 2;
      assert Runs(r'.points[..n - 1]) == Runs(r.points[..n - 1]);
      var shorter := Runs(r.points[..n - 1]);
      assert Valid(shorter);
      IterValid(shorter);
      if n > 2 {
        assert Runs(shorter.points[..n - 2]) == Runs(r.points[..n - 2]);
      }
    } else {
      assert Runs(r'.points[..n]) == r;
    }
  }
}

=== FILE: entities.dfy ===
/** The entity store of the ECS (`EntityStore`): live entities in an arena,
    each with its archetype and its place in a parent/children tree, plus
    the component storages. Arena handles are modelled as naturals handed
    out in increasing order (the arena's generation counter makes a handle
    unique for the life of the store). Component values of every type live
    in one map keyed by (entity, component id); a panic is `None`. */
module Entities {
  import opened Wrappers
  import opened SortedSeqs
  import opened Vecs
  import A = Archetypes

  type Entity = nat
  type ComponentId = int

  /** `EntityInfo`. */
  datatype Info = Info(archetype: nat, indexInParent: nat, parent: Option<Entity>, children: seq<Entity>)

  type Ents = map<Entity, Info>

  datatype Store<V> = Store(entities: Ents, next: Entity, arches: A.Store, comps: map<(Entity, ComponentId), V>, root: Entity)

  // ---------------------------------------------------------------------
  // The tree invariant

  /** An entity with a parent sits in its parent's list at its index, and
      is not its own parent. */
  ghost predicate ParentOk(es: Ents, e: Entity)
    requires e in es
  {
    match es[e].parent
    case None => true
    case Some(p) =>
      p in es && p != e && es[e].indexInParent < |es[p].children| &&
      es[p].children[es[e].indexInParent] == e
  }

  /** The i-th listed child is alive, names the list's owner as its parent
      and records its own position. */
  ghost predicate ChildOk(es: Ents, p: Entity, i: nat)
    requires p in es && i < |es[p].children|
  {
    var c := es[p].children[i];
    c in es && es[c].parent == Some(p) && es[c].indexInParent == i
  }

  ghost predicate ParentLinks(es: Ents) {
    forall e {:trigger ParentOk(es, e)} :: e in es ==> ParentOk(es, e)
  }

  ghost predicate ChildLinks(es: Ents) {
    forall p, i: nat {:trigger ChildOk(es, p, i)} :: p in es && i < |es[p].children| ==> ChildOk(es, p, i)
  }

  /** Parent pointers and children lists agree both ways. */
  ghost predicate Linked(es: Ents) {
    ParentLinks(es) && ChildLinks(es)
  }

  /** A child occurs once in its parent's list. */
  lemma ChildOnce(es: Ents, p: Entity, i: nat, j: nat)
    requires ChildLinks(es) && p in es && i < |es[p].children| && j < |es[p].children|
    requires es[p].children[i] == es[p].children[j]
    ensures i == j
  {
    assert ChildOk(es, p, i) && ChildOk(es, p, j);
  }

  ghost predicate ArchesInRange(es: Ents, arches: A.Store) {
    forall e :: e in es ==> es[e].archetype < |arches.arena|
  }

  /** The component set an entity's archetype names. */
  ghost function CompSet<V>(s: Store<V>, e: Entity): set<ComponentId>
    requires e in s.entities && ArchesInRange(s.entities, s.arches)
  {
    s.arches.arena[s.entities[e].archetype].compSet
  }

  /** An entity holds a component exactly when its archetype lists it. */
  ghost predicate CompsMatch<V>(s: Store<V>)
    requires ArchesInRange(s.entities, s.arches)
  {
    (forall k :: k in s.comps ==> k.0 in s.entities && k.1 in CompSet(s, k.0)) &&
    (forall e, c :: e in s.entities && c in CompSet(s, e) ==> (e, c) in s.comps)
  }

  ghost predicate Valid<V>(s: Store<V>) {
    A.Valid(s.arches) &&
    (forall e :: e in s.entities ==> e < s.next) &&
    ArchesInRange(s.entities, s.arches) &&
    Linked(s.entities) &&
    CompsMatch(s)
  }

  // ---------------------------------------------------------------------
  // Creation

  /** `Entity::new_root`: a fresh handle with the EMPTY archetype, no
      parent and no children. */
  function NewRoot<V>(s: Store<V>): (r: (Store<V>, Entity))
    ensures r.1 == s.next && r.1 in r.0.entities
    ensures r.0.entities == s.entities[r.1 := Info(A.EMPTY, 0, None, [])]
    ensures r.0.comps == s.comps && r.0.arches == s.arches && r.0.next > r.1
  {
    var e := s.next;
    (s.(entities := s.entities[e := Info(A.EMPTY, 0, None, [])], next := s.next + 1), e)
  }

  /** A new root keeps a valid store valid and holds no component. */
  lemma NewRootValid<V>(s: Store<V>)
    requires Valid(s)
    ensures Valid(NewRoot(s).0) && forall c :: (NewRoot(s).1, c) !in NewRoot(s).0.comps
  {
    var (r, e) := NewRoot(s);
    assert e !in s.entities;
    A.EmptyHasNone(s.arches);
    RootLinked(s.entities, e);
    RootComps(s, r, e);
  }

  /** A fresh entity without parent or children keeps the tree linked. */
  lemma RootLinked(es: Ents, e: Entity)
    requires Linked(es) && e !in es
    ensures Linked(es[e := Info(A.EMPTY, 0, None, [])])
  {
    var r := es[e := Info(A.EMPTY, 0, None, [])];
    forall x | x in r ensures ParentOk(r, x) {
      if x != e { assert ParentOk(es, x); }
    }
    forall q, j: nat | q in r && j < |r[q].children| ensures ChildOk(r, q, j) {
      assert ChildOk(es, q, j);
    }
  }

  /** A fresh entity of the EMPTY archetype needs no stored component. */
  lemma RootComps<V>(s: Store<V>, r: Store<V>, e: Entity)
    requires ArchesInRange(s.entities, s.arches) && CompsMatch(s) && e !in s.entities
    requires |s.arches.arena| > A.EMPTY && s.arches.arena[A.EMPTY].compSet == {}
    requires r.entities == s.entities[e := Info(A.EMPTY, 0, None, [])] && r.comps == s.comps && r.arches == s.arches
    ensures ArchesInRange(r.entities, r.arches) && CompsMatch(r)
  {
    assert forall x :: x in s.entities ==> CompSet(r, x) == CompSet(s, x);
  }

  /** `EntityStore::default`: a fresh archetype store and one root entity. */
  function Default<V>(): (s: Store<V>)
    ensures Valid(s) && s.root in s.entities
    ensures s.entities[s.root] == Info(A.EMPTY, 0, None, [])
  {
    var s0: Store<V> := Store(map[], 0, A.New(), map[], 0);
    NewRootValid(s0);
    var r := NewRoot(s0);
    r.0.(root := r.1)
  }

  // ---------------------------------------------------------------------
  // set_parent

  /** The first half of `set_parent`: take the parent, swap-remove the
      entity from its list, and fix the index of the child moved into its
      slot. `None` where the source would index a dead entity or past the
      end of the list. The entity keeps its stale `index_in_parent`. */
  function Detach(es: Ents, e: Entity): (r: Option<Ents>)
    requires e in es
    ensures r.Some? ==> r.value.Keys == es.Keys
  {
    var me := es[e];
    var es1 := es[e := me.(parent := None)];
    match me.parent
    case None => Some(es1)
    case Some(p) =>
      if p !in es1 || me.indexInParent >= |es1[p].children| then None
      else
        var i := me.indexInParent;
        var ch := SwapRemove(es1[p].children, i);
        var es2 := es1[p := es1[p].(children := ch)];
        if i < |ch| then
          if ch[i] !in es2 then None
          else Some(es2[ch[i] := es2[ch[i]].(indexInParent := i)])
        else Some(es2)
  }

  /** Detaching from a linked tree succeeds and keeps it linked: the entity
      has no parent, its old parent lists the other children (the last one
      moved into the vacated slot), and nothing else changes. */
  lemma DetachLinked(es: Ents, e: Entity)
    requires Linked(es) && e in es
    ensures Detach(es, e).Some?
    ensures Linked(Detach(es, e).value)
    ensures Detach(es, e).value[e].parent.None? && Detach(es, e).value[e].children == es[e].children
    ensures es[e].parent.Some? ==>
              es[e].indexInParent < |es[es[e].parent.value].children| &&
              Detach(es, e).value[es[e].parent.value].children ==
              SwapRemove(es[es[e].parent.value].children, es[e].indexInParent)
    ensures forall x :: x in es && x != e ==> Detach(es, e).value[x].parent == es[x].parent
    ensures forall x :: x in es && (es[e].parent.None? || x != es[e].parent.value) ==>
              Detach(es, e).value[x].children == es[x].children
    ensures forall x :: x in es ==> Detach(es, e).value[x].archetype == es[x].archetype
  {
    assert ParentOk(es, e);
    var me := es[e];
    if me.parent.Some? {
      var p := me.parent.value;
      var i := me.indexInParent;
      var n := |es[p].children| - 1;
      if i < n {
        var m := es[p].children[n];
        assert ChildOk(es, p, n) && ChildOk(es, p, i);
        assert ParentOk(es, m);
        var r := Detach(es, e).value;
        DetachMovedLinks(es, e, p, i, m, r);
      } else {
        var r := Detach(es, e).value;
        DetachLastLinks(es, e, p, i, r);
      }
    } else {
      var r := Detach(es, e).value;
      forall x | x in r ensures ParentOk(r, x) {
        assert ParentOk(es, x);
      }
      forall q, j: nat | q in r && j < |r[q].children| ensures ChildOk(r, q, j) {
        assert ChildOk(es, q, j);
        assert ParentOk(es, es[q].children[j]);
      }
    }
  }

  lemma DetachMovedLinks(es: Ents, e: Entity, p: Entity, i: nat, m: Entity, r: Ents)
    requires Linked(es) && e in es && es[e].parent == Some(p) && es[e].indexInParent == i
    requires p in es && p != e && i < |es[p].children| - 1 && es[p].children[i] == e
    requires m == es[p].children[|es[p].children| - 1]
    requires m in es && es[m].parent == Some(p) && es[m].indexInParent == |es[p].children| - 1 && m != p
    requires r == es[e := es[e].(parent := None)][p := es[p].(children := SwapRemove(es[p].children, i))][m := es[m].(indexInParent := i)]
    ensures Linked(r)
  {
    DetachMovedParents(es, e, p, i, m, r);
    DetachMovedChildren(es, e, p, i, m, r);
  }

  lemma DetachMovedParents(es: Ents, e: Entity, p: Entity, i: nat, m: Entity, r: Ents)
    requires Linked(es) && e in es && es[e].parent == Some(p) && es[e].indexInParent == i
    requires p in es && p != e && i < |es[p].children| - 1 && es[p].children[i] == e
    requires m == es[p].children[|es[p].children| - 1]
    requires m in es && es[m].parent == Some(p) && es[m].indexInParent == |es[p].children| - 1 && m != p
    requires r == es[e := es[e].(parent := None)][p := es[p].(children := SwapRemove(es[p].children, i))][m := es[m].(indexInParent := i)]
    ensures ParentLinks(r)
  {
    forall x | x in r ensures ParentOk(r, x) {
      assert ParentOk(es, x);
    }
  }

  lemma DetachMovedChildren(es: Ents, e: Entity, p: Entity, i: nat, m: Entity, r: Ents)
    requires Linked(es) && e in es && es[e].parent == Some(p) && es[e].indexInParent == i
    requires p in es && p != e && i < |es[p].children| - 1 && es[p].children[i] == e
    requires m == es[p].children[|es[p].children| - 1]
    requires m in es && es[m].parent == Some(p) && es[m].indexInParent == |es[p].children| - 1 && m != p
    requires r == es[e := es[e].(parent := None)][p := es[p].(children := SwapRemove(es[p].children, i))][m := es[m].(indexInParent := i)]
    ensures ChildLinks(r)
  {
    forall q, j: nat | q in r && j < |r[q].children| ensures ChildOk(r, q, j) {
      if q == p {
        if j != i {
          assert ChildOk(es, p, j);
          assert ParentOk(es, es[p].children[j]);
        }
      } else {
        assert ChildOk(es, q, j);
        assert ParentOk(es, es[q].children[j]);
      }
    }
  }

  lemma DetachLastLinks(es: Ents, e: Entity, p: Entity, i: nat, r: Ents)
    requires Linked(es) && e in es && es[e].parent == Some(p) && es[e].indexInParent == i
    requires p in es && p != e && i == |es[p].children| - 1 && es[p].children[i] == e
    requires r == es[e := es[e].(parent := None)][p := es[p].(children := SwapRemove(es[p].children, i))]
    ensures Linked(r)
  {
    forall x | x in r ensures ParentOk(r, x) {
      assert ParentOk(es, x);
    }
    forall q, j: nat | q in r && j < |r[q].children| ensures ChildOk(r, q, j) {
      assert ChildOk(es, q, j);
      assert ParentOk(es, es[q].children[j]);
    }
  }

  /** The second half of `set_parent`: append the entity to the new
      parent's list. */
  function Attach(es: Ents, e: Entity, q: Entity): (r: Ents)
    requires e in es && q in es && e != q
    ensures r.Keys == es.Keys
    ensures r[e].parent == Some(q) && r[q].children == es[q].children + [e]
    ensures r[e].indexInParent == |es[q].children|
  {
    var me := es[e];
    var pv := es[q];
    es[e := me.(indexInParent := |pv.children|, parent := Some(q))][q := pv.(children := pv.children + [e])]
  }

  lemma AttachLinked(es: Ents, e: Entity, q: Entity)
    requires Linked(es) && e in es && q in es && e != q && es[e].parent.None?
    ensures Linked(Attach(es, e, q))
    ensures forall x :: x in es ==> Attach(es, e, q)[x].archetype == es[x].archetype
  {
    var r := Attach(es, e, q);
    forall x | x in r ensures ParentOk(r, x) {
      assert ParentOk(es, x);
    }
    forall p, j: nat | p in r && j < |r[p].children| ensures ChildOk(r, p, j) {
      if j < |es[p].children| {
        assert ChildOk(es, p, j);
      }
    }
  }

  /** `Entity::set_parent`. `None` where the source panics: a dead entity,
      a dead new parent, or the entity as its own parent (`get2_mut` on one
      index). */
  function SetParent<V>(s: Store<V>, e: Entity, parent: Option<Entity>): (r: Option<Store<V>>)
    ensures r.Some? ==> e in s.entities && r.value.entities.Keys == s.entities.Keys && r.value.entities[e].parent == parent
    ensures r.Some? ==> r.value.comps == s.comps && r.value.arches == s.arches && r.value.next == s.next
    ensures r.Some? && parent.Some? ==>
              parent.value in s.entities &&
              r.value.entities[e].indexInParent == |r.value.entities[parent.value].children| - 1 &&
              r.value.entities[parent.value].children[r.value.entities[e].indexInParent] == e
  {
    if e !in s.entities then None
    else match Detach(s.entities, e)
      case None => None
      case Some(es1) =>
        match parent
        case None => Some(s.(entities := es1))
        case Some(q) =>
          if q !in es1 || q == e then None
          else Some(s.(entities := Attach(es1, e, q)))
  }

  /** On a valid store, `set_parent` panics exactly for a dead entity or a
      dead or identical new parent, and otherwise keeps the store valid. */
  lemma SetParentValid<V>(s: Store<V>, e: Entity, parent: Option<Entity>)
    requires Valid(s)
    ensures SetParent(s, e, parent).None? <==>
              e !in s.entities || (parent.Some? && (parent.value !in s.entities || parent.value == e))
    ensures SetParent(s, e, parent).Some? ==> Valid(SetParent(s, e, parent).value)
  {
    if e in s.entities {
      DetachLinked(s.entities, e);
      var es1 := Detach(s.entities, e).value;
      if parent.Some? && parent.value in es1 && parent.value != e {
        AttachLinked(es1, e, parent.value);
        RelinkValid(s, SetParent(s, e, parent).value);
      } else if parent.None? {
        RelinkValid(s, SetParent(s, e, parent).value);
      }
    }
  }

  /** Changing only the tree links keeps a store valid when the new links
      are consistent. */
  lemma RelinkValid<V>(s: Store<V>, r: Store<V>)
    requires Valid(s) && r.arches == s.arches && r.comps == s.comps && r.next == s.next
    requires r.entities.Keys == s.entities.Keys && Linked(r.entities)
    requires forall x :: x in s.entities ==> r.entities[x].archetype == s.entities[x].archetype
    ensures Valid(r)
  {
    assert ArchesInRange(r.entities, r.arches);
    assert forall x :: x in s.entities ==> CompSet(r, x) == CompSet(s, x);
  }

  /** Moving an entity under a new parent: it is appended to the new
      parent's list, and the old parent's list loses exactly that entity
      (by swap-remove). */
  lemma SetParentMoves<V>(s: Store<V>, e: Entity, q: Entity)
    requires Linked(s.entities) && e in s.entities && q in s.entities && q != e
    requires s.entities[e].parent.Some? && s.entities[e].parent.value != q
    ensures SetParent(s, e, Some(q)).Some?
    ensures SetParent(s, e, Some(q)).value.entities[q].children == s.entities[q].children + [e]
    ensures var p := s.entities[e].parent.value;
            multiset(SetParent(s, e, Some(q)).value.entities[p].children) ==
            multiset(s.entities[p].children) - multiset{e}
  {
    assert ParentOk(s.entities, e);
    DetachLinked(s.entities, e);
  }

  /** `Entity::new`: a fresh root entity moved under `parent`; `None` for
      a dead parent. */
  function New<V>(s: Store<V>, parent: Entity): (r: Option<(Store<V>, Entity)>)
    ensures r.Some? ==> r.value.1 == s.next
  {
    var (s1, e) := NewRoot(s);
    match SetParent(s1, e, Some(parent))
    case None => None
    case Some(s2) => Some((s2, e))
  }

  /** A new entity under a live parent: alive, with the EMPTY archetype and
      no components, last in its parent's list; the store stays valid. */
  lemma NewChild<V>(s: Store<V>, parent: Entity)
    requires Valid(s) && parent in s.entities
    ensures New(s, parent).Some?
    ensures var (r, e) := New(s, parent).value;
            Valid(r) && e !in s.entities && e in r.entities &&
            r.entities[e].archetype == A.EMPTY && r.entities[e].parent == Some(parent) &&
            r.entities[e].children == [] && (forall c :: (e, c) !in r.comps) &&
            r.entities[parent].children == s.entities[parent].children + [e]
  {
    NewRootValid(s);
    var (s1, e) := NewRoot(s);
    SetParentValid(s1, e, Some(parent));
    DetachLinked(s1.entities, e);
  }

  // ---------------------------------------------------------------------
  // Components

  /** `Entity::add`: overwrite in place when the entity already has the
      component, otherwise store it and extend the archetype. `None` for a
      dead entity. */
  function Add<V>(s: Store<V>, e: Entity, c: ComponentId, v: V): (r: Option<Store<V>>)
    requires Valid(s)
    ensures r.None? <==> e !in s.entities
    ensures r.Some? ==> Valid(r.value) && r.value.entities.Keys == s.entities.Keys
    ensures r.Some? ==> r.value.comps == s.comps[(e, c) := v]
    ensures r.Some? ==> CompSet(r.value, e) == CompSet(s, e) + {c}
    ensures r.Some? && (e, c) in s.comps ==> r.value.entities == s.entities && r.value.arches == s.arches
  {
    if e !in s.entities then None
    else if (e, c) in s.comps then
      OverwriteValid(s, e, c, v);
      Some(s.(comps := s.comps[(e, c) := v]))
    else
      var info := s.entities[e];
      var ext := A.LookupExtend(s.arches, info.archetype, c);
      var r := s.(arches := ext.0, entities := s.entities[e := info.(archetype := ext.1)], comps := s.comps[(e, c) := v]);
      AddValid(s, e, c, v, r);
      Some(r)
  }

  /** Overwriting a stored component changes no key of the store. */
  lemma OverwriteValid<V>(s: Store<V>, e: Entity, c: ComponentId, v: V)
    requires Valid(s) && (e, c) in s.comps
    ensures Valid(s.(comps := s.comps[(e, c) := v]))
  {
    var r := s.(comps := s.comps[(e, c) := v]);
    SameKeysComps(s, r);
  }

  /** The stored values play no part in the invariant, only their keys. */
  lemma SameKeysComps<V>(s: Store<V>, r: Store<V>)
    requires ArchesInRange(s.entities, s.arches) && CompsMatch(s)
    requires r.entities == s.entities && r.arches == s.arches && r.comps.Keys == s.comps.Keys
    ensures ArchesInRange(r.entities, r.arches) && CompsMatch(r)
  {
    assert forall x :: x in r.entities ==> CompSet(r, x) == CompSet(s, x);
  }

  lemma AddValid<V>(s: Store<V>, e: Entity, c: ComponentId, v: V, r: Store<V>)
    requires Valid(s) && e in s.entities && (e, c) !in s.comps
    requires r == s.(arches := A.LookupExtend(s.arches, s.entities[e].archetype, c).0,
                     entities := s.entities[e := s.entities[e].(archetype := A.LookupExtend(s.arches, s.entities[e].archetype, c).1)],
                     comps := s.comps[(e, c) := v])
    ensures Valid(r) && CompSet(r, e) == CompSet(s, e) + {c}
  {
    var b := s.entities[e].archetype;
    var a := r.entities[e].archetype;
    A.LookupCorrect(s.arches, A.Extend, b, c);
    A.LookupKeepsArchetypes(s.arches, A.Extend, b, c);
    assert s.arches.arena[b].compSet == Elems(s.arches.arena[b].comps);
    assert Elems(r.arches.arena[a].comps) == CompSet(s, e) + {c};
    RetypeValid(s, r, e, a);
  }

  /** Moving one entity to another archetype, after a lookup that kept the
      existing archetypes, keeps the store valid when its stored components
      are exactly the new archetype's. */
  lemma RetypeValid<V>(s: Store<V>, r: Store<V>, e: Entity, a: nat)
    requires Valid(s) && e in s.entities && A.Valid(r.arches) && r.next == s.next
    requires r.entities == s.entities[e := s.entities[e].(archetype := a)]
    requires a < |r.arches.arena| && |r.arches.arena| >= |s.arches.arena|
    requires forall i :: 0 <= i < |s.arches.arena| ==> r.arches.arena[i].comps == s.arches.arena[i].comps
    requires forall k: (Entity, ComponentId) :: k.0 != e ==> (k in r.comps <==> k in s.comps)
    requires forall c :: (e, c) in r.comps <==> c in Elems(r.arches.arena[a].comps)
    ensures Valid(r) && CompSet(r, e) == Elems(r.arches.arena[a].comps)
  {
    RetypeSets(s, r, e, a);
    RetypeLinked(s.entities, e, a);
    RetypeComps(s, r, e, a);
  }

  lemma RetypeSets<V>(s: Store<V>, r: Store<V>, e: Entity, a: nat)
    requires Valid(s) && e in s.entities && A.WellFormed(r.arches)
    requires r.entities == s.entities[e := s.entities[e].(archetype := a)]
    requires a < |r.arches.arena| && |r.arches.arena| >= |s.arches.arena|
    requires forall i :: 0 <= i < |s.arches.arena| ==> r.arches.arena[i].comps == s.arches.arena[i].comps
    ensures ArchesInRange(r.entities, r.arches)
    ensures forall x :: x in s.entities && x != e ==> CompSet(r, x) == CompSet(s, x)
    ensures CompSet(r, e) == Elems(r.arches.arena[a].comps)
  {
    forall x | x in s.entities && x != e
      ensures CompSet(r, x) == CompSet(s, x)
    {
      var a := s.entities[x].archetype;
      assert r.arches.arena[a].compSet == Elems(r.arches.arena[a].comps);
      assert s.arches.arena[a].compSet == Elems(s.arches.arena[a].comps);
    }
    assert r.arches.arena[a].compSet == Elems(r.arches.arena[a].comps);
  }

  lemma RetypeComps<V>(s: Store<V>, r: Store<V>, e: Entity, a: nat)
    requires ArchesInRange(s.entities, s.arches) && CompsMatch(s) && e in s.entities
    requires r.entities.Keys == s.entities.Keys && ArchesInRange(r.entities, r.arches)
    requires forall x :: x in s.entities && x != e ==> CompSet(r, x) == CompSet(s, x)
    requires forall k: (Entity, ComponentId) :: k.0 != e ==> (k in r.comps <==> k in s.comps)
    requires forall c :: (e, c) in r.comps <==> c in CompSet(r, e)
    ensures CompsMatch(r)
  {
    forall k | k in r.comps ensures k.0 in r.entities && k.1 in CompSet(r, k.0) {
      if k.0 != e {
        assert k in s.comps;
        assert k.0 in s.entities && k.1 in CompSet(s, k.0);
        assert CompSet(r, k.0) == CompSet(s, k.0);
      } else {
        var c := k.1;
        assert k == (e, c);
        assert (e, c) in r.comps;
      }
    }
    forall x, c | x in r.entities && c in CompSet(r, x) ensures (x, c) in r.comps {
      if x != e {
        assert x in s.entities && c in CompSet(s, x);
        assert (x, c) in s.comps;
      }
    }
  }

  /** The archetype plays no part in the tree links. */
  lemma RetypeLinked(es: Ents, e: Entity, a: nat)
    requires Linked(es) && e in es
    ensures Linked(es[e := es[e].(archetype := a)])
  {
    var r := es[e := es[e].(archetype := a)];
    forall x | x in r ensures ParentOk(r, x) {
      assert ParentOk(es, x);
    }
    forall q, j: nat | q in r && j < |r[q].children| ensures ChildOk(r, q, j) {
      assert ChildOk(es, q, j);
    }
  }

  /** `Entity::remove_now`: a dead entity gives `None` and no change;
      otherwise the archetype loses the component and the stored value, if
      any, is taken out. The removal lookup is the corrected one;
      `RemoveNowAsWritten` is the lookup the source calls. */
  function RemoveNow<V>(s: Store<V>, e: Entity, c: ComponentId): (r: (Store<V>, Option<V>))
    requires Valid(s)
    ensures e !in s.entities ==> r == (s, None)
    ensures r.0.entities.Keys == s.entities.Keys
    ensures r.1 == (if (e, c) in s.comps then Some(s.comps[(e, c)]) else None)
    ensures r.0.comps == s.comps - {(e, c)}
  {
    if e !in s.entities then (s, None)
    else
      var info := s.entities[e];
      var rem := A.LookupRemove(s.arches, info.archetype, c);
      var s1 := s.(arches := rem.0, entities := s.entities[e := info.(archetype := rem.1)], comps := s.comps - {(e, c)});
      if (e, c) in s.comps then (s1, Some(s.comps[(e, c)])) else (s1, None)
  }

  /** `Entity::remove_now` as the source writes it: the same steps through
      the as-written `lookup_remove`, which reads extension's shortcuts and
      uses the as-written remove iterator. */
  function RemoveNowAsWritten<V>(s: Store<V>, e: Entity, c: ComponentId): (r: (Store<V>, Option<V>))
    requires Valid(s)
    ensures e !in s.entities ==> r == (s, None)
    ensures r.0.entities.Keys == s.entities.Keys && A.WellFormed(r.0.arches)
    ensures ArchesInRange(r.0.entities, r.0.arches)
    ensures r.1 == (if (e, c) in s.comps then Some(s.comps[(e, c)]) else None)
    ensures r.0.comps == s.comps - {(e, c)}
  {
    if e !in s.entities then (s, None)
    else
      var info := s.entities[e];
      var rem := A.LookupRemoveAsWritten(s.arches, info.archetype, c);
      var s1 := s.(arches := rem.0, entities := s.entities[e := info.(archetype := rem.1)], comps := s.comps - {(e, c)});
      if (e, c) in s.comps then (s1, Some(s.comps[(e, c)])) else (s1, None)
  }

  /** As written, removing a component that is not the smallest of the
      entity's archetype leaves the entity in that archetype, which still
      lists the component, while the component leaves storage: the store
      is no longer valid. `RemoveNowValid` is the corrected half. */
  lemma RemoveNowAsWrittenBreaksValid<V>(s: Store<V>, e: Entity, c: ComponentId)
    requires Valid(s) && e in s.entities
    requires c in A.Components(s.arches, s.entities[e].archetype)
    requires A.Components(s.arches, s.entities[e].archetype)[0] != c
    ensures var r := RemoveNowAsWritten(s, e, c).0;
            r.entities[e].archetype == s.entities[e].archetype &&
            c in A.Components(r.arches, r.entities[e].archetype) && (e, c) !in r.comps
    ensures !Valid(RemoveNowAsWritten(s, e, c).0)
  {
    var a := s.entities[e].archetype;
    A.RemoveAsWrittenKeepsBase(s.arches, a, c);
    var r := RemoveNowAsWritten(s, e, c).0;
    assert r.entities[e].archetype == a;
    assert c in CompSet(r, e) by {
      assert r.arches.arena[a].compSet == Elems(r.arches.arena[a].comps);
    }
    ListedButMissing(r, e, c);
  }

  /** The smallest instance: a root holding components 1 and 2. Removing 2
      as written leaves the root in the archetype {1, 2} with 2 gone from
      storage; the corrected removal leaves it in {1}, still valid. */
  lemma RemoveNowAsWrittenExample()
    ensures var s0 := Default<int>();
            var s1 := Add(s0, s0.root, 1, 10);
            s1.Some? &&
            var s2 := Add(s1.value, s0.root, 2, 20);
            s2.Some? && CompSet(s2.value, s0.root) == {1, 2} &&
            !Valid(RemoveNowAsWritten(s2.value, s0.root, 2).0) &&
            Valid(RemoveNow(s2.value, s0.root, 2).0) &&
            CompSet(RemoveNow(s2.value, s0.root, 2).0, s0.root) == {1}
  {
    var s0 := Default<int>();
    RootWithTwo();
    RemoveSecondOfTwo(Add(Add(s0, s0.root, 1, 10).value, s0.root, 2, 20).value, s0.root);
  }

  /** Adding components 1 and 2 to the default root gives it exactly those. */
  lemma RootWithTwo()
    ensures var s0 := Default<int>();
            var s1 := Add(s0, s0.root, 1, 10);
            s1.Some? &&
            var s2 := Add(s1.value, s0.root, 2, 20);
            s2.Some? && CompSet(s2.value, s0.root) == {1, 2}
  {
    var s0 := Default<int>();
    A.EmptyHasNone(s0.arches);
    assert CompSet(s0, s0.root) == {};
  }

  /** For any entity holding exactly components 1 and 2, removing 2 as
      written breaks validity, and the corrected removal keeps it. */
  lemma RemoveSecondOfTwo<V>(s: Store<V>, e: Entity)
    requires Valid(s) && e in s.entities && CompSet(s, e) == {1, 2}
    ensures !Valid(RemoveNowAsWritten(s, e, 2).0)
    ensures Valid(RemoveNow(s, e, 2).0) && CompSet(RemoveNow(s, e, 2).0, e) == {1}
  {
    var a := s.entities[e].archetype;
    var comps := A.Components(s.arches, a);
    assert Elems(comps) == Elems([1, 2]) by {
      assert s.arches.arena[a].compSet == Elems(comps);
    }
    SortedUnique(comps, [1, 2]);
    RemoveNowAsWrittenBreaksValid(s, e, 2);
    RemoveNowValid(s, e, 2);
  }

  /** An entity whose archetype lists a component it does not store breaks
      validity. */
  lemma ListedButMissing<V>(r: Store<V>, e: Entity, c: ComponentId)
    requires ArchesInRange(r.entities, r.arches) && e in r.entities
    requires c in CompSet(r, e) && (e, c) !in r.comps
    ensures !Valid(r)
  {
  }

  /** Removal keeps the store valid and takes `c` out of the entity's
      component set, which its archetype now matches. */
  lemma RemoveNowValid<V>(s: Store<V>, e: Entity, c: ComponentId)
    requires Valid(s)
    ensures Valid(RemoveNow(s, e, c).0)
    ensures e in s.entities ==> CompSet(RemoveNow(s, e, c).0, e) == CompSet(s, e) - {c}
  {
    if e in s.entities {
      RemoveValid(s, e, c, RemoveNow(s, e, c).0);
    }
  }

  lemma RemoveValid<V>(s: Store<V>, e: Entity, c: ComponentId, r: Store<V>)
    requires Valid(s) && e in s.entities
    requires r == s.(arches := A.LookupRemove(s.arches, s.entities[e].archetype, c).0,
                     entities := s.entities[e := s.entities[e].(archetype := A.LookupRemove(s.arches, s.entities[e].archetype, c).1)],
                     comps := s.comps - {(e, c)})
    ensures Valid(r) && CompSet(r, e) == CompSet(s, e) - {c}
  {
    var b := s.entities[e].archetype;
    var a := r.entities[e].archetype;
    A.LookupCorrect(s.arches, A.RemoveFixed, b, c);
    A.LookupKeepsArchetypes(s.arches, A.RemoveFixed, b, c);
    assert s.arches.arena[b].compSet == Elems(s.arches.arena[b].comps);
    assert Elems(r.arches.arena[a].comps) == CompSet(s, e) - {c};
    RemovedComps(s, e, c);
    RetypeValid(s, r, e, a);
  }

  /** Taking one key out leaves the entity's other stored components. */
  lemma RemovedComps<V>(s: Store<V>, e: Entity, c: ComponentId)
    requires ArchesInRange(s.entities, s.arches) && CompsMatch(s) && e in s.entities
    ensures forall k: (Entity, ComponentId) :: k.0 != e ==> (k in s.comps - {(e, c)} <==> k in s.comps)
    ensures forall c' :: (e, c') in s.comps - {(e, c)} <==> c' in CompSet(s, e) - {c}
  {
    forall c' ensures (e, c') in s.comps - {(e, c)} <==> c' in CompSet(s, e) - {c} {
      if c' in CompSet(s, e) { assert (e, c') in s.comps; }
    }
  }

  /** Adding a component and then removing it gives the value back and
      leaves the entity with its old component set. */
  lemma AddThenRemove<V>(s: Store<V>, e: Entity, c: ComponentId, v: V, s1: Store<V>)
    requires Valid(s) && e in s.entities && (e, c) !in s.comps
    requires Add(s, e, c, v) == Some(s1)
    ensures Valid(s1) &&
            var r := RemoveNow(s1, e, c);
            r.1 == Some(v) && CompSet(r.0, e) == CompSet(s, e) && r.0.comps == s.comps
  {
    assert c !in CompSet(s, e);
    RemoveNowValid(s1, e, c);
    UpdateThenRemove(s.comps, (e, c), v);
  }

  lemma UpdateThenRemove<K, X>(m: map<K, X>, k: K, x: X)
    requires k !in m
    ensures m[k := x] - {k} == m
  {
  }

  // ---------------------------------------------------------------------
  // destroy_now

  /** The part of the store destruction changes. */
  datatype Parts<V> = Parts(es: Ents, comps: map<(Entity, ComponentId), V>)

  /** `a` is `orig` with some entities removed and the rest untouched. */
  ghost predicate Sub(a: Ents, orig: Ents) {
    a.Keys <= orig.Keys && forall x :: x in a ==> a[x] == orig[x]
  }

  /** Destroy `e` (if alive) and then, recursively, the entities its list
      names: remove the entity, drop each component its archetype lists,
      then destroy each child in order. */
  function DestroyRec<V>(p: Parts<V>, arches: A.Store, e: Entity): (r: Parts<V>)
    requires ArchesInRange(p.es, arches)
    ensures Sub(r.es, p.es) && ArchesInRange(r.es, arches) && |r.es| <= |p.es|
    ensures e !in r.es
    ensures forall k :: k in r.comps ==> k in p.comps && r.comps[k] == p.comps[k]
    ensures forall k :: k in p.comps && k.0 in r.es ==> k in r.comps
    ensures forall k :: k in r.comps && k.0 in p.es && k.0 !in r.es ==>
              k.1 !in arches.arena[p.es[k.0].archetype].compSet
    decreases |p.es|, 0, 0
  {
    if e !in p.es then p
    else DestroyAll(Strip(p, arches, e), arches, p.es[e].children)
  }

  /** Remove one entity and the components its archetype lists. */
  function Strip<V>(p: Parts<V>, arches: A.Store, e: Entity): (r: Parts<V>)
    requires ArchesInRange(p.es, arches) && e in p.es
    ensures r.es == p.es - {e} && |r.es| < |p.es|
    ensures forall k :: k in r.comps <==>
              k in p.comps && !(k.0 == e && k.1 in arches.arena[p.es[e].archetype].compSet)
    ensures forall k :: k in r.comps ==> r.comps[k] == p.comps[k]
  {
    var set_ := arches.arena[p.es[e].archetype].compSet;
    var rest := p.es - {e};
    assert rest.Keys + {e} == p.es.Keys;
    Parts(rest, map k | k in p.comps && !(k.0 == e && k.1 in set_) :: p.comps[k])
  }

  function DestroyAll<V>(p: Parts<V>, arches: A.Store, cs: seq<Entity>): (r: Parts<V>)
    requires ArchesInRange(p.es, arches)
    ensures Sub(r.es, p.es) && ArchesInRange(r.es, arches) && |r.es| <= |p.es|
    ensures forall i :: 0 <= i < |cs| ==> cs[i] !in r.es
    ensures forall k :: k in r.comps ==> k in p.comps && r.comps[k] == p.comps[k]
    ensures forall k :: k in p.comps && k.0 in r.es ==> k in r.comps
    ensures forall k :: k in r.comps && k.0 in p.es && k.0 !in r.es ==>
              k.1 !in arches.arena[p.es[k.0].archetype].compSet
    decreases |p.es|, 1, |cs|
  {
    if |cs| == 0 then p
    else
      var p1 := DestroyRec(p, arches, cs[0]);
      DestroyAll(p1, arches, cs[1..])
  }

  /** Who `DestroyRec` removes: `e`, and entities whose parent it removed;
      and it removes every listed child of every entity it removes. */
  lemma {:induction false} DestroyRecReach<V>(p: Parts<V>, arches: A.Store, e: Entity, orig: Ents)
    requires ArchesInRange(p.es, arches) && Sub(p.es, orig) && ChildLinks(orig)
    ensures var r := DestroyRec(p, arches, e);
            (forall x :: x in p.es && x !in r.es ==>
               x == e || (orig[x].parent.Some? && orig[x].parent.value in p.es && orig[x].parent.value !in r.es)) &&
            (forall x, i :: x in p.es && x !in r.es && 0 <= i < |orig[x].children| ==> orig[x].children[i] !in r.es)
    decreases |p.es|, 0, 0
  {
    if e in p.es {
      var cs := p.es[e].children;
      var q := Strip(p, arches, e);
      DestroyAllReach(q, arches, cs, orig);
      var r := DestroyAll(q, arches, cs);
      assert DestroyRec(p, arches, e) == r;
      forall x | x in p.es && x !in r.es && x != e
        ensures orig[x].parent.Some? && orig[x].parent.value in p.es && orig[x].parent.value !in r.es
      {
        if x in cs {
          var i :| 0 <= i < |cs| && cs[i] == x;
          assert ChildOk(orig, e, i);
        }
      }
    }
  }

  lemma {:induction false} DestroyAllReach<V>(p: Parts<V>, arches: A.Store, cs: seq<Entity>, orig: Ents)
    requires ArchesInRange(p.es, arches) && Sub(p.es, orig) && ChildLinks(orig)
    ensures var r := DestroyAll(p, arches, cs);
            (forall x :: x in p.es && x !in r.es ==>
               x in cs || (orig[x].parent.Some? && orig[x].parent.value in p.es && orig[x].parent.value !in r.es)) &&
            (forall x, i :: x in p.es && x !in r.es && 0 <= i < |orig[x].children| ==> orig[x].children[i] !in r.es)
    decreases |p.es|, 1, |cs|
  {
    if |cs| > 0 {
      var p1 := DestroyRec(p, arches, cs[0]);
      DestroyRecReach(p, arches, cs[0], orig);
      DestroyAllReach(p1, arches, cs[1..], orig);
      var r := DestroyAll(p1, arches, cs[1..]);
      assert DestroyAll(p, arches, cs) == r;
      forall x | x in p.es && x !in r.es && x !in cs
        ensures orig[x].parent.Some? && orig[x].parent.value in p.es && orig[x].parent.value !in r.es
      {
        if x in p1.es {
          assert x !in cs[1..];
        }
      }
    }
  }

  /** `Entity::destroy_now` as written: the entity is not taken out of its
      parent's list, so a destroyed child stays listed there. */
  function DestroyNowAsWritten<V>(s: Store<V>, e: Entity): (r: Store<V>)
    requires ArchesInRange(s.entities, s.arches)
    ensures e !in r.entities
  {
    var p := DestroyRec(Parts(s.entities, s.comps), s.arches, e);
    s.(entities := p.es, comps := p.comps)
  }

  /** The corrected `destroy_now`: detach the entity from its parent
      first, then destroy it and its descendants. */
  function DestroyNow<V>(s: Store<V>, e: Entity): (r: Store<V>)
    requires Valid(s)
    ensures e !in r.entities && Valid(r)
  {
    if e !in s.entities then s
    else
      var s1 := Detached(s, e);
      DestroyValid(s1, e);
      var p := DestroyRec(Parts(s1.entities, s1.comps), s1.arches, e);
      s1.(entities := p.es, comps := p.comps)
  }

  /** The store after `set_parent(None)`. */
  function Detached<V>(s: Store<V>, e: Entity): (r: Store<V>)
    requires Valid(s) && e in s.entities
    ensures Valid(r) && r.entities.Keys == s.entities.Keys && r.entities[e].parent.None?
    ensures r.comps == s.comps && r.arches == s.arches
    ensures forall x :: x in s.entities && x != e ==> r.entities[x].parent == s.entities[x].parent
    ensures forall x :: x in s.entities ==> r.entities[x].archetype == s.entities[x].archetype
  {
    SetParentValid(s, e, None);
    DetachLinked(s.entities, e);
    assert SetParent(s, e, None).value.entities == Detach(s.entities, e).value;
    SetParent(s, e, None).value
  }

  lemma DestroyValid<V>(s: Store<V>, e: Entity)
    requires Valid(s) && e in s.entities && s.entities[e].parent.None?
    ensures var p := DestroyRec(Parts(s.entities, s.comps), s.arches, e);
            Valid(s.(entities := p.es, comps := p.comps))
  {
    var p := DestroyRec(Parts(s.entities, s.comps), s.arches, e);
    DestroyRecReach(Parts(s.entities, s.comps), s.arches, e, s.entities);
    PruneLinked(s.entities, p.es, e);
    PruneComps(s, s.(entities := p.es, comps := p.comps));
  }

  /** Removing an entity's subtree (closed under children, and reaching
      nothing but `e` and children of removed entities) from a linked tree
      where `e` has no parent leaves it linked. */
  lemma PruneLinked(es: Ents, r: Ents, e: Entity)
    requires Linked(es) && Sub(r, es) && e in es && es[e].parent.None?
    requires forall x :: x in es && x !in r ==> x == e || (es[x].parent.Some? && es[x].parent.value !in r)
    requires forall x, i :: x in es && x !in r && 0 <= i < |es[x].children| ==> es[x].children[i] !in r
    ensures Linked(r)
  {
    forall x | x in r ensures ParentOk(r, x) {
      assert ParentOk(es, x);
    }
    forall q, j: nat | q in r && j < |r[q].children| ensures ChildOk(r, q, j) {
      assert ChildOk(es, q, j);
    }
  }

  /** Dropping entities together with exactly the components they held
      keeps components and archetypes in agreement. */
  lemma PruneComps<V>(s: Store<V>, r: Store<V>)
    requires ArchesInRange(s.entities, s.arches) && CompsMatch(s) && r.arches == s.arches
    requires Sub(r.entities, s.entities)
    requires forall k :: k in r.comps ==> k in s.comps
    requires forall k :: k in s.comps && k.0 in r.entities ==> k in r.comps
    requires forall k :: k in r.comps && k.0 in s.entities && k.0 !in r.entities ==>
               k.1 !in s.arches.arena[s.entities[k.0].archetype].compSet
    ensures ArchesInRange(r.entities, r.arches) && CompsMatch(r)
  {
    assert forall x :: x in r.entities ==> CompSet(r, x) == CompSet(s, x);
  }

  /** The corrected destruction removes exactly the entity's subtree:
      every removed entity is `e` or a child of a removed entity, and every
      child of a removed entity is removed; survivors keep exactly their
      components. */
  lemma DestroyNowSubtree<V>(s: Store<V>, e: Entity)
    requires Valid(s) && e in s.entities
    ensures var r := DestroyNow(s, e);
            r.entities.Keys <= s.entities.Keys &&
            (forall x :: x in s.entities && x !in r.entities ==>
               x == e || (s.entities[x].parent.Some? && s.entities[x].parent.value !in r.entities)) &&
            (forall x, i :: x in s.entities && x !in r.entities && 0 <= i < |s.entities[x].children| ==>
               s.entities[x].children[i] !in r.entities) &&
            (forall k :: k in r.comps <==> k in s.comps && k.0 in r.entities)
  {
    var s1 := Detached(s, e);
    DestroyRecReach(Parts(s1.entities, s1.comps), s1.arches, e, s1.entities);
    DetachLinked(s.entities, e);
    var r := DestroyNow(s, e);
    assert r.entities.Keys <= s.entities.Keys;
    forall x, i | x in s.entities && x !in r.entities && 0 <= i < |s.entities[x].children|
      ensures s.entities[x].children[i] !in r.entities
    {
      DetachedChild(s, e, x, i);
    }
    forall k | k in s.comps && k.0 in r.entities ensures k in r.comps {
    }
  }

  /** A child listed before detaching is still listed afterwards, unless
      it is the detached entity itself. */
  lemma DetachedChild<V>(s: Store<V>, e: Entity, x: Entity, i: nat)
    requires Valid(s) && e in s.entities && x in s.entities && i < |s.entities[x].children|
    ensures s.entities[x].children[i] == e ||
            s.entities[x].children[i] in Detached(s, e).entities[x].children
  {
    DetachLinked(s.entities, e);
    var c := s.entities[x].children[i];
    if s.entities[e].parent.Some? && x == s.entities[e].parent.value && c != e {
      assert ParentOk(s.entities, e);
      var ch := s.entities[x].children;
      assert c in multiset(ch);
      assert c in multiset(Detached(s, e).entities[x].children);
    }
  }

  /** The defect: destroying the last of two children leaves it listed
      under the parent, and a later detach of the first child, which moves
      the dead handle into its slot, indexes a dead entity and panics. */
  lemma DestroyAsWrittenLeavesDeadChild<V>(s: Store<V>, p: Entity, a: Entity, b: Entity)
    requires Valid(s) && p in s.entities && s.entities[p].children == [a, b]
    requires b in s.entities && s.entities[b].children == []
    ensures var r := DestroyNowAsWritten(s, b);
            b !in r.entities && a in r.entities && p in r.entities &&
            r.entities[p].children == [a, b] && !Linked(r.entities) &&
            SetParent(r, a, None).None?
  {
    var es := s.entities;
    assert ChildOk(es, p, 0) && ChildOk(es, p, 1);
    var q := Strip(Parts(es, s.comps), s.arches, b);
    assert DestroyRec(Parts(es, s.comps), s.arches, b) == DestroyAll(q, s.arches, []);
    var r := DestroyNowAsWritten(s, b);
    assert r.entities == es - {b};
    assert !ChildOk(r.entities, p, 1);
    assert Detach(r.entities, a).None?;
  }

  /** With the correction the destroyed child leaves its parent's list. */
  lemma DestroyNowUnlistsChild<V>(s: Store<V>, p: Entity, a: Entity, b: Entity)
    requires Valid(s) && p in s.entities && s.entities[p].children == [a, b]
    requires b in s.entities && s.entities[b].children == []
    ensures p in DestroyNow(s, b).entities && DestroyNow(s, b).entities[p].children == [a]
  {
    var es := s.entities;
    assert ChildOk(es, p, 0) && ChildOk(es, p, 1);
    var s1 := Detached(s, b);
    DetachLinked(es, b);
    assert s1.entities[p].children == [a];
    assert s1.entities[b].children == [];
    assert DestroyRec(Parts(s1.entities, s1.comps), s1.arches, b) ==
           DestroyAll(Strip(Parts(s1.entities, s1.comps), s1.arches, b), s1.arches, []);
  }
}

=== FILE: frame_codec.dfy ===
/** Stream framing for the network transport: each frame is the varint
    encoding of the body length followed by the body. The decoder works on
    the front of the receive buffer and consumes nothing until a whole frame
    is there; a declared length above `max_packet_size` is an error. The
    serialisation of the item into body bytes is not modelled: the encoder
    takes the body bytes directly. */
module FrameCodec {
  import opened Wrappers
  import opened Varint

  /** `isize::MAX`, the largest size an allocation can have. */
  const ISIZE_MAX: nat := 0x7FFF_FFFF_FFFF_FFFF

  datatype FrameError = PacketTooLarge(packetLen: nat, maxPacketSize: nat)

  /** The decoder's answer and the receive buffer after the call. */
  datatype Decoded = Decoded(frame: Option<seq<byte>>, src: seq<byte>)

  /** `FrameDecoder::decode`. */
  function DecodeFrame(maxPacketSize: nat, src: seq<byte>): (r: Result<Decoded, FrameError>)
    ensures Decode(src).Err? ==> r == Ok(Decoded(None, src))
    ensures r.Err? ==> Decode(src).Ok? && r.error.packetLen > maxPacketSize
    ensures r.Ok? && r.value.frame.None? ==> r.value.src == src
    ensures r.Ok? && r.value.frame.Some? ==>
              |r.value.frame.value| <= maxPacketSize &&
              exists h :: 1 <= h <= MAX_LEN && h <= |src| &&
                src == src[..h] + r.value.frame.value + r.value.src
  {
    match Decode(src)
    case Err(_) => Ok(Decoded(None, src))
    case Ok((packetLen, headerLen)) =>
      if packetLen > maxPacketSize then Err(PacketTooLarge(packetLen, maxPacketSize))
      else if |src| - headerLen < packetLen then Ok(Decoded(None, src))
      else
        var body := src[headerLen..headerLen + packetLen];
        var rest := src[headerLen + packetLen..];
        assert src == src[..headerLen] + body + rest;
        Ok(Decoded(Some(body), rest))
  }

  /** One frame as it should appear on the wire. */
  function Frame(payload: seq<byte>): (r: seq<byte>)
    requires |payload| <= ISIZE_MAX
  {
    Encode(|payload|) + payload
  }

  function Zeros(n: nat): (r: seq<byte>)
    ensures |r| == n && forall i :: 0 <= i < n ==> r[i] == 0
  {
    if n == 0 then [] else [0] + Zeros(n - 1)
  }

  /** The space reserved for the largest header. */
  function MaxHeaderLen(): (n: nat)
    ensures n == MAX_LEN
  {
    |Encode(ISIZE_MAX)|
  }

  /** `FrameEncoder::encode` as written: reserve nine zero bytes, append
      the body, write the header just before the body, and then advance the
      FRONT of the whole buffer past the unused header space. */
  function EncodeAsWritten(dst: seq<byte>, payload: seq<byte>): (r: seq<byte>)
    requires |payload| <= ISIZE_MAX
    ensures |r| == |dst| + |Frame(payload)| && r[|dst|..] == Frame(payload)
    ensures var spare := MAX_LEN - |Encode(|payload|)|;
      forall i :: 0 <= i < |dst| ==> r[i] == if i + spare < |dst| then dst[i + spare] else 0
  {
    var header := Encode(|payload|);
    var spare := MaxHeaderLen() - |header|;
    var written := dst + Zeros(spare) + header + payload;
    assert written == dst + Zeros(spare) + Frame(payload);
    ShiftedFront(dst, Zeros(spare), Frame(payload));
    written[spare..]
  }

  /** Dropping `|z|` bytes from the front of `dst + z + t`, where `z` is
      all zeros, keeps `t` at the end and shifts `dst` forward over the
      zeros. */
  lemma ShiftedFront(dst: seq<byte>, z: seq<byte>, t: seq<byte>)
    requires forall i :: 0 <= i < |z| ==> z[i] == 0
    ensures var r := (dst + z + t)[|z|..];
      |r| == |dst| + |t| && r[|dst|..] == t &&
      forall i :: 0 <= i < |dst| ==> r[i] == if i + |z| < |dst| then dst[i + |z|] else 0
  {
    var r := (dst + z + t)[|z|..];
    assert r[|dst|..] == t;
    forall i | 0 <= i < |dst|
      ensures r[i] == if i + |z| < |dst| then dst[i + |z|] else 0
    {
      assert r[i] == (dst + z + t)[i + |z|];
    }
  }

  /** The intended encoder: the frame is appended after what `dst` held. */
  function EncodeFixed(dst: seq<byte>, payload: seq<byte>): (r: seq<byte>)
    requires |payload| <= ISIZE_MAX
    ensures |r| == |dst| + |Frame(payload)|
    ensures r[..|dst|] == dst && r[|dst|..] == Frame(payload)
  {
    dst + Frame(payload)
  }

  /** Into an empty buffer the as-written encoder produces exactly one
      frame, as intended. */
  lemma AsWrittenOnEmpty(payload: seq<byte>)
    requires |payload| <= ISIZE_MAX
    ensures EncodeAsWritten([], payload) == Frame(payload)
  {
    var frame := Frame(payload);
    var spare := MaxHeaderLen() - |Encode(|payload|)|;
    DropPadding(Zeros(spare), frame);
  }

  lemma DropPadding(z: seq<byte>, t: seq<byte>)
    ensures ([] + z + t)[|z|..] == t
  {
  }

  /** With one byte already queued, the as-written encoder loses that byte
      and leaves a zero of the reserved space in its place. */
  lemma AsWrittenEatsQueuedBytes()
    ensures EncodeAsWritten([1], []) == [0, 0]
    ensures EncodeFixed([1], []) == [1, 0]
  {
    assert Encode(0) == [0];
    assert Zeros(8) == [0, 0, 0, 0, 0, 0, 0, 0];
  }

  /** A frame decodes back to its body, consuming exactly the frame, when
      the body fits the size limit; whatever follows is left for later. */
  lemma FrameRoundTrip(maxPacketSize: nat, payload: seq<byte>, more: seq<byte>)
    requires |payload| <= ISIZE_MAX && |payload| <= maxPacketSize
    ensures DecodeFrame(maxPacketSize, Frame(payload) + more) == Ok(Decoded(Some(payload), more))
  {
    var h := Encode(|payload|);
    assert Frame(payload) + more == h + (payload + more);
    DecodeEncode(|payload|, payload + more);
  }

  /** Any proper prefix of a frame is left in the buffer untouched: the
      decoder waits for the rest. */
  lemma PartialFrameWaits(maxPacketSize: nat, payload: seq<byte>, k: nat)
    requires |payload| <= ISIZE_MAX && |payload| <= maxPacketSize
    requires k < |Frame(payload)|
    ensures DecodeFrame(maxPacketSize, Frame(payload)[..k]) == Ok(Decoded(None, Frame(payload)[..k]))
  {
    var h := Encode(|payload|);
    EncodedLenMatches(|payload|);
    if k < |h| {
      assert Frame(payload)[..k] == h[..k];
    } else {
      assert Frame(payload)[..k] == h + payload[..k - |h|];
      DecodeEncode(|payload|, payload[..k - |h|]);
    }
  }

  /** A body over the limit is refused by the decoder. */
  lemma FrameTooLarge(maxPacketSize: nat, payload: seq<byte>, more: seq<byte>)
    requires |payload| <= ISIZE_MAX && |payload| > maxPacketSize
    ensures DecodeFrame(maxPacketSize, Frame(payload) + more) == Err(PacketTooLarge(|payload|, maxPacketSize))
  {
    assert Frame(payload) + more == Encode(|payload|) + (payload + more);
    DecodeEncode(|payload|, payload + more);
  }

  /** Two frames queued by the intended encoder come out in order. */
  lemma TwoFramesInOrder(maxPacketSize: nat, p: seq<byte>, q: seq<byte>)
    requires |p| <= ISIZE_MAX && |q| <= ISIZE_MAX && |p| <= maxPacketSize && |q| <= maxPacketSize
    ensures DecodeFrame(maxPacketSize, EncodeFixed(EncodeFixed([], p), q))
              == Ok(Decoded(Some(p), Frame(q)))
    ensures DecodeFrame(maxPacketSize, Frame(q)) == Ok(Decoded(Some(q), []))
  {
    assert EncodeFixed(EncodeFixed([], p), q) == Frame(p) + Frame(q);
    FrameRoundTrip(maxPacketSize, p, Frame(q));
    FrameRoundTrip(maxPacketSize, q, []);
    assert Frame(q) + [] == Frame(q);
  }
}

=== FILE: glam.dfy ===
/** Axis-aligned helpers over two-dimensional vectors: the two axes, the two
    signs, and the four faces of a tile with their algebra. Vectors of `f32`
    are modelled over `real` (no rounding, infinities or NaN); vectors of
    `i32` over unbounded `int`. */
module Glam {
  datatype IVec = IVec(x: int, y: int)
  datatype Vec = Vec(x: real, y: real)
  datatype BVec = BVec(x: bool, y: bool)

  datatype Axis2 = X | Y
  datatype Sign = Pos | Neg
  datatype TileFace = Left | Right | Top | Bottom

  function Other(a: Axis2): (b: Axis2)
    ensures b != a
  {
    if a == X then Y else X
  }

  /** Component `a` of an integer vector (`v[a as usize]`). */
  function IGet(v: IVec, a: Axis2): int {
    if a == X then v.x else v.y
  }

  function Get(v: Vec, a: Axis2): real {
    if a == X then v.x else v.y
  }

  function BGet(v: BVec, a: Axis2): bool {
    if a == X then v.x else v.y
  }

  /** `Axis2::mask`: true in its own component only. */
  function Mask(a: Axis2): (m: BVec)
    ensures BGet(m, a) && !BGet(m, Other(a))
  {
    match a
    case X => BVec(true, false)
    case Y => BVec(false, true)
  }

  function Not(m: BVec): (r: BVec)
    ensures forall a :: BGet(r, a) == !BGet(m, a)
  {
    BVec(!m.x, !m.y)
  }

  /** `Vec2Ext::mask`: keep the selected components, zero the others. */
  function MaskVec(v: Vec, m: BVec): (r: Vec)
    ensures forall a :: Get(r, a) == if BGet(m, a) then Get(v, a) else 0.0
  {
    Vec(if m.x then v.x else 0.0, if m.y then v.y else 0.0)
  }

  /** `mask_in_axis` keeps only the axis; `mask_out_axis` drops only it. */
  lemma MaskInOut(v: Vec, a: Axis2)
    ensures Get(MaskVec(v, Mask(a)), a) == Get(v, a)
    ensures Get(MaskVec(v, Mask(a)), Other(a)) == 0.0
    ensures Get(MaskVec(v, Not(Mask(a))), a) == 0.0
    ensures Get(MaskVec(v, Not(Mask(a))), Other(a)) == Get(v, Other(a))
  {
  }

  /** `Axis2::unit_mag`: `comp` along the axis, zero across it. */
  function AxisUnitMag(a: Axis2, comp: real): (v: Vec)
    ensures Get(v, a) == comp && Get(v, Other(a)) == 0.0
  {
    match a
    case X => Vec(comp, 0.0)
    case Y => Vec(0.0, comp)
  }

  /** `Sign::of_biased`: zero counts as positive. */
  function OfBiased(v: real): (s: Sign)
    ensures s == Neg <==> v < 0.0
  {
    if v < 0.0 then Neg else Pos
  }

  /** `Sign::unit_mag`: negate for `Neg`, keep for `Pos`. */
  function SignUnitMag(s: Sign, v: real): (r: real)
    ensures r == v || r == -v
    ensures (r == v) <==> (s.Pos? || v == 0.0)
  {
    if s == Neg then -v else v
  }

  function Abs(v: real): (r: real)
    ensures r >= 0.0 && (r == v || r == -v)
  {
    if v < 0.0 then -v else v
  }

  /** `add_magnitude`: push `v` away from zero by `amount`. */
  function AddMagnitude(v: real, amount: real): (r: real)
    ensures amount >= 0.0 ==> Abs(r) == Abs(v) + amount
    ensures amount >= 0.0 ==> OfBiased(r) == OfBiased(v)
  {
    v + SignUnitMag(OfBiased(v), amount)
  }

  /** A value's own sign scales it to its magnitude. */
  lemma OfBiasedUnitMag(v: real)
    ensures SignUnitMag(OfBiased(v), v) == Abs(v)
  {
  }

  function Flip(s: Sign): (r: Sign)
    ensures r != s
  {
    if s == Pos then Neg else Pos
  }

  // ---------------------------------------------------------------------
  // Tile faces

  /** `TileFace::axis`. */
  function FaceAxis(f: TileFace): Axis2 {
    match f
    case Left | Right => X
    case Top | Bottom => Y
  }

  /** `TileFace::sign`. */
  function FaceSign(f: TileFace): Sign {
    match f
    case Left | Top => Neg
    case Right | Bottom => Pos
  }

  /** `TileFace::compose`: the one face with this axis and sign. */
  function Compose(a: Axis2, s: Sign): (f: TileFace)
    ensures FaceAxis(f) == a && FaceSign(f) == s
  {
    match (a, s)
    case (X, Neg) => Left
    case (X, Pos) => Right
    case (Y, Neg) => Top
    case (Y, Pos) => Bottom
  }

  /** Every face is the composition of its axis and sign, so a face is
      determined by the pair. */
  lemma ComposeAxisSign(f: TileFace)
    ensures Compose(FaceAxis(f), FaceSign(f)) == f
  {
  }

  /** `TileFace::invert`: the opposite face, on the same axis. */
  function Invert(f: TileFace): (r: TileFace)
    ensures FaceAxis(r) == FaceAxis(f) && FaceSign(r) == Flip(FaceSign(f))
  {
    match f
    case Left => Right
    case Right => Left
    case Top => Bottom
    case Bottom => Top
  }

  lemma InvertInvolution(f: TileFace)
    ensures Invert(Invert(f)) == f && Invert(f) != f
  {
  }

  function INeg(v: IVec): IVec {
    IVec(-v.x, -v.y)
  }

  /** `TileFace::as_ivec`: the unit vector pointing out of the face. */
  function AsIVec(f: TileFace): (v: IVec)
    ensures IGet(v, FaceAxis(f)) == (if FaceSign(f) == Neg then -1 else 1)
    ensures IGet(v, Other(FaceAxis(f))) == 0
  {
    match f
    case Left => IVec(-1, 0)
    case Right => IVec(1, 0)
    case Top => IVec(0, -1)
    case Bottom => IVec(0, 1)
  }

  /** The opposite face points the opposite way. */
  lemma AsIVecInvert(f: TileFace)
    ensures AsIVec(Invert(f)) == INeg(AsIVec(f))
  {
  }

  /** `TileFace::as_vec`: the same unit vector over `f32`. */
  function AsVec(f: TileFace): (v: Vec)
    ensures Get(v, FaceAxis(f)) == (if FaceSign(f) == Neg then -1.0 else 1.0)
    ensures Get(v, Other(FaceAxis(f))) == 0.0
  {
    match f
    case Left => Vec(-1.0, 0.0)
    case Right => Vec(1.0, 0.0)
    case Top => Vec(0.0, -1.0)
    case Bottom => Vec(0.0, 1.0)
  }
}

=== FILE: merge_iter.dfy ===
/** The sorted-union and sorted-difference iterators over two peekable
    inputs. A cursor holds what is left of each input; one call of `next`
    is a step that either yields an item and a new cursor, or reports that
    the iterator is done. The whole output of an iterator is the list of
    items its steps yield until the first `Done`. Items are integer keys
    (the iterators are used with component ids). */
module MergeIter {
  import opened SortedSeqs

  datatype Cursor = Cursor(left: seq<int>, right: seq<int>)

  datatype Step = Yield(item: int, next: Cursor) | Done(rest: Cursor)

  function Size(c: Cursor): nat {
    |c.left| + |c.right|
  }

  // ---------------------------------------------------------------------
  // MergeIter

  /** One call of `MergeIter::next`: the smaller head is yielded; on equal
      heads the right one is discarded and the left one yielded. */
  function MergeNext(c: Cursor): (s: Step)
    ensures s.Done? <==> |c.left| == 0 && |c.right| == 0
    ensures s.Done? ==> s.rest == c
    ensures s.Yield? ==> Size(s.next) < Size(c)
    ensures s.Yield? ==> (s.item in c.left || s.item in c.right)
    ensures s.Yield? ==> s.next.left == c.left || (|c.left| > 0 && s.next.left == c.left[1..])
    ensures s.Yield? ==> s.next.right == c.right || (|c.right| > 0 && s.next.right == c.right[1..])
  {
    if |c.left| == 0 && |c.right| == 0 then Done(c)
    else if |c.left| == 0 then Yield(c.right[0], Cursor(c.left, c.right[1..]))
    else if |c.right| == 0 then Yield(c.left[0], Cursor(c.left[1..], c.right))
    else if c.left[0] < c.right[0] then Yield(c.left[0], Cursor(c.left[1..], c.right))
    else if c.left[0] == c.right[0] then Yield(c.left[0], Cursor(c.left[1..], c.right[1..]))
    else Yield(c.right[0], Cursor(c.left, c.right[1..]))
  }

  /** A step loses no key: whatever the cursor held is yielded or still
      held. */
  lemma MergeNextKeeps(c: Cursor)
    ensures var s := MergeNext(c);
            s.Yield? ==> forall x :: x in c.left || x in c.right ==>
              x == s.item || x in s.next.left || x in s.next.right
  {
    if |c.left| > 0 { assert c.left == [c.left[0]] + c.left[1..]; }
    if |c.right| > 0 { assert c.right == [c.right[0]] + c.right[1..]; }
  }

  /** Everything a `MergeIter` yields. */
  function Merge(left: seq<int>, right: seq<int>): (out: seq<int>)
    ensures |out| <= |left| + |right|
    ensures forall x :: x in out <==> x in left || x in right
    decreases |left| + |right|
  {
    MergeNextKeeps(Cursor(left, right));
    match MergeNext(Cursor(left, right))
    case Done(_) => []
    case Yield(x, c) => [x] + Merge(c.left, c.right)
  }

  /** Once one side is exhausted the other side comes out unchanged. */
  lemma {:induction false} MergeExhausted(left: seq<int>, right: seq<int>)
    ensures Merge(left, []) == left
    ensures Merge([], right) == right
    decreases |left| + |right|
  {
    if |left| > 0 {
      MergeExhausted(left[1..], []);
    }
    if |right| > 0 {
      MergeExhausted([], right[1..]);
    }
  }

  /** On strictly ascending inputs a step yields a key below everything
      left in the new cursor, which is again strictly ascending. */
  lemma MergeStepSorted(c: Cursor)
    requires StrictlySorted(c.left) && StrictlySorted(c.right)
    requires MergeNext(c).Yield?
    ensures var s := MergeNext(c);
            StrictlySorted(s.next.left) && StrictlySorted(s.next.right) &&
            (forall y :: y in s.next.left ==> s.item < y) &&
            (forall y :: y in s.next.right ==> s.item < y) &&
            Elems(c.left) + Elems(c.right) == {s.item} + Elems(s.next.left) + Elems(s.next.right)
  {
    var s := MergeNext(c);
    if |c.left| > 0 {
      SortedTail(c.left);
      ElemsCons(c.left);
    }
    if |c.right| > 0 {
      SortedTail(c.right);
      ElemsCons(c.right);
    }
    if |c.left| == 0 {
      assert s == Yield(c.right[0], Cursor(c.left, c.right[1..]));
    } else if |c.right| == 0 {
      assert s == Yield(c.left[0], Cursor(c.left[1..], c.right));
    } else if c.left[0] < c.right[0] {
      assert s == Yield(c.left[0], Cursor(c.left[1..], c.right));
      BelowAll(c.left[0], c.right);
    } else if c.left[0] == c.right[0] {
      assert s == Yield(c.left[0], Cursor(c.left[1..], c.right[1..]));
    } else {
      assert s == Yield(c.right[0], Cursor(c.left, c.right[1..]));
      BelowAll(c.right[0], c.left);
    }
  }

  /** A key below the head of an ascending list is below all of it. */
  lemma BelowAll(x: int, l: seq<int>)
    requires StrictlySorted(l) && |l| > 0 && x < l[0]
    ensures forall y :: y in l ==> x < y
  {
    forall y | y in l
      ensures x < y
    {
      var i :| 0 <= i < |l| && l[i] == y;
      if i > 0 { assert l[0] < l[i]; }
    }
  }

  /** For strictly ascending inputs the output is the ascending,
      duplicate-free union of the two. */
  lemma {:induction false} MergeIsSortedUnion(left: seq<int>, right: seq<int>)
    requires StrictlySorted(left) && StrictlySorted(right)
    ensures StrictlySorted(Merge(left, right))
    ensures Elems(Merge(left, right)) == Elems(left) + Elems(right)
    decreases |left| + |right|
  {
    var s := MergeNext(Cursor(left, right));
    if s.Yield? {
      var c := s.next;
      MergeStepSorted(Cursor(left, right));
      MergeIsSortedUnion(c.left, c.right);
      var rest := Merge(c.left, c.right);
      assert Merge(left, right) == [s.item] + rest;
      SortedCons(s.item, rest);
      assert Elems([s.item] + rest) == {s.item} + Elems(rest);
    }
  }

  /** The output holds one copy of every key, so its length is
      |left| + |right| minus the number of keys both inputs share. */
  lemma MergeLength(left: seq<int>, right: seq<int>)
    requires StrictlySorted(left) && StrictlySorted(right)
    ensures |Merge(left, right)| == |left| + |right| - |Elems(left) * Elems(right)|
  {
    MergeIsSortedUnion(left, right);
    SortedCard(left);
    SortedCard(right);
    SortedCard(Merge(left, right));
  }

  // ---------------------------------------------------------------------
  // RemoveIter, as written

  /** One call of `RemoveIter::next` as the source writes it. When the left
      head is below the right head the RIGHT head is discarded; when it is
      above, the left head is yielded and the right input is kept; equal
      heads drop the left head and loop. */
  function RemoveNextAsWritten(c: Cursor): (s: Step)
    ensures |c.left| == 0 ==> s.Done?
    ensures s.Done? ==> |s.rest.left| == 0
    ensures s.Yield? ==> s.item in c.left && |s.next.left| < |c.left|
    ensures s.Yield? ==> SubseqOf([s.item] + s.next.left, c.left)
    ensures s.Yield? ==> forall x :: x in s.next.left ==> x in c.left
    ensures forall x :: x in c.left && x !in c.right ==> s.Yield? && (x == s.item || x in s.next.left)
    ensures s.Yield? ==> forall x :: x in s.next.right ==> x in c.right
    decreases |c.left|
  {
    if |c.left| == 0 then Done(c)
    else if |c.right| == 0 then YieldHead(c.left, c.right)
    else if c.left[0] < c.right[0] then YieldHead(c.left, c.right[1..])
    else if c.left[0] == c.right[0] then
      assert c.left == [c.left[0]] + c.left[1..];
      var s := RemoveNextAsWritten(Cursor(c.left[1..], c.right));
      if s.Yield? then SubseqSkip([s.item] + s.next.left, c.left); s else s
    else YieldHead(c.left, c.right)
  }

  /** Yield the head of `left`, leaving `right` as the right input. */
  function YieldHead(left: seq<int>, right: seq<int>): (s: Step)
    requires |left| > 0
    ensures s.Yield? && s.item == left[0] && s.next == Cursor(left[1..], right)
    ensures SubseqOf([s.item] + s.next.left, left)
    ensures forall x :: x in left ==> x == s.item || x in s.next.left
    ensures forall x :: x in s.next.left ==> x in left
  {
    assert left == [left[0]] + left[1..];
    assert ([left[0]] + left[1..])[1..] == left[1..];
    SubseqRefl(left[1..]);
    Yield(left[0], Cursor(left[1..], right))
  }

  lemma {:induction false} SubseqRefl(s: seq<int>)
    ensures SubseqOf(s, s)
  {
    if |s| > 0 {
      SubseqRefl(s[1..]);
    }
  }

  /** Everything the as-written `RemoveIter` yields. */
  function RemoveAsWritten(left: seq<int>, right: seq<int>): (out: seq<int>)
    ensures forall x :: x in out ==> x in left
    ensures forall x :: x in left && x !in right ==> x in out
    decreases |left|
  {
    match RemoveNextAsWritten(Cursor(left, right))
    case Done(_) => []
    case Yield(x, c) => [x] + RemoveAsWritten(c.left, c.right)
  }

  /** Whatever the inputs, the as-written iterator yields a subsequence of
      `left`, in order. */
  lemma {:induction false} RemoveAsWrittenSubseq(left: seq<int>, right: seq<int>)
    ensures SubseqOf(RemoveAsWritten(left, right), left)
    decreases |left|
  {
    var s := RemoveNextAsWritten(Cursor(left, right));
    if s.Yield? {
      RemoveAsWrittenSubseq(s.next.left, s.next.right);
      SubseqAppendTail(s.item, RemoveAsWritten(s.next.left, s.next.right), s.next.left, left);
    }
  }

  /** If `[x] + t` is a subsequence of `b`, and `a` a subsequence of `t`,
      then `[x] + a` is a subsequence of `b`. */
  lemma {:induction false} SubseqAppendTail(x: int, a: seq<int>, t: seq<int>, b: seq<int>)
    requires SubseqOf(a, t) && SubseqOf([x] + t, b)
    ensures SubseqOf([x] + a, b)
    decreases |b|
  {
    if |b| > 0 {
      if b[0] == x {
        assert ([x] + t)[1..] == t;
        assert ([x] + a)[1..] == a;
        SubseqTrans(a, t, b[1..]);
      } else {
        SubseqAppendTail(x, a, t, b[1..]);
      }
    }
  }

  lemma {:induction false} SubseqTrans(a: seq<int>, b: seq<int>, c: seq<int>)
    requires SubseqOf(a, b) && SubseqOf(b, c)
    ensures SubseqOf(a, c)
    decreases |c|
  {
    if |a| > 0 && |c| > 0 {
      if |b| > 0 && b[0] == c[0] {
        if a[0] == b[0] {
          SubseqTrans(a[1..], b[1..], c[1..]);
        } else {
          SubseqTrans(a, b[1..], c[1..]);
        }
      } else {
        SubseqTrans(a, b, c[1..]);
        if a[0] == c[0] {
          SubseqDropHead(a, c[1..]);
        }
      }
    }
  }

  /** The shape in which the archetype store uses the as-written iterator:
      with a single key on the right, only a matching HEAD of `left` is
      removed; a match anywhere else goes through. */
  lemma RemoveAsWrittenSingle(left: seq<int>, w: int)
    requires StrictlySorted(left)
    ensures RemoveAsWritten(left, [w]) ==
              if |left| > 0 && left[0] == w then left[1..] else left
  {
    if |left| > 0 && left[0] == w {
      SortedTail(left);
      KeepAll(left[1..], [w]);
    } else {
      KeepAll(left, [w]);
    }
  }

  /** When the left head never equals the right head the as-written
      iterator yields all of `left`. */
  lemma {:induction false} KeepAll(left: seq<int>, right: seq<int>)
    requires StrictlySorted(left)
    requires |right| <= 1
    requires |left| > 0 && |right| == 1 ==> left[0] != right[0]
    ensures RemoveAsWritten(left, right) == left
    decreases |left|
  {
    if |left| > 0 {
      var s := RemoveNextAsWritten(Cursor(left, right));
      SortedTail(left);
      if |right| == 1 && left[0] < right[0] {
        assert s.next == Cursor(left[1..], []);
        KeepAll(left[1..], []);
      } else {
        assert s.next == Cursor(left[1..], right);
        if |right| == 1 && |left| > 1 {
          assert left[0] < left[1];
        }
        KeepAll(left[1..], right);
      }
      assert left == [left[0]] + left[1..];
    }
  }

  /** The as-written iterator does not compute the difference: removing
      [2] from [1, 2] yields [1, 2] instead of [1]. */
  lemma RemoveAsWrittenCounterexample()
    ensures RemoveAsWritten([1, 2], [2]) == [1, 2]
    ensures Without([1, 2], {2}) == [1]
  {
    assert RemoveNextAsWritten(Cursor([1, 2], [2])) == Yield(1, Cursor([2], []));
    assert [1, 2][1..] == [2];
    assert RemoveNextAsWritten(Cursor([2], [])) == Yield(2, Cursor([], []));
    assert Without([2], {2}) == [];
  }

  // ---------------------------------------------------------------------
  // RemoveIter, corrected

  /** One call of `RemoveIter::next` with the Less and Greater arms in their
      intended places: a left head below the right head is yielded, a left
      head above it discards the right head, and equal heads drop the left
      head. */
  function RemoveNext(c: Cursor): (s: Step)
    ensures |c.left| == 0 ==> s.Done?
    ensures s.Done? ==> |s.rest.left| == 0
    ensures s.Yield? ==> s.item in c.left && |s.next.left| < |c.left|
    ensures s.Yield? ==> forall x :: x in s.next.left ==> x in c.left
    ensures forall x :: x in c.left && x !in c.right ==> s.Yield? && (x == s.item || x in s.next.left)
    ensures s.Yield? ==> forall x :: x in s.next.right ==> x in c.right
    decreases Size(c)
  {
    if |c.left| == 0 then Done(c)
    else
      assert c.left == [c.left[0]] + c.left[1..];
      if |c.right| == 0 || c.left[0] < c.right[0] then Yield(c.left[0], Cursor(c.left[1..], c.right))
      else if c.left[0] == c.right[0] then RemoveNext(Cursor(c.left[1..], c.right))
      else
        assert c.right == [c.right[0]] + c.right[1..];
        RemoveNext(Cursor(c.left, c.right[1..]))
  }

  /** Everything the corrected `RemoveIter` yields. */
  function Remove(left: seq<int>, right: seq<int>): (out: seq<int>)
    ensures forall x :: x in out ==> x in left
    ensures forall x :: x in left && x !in right ==> x in out
    decreases |left|
  {
    match RemoveNext(Cursor(left, right))
    case Done(_) => []
    case Yield(x, c) => [x] + Remove(c.left, c.right)
  }

  /** A step of the corrected iterator yields the first key of `left` not
      in `right`, and the output beyond it is again a difference of what is
      left over. */
  lemma {:induction false} RemoveNextIsDifference(c: Cursor)
    requires StrictlySorted(c.left) && StrictlySorted(c.right)
    ensures var s := RemoveNext(c);
            match s
            case Done(_) => Without(c.left, Elems(c.right)) == []
            case Yield(x, n) =>
              StrictlySorted(n.left) && StrictlySorted(n.right) &&
              Without(c.left, Elems(c.right)) == [x] + Without(n.left, Elems(n.right))
    decreases Size(c)
  {
    if |c.left| > 0 {
      SortedTail(c.left);
      if |c.right| > 0 {
        SortedTail(c.right);
      }
      if |c.right| == 0 || c.left[0] < c.right[0] {
        if |c.right| > 0 {
          SortedHeadLeast(c.right);
        }
      } else if c.left[0] == c.right[0] {
        RemoveNextIsDifference(Cursor(c.left[1..], c.right));
      } else {
        SortedHeadLeast(c.left);
        DropBelow(c.left, c.right);
        RemoveNextIsDifference(Cursor(c.left, c.right[1..]));
      }
    }
  }

  /** Keys of `right` below every key of `left` filter nothing. */
  lemma DropBelow(left: seq<int>, right: seq<int>)
    requires |right| > 0
    requires forall y :: y in left ==> right[0] < y
    ensures Without(left, Elems(right)) == Without(left, Elems(right[1..]))
  {
    ElemsCons(right);
    WithoutIgnores(left, Elems(right[1..]), right[0]);
  }

  /** Filtering a key that does not occur changes nothing. */
  lemma {:induction false} WithoutIgnores(s: seq<int>, drop: set<int>, k: int)
    requires k !in s
    ensures Without(s, {k} + drop) == Without(s, drop)
  {
    if |s| > 0 {
      assert s[1..] == s[1..];
      assert k !in s[1..] by { assert forall y :: y in s[1..] ==> y in s; }
      WithoutIgnores(s[1..], drop, k);
    }
  }

  /** The corrected iterator computes exactly `left` minus `right`, in the
      order of `left`. */
  lemma {:induction false} RemoveIsDifference(left: seq<int>, right: seq<int>)
    requires StrictlySorted(left) && StrictlySorted(right)
    ensures Remove(left, right) == Without(left, Elems(right))
    ensures StrictlySorted(Remove(left, right))
    ensures SubseqOf(Remove(left, right), left)
    decreases |left|
  {
    RemoveNextIsDifference(Cursor(left, right));
    var s := RemoveNext(Cursor(left, right));
    if s.Yield? {
      RemoveIsDifference(s.next.left, s.next.right);
    }
    WithoutSorted(left, Elems(right));
  }

  /** The corrected iterator reports `Done` exactly when no key of `left`
      is missing from `right`. */
  lemma RemoveDoneIff(c: Cursor)
    requires StrictlySorted(c.left) && StrictlySorted(c.right)
    ensures RemoveNext(c).Done? <==> forall x :: x in c.left ==> x in c.right
  {
    RemoveNextIsDifference(c);
    var s := RemoveNext(c);
    if s.Yield? {
      assert s.item in Without(c.left, Elems(c.right)) by {
        assert Without(c.left, Elems(c.right))[0] == s.item;
      }
    }
  }
}

=== FILE: multi_error.dfy ===
/** Error plumbing: `MultiError`, a non-empty list of errors whose first is
    the primary one, and the helpers that turn results into options or
    flatten nested results. An `anyhow::Error` is one of a few shapes; the
    failure a worker thread's panic produces is a fixed message, and the
    logging done on the side is left out. */
module MultiError {
  import opened Wrappers

  const PANIC_ERR_MSG: string := "worker thread panicked"

  /** An `anyhow::Error`: an application error, a bare message, a joined
      task's failure, or an error with a context line on top. */
  datatype AnyError = Custom(code: int) | Message(text: string) | JoinFailure(task: int) | WithContext(context: string, source: AnyError)

  /** `worker_panic_error`. */
  function WorkerPanicError(): (e: AnyError)
    ensures e.Message? && e.text == PANIC_ERR_MSG
  {
    Message(PANIC_ERR_MSG)
  }

  /** `MultiError`'s list; every value the type's functions build holds at
      least one error. */
  type MultiError = m: seq<AnyError> | |m| > 0 witness [Message(PANIC_ERR_MSG)]

  /** `wrap`/`new`/`From`: one error. */
  function Wrap(e: AnyError): (m: MultiError)
    ensures Primary(m) == e && Secondary(m) == []
  {
    [e]
  }

  function Errors(m: MultiError): seq<AnyError> {
    m
  }

  function Primary(m: MultiError): AnyError {
    m[0]
  }

  function Secondary(m: MultiError): seq<AnyError> {
    m[1..]
  }

  /** The errors are the primary one followed by the secondary ones. */
  lemma ErrorsSplit(m: MultiError)
    ensures Errors(m) == [Primary(m)] + Secondary(m) && |Errors(m)| >= 1
  {
  }

  /** The errors among some results, in order (`filter_map(err)`). */
  function Errs(rs: seq<Result<(), AnyError>>): (es: seq<AnyError>)
    decreases |rs|
  {
    if |rs| == 0 then []
    else (if rs[0].Err? then [rs[0].error] else []) + Errs(rs[1..])
  }

  /** `from_iter`: Ok when there is no error, otherwise all the errors. */
  function FromIter(rs: seq<Result<(), AnyError>>): (r: Result<(), MultiError>)
  {
    var es := Errs(rs);
    if |es| == 0 then Ok(()) else Err(es)
  }

  /** Collecting distributes over concatenation: the errors of a joined
      list are those of the first part, then those of the second. */
  lemma {:induction false} ErrsAppend(a: seq<Result<(), AnyError>>, b: seq<Result<(), AnyError>>)
    ensures Errs(a + b) == Errs(a) + Errs(b)
    decreases |a|
  {
    if |a| > 0 {
      assert (a + b)[0] == a[0] && (a + b)[1..] == a[1..] + b;
      ErrsAppend(a[1..], b);
      var h := if a[0].Err? then [a[0].error] else [];
      assert Errs(a + b) == h + Errs(a[1..] + b);
      assert h + (Errs(a[1..]) + Errs(b)) == (h + Errs(a[1..])) + Errs(b);
    } else {
      assert a + b == b;
    }
  }

  /** No error is collected exactly when every result is Ok. */
  lemma {:induction false} ErrsEmptyIff(rs: seq<Result<(), AnyError>>)
    ensures |Errs(rs)| == 0 <==> forall i :: 0 <= i < |rs| ==> rs[i].Ok?
    decreases |rs|
  {
    if |rs| > 0 {
      ErrsEmptyIff(rs[1..]);
      if forall i :: 0 <= i < |rs[1..]| ==> rs[1..][i].Ok? {
        if rs[0].Ok? {
          forall i | 0 <= i < |rs| ensures rs[i].Ok? {
            if i > 0 { assert rs[i] == rs[1..][i - 1]; }
          }
        }
      } else {
        var i :| 0 <= i < |rs[1..]| && !rs[1..][i].Ok?;
        assert !rs[i + 1].Ok?;
      }
    }
  }

  /** `from_iter` is Ok exactly when every result is. */
  lemma FromIterOkIff(rs: seq<Result<(), AnyError>>)
    ensures FromIter(rs).Ok? <==> forall i :: 0 <= i < |rs| ==> rs[i].Ok?
  {
    ErrsEmptyIff(rs);
  }

  /** The primary error is the first failed result's, and the other
      failures follow it in order. */
  lemma FromIterPrimary(rs: seq<Result<(), AnyError>>, i: nat)
    requires i < |rs| && rs[i].Err? && forall j :: 0 <= j < i ==> rs[j].Ok?
    ensures FromIter(rs).Err?
    ensures Primary(FromIter(rs).error) == rs[i].error
    ensures Secondary(FromIter(rs).error) == Errs(rs[i + 1..])
  {
    assert rs == rs[..i] + rs[i..];
    ErrsAppend(rs[..i], rs[i..]);
    ErrsEmptyIff(rs[..i]);
    assert forall j :: 0 <= j < |rs[..i]| ==> rs[..i][j].Ok?;
    assert Errs(rs[i..]) == [rs[i].error] + Errs(rs[i..][1..]);
    assert rs[i..][1..] == rs[i + 1..];
  }

  /** `push`: an Ok value is handed back and nothing is recorded; an error
      is appended, after all earlier ones, and nothing is handed back. */
  function Push<T>(m: MultiError, res: Result<T, AnyError>): (r: (MultiError, Option<T>))
    ensures res.Ok? ==> r.0 == m && r.1 == Some(res.value)
    ensures res.Err? ==> Errors(r.0) == Errors(m) + [res.error] && r.1.None?
    ensures Primary(r.0) == Primary(m)
  {
    match res
    case Ok(v) => (m, Some(v))
    case Err(e) => (PushErr(m, e), None)
  }

  /** `push_err`: the error goes last; the primary stays. */
  function PushErr(m: MultiError, e: AnyError): (r: MultiError)
    ensures Primary(r) == Primary(m) && Secondary(r) == Secondary(m) + [e]
  {
    m + [e]
  }

  /** `with_err` and `with`, the builder forms: the error goes last and
      the primary stays; an Ok result records nothing. */
  function WithErr(m: MultiError, e: AnyError): (r: MultiError)
    ensures Primary(r) == Primary(m) && Secondary(r) == Secondary(m) + [e]
  {
    PushErr(m, e)
  }

  function With<T>(m: MultiError, res: Result<T, AnyError>): (r: MultiError)
    ensures res.Ok? ==> r == m
    ensures res.Err? ==> Errors(r) == Errors(m) + [res.error]
    ensures Primary(r) == Primary(m)
  {
    Push(m, res).0
  }

  /** Pushing results one by one records exactly what `from_iter` of the
      same results would add, in order. */
  lemma {:induction false} PushAll(m: MultiError, rs: seq<Result<(), AnyError>>)
    ensures Errors(PushEach(m, rs)) == Errors(m) + Errs(rs)
    decreases |rs|
  {
    if |rs| > 0 {
      PushAll(With(m, rs[0]), rs[1..]);
    }
  }

  function PushEach(m: MultiError, rs: seq<Result<(), AnyError>>): (r: MultiError)
    decreases |rs|
  {
    if |rs| == 0 then m else PushEach(With(m, rs[0]), rs[1..])
  }

  /** `absorb_result_std` / `absorb_result_anyhow`: Ok values through,
      errors dropped. */
  function Absorb<T, E>(res: Result<T, E>): (r: Option<T>)
    ensures r.Some? <==> res.Ok?
    ensures r.Some? ==> r.value == res.value
  {
    match res
    case Ok(v) => Some(v)
    case Err(_) => None
  }

  /** `flatten_tokio_join_result`: the task's own result when it ran to
      completion, otherwise its join failure under the panic message. */
  function FlattenJoin<T>(res: Result<Result<T, AnyError>, int>): (r: Result<T, AnyError>)
    ensures res.Ok? ==> r == res.value
    ensures res.Err? ==> r == Err(WithContext(PANIC_ERR_MSG, JoinFailure(res.error)))
  {
    match res
    case Ok(Ok(v)) => Ok(v)
    case Ok(Err(e)) => Err(e)
    case Err(j) => Err(WithContext(PANIC_ERR_MSG, JoinFailure(j)))
  }

  /** How a closure run under `catch_termination` ended. */
  datatype Outcome<T> = Returned(res: Result<T, AnyError>) | Panicked

  /** `catch_termination`: a returned result as is, a panic as the worker
      panic error. */
  function CatchTermination<T>(o: Outcome<T>): (r: Result<T, AnyError>)
    ensures o.Returned? ==> r == o.res
    ensures o.Panicked? ==> r == Err(WorkerPanicError())
  {
    match o
    case Returned(res) => res
    case Panicked => Err(WorkerPanicError())
  }
}

=== FILE: multi_part.dfy ===
/** Multi-part packets: each part is written followed by its length, encoded
    with the varint code and then byte-reversed, so that a decoder can peel
    parts off the END of the buffer, last part first. Both copies of the
    serializer (the engine's and the common crate's) do the same thing; the
    engine's decoder adds `expect`. The closure that writes a part is
    modelled by the bytes it appends. */
module MultiPart {
  import opened Wrappers
  import opened Varint

  /** A sequence back to front: the length bytes of a part, and the parts
      as the decoder hands them out. */
  function Reverse<T>(s: seq<T>): (r: seq<T>)
    ensures |r| == |s|
    ensures forall i :: 0 <= i < |s| ==> r[i] == s[|s| - 1 - i]
  {
    if |s| == 0 then [] else [s[|s| - 1]] + Reverse(s[..|s| - 1])
  }

  lemma ReverseAppend<T>(a: seq<T>, b: seq<T>)
    ensures Reverse(a + b) == Reverse(b) + Reverse(a)
  {
  }

  lemma ReverseReverse<T>(a: seq<T>)
    ensures Reverse(Reverse(a)) == a
  {
  }

  // ---------------------------------------------------------------------
  // Encoding

  /** `encode_multi_part(_raw)`: the writer appends `payload`, then the
      length's encoding is appended back to front. */
  function EncodePart(buf: seq<byte>, payload: seq<byte>): (r: seq<byte>)
    requires |payload| < U64_LIMIT
    ensures |r| == |buf| + |payload| + |Encode(|payload|)|
    ensures r[..|buf|] == buf
    ensures r[|buf|..|buf| + |payload|] == payload
  {
    buf + payload + Reverse(Encode(|payload|))
  }

  predicate Encodable(parts: seq<seq<byte>>) {
    forall i :: 0 <= i < |parts| ==> |parts[i]| < U64_LIMIT
  }

  /** Encode the parts one after the other onto `buf`. */
  function EncodeAll(buf: seq<byte>, parts: seq<seq<byte>>): (r: seq<byte>)
    requires Encodable(parts)
    ensures |r| >= |buf| && r[..|buf|] == buf
    decreases |parts|
  {
    if |parts| == 0 then buf
    else EncodeAll(EncodePart(buf, parts[0]), parts[1..])
  }

  // ---------------------------------------------------------------------
  // Decoding

  datatype PartError =
    | InvalidLength(cause: DecodeError)
    | PartTooLong(partLen: nat, available: nat)
    | UnexpectedEndOfPacket

  /** One call of `MultiPartDecoder::next`, on the decoder's `remaining`
      buffer: `End` is `None`, `Part` is `Some(Ok(data))`, `Fail` is
      `Some(Err(..))`; each carries the buffer left behind. */
  datatype Step =
    | End
    | Part(data: seq<byte>, rest: seq<byte>)
    | Fail(error: PartError, rest: seq<byte>)

  /** `usize::saturating_sub`. */
  function SaturatingSub(a: nat, b: nat): (r: nat)
    ensures r == if a >= b then a - b else 0
  {
    if a >= b then a - b else 0
  }

  /** Read the length footer from the last (at most) nine bytes reversed,
      drop the footer, then split the part off the end. A failed length
      read leaves the buffer as it was; a length beyond the buffer leaves it
      with the footer already dropped. */
  function Next(remaining: seq<byte>): (r: Step)
    ensures r.End? <==> |remaining| == 0
    ensures r.Part? ==> 1 <= |remaining| - |r.rest| - |r.data| <= MAX_LEN
    ensures r.Part? ==> remaining[..|r.rest|] == r.rest
    ensures r.Part? ==> remaining[|r.rest|..|r.rest| + |r.data|] == r.data
    ensures r.Fail? ==> r.error != UnexpectedEndOfPacket && |r.rest| <= |remaining|
    ensures r.Fail? ==> remaining[..|r.rest|] == r.rest
    ensures r.Fail? && r.error.PartTooLong? ==> r.error.partLen > r.error.available == |r.rest|
  {
    if |remaining| == 0 then End
    else
      var tail := remaining[SaturatingSub(|remaining|, MAX_LEN)..];
      match Decode(Reverse(tail))
      case Err(e) => Fail(InvalidLength(e), remaining)
      case Ok((partLen, footerLen)) =>
        var r1 := remaining[..|remaining| - footerLen];
        if partLen > |r1| then Fail(PartTooLong(partLen, |r1|), r1)
        else Part(r1[|r1| - partLen..], r1[..|r1| - partLen])
  }

  /** Peeling the part just encoded gives it back and leaves the buffer as
      it was before the encoding. */
  lemma NextEncodePart(buf: seq<byte>, payload: seq<byte>)
    requires |payload| < U64_LIMIT
    ensures Next(EncodePart(buf, payload)) == Part(payload, buf)
  {
    var e := Encode(|payload|);
    var body := buf + payload;
    var total := body + Reverse(e);
    assert total == EncodePart(buf, payload);
    var cut := SaturatingSub(|total|, MAX_LEN);
    var tail := total[cut..];
    var x := body[cut..];
    assert tail == x + Reverse(e);
    ReverseAppend(x, Reverse(e));
    ReverseReverse(e);
    DecodeEncode(|payload|, Reverse(x));
    assert Decode(Reverse(tail)) == Ok((|payload|, |e|));
    assert total[..|total| - |e|] == body;
    assert body[|body| - |payload|..] == payload;
    assert body[..|body| - |payload|] == buf;
  }

  /** A footer declaring more bytes than precede it is an error, not a
      panic, and the footer is gone from the buffer afterwards. */
  lemma NextTooLong(buf: seq<byte>, n: nat)
    requires n < U64_LIMIT && n > |buf|
    ensures Next(buf + Reverse(Encode(n))) == Fail(PartTooLong(n, |buf|), buf)
  {
    var e := Encode(n);
    var total := buf + Reverse(e);
    var cut := SaturatingSub(|total|, MAX_LEN);
    var x := buf[cut..];
    assert total[cut..] == x + Reverse(e);
    ReverseAppend(x, Reverse(e));
    ReverseReverse(e);
    DecodeEncode(n, Reverse(x));
    assert total[..|total| - |e|] == buf;
  }

  /** Call `next` until `None` or the first error: the parts in the order
      they come out, and the error if one stopped the walk. */
  function Drain(remaining: seq<byte>): (r: (seq<seq<byte>>, Option<PartError>))
    decreases |remaining|
  {
    match Next(remaining)
    case End => ([], None)
    case Fail(e, _) => ([], Some(e))
    case Part(data, rest) =>
      var more := Drain(rest);
      ([data] + more.0, more.1)
  }

  /** Encoding parts p1..pn onto an empty buffer and decoding yields
      pn..p1 and then `None`; empty parts come back as empty parts. */
  lemma {:induction false} RoundTrip(parts: seq<seq<byte>>)
    requires Encodable(parts)
    ensures Drain(EncodeAll([], parts)) == (Reverse(parts), None)
    decreases |parts|
  {
    if |parts| > 0 {
      var init := parts[..|parts| - 1];
      var last := parts[|parts| - 1];
      assert Encodable(init);
      assert parts == init + [last];
      EncodeAllSnoc(init, last);
      var buf := EncodeAll([], init);
      NextEncodePart(buf, last);
      RoundTrip(init);
      assert Drain(EncodePart(buf, last)) == ([last] + Drain(buf).0, Drain(buf).1);
      assert Reverse(parts) == [last] + Reverse(init);
    }
  }

  /** Encoding one more part is encoding the others and then that part. */
  lemma {:induction false} EncodeAllSnoc(parts: seq<seq<byte>>, last: seq<byte>)
    requires Encodable(parts) && |last| < U64_LIMIT
    ensures Encodable(parts + [last])
    ensures EncodeAll([], parts + [last]) == EncodePart(EncodeAll([], parts), last)
  {
    EncodeAllSnocFrom([], parts, last);
  }

  lemma {:induction false} EncodeAllSnocFrom(buf: seq<byte>, parts: seq<seq<byte>>, last: seq<byte>)
    requires Encodable(parts) && |last| < U64_LIMIT
    ensures Encodable(parts + [last])
    ensures EncodeAll(buf, parts + [last]) == EncodePart(EncodeAll(buf, parts), last)
    decreases |parts|
  {
    var ps := parts + [last];
    assert forall i :: 0 <= i < |ps| ==> ps[i] == if i < |parts| then parts[i] else last;
    if |parts| > 0 {
      assert ps[1..] == parts[1..] + [last];
      EncodeAllSnocFrom(EncodePart(buf, parts[0]), parts[1..], last);
    } else {
      assert ps[1..] == [];
    }
  }

  /** The unit test of both copies: an empty part, 100 bytes, an empty part
      and 10 bytes come back as 10, 0, 100 and 0 bytes, then `None`. */
  lemma FourPartExample(a: seq<byte>, b: seq<byte>)
    requires |a| == 100 && |b| == 10
    ensures Drain(EncodeAll([], [[], a, [], b])) == ([b, [], a, []], None)
  {
    var parts: seq<seq<byte>> := [[], a, [], b];
    assert Encodable(parts);
    RoundTrip(parts);
    var r := Reverse(parts);
    assert |r| == 4 && r[0] == b && r[1] == [] && r[2] == a && r[3] == [];
    FourOf(r);
  }

  lemma FourOf<T>(r: seq<T>)
    requires |r| == 4
    ensures r == [r[0], r[1], r[2], r[3]]
  {
  }

  // ---------------------------------------------------------------------
  // expect

  /** `MultiPartDecoder::expect`: the next part, with the end of the
      packet turned into an error; the decoder's buffer afterwards. */
  function Expect(remaining: seq<byte>): (r: (Result<seq<byte>, PartError>, seq<byte>))
    ensures |remaining| == 0 ==> r.0 == Err(UnexpectedEndOfPacket)
    ensures r.0.Ok? <==> Next(remaining).Part?
    ensures r.0.Ok? ==> r.0.value == Next(remaining).data && r.1 == Next(remaining).rest
  {
    match Next(remaining)
    case End => (Err(UnexpectedEndOfPacket), remaining)
    case Part(data, rest) => (Ok(data), rest)
    case Fail(e, rest) => (Err(e), rest)
  }
}

=== FILE: pass_scheduler.dfy ===
/** `PassScheduler`: render commands queued with the depth epoch they belong
    to, then run in ascending epoch order. `push` records the command, its
    epoch, and one more in the epoch's bucket counter; `exec` is meant to
    order the commands with an in-place counting sort and run them. A
    command is named by the order it was pushed in. A panic is `None`. */
module PassScheduler {
  import opened Wrappers
  import opened DepthRuns

  type Cmd = nat

  /** `depth_queue`, `cmd_queue` and `depth_buckets`. */
  datatype Scheduler = Scheduler(depths: seq<Epoch>, cmds: seq<Cmd>, buckets: seq<nat>)

  /** The number of queued commands of epoch e. */
  function Count(depths: seq<Epoch>, e: nat): (n: nat)
    ensures n <= |depths|
  {
    if |depths| == 0 then 0
    else Count(depths[..|depths| - 1], e) + (if depths[|depths| - 1] == e then 1 else 0)
  }

  /** Bucket k counts the commands of epoch k + 1, and every queued epoch
      has a bucket (so there are no more buckets than epochs). */
  ghost predicate Counted(s: Scheduler) {
    |s.depths| == |s.cmds| && |s.buckets| <= U32_MAX &&
    (forall i :: 0 <= i < |s.depths| ==> AsIndex(s.depths[i]) < |s.buckets|) &&
    (forall k :: 0 <= k < |s.buckets| ==> s.buckets[k] == Count(s.depths, k + 1))
  }

  function New(): (s: Scheduler)
    ensures Counted(s) && s.cmds == []
  {
    Scheduler([], [], [])
  }

  /** `push`: queue the command, grow the buckets to reach its epoch, and
      count it. */
  function Push(s: Scheduler, e: Epoch, c: Cmd): (r: Scheduler)
    ensures r.depths == s.depths + [e] && r.cmds == s.cmds + [c]
    ensures Counted(s) ==> Counted(r)
  {
    var k := AsIndex(e);
    var grown := if |s.buckets| <= k then s.buckets + seq(k + 1 - |s.buckets|, _ => 0) else s.buckets;
    var r := Scheduler(s.depths + [e], s.cmds + [c], grown[k := grown[k] + 1]);
    assert Counted(s) ==> Counted(r) by {
      if Counted(s) {
        var d := s.depths + [e];
        assert d[..|d| - 1] == s.depths;
        forall j | 0 <= j < |r.buckets| ensures r.buckets[j] == Count(r.depths, j + 1) {
          if j >= |s.buckets| {
            CountAbsent(s.depths, j + 1);
          }
        }
      }
    }
    r
  }

  /** An epoch with no bucket has no commands. */
  lemma {:induction false} CountAbsent(depths: seq<Epoch>, e: nat)
    requires forall i :: 0 <= i < |depths| ==> depths[i] != e
    ensures Count(depths, e) == 0
  {
    if |depths| > 0 {
      CountAbsent(depths[..|depths| - 1], e);
    }
  }

  // ---------------------------------------------------------------------
  // The intended order

  /** The queued (epoch, command) pairs, in push order. */
  function Queue(s: Scheduler): (q: seq<(Epoch, Cmd)>)
    requires |s.depths| == |s.cmds|
    ensures |q| == |s.cmds| && forall i :: 0 <= i < |q| ==> q[i] == (s.depths[i], s.cmds[i])
  {
    seq(|s.cmds|, i requires 0 <= i < |s.cmds| => (s.depths[i], s.cmds[i]))
  }

  /** The pairs of epoch e, in order. */
  function Filter(q: seq<(Epoch, Cmd)>, e: nat): (r: seq<(Epoch, Cmd)>)
  {
    if |q| == 0 then [] else Filter(q[..|q| - 1], e) + (if q[|q| - 1].0 == e then [q[|q| - 1]] else [])
  }

  /** The pairs of epoch at most k, in order. */
  function UpTo(q: seq<(Epoch, Cmd)>, k: nat): (r: seq<(Epoch, Cmd)>)
  {
    if |q| == 0 then [] else UpTo(q[..|q| - 1], k) + (if q[|q| - 1].0 <= k then [q[|q| - 1]] else [])
  }

  /** The commands of epochs 1 to k, grouped by ascending epoch, each
      group in push order. */
  function Grouped(q: seq<(Epoch, Cmd)>, k: nat): (r: seq<(Epoch, Cmd)>)
    decreases k
  {
    if k == 0 then [] else Grouped(q, k - 1) + Filter(q, k)
  }

  /** The commands of a run of pairs. */
  function Seconds(q: seq<(Epoch, Cmd)>): (r: seq<Cmd>)
    ensures |r| == |q| && forall i :: 0 <= i < |q| ==> r[i] == q[i].1
  {
    seq(|q|, i requires 0 <= i < |q| => q[i].1)
  }

  lemma SecondsAppend(a: seq<(Epoch, Cmd)>, b: seq<(Epoch, Cmd)>)
    ensures Seconds(a + b) == Seconds(a) + Seconds(b)
  {
  }

  /** Reordering the pairs reorders their commands the same way. */
  lemma {:induction false} SecondsPerm(a: seq<(Epoch, Cmd)>, b: seq<(Epoch, Cmd)>)
    requires multiset(a) == multiset(b)
    ensures multiset(Seconds(a)) == multiset(Seconds(b))
    decreases |a|
  {
    if |a| == 0 {
      assert |multiset(b)| == 0;
    } else {
      var x := a[0];
      assert x in multiset(b);
      var j :| 0 <= j < |b| && b[j] == x;
      var b' := b[..j] + b[j + 1..];
      assert a == [x] + a[1..];
      assert b == b[..j] + [x] + b[j + 1..];
      calc {
        multiset(a[1..]);
        multiset(a) - multiset{x};
        multiset(b) - multiset{x};
        multiset(b[..j]) + multiset(b[j + 1..]);
        multiset(b');
      }
      SecondsPerm(a[1..], b');
      SecondsAppend([x], a[1..]);
      SecondsAppend(b[..j] + [x], b[j + 1..]);
      SecondsAppend(b[..j], [x]);
      SecondsAppend(b[..j], b[j + 1..]);
    }
  }

  /** `exec` as intended: every queued command exactly once, in ascending
      epoch order. This reference groups the commands epoch by epoch, each
      group in push order; the keeping of push order within an epoch is
      its own choice, not something the counting sort promises. */
  function Exec(s: Scheduler): (r: seq<Cmd>)
    requires |s.depths| == |s.cmds|
    ensures Counted(s) ==> multiset(r) == multiset(s.cmds)
  {
    var g := Grouped(Queue(s), |s.buckets|);
    assert Counted(s) ==> multiset(Seconds(g)) == multiset(s.cmds) by {
      if Counted(s) {
        ExecPermutes(s);
        SecondsPerm(g, Queue(s));
        assert Seconds(Queue(s)) == s.cmds;
      }
    }
    Seconds(g)
  }

  lemma {:induction false} FilterAppend(a: seq<(Epoch, Cmd)>, b: seq<(Epoch, Cmd)>, e: nat)
    ensures Filter(a + b, e) == Filter(a, e) + Filter(b, e)
    decreases |b|
  {
    if |b| == 0 {
      assert a + b == a;
    } else {
      var b' := b[..|b| - 1];
      assert (a + b)[..|a + b| - 1] == a + b';
      FilterAppend(a, b', e);
    }
  }

  /** Filtering one epoch's pairs again keeps them all or none. */
  lemma {:induction false} FilterFilter(q: seq<(Epoch, Cmd)>, k: nat, e: nat)
    ensures Filter(Filter(q, k), e) == if k == e then Filter(q, k) else []
  {
    if |q| > 0 {
      var q' := q[..|q| - 1];
      var x := q[|q| - 1];
      FilterFilter(q', k, e);
      var tail := if x.0 == k then [x] else [];
      FilterAppend(Filter(q', k), tail, e);
      if |tail| > 0 {
        assert Filter(tail, e) == Filter(tail[..0], e) + (if x.0 == e then [x] else []);
      }
    }
  }

  /** Grouping is stable: the commands of each epoch come out in the order
      they were pushed, and epochs beyond the last bucket are dropped. */
  lemma {:induction false} GroupedStable(q: seq<(Epoch, Cmd)>, k: nat, e: nat)
    requires e >= 1
    ensures Filter(Grouped(q, k), e) == if e <= k then Filter(q, e) else []
    decreases k
  {
    if k > 0 {
      var a := Grouped(q, k - 1);
      var b := Filter(q, k);
      assert Grouped(q, k) == a + b;
      GroupedStable(q, k - 1, e);
      FilterAppend(a, b, e);
      FilterFilter(q, k, e);
      if e == k {
        calc {
          Filter(a + b, e);
          Filter(a, e) + Filter(b, e);
          [] + b;
          b;
        }
      } else {
        calc {
          Filter(a + b, e);
          Filter(a, e) + Filter(b, e);
          Filter(a, e) + [];
          Filter(a, e);
        }
      }
    }
  }

  /** No pair has epoch zero. */
  lemma {:induction false} FilterZero(q: seq<(Epoch, Cmd)>)
    ensures Filter(q, 0) == []
  {
    if |q| > 0 {
      FilterZero(q[..|q| - 1]);
    }
  }

  /** A filtered pair has the filtered epoch. */
  lemma {:induction false} FilterEpoch(q: seq<(Epoch, Cmd)>, e: nat)
    ensures forall i :: 0 <= i < |Filter(q, e)| ==> Filter(q, e)[i].0 == e
  {
    if |q| > 0 {
      FilterEpoch(q[..|q| - 1], e);
    }
  }

  /** Grouping up to epoch k keeps only epochs up to k. */
  lemma {:induction false} GroupedBound(q: seq<(Epoch, Cmd)>, k: nat)
    ensures forall i :: 0 <= i < |Grouped(q, k)| ==> Grouped(q, k)[i].0 <= k
    decreases k
  {
    if k > 0 {
      GroupedBound(q, k - 1);
      FilterEpoch(q, k);
      var a := Grouped(q, k - 1);
      var b := Filter(q, k);
      assert forall i :: 0 <= i < |a + b| ==> (a + b)[i] == if i < |a| then a[i] else b[i - |a|];
    }
  }

  /** Grouping sorts: epochs never decrease along the result. */
  lemma {:induction false} GroupedSorted(q: seq<(Epoch, Cmd)>, k: nat)
    ensures forall i, j :: 0 <= i < j < |Grouped(q, k)| ==> Grouped(q, k)[i].0 <= Grouped(q, k)[j].0
    decreases k
  {
    if k > 0 {
      GroupedSorted(q, k - 1);
      GroupedBound(q, k - 1);
      FilterEpoch(q, k);
      var a: seq<(Epoch, Cmd)> := Grouped(q, k - 1);
      var b: seq<(Epoch, Cmd)> := Filter(q, k);
      forall i, j | 0 <= i < j < |a + b| ensures (a + b)[i].0 <= (a + b)[j].0 {
        if j >= |a| && i < |a| {
          assert (a + b)[i] == a[i];
        }
      }
    }
  }

  lemma {:induction false} UpToStep(q: seq<(Epoch, Cmd)>, k: nat)
    requires k >= 1
    ensures multiset(UpTo(q, k)) == multiset(UpTo(q, k - 1)) + multiset(Filter(q, k))
  {
    if |q| > 0 {
      UpToStep(q[..|q| - 1], k);
    }
  }

  lemma {:induction false} GroupedUpTo(q: seq<(Epoch, Cmd)>, k: nat)
    ensures multiset(Grouped(q, k)) == multiset(UpTo(q, k))
    decreases k
  {
    if k == 0 {
      UpToZero(q);
    } else {
      GroupedUpTo(q, k - 1);
      UpToStep(q, k);
    }
  }

  lemma {:induction false} UpToZero(q: seq<(Epoch, Cmd)>)
    ensures UpTo(q, 0) == []
  {
    if |q| > 0 {
      UpToZero(q[..|q| - 1]);
    }
  }

  lemma {:induction false} UpToAll(q: seq<(Epoch, Cmd)>, k: nat)
    requires forall i :: 0 <= i < |q| ==> q[i].0 <= k
    ensures UpTo(q, k) == q
  {
    if |q| > 0 {
      UpToAll(q[..|q| - 1], k);
    }
  }

  /** Each epoch's group is as long as its bucket says. */
  lemma {:induction false} FilterCount(q: seq<(Epoch, Cmd)>, depths: seq<Epoch>, e: nat)
    requires |q| == |depths| && forall i :: 0 <= i < |q| ==> q[i].0 == depths[i]
    ensures |Filter(q, e)| == Count(depths, e)
  {
    if |q| > 0 {
      FilterCount(q[..|q| - 1], depths[..|depths| - 1], e);
    }
  }

  /** What `exec` is meant to do, for a counted scheduler, part one: run
      every queued command exactly once. */
  lemma ExecPermutes(s: Scheduler)
    requires Counted(s)
    ensures multiset(Grouped(Queue(s), |s.buckets|)) == multiset(Queue(s))
  {
    var q := Queue(s);
    GroupedUpTo(q, |s.buckets|);
    UpToAll(q, |s.buckets|);
  }

  /** Part two: in ascending epoch order. */
  lemma ExecSorted(s: Scheduler)
    requires Counted(s)
    ensures var g := Grouped(Queue(s), |s.buckets|);
            forall i, j :: 0 <= i < j < |g| ==> g[i].0 <= g[j].0
  {
    GroupedSorted(Queue(s), |s.buckets|);
  }

  /** Part three: the commands of each epoch in the order they were pushed. */
  lemma ExecStable(s: Scheduler, e: nat)
    requires Counted(s)
    ensures Filter(Grouped(Queue(s), |s.buckets|), e) == Filter(Queue(s), e)
  {
    var q := Queue(s);
    FilterCount(q, s.depths, e);
    if e == 0 || e > |s.buckets| {
      CountAbsent(s.depths, e);
    } else {
      GroupedStable(q, |s.buckets|, e);
    }
    if e == 0 {
      FilterZero(Grouped(q, |s.buckets|));
    } else if e > |s.buckets| {
      GroupedStable(q, |s.buckets|, e);
    }
  }

  /** Part four: epoch k + 1's commands are as many as bucket k counts, so
      they fill the slots between the bucket sums before it and through it. */
  lemma ExecBuckets(s: Scheduler, k: nat)
    requires Counted(s) && k < |s.buckets|
    ensures |Filter(Grouped(Queue(s), |s.buckets|), k + 1)| == s.buckets[k]
  {
    ExecStable(s, k + 1);
    FilterCount(Queue(s), s.depths, k + 1);
  }

  // ---------------------------------------------------------------------
  // `exec` as written

  /** Running sums of the buckets: each bucket becomes the end (one past the
      last slot) of its epoch's range. */
  function Ends(buckets: seq<nat>, accum: nat): (r: seq<nat>)
    ensures |r| == |buckets|
  {
    if |buckets| == 0 then [] else [accum + buckets[0]] + Ends(buckets[1..], accum + buckets[0])
  }

  function Sum(s: seq<nat>): nat {
    if |s| == 0 then 0 else s[0] + Sum(s[1..])
  }

  lemma {:induction false} SumUpdate(s: seq<nat>, k: nat, v: nat)
    requires k < |s|
    ensures Sum(s[k := v]) + s[k] == Sum(s) + v
  {
    if k > 0 {
      SumUpdate(s[1..], k - 1, v);
      assert s[k := v][1..] == s[1..][k - 1 := v];
    } else {
      assert s[k := v][1..] == s[1..];
    }
  }

  function Swap<X>(s: seq<X>, i: nat, j: nat): (r: seq<X>)
    requires i < |s| && j < |s|
    ensures |r| == |s| && r[i] == s[j] && r[j] == s[i]
    ensures forall k :: 0 <= k < |s| && k != i && k != j ==> r[k] == s[k]
    ensures multiset(r) == multiset(s)
  {
    s[i := s[j]][j := s[i]]
  }

  /** The inner loop for slot i: while the slot of i's bucket is not i, swap
      i with that slot and step the slot back. The swap panics on a slot past
      the end, and stepping back panics below zero. Every round lowers a
      slot, so the loop ends. */
  function Settle(depths: seq<Epoch>, cmds: seq<Cmd>, slots: seq<nat>, i: nat): (r: Option<(seq<Epoch>, seq<Cmd>, seq<nat>)>)
    requires i < |depths| == |cmds|
    ensures r.Some? ==> |r.value.0| == |depths| && |r.value.1| == |cmds| && |r.value.2| == |slots|
    ensures r.Some? ==> multiset(r.value.1) == multiset(cmds)
    decreases Sum(slots)
  {
    var b := AsIndex(depths[i]);
    if b >= |slots| then None
    else
      var t := slots[b];
      if t == i then Some((depths, cmds, slots))
      else if t >= |depths| || t == 0 then None
      else
        SumUpdate(slots, b, t - 1);
        Settle(Swap(depths, i, t), Swap(cmds, i, t), slots[b := t - 1], i)
  }

  /** The outer loop over the slots from i on. */
  function SettleFrom(depths: seq<Epoch>, cmds: seq<Cmd>, slots: seq<nat>, i: nat): (r: Option<seq<Cmd>>)
    requires i <= |depths| == |cmds|
    ensures r.Some? ==> multiset(r.value) == multiset(cmds)
    decreases |depths| - i
  {
    if i == |depths| then Some(cmds)
    else
      match Settle(depths, cmds, slots, i)
      case None => None
      case Some((d, c, sl)) => SettleFrom(d, c, sl, i + 1)
  }

  /** `exec` as written: it only ever swaps, so when it completes it runs
      every queued command exactly once. */
  function ExecAsWritten(s: Scheduler): (r: Option<seq<Cmd>>)
    requires |s.depths| == |s.cmds|
    ensures r.Some? ==> multiset(r.value) == multiset(s.cmds)
  {
    SettleFrom(s.depths, s.cmds, Ends(s.buckets, 0), 0)
  }

  /** With the buckets holding the ends of their ranges, the first swap can
      aim one past the last slot: a scheduler holding a single command
      panics, where the intended order is just that command. */
  lemma ExecAsWrittenPanics(e: Epoch, c: Cmd)
    ensures var s := Push(New(), e, c);
            ExecAsWritten(s).None? && Exec(s) == [c]
  {
    var s := Push(New(), e, c);
    var k := AsIndex(e);
    assert s.buckets[..k] == seq(k, _ => 0);
    SumZeros(k);
    EndsPrefix(s.buckets, 0, k);
    assert Settle(s.depths, s.cmds, Ends(s.buckets, 0), 0).None?;
    var q := Queue(s);
    assert q == [(e, c)];
    GroupedBelow(q, k);
    assert Filter(q, e) == Filter([], e) + [(e, c)];
  }

  /** A single pair is grouped only once its epoch is reached. */
  lemma {:induction false} GroupedBelow(q: seq<(Epoch, Cmd)>, j: nat)
    requires |q| == 1 && j < q[0].0
    ensures Grouped(q, j) == []
  {
    if j > 0 {
      GroupedBelow(q, j - 1);
      assert Filter(q, j) == Filter([], j) + [];
    }
  }

  lemma {:induction false} EndsPrefix(b: seq<nat>, accum: nat, k: nat)
    requires k < |b|
    ensures Ends(b, accum)[k] == accum + Sum(b[..k]) + b[k]
  {
    if k > 0 {
      EndsPrefix(b[1..], accum + b[0], k - 1);
      assert b[1..][..k - 1] == b[1..k];
      assert b[..k] == [b[0]] + b[1..k];
      assert b[..k][1..] == b[1..k];
    }
  }

  lemma {:induction false} SumZeros(k: nat)
    ensures Sum(seq(k, _ => 0)) == 0
  {
    if k > 0 {
      assert seq(k, _ => 0)[1..] == seq(k - 1, _ => 0);
      SumZeros(k - 1);
    }
  }
}

=== FILE: rpc_client.dfy ===
/** The game's RPC client (`RpcClient`): the kinds it knows, by type and by
    name, and the table from node ids to the client-side nodes the server has
    told it about. The kind callbacks (create, destroy, message) are foreign
    code, so each call takes the callback's outcome as a parameter; a panic
    is `None`. Packets arrive with their parts already split: a header that
    does not parse is `None`, and so is a missing data part. */
module RpcClient {
  import opened Wrappers
  import opened Varint
  import opened RpcWire

  /** A kind's Rust type, told apart by identity. */
  type KindType = nat

  /** `kinds_by_type` and `kinds_by_name` (each entry stands for the kind's
      callbacks, named by the kind's name); `nodes` is `id_to_node` with each
      node's kind name. */
  datatype Client = Client(byType: map<KindType, string>, byName: map<string, KindType>, nodes: map<NodeId, string>)

  /** Every node is of a kind defined by name, and both kind maps agree. */
  ghost predicate Valid(c: Client) {
    (forall n :: n in c.nodes ==> c.nodes[n] in c.byName) &&
    (forall t :: t in c.byType ==> c.byType[t] in c.byName && c.byName[c.byType[t]] == t) &&
    (forall k :: k in c.byName ==> c.byName[k] in c.byType && c.byType[c.byName[k]] == k)
  }

  function New(): (c: Client)
    ensures Valid(c) && c.nodes == map[]
  {
    Client(map[], map[], map[])
  }

  /** `define`: register a kind under its type and its name. Registering a
      type, or a name, a second time panics. */
  function Define(c: Client, ty: KindType, name: string): (r: Option<Client>)
    ensures r.None? <==> ty in c.byType || name in c.byName
    ensures r.Some? ==> r.value.byType == c.byType[ty := name] && r.value.byName == c.byName[name := ty]
    ensures r.Some? ==> r.value.nodes == c.nodes
    ensures r.Some? && Valid(c) ==> Valid(r.value)
  {
    if ty in c.byType || name in c.byName then None
    else Some(Client(c.byType[ty := name], c.byName[name := ty], c.nodes))
  }

  /** A kind can be defined once: defining its type again, or its name
      again, panics. */
  lemma DefineOnce(c: Client, ty: KindType, name: string, ty2: KindType, name2: string)
    requires Define(c, ty, name).Some?
    ensures Define(Define(c, ty, name).value, ty, name2).None?
    ensures Define(Define(c, ty, name).value, ty2, name).None?
    ensures ty2 != ty && name2 != name ==>
              (Define(Define(c, ty, name).value, ty2, name2).Some? <==> Define(c, ty2, name2).Some?)
  {
  }

  /** `lookup_node`. */
  function LookupNode(c: Client, id: NodeId): (r: Option<string>)
    ensures r.Some? <==> id in c.nodes
    ensures r.Some? ==> r.value == c.nodes[id]
  {
    if id in c.nodes then Some(c.nodes[id]) else None
  }

  datatype RecvError =
    | BadHeader
    | BadData
    | NoSuchNode(id: NodeId)
    | NodeExists(id: NodeId)
    | UnknownKind(name: string)
    | CallbackFailed

  /** The callback a packet was handed to, with its arguments. */
  datatype Call =
    | Message(id: NodeId, kind: string, data: seq<byte>)
    | Create(id: NodeId, kind: string, data: seq<byte>)
    | Destroy(id: NodeId, kind: string)

  /** `recv_packet`: decode the header, take the data part where the header
      needs one, check the node table and the kind, and hand the packet to
      the kind's callback, whose success is `ok`. A node enters the table
      only when its create callback succeeds and leaves it only when its
      destroy callback succeeds. */
  function RecvPacket(c: Client, header: Option<CbHeader>, data: Option<seq<byte>>, ok: bool): (r: (Client, Result<Call, RecvError>))
    ensures r.1.Err? || !ok ==> r.0 == c
    ensures header.None? ==> r.1 == Err(BadHeader)
    ensures header.Some? && !header.value.DeleteNode? && data.None? ==> r.1 == Err(BadData)
    ensures header.Some? && header.value.SendMessage? && data.Some? && header.value.id !in c.nodes ==>
              r.1 == Err(NoSuchNode(header.value.id))
    ensures header.Some? && header.value.DeleteNode? && header.value.id !in c.nodes ==>
              r.1 == Err(NoSuchNode(header.value.id))
    ensures header.Some? && header.value.CreateNode? && data.Some? && header.value.id in c.nodes ==>
              r.1 == Err(NodeExists(header.value.id))
    ensures header.Some? && header.value.CreateNode? && data.Some? && header.value.id !in c.nodes && header.value.kind !in c.byName ==>
              r.1 == Err(UnknownKind(header.value.kind))
    ensures r.1.Ok? && r.1.value.Create? ==> r.0.nodes == c.nodes[r.1.value.id := r.1.value.kind] && r.1.value.id !in c.nodes
    ensures r.1.Ok? && r.1.value.Destroy? ==> r.0.nodes == c.nodes - {r.1.value.id} && r.1.value.id in c.nodes
    ensures r.1.Ok? ==> ok && header.Some? && r.1.value.id == header.value.id
    ensures r.0.byType == c.byType && r.0.byName == c.byName
    ensures Valid(c) ==> Valid(r.0)
  {
    match header
    case None => (c, Err(BadHeader))
    case Some(SendMessage(id)) =>
      if data.None? then (c, Err(BadData))
      else if id !in c.nodes then (c, Err(NoSuchNode(id)))
      else if !ok then (c, Err(CallbackFailed))
      else (c, Ok(Message(id, c.nodes[id], data.value)))
    case Some(CreateNode(id, kind)) =>
      if data.None? then (c, Err(BadData))
      else if id in c.nodes then (c, Err(NodeExists(id)))
      else if kind !in c.byName then (c, Err(UnknownKind(kind)))
      else if !ok then (c, Err(CallbackFailed))
      else (c.(nodes := c.nodes[id := kind]), Ok(Create(id, kind, data.value)))
    case Some(DeleteNode(id)) =>
      if id !in c.nodes then (c, Err(NoSuchNode(id)))
      else if !ok then (c, Err(CallbackFailed))
      else (c.(nodes := c.nodes - {id}), Ok(Destroy(id, c.nodes[id])))
  }

  /** The table changes only through a successful create or destroy: a
      message never changes it. */
  lemma MessageKeepsTable(c: Client, id: NodeId, data: Option<seq<byte>>, ok: bool)
    ensures RecvPacket(c, Some(SendMessage(id)), data, ok).0 == c
  {
  }

  /** Creating a node and then deleting it, both with callbacks that
      succeed, leaves the client as it was; a second creation of the same id
      before the deletion fails. */
  lemma CreateThenDelete(c: Client, id: NodeId, kind: string, data: seq<byte>, other: seq<byte>)
    requires id !in c.nodes && kind in c.byName
    ensures var (c1, r1) := RecvPacket(c, Some(CreateNode(id, kind)), Some(data), true);
            r1 == Ok(Create(id, kind, data)) &&
            LookupNode(c1, id) == Some(kind) &&
            RecvPacket(c1, Some(CreateNode(id, kind)), Some(other), true) == (c1, Err(NodeExists(id))) &&
            RecvPacket(c1, Some(DeleteNode(id)), None, true) == (c, Ok(Destroy(id, kind)))
  {
    var c1 := RecvPacket(c, Some(CreateNode(id, kind)), Some(data), true).0;
    assert c1.nodes - {id} == c.nodes;
  }

  /** A destroy callback that fails keeps the node: it can still be sent
      messages. */
  lemma FailedDestroyKeeps(c: Client, id: NodeId, msg: seq<byte>)
    requires id in c.nodes
    ensures var c1 := RecvPacket(c, Some(DeleteNode(id)), None, false).0;
            c1 == c && RecvPacket(c1, Some(SendMessage(id)), Some(msg), true).1 == Ok(Message(id, c.nodes[id], msg))
  {
  }
}

=== FILE: rpc_engine_server.dfy ===
/** The engine's RPC server (`RpcServer`, `RpcServerNode`,
    `RpcNodeServerQueue`, `RpcServerPeer`): the same visibility machine as the
    game's, but with one action queue for the whole server instead of one per
    node. Each action names the node queue it belongs to, so nothing needs
    marking dirty; a node's unregistration is itself an action. `flush` first
    forgets disconnected peers in every queue and then sends the actions in
    the order they were queued.

    Node handles are their ids; each node records the name of its RPC kind and
    the type of its userdata. Catch-up and message bytes are parameters, and a
    panic is `None`. */
module EngineRpcServer {
  import opened Wrappers
  import opened Varint
  import opened RpcWire
  import V = RpcVisibility
  import S = RpcServer

  /** `QueuedAction`: a per-node action on a node's queue, or the
      destruction of that queue. */
  datatype EAction =
    | Queued(queue: NodeId, action: S.Action)
    | DestroyNode(queue: NodeId)

  /** A node's RPC kind name and the name of its userdata's type. */
  datatype NodeTypes = NodeTypes(kind: string, userdata: string)

  /** `queues` holds each queue's `visible_to`; its keys are `node_queues`. */
  datatype Server = Server(idGen: nat, actions: seq<EAction>, queues: map<NodeId, set<Peer>>, types: map<NodeId, NodeTypes>, vis: V.Vis)

  predicate Wired(s: Server) {
    forall n :: n in s.vis.visibleTo ==> n in s.queues && n in s.types
  }

  ghost predicate IdsOk(s: Server) {
    s.idGen >= 1 && forall n :: n in s.queues ==> 1 <= n < s.idGen
  }

  function EActionPeers(a: EAction): set<Peer> {
    match a
    case Queued(_, act) => S.ActionPeers(act)
    case DestroyNode(_) => {}
  }

  /** Every action names a queue that exists; a queue's destruction is its
      last action and comes only after its node is unregistered; and every
      queue whose node is gone has its destruction pending. */
  ghost predicate ActionsOk(s: Server) {
    (forall i :: 0 <= i < |s.actions| ==> s.actions[i].queue in s.queues) &&
    (forall i, j :: 0 <= i < j < |s.actions| && s.actions[i].DestroyNode? ==> s.actions[j].queue != s.actions[i].queue) &&
    (forall i :: 0 <= i < |s.actions| && s.actions[i].DestroyNode? ==> s.actions[i].queue !in s.vis.visibleTo) &&
    (forall n :: n in s.queues && n !in s.vis.visibleTo ==> DestroyNode(n) in s.actions)
  }

  ghost predicate MentionOk(s: Server) {
    (forall n :: n in s.queues ==> s.queues[n] <= s.vis.peers.Keys) &&
    (forall i :: 0 <= i < |s.actions| ==> EActionPeers(s.actions[i]) <= s.vis.peers.Keys)
  }

  ghost predicate Valid(s: Server) {
    V.Valid(s.vis) && Wired(s) && IdsOk(s) && ActionsOk(s) && MentionOk(s)
  }

  /** The actions of queue n, in order. */
  function Proj(actions: seq<EAction>, n: NodeId): (r: seq<S.Action>)
    ensures |r| <= |actions|
  {
    if |actions| == 0 then []
    else (match actions[0]
          case Queued(q, a) => if q == n then [a] else []
          case DestroyNode(_) => []) + Proj(actions[1..], n)
  }

  lemma {:induction false} ProjSnoc(actions: seq<EAction>, x: EAction, n: NodeId)
    ensures Proj(actions + [x], n) == Proj(actions, n) + (if x.Queued? && x.queue == n then [x.action] else [])
  {
    if |actions| > 0 {
      assert (actions + [x])[1..] == actions[1..] + [x];
      ProjSnoc(actions[1..], x, n);
    } else {
      assert (actions + [x])[1..] == [];
    }
  }

  lemma {:induction false} ProjPeers(actions: seq<EAction>, n: NodeId, ps: set<Peer>)
    requires forall i :: 0 <= i < |actions| ==> EActionPeers(actions[i]) <= ps
    ensures forall i :: 0 <= i < |Proj(actions, n)| ==> S.ActionPeers(Proj(actions, n)[i]) <= ps
  {
    if |actions| > 0 {
      assert EActionPeers(actions[0]) <= ps;
      ProjPeers(actions[1..], n, ps);
    }
  }

  /** For every live node, sending the queued actions would leave the
      network knowing exactly the peers the node is visible to. */
  ghost predicate Synced(s: Server) {
    forall n :: n in s.vis.visibleTo && n in s.queues ==>
      S.Replay(V.Connected(s.vis), s.queues[n] * V.Connected(s.vis), Proj(s.actions, n)) == s.vis.visibleTo[n]
  }

  // ---------------------------------------------------------------------
  // Registration and lookup

  function New(): (s: Server)
    ensures Valid(s) && Synced(s) && s.idGen == 1 && s.vis.visibleTo == map[]
  {
    Server(1, [], map[], map[], V.Vis(map[], map[]))
  }

  /** `register_node`: the next id, a fresh queue, and the node's types.
      `None` when the id counter would overflow. */
  function RegisterNode(s: Server, types: NodeTypes): (r: Option<(Server, NodeId)>)
    ensures r.None? <==> s.idGen >= S.U64_MAX
    ensures r.Some? ==> r.value.1 == s.idGen && r.value.0.idGen == s.idGen + 1
    ensures r.Some? ==> var (t, n) := r.value;
              n in t.vis.visibleTo && t.vis.visibleTo[n] == {} && t.types == s.types[n := types] &&
              t.queues == s.queues[n := {}] && t.actions == s.actions
  {
    if s.idGen >= S.U64_MAX then None
    else
      var n := s.idGen;
      Some((Server(n + 1, s.actions, s.queues[n := {}], s.types[n := types], V.AddNode(s.vis, n)), n))
  }

  lemma RegisterNodeValid(s: Server, types: NodeTypes)
    requires Valid(s) && s.idGen < S.U64_MAX
    ensures var (t, n) := RegisterNode(s, types).value;
            n !in s.queues && Valid(t) && (Synced(s) ==> Synced(t))
  {
    var (t, n) := RegisterNode(s, types).value;
    V.AddNodeValid(s.vis, n);
    assert forall i :: 0 <= i < |s.actions| ==> s.actions[i].queue != n;
    if Synced(s) {
      assert Proj(s.actions, n) == [] by {
        ProjNone(s.actions, n);
      }
    }
  }

  /** A queue no action names has no actions. */
  lemma {:induction false} ProjNone(actions: seq<EAction>, n: NodeId)
    requires forall i :: 0 <= i < |actions| ==> actions[i].queue != n
    ensures Proj(actions, n) == []
  {
    if |actions| > 0 {
      assert actions[0].queue != n;
      ProjNone(actions[1..], n);
    }
  }

  function RegisterPeer(s: Server, p: Peer): (r: Server)
    ensures V.IsConnected(r.vis, p) && r.vis.peers[p].visSet == {}
    ensures r.queues == s.queues && r.actions == s.actions && r.vis.visibleTo == s.vis.visibleTo
  {
    s.(vis := V.AddPeer(s.vis, p))
  }

  lemma RegisterPeerValid(s: Server, p: Peer)
    requires Valid(s) && p !in s.vis.peers
    ensures Valid(RegisterPeer(s, p)) && (Synced(s) ==> Synced(RegisterPeer(s, p)))
  {
    var t := RegisterPeer(s, p);
    V.AddPeerValid(s.vis, p);
    if Synced(s) {
      var c := V.Connected(s.vis);
      forall n | n in t.vis.visibleTo && n in t.queues
        ensures S.Replay(V.Connected(t.vis), t.queues[n] * V.Connected(t.vis), Proj(t.actions, n)) == t.vis.visibleTo[n]
      {
        assert s.queues[n] * (c + {p}) == s.queues[n] * c;
        ProjPeers(s.actions, n, s.vis.peers.Keys);
        S.ReplayFresh(c, s.queues[n] * c, Proj(s.actions, n), p);
      }
    }
  }

  datatype LookupError =
    | NoSuchNode(id: NodeId)
    | BadKind(id: NodeId, expected: string, actual: string)

  /** `lookup_any_node`. */
  function LookupAnyNode(s: Server, id: NodeId): (r: Result<NodeId, LookupError>)
    ensures r.Ok? <==> id in s.vis.visibleTo
    ensures r.Ok? ==> r.value == id
    ensures r.Err? ==> r.error == NoSuchNode(id)
  {
    if id in s.vis.visibleTo then Ok(id) else Err(NoSuchNode(id))
  }

  /** `opt_userdata` for a userdata type named `ty`. */
  function OptUserdata(s: Server, n: NodeId, ty: string): (r: Result<NodeId, LookupError>)
    requires n in s.types
    ensures r.Ok? <==> s.types[n].userdata == ty
    ensures r.Err? ==> r.error == BadKind(n, ty, s.types[n].userdata)
  {
    if s.types[n].userdata == ty then Ok(n)
    else Err(BadKind(n, ty, s.types[n].userdata))
  }

  /** `lookup_node`: an absent id, then a userdata of another type, are
      errors. */
  function LookupNode(s: Server, id: NodeId, ty: string): (r: Result<NodeId, LookupError>)
    requires Wired(s)
    ensures r.Ok? <==> id in s.vis.visibleTo && s.types[id].userdata == ty
    ensures id !in s.vis.visibleTo ==> r == Err(NoSuchNode(id))
    ensures id in s.vis.visibleTo && s.types[id].userdata != ty ==> r == Err(BadKind(id, ty, s.types[id].userdata))
  {
    var n :- LookupAnyNode(s, id);
    OptUserdata(s, n, ty)
  }

  /** A node is found by its id and userdata type until it is
      unregistered. */
  lemma LookupRegistered(s: Server, types: NodeTypes)
    requires Valid(s) && s.idGen < S.U64_MAX
    ensures var (t, n) := RegisterNode(s, types).value;
            Wired(t) && LookupNode(t, n, types.userdata) == Ok(n) &&
            LookupNode(Unregister(t, n).value, n, types.userdata) == Err(NoSuchNode(n))
  {
    RegisterNodeValid(s, types);
  }

  // ---------------------------------------------------------------------
  // Queueing

  /** `replicate`: as in the game's server, but the replication goes onto
      the server's queue. */
  function Replicate(s: Server, n: NodeId, p: Peer, catchup: seq<byte>): (r: Option<Server>)
    requires Wired(s)
    ensures r.None? <==> V.IsConnected(s.vis, p) && n !in s.vis.visibleTo
    ensures r.Some? ==> (V.Sees(r.value.vis, n, p) <==> V.Sees(s.vis, n, p) || V.IsConnected(s.vis, p))
    ensures r.Some? && !(V.IsConnected(s.vis, p) && !V.Sees(s.vis, n, p)) ==> r.value == s
    ensures r.Some? && V.IsConnected(s.vis, p) && !V.Sees(s.vis, n, p) ==>
              n in s.types &&
              r.value.actions == s.actions + [Queued(n, S.ReplicateTo(p, Packet(CreateNode(n, s.types[n].kind), Some(catchup))))]
  {
    match V.Replicate(s.vis, n, p)
    case None => None
    case Some((v, changed)) =>
      if !changed then Some(s)
      else
        var pk := Packet(CreateNode(n, s.types[n].kind), Some(catchup));
        Some(s.(vis := v, actions := s.actions + [Queued(n, S.ReplicateTo(p, pk))]))
  }

  /** `de_replicate`. */
  function DeReplicate(s: Server, n: NodeId, p: Peer): (r: Option<Server>)
    requires Wired(s)
    ensures r.None? <==> V.IsConnected(s.vis, p) && n !in s.vis.visibleTo
    ensures r.Some? ==> (V.Sees(r.value.vis, n, p) <==> V.Sees(s.vis, n, p) && !V.IsConnected(s.vis, p))
    ensures r.Some? && !(V.IsConnected(s.vis, p) && V.Sees(s.vis, n, p)) ==> r.value == s
    ensures r.Some? && V.IsConnected(s.vis, p) && V.Sees(s.vis, n, p) ==>
              r.value.actions == s.actions + [Queued(n, S.DestroyRemotely(p))]
  {
    match V.DeReplicate(s.vis, n, p)
    case None => None
    case Some((v, changed)) =>
      if !changed then Some(s)
      else Some(s.(vis := v, actions := s.actions + [Queued(n, S.DestroyRemotely(p))]))
  }

  /** `broadcast`: `None` for a dead node or a message of another kind. */
  function Broadcast(s: Server, n: NodeId, kind: string, msg: seq<byte>): (r: Option<Server>)
    requires Wired(s)
    ensures r.None? <==> n !in s.vis.visibleTo || s.types[n].kind != kind
    ensures r.Some? ==> r.value.actions == s.actions + [Queued(n, S.BroadcastPacket(S.Message(n, msg)))]
    ensures r.Some? ==> r.value.vis == s.vis && r.value.queues == s.queues
  {
    if n !in s.vis.visibleTo || s.types[n].kind != kind then None
    else Some(s.(actions := s.actions + [Queued(n, S.BroadcastPacket(S.Message(n, msg)))]))
  }

  /** `unregister`: queue the node's destruction, drop its id mapping and
      its visibility. */
  function Unregister(s: Server, n: NodeId): (r: Option<Server>)
    ensures r.None? <==> n !in s.vis.visibleTo
    ensures r.Some? ==> n !in r.value.vis.visibleTo && r.value.actions == s.actions + [DestroyNode(n)]
    ensures r.Some? ==> r.value.queues == s.queues && r.value.types == s.types
  {
    if n !in s.vis.visibleTo then None
    else Some(s.(vis := V.Unregister(s.vis, n), actions := s.actions + [DestroyNode(n)]))
  }

  /** `disconnect`. */
  function Disconnect(s: Server, p: Peer): (r: Server)
    requires p in s.vis.peers
    ensures !V.IsConnected(r.vis, p) && r.vis.visibleTo.Keys == s.vis.visibleTo.Keys
    ensures r.queues == s.queues && r.actions == s.actions
  {
    s.(vis := V.Disconnect(s.vis, p))
  }

  /** `recv_packet` with the decoded parts, as in the game's server. */
  function RecvPacket(s: Server, sender: Peer, header: Option<NodeId>, data: Option<seq<byte>>): (r: S.Recv)
    ensures header.None? ==> r == S.BadHeader
    ensures header.Some? && data.None? ==> r == S.BadData
    ensures r.Dispatch? <==> header.Some? && data.Some? && V.Sees(s.vis, header.value, sender)
    ensures r.Dispatch? ==> r.node == header.value && r.data == data.value
  {
    if header.None? then S.BadHeader
    else if data.None? then S.BadData
    else if LookupAnyNode(s, header.value).Err? then S.Ignored
    else if sender !in s.vis.visibleTo[header.value] then S.Ignored
    else S.Dispatch(header.value, data.value)
  }

  // ---------------------------------------------------------------------
  // Flushing

  /** One step of `flush`: a queued action is sent as the game's server
      sends it; a destruction tells every peer the queue knows to delete the
      node and drops the queue. An action for a queue already dropped does
      nothing. */
  function Apply(c: set<Peer>, qs: map<NodeId, set<Peer>>, a: EAction, out: Outbox): (r: (map<NodeId, set<Peer>>, Outbox))
    ensures r.0.Keys == if a.queue in qs && a.DestroyNode? then qs.Keys - {a.queue} else qs.Keys
    ensures forall m :: m in qs && m != a.queue ==> r.0[m] == qs[m]
    ensures a.Queued? && a.queue in qs ==> r.0[a.queue] == S.Step(c, qs[a.queue], a.action)
    ensures a.DestroyNode? && a.queue in qs ==> r.1 == SendAll(out, qs[a.queue], Deletion(a.queue))
  {
    if a.queue !in qs then (qs, out)
    else
      match a
      case Queued(q, act) => (qs[q := S.Step(c, qs[q], act)], S.Emit(q, c, qs[q], act, out))
      case DestroyNode(q) => (qs - {q}, SendAll(out, qs[q], Deletion(q)))
  }

  /** The actions, sent first to last. */
  function Run(c: set<Peer>, qs: map<NodeId, set<Peer>>, actions: seq<EAction>, out: Outbox): (r: (map<NodeId, set<Peer>>, Outbox))
    ensures r.0.Keys <= qs.Keys
    decreases |actions|
  {
    if |actions| == 0 then (qs, out)
    else
      var (qs1, out1) := Apply(c, qs, actions[0], out);
      Run(c, qs1, actions[1..], out1)
  }

  /** First in, first out: sending a + b is sending a and then b. */
  lemma {:induction false} RunAppend(c: set<Peer>, qs: map<NodeId, set<Peer>>, a: seq<EAction>, b: seq<EAction>, out: Outbox)
    ensures var (qs1, out1) := Run(c, qs, a, out);
            Run(c, qs, a + b, out) == Run(c, qs1, b, out1)
    decreases |a|
  {
    if |a| > 0 {
      assert (a + b)[1..] == a[1..] + b;
      var (qs1, out1) := Apply(c, qs, a[0], out);
      RunAppend(c, qs1, a[1..], b, out1);
    } else {
      assert a + b == b;
    }
  }

  /** Each queue forgets the peers outside `c`. */
  function Retain(qs: map<NodeId, set<Peer>>, c: set<Peer>): (r: map<NodeId, set<Peer>>)
    ensures r.Keys == qs.Keys && forall n :: n in qs ==> r[n] <= c && r[n] <= qs[n]
  {
    map n | n in qs :: qs[n] * c
  }

  /** `flush`: forget disconnected peers in every queue, then send. */
  function Flush(s: Server): (r: (Server, Outbox))
    ensures r.0.actions == [] && r.0.vis == s.vis && r.0.types == s.types && r.0.idGen == s.idGen
    ensures r.0.queues.Keys <= s.queues.Keys
  {
    var c := V.Connected(s.vis);
    var (qs1, out) := Run(c, Retain(s.queues, c), s.actions, map[]);
    (s.(actions := [], queues := qs1), out)
  }

  /** What sending a list of actions does to one queue, when every
      destruction is the last action of its queue: a destroyed queue is gone,
      and any other has replayed its own actions in order. */
  lemma {:induction false} RunEffect(c: set<Peer>, qs: map<NodeId, set<Peer>>, actions: seq<EAction>, out: Outbox, m: NodeId)
    requires forall i, j :: 0 <= i < j < |actions| && actions[i].DestroyNode? ==> actions[j].queue != actions[i].queue
    requires m in qs
    ensures var r := Run(c, qs, actions, out).0;
            (m in r <==> DestroyNode(m) !in actions) &&
            (m in r ==> r[m] == S.Replay(c, qs[m], Proj(actions, m)))
    decreases |actions|
  {
    if |actions| > 0 {
      var a := actions[0];
      var (qs1, out1) := Apply(c, qs, a, out);
      var r := Run(c, qs, actions, out).0;
      assert r == Run(c, qs1, actions[1..], out1).0;
      assert actions == [a] + actions[1..];
      if a == DestroyNode(m) {
        assert m !in r;
      } else {
        RunEffect(c, qs1, actions[1..], out1, m);
        assert DestroyNode(m) in actions <==> DestroyNode(m) in actions[1..];
        var rest := Proj(actions[1..], m);
        if a.queue == m {
          assert Proj(actions, m) == [a.action] + rest;
          assert ([a.action] + rest)[1..] == rest;
        } else {
          assert Proj(actions, m) == [] + rest == rest;
          assert qs1[m] == qs[m];
        }
      }
    }
  }

  /** Flushing a valid, synchronised server sends every queued action: the
      queue is empty, the queues of unregistered nodes are gone, and every
      live node's queue knows exactly the peers the node is visible to. */
  lemma FlushValid(s: Server)
    requires Valid(s) && Synced(s)
    ensures var t := Flush(s).0;
            Valid(t) && Synced(t) &&
            t.queues.Keys == s.vis.visibleTo.Keys &&
            (forall n :: n in t.queues ==> t.queues[n] == s.vis.visibleTo[n])
  {
    var c := V.Connected(s.vis);
    var qs := Retain(s.queues, c);
    var t := Flush(s).0;
    forall m | m in qs { RunEffect(c, qs, s.actions, map[], m); }
    forall n | n in s.queues
      ensures n in t.queues <==> n in s.vis.visibleTo
    {
      if n !in s.vis.visibleTo {
        assert DestroyNode(n) in s.actions;
      }
    }
    forall n | n in t.queues ensures t.queues[n] == s.vis.visibleTo[n] && t.queues[n] <= c {
      assert t.queues[n] == S.Replay(c, qs[n], Proj(s.actions, n));
    }
    assert MentionOk(t);
    assert Synced(t) by {
      forall n | n in t.vis.visibleTo && n in t.queues
        ensures S.Replay(c, t.queues[n] * c, Proj(t.actions, n)) == t.vis.visibleTo[n]
      {
      }
    }
  }

  // ---------------------------------------------------------------------
  // Preservation

  /** Appending a per-node action after a visibility change that keeps the
      nodes and peers keeps the server valid, and in step when the change is
      what sending the action will do. */
  lemma EnqueueValid(s: Server, v: V.Vis, n: NodeId, a: S.Action)
    requires Valid(s) && V.Valid(v) && n in s.vis.visibleTo
    requires v.visibleTo.Keys == s.vis.visibleTo.Keys && v.peers.Keys == s.vis.peers.Keys
    requires S.ActionPeers(a) <= v.peers.Keys
    ensures Valid(s.(vis := v, actions := s.actions + [Queued(n, a)]))
    ensures Synced(s) && V.Connected(v) == V.Connected(s.vis) &&
            v.visibleTo == s.vis.visibleTo[n := S.Step(V.Connected(s.vis), s.vis.visibleTo[n], a)] ==>
              Synced(s.(vis := v, actions := s.actions + [Queued(n, a)]))
  {
    var x := Queued(n, a);
    var t := s.(vis := v, actions := s.actions + [x]);
    AppendActionsOk(s, t, x);
    AppendMentionOk(s, t, x);
    if Synced(s) && V.Connected(v) == V.Connected(s.vis) &&
       v.visibleTo == s.vis.visibleTo[n := S.Step(V.Connected(s.vis), s.vis.visibleTo[n], a)] {
      EnqueueSynced(s, t, n, a);
    }
  }

  /** Queueing an action on a live node's queue keeps the action log's
      shape. */
  lemma AppendActionsOk(s: Server, t: Server, x: EAction)
    requires ActionsOk(s) && x.Queued? && x.queue in s.queues && x.queue in s.vis.visibleTo
    requires t.queues == s.queues && t.vis.visibleTo.Keys == s.vis.visibleTo.Keys && t.actions == s.actions + [x]
    ensures ActionsOk(t)
  {
    forall m | m in t.queues && m !in t.vis.visibleTo ensures DestroyNode(m) in t.actions {
      assert DestroyNode(m) in s.actions;
    }
    forall i, j | 0 <= i < j < |t.actions| && t.actions[i].DestroyNode?
      ensures t.actions[j].queue != t.actions[i].queue
    {
      if j == |s.actions| {
        assert t.actions[i] == s.actions[i];
        assert s.actions[i].queue !in s.vis.visibleTo;
      }
    }
  }

  lemma AppendMentionOk(s: Server, t: Server, x: EAction)
    requires MentionOk(s) && EActionPeers(x) <= s.vis.peers.Keys
    requires t.queues == s.queues && t.vis.peers.Keys == s.vis.peers.Keys && t.actions == s.actions + [x]
    ensures MentionOk(t)
  {
    forall i | 0 <= i < |t.actions| ensures EActionPeers(t.actions[i]) <= t.vis.peers.Keys {
      if i < |s.actions| { assert t.actions[i] == s.actions[i]; }
    }
  }

  /** Queueing the action that moved node n's visibility keeps every
      queue's replay in step with the visibility it describes. */
  lemma EnqueueSynced(s: Server, t: Server, n: NodeId, a: S.Action)
    requires Synced(s) && n in s.vis.visibleTo
    requires t.queues == s.queues && t.actions == s.actions + [Queued(n, a)]
    requires V.Connected(t.vis) == V.Connected(s.vis)
    requires t.vis.visibleTo == s.vis.visibleTo[n := S.Step(V.Connected(s.vis), s.vis.visibleTo[n], a)]
    ensures Synced(t)
  {
    var c := V.Connected(s.vis);
    var x := Queued(n, a);
    forall m | m in t.vis.visibleTo && m in t.queues
      ensures S.Replay(c, t.queues[m] * c, Proj(t.actions, m)) == t.vis.visibleTo[m]
    {
      ProjSnoc(s.actions, x, m);
      if m == n {
        S.ReplaySnoc(c, s.queues[m] * c, Proj(s.actions, m), a);
      } else {
        assert Proj(s.actions, m) + [] == Proj(s.actions, m);
      }
    }
  }

  lemma ReplicateValid(s: Server, n: NodeId, p: Peer, catchup: seq<byte>)
    requires Valid(s) && Replicate(s, n, p, catchup).Some?
    ensures var t := Replicate(s, n, p, catchup).value;
            Valid(t) && (Synced(s) ==> Synced(t))
  {
    if V.IsConnected(s.vis, p) && !V.Sees(s.vis, n, p) {
      V.ReplicateValid(s.vis, n, p);
      var v := V.Replicate(s.vis, n, p).value.0;
      EnqueueValid(s, v, n, S.ReplicateTo(p, Packet(CreateNode(n, s.types[n].kind), Some(catchup))));
    }
  }

  lemma DeReplicateValid(s: Server, n: NodeId, p: Peer)
    requires Valid(s) && DeReplicate(s, n, p).Some?
    ensures var t := DeReplicate(s, n, p).value;
            Valid(t) && (Synced(s) ==> Synced(t))
  {
    if V.IsConnected(s.vis, p) && V.Sees(s.vis, n, p) {
      V.DeReplicateValid(s.vis, n, p);
      var v := V.DeReplicate(s.vis, n, p).value.0;
      EnqueueValid(s, v, n, S.DestroyRemotely(p));
    }
  }

  lemma BroadcastValid(s: Server, n: NodeId, kind: string, msg: seq<byte>)
    requires Valid(s) && n in s.vis.visibleTo && s.types[n].kind == kind
    ensures var t := Broadcast(s, n, kind, msg).value;
            Valid(t) && (Synced(s) ==> Synced(t))
  {
    var a := S.BroadcastPacket(S.Message(n, msg));
    assert s.vis.visibleTo == s.vis.visibleTo[n := S.Step(V.Connected(s.vis), s.vis.visibleTo[n], a)];
    EnqueueValid(s, s.vis, n, a);
  }

  lemma UnregisterValid(s: Server, n: NodeId)
    requires Valid(s) && n in s.vis.visibleTo
    ensures var t := Unregister(s, n).value;
            Valid(t) && (Synced(s) ==> Synced(t))
  {
    var t := Unregister(s, n).value;
    V.UnregisterValid(s.vis, n);
    UnregisterActionsOk(s, t, n);
    AppendMentionOk(s, t, DestroyNode(n));
    if Synced(s) {
      UnregisterSynced(s, t, n);
    }
  }

  /** Queueing a node's destruction after its unregistration keeps the
      action log's shape: the destruction is the queue's last action. */
  lemma UnregisterActionsOk(s: Server, t: Server, n: NodeId)
    requires ActionsOk(s) && n in s.queues && n in s.vis.visibleTo
    requires t.queues == s.queues && t.vis.visibleTo.Keys == s.vis.visibleTo.Keys - {n}
    requires t.actions == s.actions + [DestroyNode(n)]
    ensures ActionsOk(t)
  {
    var x := DestroyNode(n);
    assert x in t.actions by { assert t.actions[|s.actions|] == x; }
    forall m | m in t.queues && m !in t.vis.visibleTo ensures DestroyNode(m) in t.actions {
      if m != n { assert DestroyNode(m) in s.actions; }
    }
    forall i, j | 0 <= i < j < |t.actions| && t.actions[i].DestroyNode?
      ensures t.actions[j].queue != t.actions[i].queue
    {
      if j == |s.actions| {
        assert t.actions[i] == s.actions[i];
        assert s.actions[i].queue !in s.vis.visibleTo;
      }
    }
    forall i | 0 <= i < |t.actions| && t.actions[i].DestroyNode? ensures t.actions[i].queue !in t.vis.visibleTo {
      if i < |s.actions| { assert t.actions[i] == s.actions[i]; }
    }
  }

  /** A destruction is no action of any queue, so every remaining queue's
      replay is unchanged. */
  lemma UnregisterSynced(s: Server, t: Server, n: NodeId)
    requires Synced(s)
    requires t.queues == s.queues && t.actions == s.actions + [DestroyNode(n)]
    requires V.Connected(t.vis) == V.Connected(s.vis)
    requires forall m :: m in t.vis.visibleTo ==> m in s.vis.visibleTo && t.vis.visibleTo[m] == s.vis.visibleTo[m]
    ensures Synced(t)
  {
    var c := V.Connected(s.vis);
    forall m | m in t.vis.visibleTo && m in t.queues
      ensures S.Replay(c, t.queues[m] * c, Proj(t.actions, m)) == t.vis.visibleTo[m]
    {
      ProjSnoc(s.actions, DestroyNode(n), m);
      assert Proj(s.actions, m) + [] == Proj(s.actions, m);
    }
  }

  lemma DisconnectValid(s: Server, p: Peer)
    requires Valid(s) && p in s.vis.peers
    ensures Valid(Disconnect(s, p)) && (Synced(s) ==> Synced(Disconnect(s, p)))
  {
    var t := Disconnect(s, p);
    V.DisconnectValid(s.vis, p);
    var c := V.Connected(s.vis);
    if Synced(s) {
      forall n | n in t.vis.visibleTo && n in t.queues
        ensures S.Replay(V.Connected(t.vis), t.queues[n] * V.Connected(t.vis), Proj(t.actions, n)) == t.vis.visibleTo[n]
      {
        var q := s.queues[n];
        assert q * (c - {p}) == (q * c) - {p};
        S.ReplayDisconnect(c, q * c, Proj(s.actions, n), p);
        forall x ensures x in t.vis.visibleTo[n] <==> x in s.vis.visibleTo[n] - {p} {
          assert V.Sees(t.vis, n, x) <==> V.Sees(s.vis, n, x) && x != p;
        }
      }
    }
  }

  // ---------------------------------------------------------------------
  // Delivery

  /** With one queue for the whole server, a broadcast made after a flush is
      delivered by the next flush to exactly the peers the node is visible
      to. */
  lemma BroadcastDelivered(s: Server, n: NodeId, kind: string, msg: seq<byte>)
    requires Valid(s) && Synced(s) && n in s.vis.visibleTo && s.types[n].kind == kind
    ensures var t := Flush(s).0;
            Wired(t) && n in t.vis.visibleTo && t.types[n].kind == kind &&
            var u := Broadcast(t, n, kind, msg).value;
            forall p :: Sent(Flush(u).1, p) == if V.Sees(s.vis, n, p) then [S.Message(n, msg)] else []
  {
    FlushValid(s);
    var t := Flush(s).0;
    var u := Broadcast(t, n, kind, msg).value;
    var c := V.Connected(s.vis);
    var seen := s.vis.visibleTo[n];
    forall p | p in seen ensures p in c {
      assert V.Sees(s.vis, n, p);
    }
    assert u.queues[n] * c == seen;
    FlushOneBroadcast(u, n, S.Message(n, msg));
  }

  /** Flushing a server whose only queued action is a broadcast sends the
      message once to each connected peer the node's queue knows. */
  lemma FlushOneBroadcast(u: Server, n: NodeId, pk: Packet)
    requires u.actions == [Queued(n, S.BroadcastPacket(pk))] && n in u.queues
    ensures forall p :: Sent(Flush(u).1, p) == if p in u.queues[n] * V.Connected(u.vis) then [pk] else []
  {
    var c := V.Connected(u.vis);
    var qs := Retain(u.queues, c);
    var a := Queued(n, S.BroadcastPacket(pk));
    assert [a][1..] == [];
    assert Run(c, qs, [a], map[]) == Apply(c, qs, a, map[]);
    assert Apply(c, qs, a, map[]).1 == S.Emit(n, c, qs[n], S.BroadcastPacket(pk), map[]);
    assert Flush(u).1 == Run(c, qs, [a], map[]).1;
  }

  /** A destruction sends the deletion to every peer its queue knows, and
      the queue is dropped. */
  lemma DestroyNodeSends(c: set<Peer>, qs: map<NodeId, set<Peer>>, n: NodeId, out: Outbox)
    requires n in qs
    ensures var (r, o) := Run(c, qs, [DestroyNode(n)], out);
            n !in r && forall p :: Sent(o, p) == if p in qs[n] then Sent(out, p) + [Deletion(n)] else Sent(out, p)
  {
    assert Run(c, qs, [DestroyNode(n)], out) == Apply(c, qs, DestroyNode(n), out);
  }
}

=== FILE: rpc_groups.dfy ===
/** RPC groups (`RpcGroup`, `RpcGroupFollower`): a set of nodes and a set of
    peers, where every node of the group is replicated to every connected
    peer of the group. The engine's copy lets each node name one peer it is
    never replicated to (`excluded`); the game's copy is the engine's with no
    excluded peers. A follower is keyed by its node. Groups are modelled by
    their effect on the visibility machine; what each `replicate` and
    `de_replicate` queues for the network is as in the servers' models.

    The group iterates its hash sets in an order the model does not fix: each
    operation takes the order as a sequence enumerating the set, and its
    result is the same for every order. A `replicate` or `de_replicate` on a
    dead node panics once it gets past its connectivity check, and a panic is
    `None`; with a disconnected peer it does nothing. */
module RpcGroups {
  import opened Wrappers
  import opened RpcWire
  import V = RpcVisibility

  /** `nodes` maps each follower's node to its excluded peer. */
  datatype Group = Group(nodes: map<NodeId, Option<Peer>>, peers: set<Peer>)

  /** Peer q is excluded from the group's node m. */
  predicate Excluded(g: Group, m: NodeId, q: Peer)
    requires m in g.nodes
  {
    g.nodes[m] == Some(q)
  }

  /** Every follower's node is alive, and every node of the group is visible
      to every connected peer of the group not excluded from it. */
  ghost predicate Covered(g: Group, v: V.Vis) {
    (forall m :: m in g.nodes ==> m in v.visibleTo) &&
    (forall m, q :: m in g.nodes && q in g.peers && V.IsConnected(v, q) && !Excluded(g, m, q) ==> V.Sees(v, m, q))
  }

  // ---------------------------------------------------------------------
  // Replicating a list of pairs

  /** `replicate` (when `add`) or `de_replicate` of each (node, peer) pair in
      turn. Each checks the peer's connectivity before it touches the node,
      as the visibility machine's steps do. */
  function Each(v: V.Vis, pairs: seq<(NodeId, Peer)>, add: bool): (r: Option<V.Vis>)
    ensures r.None? <==> exists i :: 0 <= i < |pairs| && pairs[i].0 !in v.visibleTo && V.IsConnected(v, pairs[i].1)
    ensures r.Some? ==> V.Connected(r.value) == V.Connected(v) && r.value.visibleTo.Keys == v.visibleTo.Keys
    ensures r.Some? ==> forall m: NodeId, q: Peer ::
              V.Sees(r.value, m, q) <==>
                if add then V.Sees(v, m, q) || ((m, q) in pairs && V.IsConnected(v, q))
                else V.Sees(v, m, q) && !((m, q) in pairs && V.IsConnected(v, q))
    decreases |pairs|
  {
    if |pairs| == 0 then Some(v)
    else
      var (n, p) := pairs[0];
      var step := if add then V.Replicate(v, n, p) else V.DeReplicate(v, n, p);
      match step
      case None => None
      case Some((v1, _)) =>
        assert forall x :: x in pairs <==> x == pairs[0] || x in pairs[1..] by {
          assert pairs == [pairs[0]] + pairs[1..];
        }
        var r := Each(v1, pairs[1..], add);
        assert r.None? <==> exists i :: 0 <= i < |pairs| && pairs[i].0 !in v.visibleTo && V.IsConnected(v, pairs[i].1) by {
          if r.None? {
            var i :| 0 <= i < |pairs[1..]| && pairs[1..][i].0 !in v1.visibleTo && V.IsConnected(v1, pairs[1..][i].1);
            assert pairs[i + 1] == pairs[1..][i];
          } else {
            forall i | 0 <= i < |pairs| && V.IsConnected(v, pairs[i].1) ensures pairs[i].0 in v.visibleTo {
              if i > 0 {
                assert pairs[1..][i - 1] == pairs[i];
              }
            }
          }
        }
        r
  }

  lemma {:induction false} EachValid(v: V.Vis, pairs: seq<(NodeId, Peer)>, add: bool)
    requires V.Valid(v) && Each(v, pairs, add).Some?
    ensures V.Valid(Each(v, pairs, add).value)
    decreases |pairs|
  {
    if |pairs| > 0 {
      var (n, p) := pairs[0];
      if add {
        V.ReplicateValid(v, n, p);
        EachValid(V.Replicate(v, n, p).value.0, pairs[1..], add);
      } else {
        V.DeReplicateValid(v, n, p);
        EachValid(V.DeReplicate(v, n, p).value.0, pairs[1..], add);
      }
    }
  }

  /** The node n paired with each listed peer other than `excluded`. */
  function ToPeers(n: NodeId, ps: seq<Peer>, excluded: Option<Peer>): (r: seq<(NodeId, Peer)>)
    ensures forall m, q :: (m, q) in r <==> m == n && q in ps && excluded != Some(q)
  {
    if |ps| == 0 then []
    else
      assert forall q :: q in ps <==> q == ps[0] || q in ps[1..] by {
        assert ps == [ps[0]] + ps[1..];
      }
      (if excluded == Some(ps[0]) then [] else [(n, ps[0])]) + ToPeers(n, ps[1..], excluded)
  }

  /** Each listed follower's node paired with the peer p, unless p is
      excluded from it. */
  function FromNodes(g: Group, ns: seq<NodeId>, p: Peer): (r: seq<(NodeId, Peer)>)
    requires forall i :: 0 <= i < |ns| ==> ns[i] in g.nodes
    ensures forall m, q :: (m, q) in r <==> q == p && m in ns && !Excluded(g, m, p)
  {
    if |ns| == 0 then []
    else
      assert forall m :: m in ns <==> m == ns[0] || m in ns[1..] by {
        assert ns == [ns[0]] + ns[1..];
      }
      (if Excluded(g, ns[0], p) then [] else [(ns[0], p)]) + FromNodes(g, ns[1..], p)
  }

  /** `order` lists exactly the group's peers. */
  ghost predicate PeerOrder(g: Group, order: seq<Peer>) {
    forall q :: q in order <==> q in g.peers
  }

  /** `order` lists exactly the group's nodes. */
  ghost predicate NodeOrder(g: Group, order: seq<NodeId>) {
    forall m :: m in order <==> m in g.nodes
  }

  // ---------------------------------------------------------------------
  // Group operations

  /** `add_node`: the node joins the group, the group forgets its
      disconnected peers, and the node is replicated to every remaining peer
      but its excluded one. `None` for a dead node. */
  function AddNode(g: Group, v: V.Vis, n: NodeId, excluded: Option<Peer>, order: seq<Peer>): (r: Option<(Group, V.Vis)>)
    requires PeerOrder(g, order)
    ensures r.None? <==> n !in v.visibleTo
    ensures r.Some? ==> r.value.0.nodes == g.nodes[n := excluded] &&
                        (forall q :: q in r.value.0.peers <==> q in g.peers && V.IsConnected(v, q))
    ensures r.Some? ==> forall m, q :: V.Sees(r.value.1, m, q) <==>
              V.Sees(v, m, q) || (m == n && q in g.peers && V.IsConnected(v, q) && excluded != Some(q))
  {
    if n !in v.visibleTo then None
    else
      var vs := Each(v, ToPeers(n, order, excluded), true);
      Some((Group(g.nodes[n := excluded], set q | q in g.peers && V.IsConnected(v, q)), vs.value))
  }

  /** `add_peer`: a disconnected peer changes nothing; a connected one joins
      and every node not excluding it is replicated to it. `None` when one
      of those nodes is dead. */
  function AddPeer(g: Group, v: V.Vis, p: Peer, order: seq<NodeId>): (r: Option<(Group, V.Vis)>)
    requires NodeOrder(g, order)
    ensures !V.IsConnected(v, p) ==> r == Some((g, v))
    ensures r.None? <==> V.IsConnected(v, p) && exists m :: m in g.nodes && m !in v.visibleTo && !Excluded(g, m, p)
    ensures r.Some? && V.IsConnected(v, p) ==> r.value.0 == g.(peers := g.peers + {p})
    ensures r.Some? ==> forall m, q :: V.Sees(r.value.1, m, q) <==>
              V.Sees(v, m, q) || (q == p && m in g.nodes && V.IsConnected(v, p) && !Excluded(g, m, p))
  {
    if !V.IsConnected(v, p) then Some((g, v))
    else
      var pairs := FromNodes(g, order, p);
      match Each(v, pairs, true)
      case None =>
        var i :| 0 <= i < |pairs| && pairs[i].0 !in v.visibleTo && V.IsConnected(v, pairs[i].1);
        assert pairs[i] in pairs;
        None
      case Some(vs) =>
        assert forall m :: m in g.nodes && !Excluded(g, m, p) ==> m in v.visibleTo by {
          forall m | m in g.nodes && !Excluded(g, m, p) ensures m in v.visibleTo {
            var i :| 0 <= i < |pairs| && pairs[i] == (m, p);
          }
        }
        Some((g.(peers := g.peers + {p}), vs))
  }

  /** `remove_peer`: a peer outside the group changes nothing; otherwise it
      leaves, and, when connected, every node not excluding it is
      de-replicated from it. */
  function RemovePeer(g: Group, v: V.Vis, p: Peer, order: seq<NodeId>): (r: Option<(Group, V.Vis)>)
    requires NodeOrder(g, order)
    ensures p !in g.peers ==> r == Some((g, v))
    ensures p in g.peers && r.Some? ==> r.value.0 == g.(peers := g.peers - {p})
    ensures r.None? <==> p in g.peers && V.IsConnected(v, p) && exists m :: m in g.nodes && m !in v.visibleTo && !Excluded(g, m, p)
    ensures r.Some? ==> forall m, q :: V.Sees(r.value.1, m, q) <==>
              V.Sees(v, m, q) && !(q == p && p in g.peers && m in g.nodes && V.IsConnected(v, p) && !Excluded(g, m, p))
  {
    if p !in g.peers then Some((g, v))
    else if !V.IsConnected(v, p) then Some((g.(peers := g.peers - {p}), v))
    else
      var pairs := FromNodes(g, order, p);
      match Each(v, pairs, false)
      case None =>
        var i :| 0 <= i < |pairs| && pairs[i].0 !in v.visibleTo && V.IsConnected(v, pairs[i].1);
        assert pairs[i] in pairs;
        None
      case Some(vs) =>
        assert forall m :: m in g.nodes && !Excluded(g, m, p) ==> m in v.visibleTo by {
          forall m | m in g.nodes && !Excluded(g, m, p) ensures m in v.visibleTo {
            var i :| 0 <= i < |pairs| && pairs[i] == (m, p);
          }
        }
        Some((g.(peers := g.peers - {p}), vs))
  }

  /** `RpcGroupFollower::unregister`: the node leaves the group, the group
      forgets its disconnected peers, and the node is de-replicated from
      every remaining peer, the excluded one included. `None` when the node
      is dead and some peer of the group is connected. */
  function Unregister(g: Group, v: V.Vis, n: NodeId, order: seq<Peer>): (r: Option<(Group, V.Vis)>)
    requires PeerOrder(g, order)
    ensures r.None? <==> n !in v.visibleTo && exists q :: q in g.peers && V.IsConnected(v, q)
    ensures r.Some? ==> r.value.0.nodes == g.nodes - {n} &&
                        (forall q :: q in r.value.0.peers <==> q in g.peers && V.IsConnected(v, q))
    ensures r.Some? ==> forall m, q :: V.Sees(r.value.1, m, q) <==>
              V.Sees(v, m, q) && !(m == n && q in g.peers && V.IsConnected(v, q))
  {
    var pairs := ToPeers(n, order, None);
    match Each(v, pairs, false)
    case None =>
      var i :| 0 <= i < |pairs| && pairs[i].0 !in v.visibleTo && V.IsConnected(v, pairs[i].1);
      assert pairs[i] in pairs;
      None
    case Some(vs) =>
      assert n in v.visibleTo || forall q :: q in g.peers ==> !V.IsConnected(v, q) by {
        forall q | q in g.peers && n !in v.visibleTo ensures !V.IsConnected(v, q) {
          assert (n, q) in pairs;
          var i :| 0 <= i < |pairs| && pairs[i] == (n, q);
        }
      }
      Some((Group(g.nodes - {n}, set q | q in g.peers && V.IsConnected(v, q)), vs))
  }

  // ---------------------------------------------------------------------
  // The game's groups: no excluded peers

  /** The game's `add_node` is the engine's with no excluded peer: the node
      becomes visible to every connected peer of the group. */
  lemma GameAddNode(g: Group, v: V.Vis, n: NodeId, order: seq<Peer>)
    requires PeerOrder(g, order) && n in v.visibleTo
    ensures var (g1, v1) := AddNode(g, v, n, None, order).value;
            forall q :: q in g1.peers ==> V.Sees(v1, n, q)
  {
  }

  // ---------------------------------------------------------------------
  // Properties

  /** Every group operation keeps the visibility machine valid. */
  lemma AddNodeValid(g: Group, v: V.Vis, n: NodeId, excluded: Option<Peer>, order: seq<Peer>)
    requires V.Valid(v) && PeerOrder(g, order) && n in v.visibleTo
    ensures V.Valid(AddNode(g, v, n, excluded, order).value.1)
  {
    EachValid(v, ToPeers(n, order, excluded), true);
  }

  /** A group covers its nodes after adding one, as long as it did before. */
  lemma AddNodeCovered(g: Group, v: V.Vis, n: NodeId, excluded: Option<Peer>, order: seq<Peer>)
    requires Covered(g, v) && PeerOrder(g, order) && n in v.visibleTo
    ensures var (g1, v1) := AddNode(g, v, n, excluded, order).value;
            Covered(g1, v1)
  {
  }

  lemma AddPeerCovered(g: Group, v: V.Vis, p: Peer, order: seq<NodeId>)
    requires Covered(g, v) && NodeOrder(g, order)
    ensures AddPeer(g, v, p, order).Some?
    ensures var (g1, v1) := AddPeer(g, v, p, order).value;
            Covered(g1, v1) && (V.Valid(v) ==> V.Valid(v1))
  {
    if V.IsConnected(v, p) {
      var r := AddPeer(g, v, p, order);
      assert r.Some?;
      if V.Valid(v) {
        EachValid(v, FromNodes(g, order, p), true);
      }
    }
  }

  lemma RemovePeerCovered(g: Group, v: V.Vis, p: Peer, order: seq<NodeId>)
    requires Covered(g, v) && NodeOrder(g, order)
    ensures RemovePeer(g, v, p, order).Some?
    ensures var (g1, v1) := RemovePeer(g, v, p, order).value;
            Covered(g1, v1) && (V.Valid(v) ==> V.Valid(v1))
  {
    if p in g.peers && V.IsConnected(v, p) {
      var r := RemovePeer(g, v, p, order);
      assert r.Some?;
      if V.Valid(v) {
        EachValid(v, FromNodes(g, order, p), false);
      }
    }
  }

  lemma UnregisterCovered(g: Group, v: V.Vis, n: NodeId, order: seq<Peer>)
    requires Covered(g, v) && PeerOrder(g, order) && n in v.visibleTo
    ensures var (g1, v1) := Unregister(g, v, n, order).value;
            Covered(g1, v1) && (V.Valid(v) ==> V.Valid(v1))
  {
    if V.Valid(v) {
      EachValid(v, ToPeers(n, order, None), false);
    }
  }

  /** The group never replicates a node to its excluded peer: adding the
      node, or adding that peer, leaves whether the peer sees the node as it
      was. Removing the peer leaves it as well. */
  lemma ExcludedUntouched(g: Group, v: V.Vis, n: NodeId, x: Peer, pOrder: seq<Peer>, nOrder: seq<NodeId>)
    requires PeerOrder(g, pOrder) && NodeOrder(g, nOrder)
    requires n in v.visibleTo && n in g.nodes && Excluded(g, n, x)
    requires forall m :: m in g.nodes ==> m in v.visibleTo
    ensures V.Sees(AddNode(g, v, n, Some(x), pOrder).value.1, n, x) == V.Sees(v, n, x)
    ensures V.Sees(AddPeer(g, v, x, nOrder).value.1, n, x) == V.Sees(v, n, x)
    ensures V.Sees(RemovePeer(g, v, x, nOrder).value.1, n, x) == V.Sees(v, n, x)
  {
  }

  /** Unlike `remove_peer`, the engine's `unregister` has no exclusion
      check: it de-replicates the node from its excluded peer too. */
  lemma UnregisterReachesExcluded(g: Group, v: V.Vis, n: NodeId, x: Peer, order: seq<Peer>)
    requires PeerOrder(g, order) && n in v.visibleTo && n in g.nodes && Excluded(g, n, x)
    requires x in g.peers && V.IsConnected(v, x) && V.Sees(v, n, x)
    ensures !V.Sees(Unregister(g, v, n, order).value.1, n, x)
  {
  }

  /** Adding a peer and then removing it again takes away every visibility
      the group gave it, and only those. */
  lemma AddRemovePeer(g: Group, v: V.Vis, p: Peer, order: seq<NodeId>)
    requires Covered(g, v) && NodeOrder(g, order) && V.IsConnected(v, p) && p !in g.peers
    ensures var (g1, v1) := AddPeer(g, v, p, order).value;
            var (g2, v2) := RemovePeer(g1, v1, p, order).value;
            g2 == g &&
            forall m, q :: V.Sees(v2, m, q) <==> V.Sees(v, m, q) && !(q == p && m in g.nodes && !Excluded(g, m, p))
  {
    var (g1, v1) := AddPeer(g, v, p, order).value;
    assert Covered(g1, v1) by { AddPeerCovered(g, v, p, order); }
  }
}

=== FILE: rpc_server.dfy ===
/** The game's RPC server (`RpcServer`, `RpcNodeServer`, `RpcNodeServerQueue`,
    `RpcPeer`). Every registered node gets a fresh id and a queue of its own;
    `replicate`, `de_replicate` and `broadcast` push actions onto that queue,
    and `flush` sends the actions of every queue marked dirty. A queue also
    keeps its own `visible_to`: the peers the network has actually been told
    about, which catches up with the node's `visible_to` at each flush.

    The catch-up bytes a node produces for a peer and the message bytes of a
    broadcast are parameters. Node handles are their ids (the node's queue and
    kind are keyed by it), and a peer handle names its component. A panic
    (a dead node handle, the id counter running out, a broadcast of the wrong
    kind) is `None`. */
module RpcServer {
  import opened Wrappers
  import opened Varint
  import opened RpcWire
  import V = RpcVisibility

  const U64_MAX: nat := 0xFFFF_FFFF_FFFF_FFFF

  /** `QueuedAction`. */
  datatype Action =
    | ReplicateTo(peer: Peer, packet: Packet)
    | DestroyRemotely(peer: Peer)
    | BroadcastPacket(packet: Packet)

  /** `RpcNodeServerQueue`, minus the server handle. */
  datatype Queue = Queue(visibleTo: set<Peer>, actions: seq<Action>, destroyed: bool, markedDirty: bool)

  /** The server with all of its node, queue and peer components. `kinds`
      holds the kind name each live node was registered with. */
  datatype Server = Server(idGen: nat, dirty: seq<NodeId>, queues: map<NodeId, Queue>, kinds: map<NodeId, string>, vis: V.Vis)

  /** Every live node has its queue and its kind. */
  predicate Wired(s: Server) {
    forall n :: n in s.vis.visibleTo ==> n in s.queues && n in s.kinds
  }

  /** Ids are handed out from 1 upwards and every queue has an older id. */
  ghost predicate IdsOk(s: Server) {
    s.idGen >= 1 && forall n :: n in s.queues ==> 1 <= n < s.idGen
  }

  /** A queue is destroyed exactly when its node has been unregistered, and a
      destroyed queue waits to be flushed. */
  ghost predicate LifeOk(s: Server) {
    forall n :: n in s.queues ==>
      (s.queues[n].destroyed <==> n !in s.vis.visibleTo) &&
      (s.queues[n].destroyed ==> s.queues[n].markedDirty)
  }

  /** `dirty_queues` lists, once each, exactly the queues marked dirty. */
  ghost predicate DirtyOk(s: Server) {
    (forall i :: 0 <= i < |s.dirty| ==> s.dirty[i] in s.queues && s.queues[s.dirty[i]].markedDirty) &&
    (forall n :: n in s.queues && s.queues[n].markedDirty ==> n in s.dirty) &&
    (forall i, j :: 0 <= i < j < |s.dirty| ==> s.dirty[i] != s.dirty[j])
  }

  function ActionPeers(a: Action): set<Peer> {
    match a
    case ReplicateTo(p, _) => {p}
    case DestroyRemotely(p) => {p}
    case BroadcastPacket(_) => {}
  }

  /** Queues only ever name peers that have been registered. */
  ghost predicate MentionOk(s: Server) {
    forall n :: n in s.queues ==>
      s.queues[n].visibleTo <= s.vis.peers.Keys &&
      forall i :: 0 <= i < |s.queues[n].actions| ==> ActionPeers(s.queues[n].actions[i]) <= s.vis.peers.Keys
  }

  ghost predicate Valid(s: Server) {
    V.Valid(s.vis) && Wired(s) && IdsOk(s) && LifeOk(s) && DirtyOk(s) && MentionOk(s)
  }

  /** Every queue holding actions is marked dirty, so the next flush sends
      them. */
  ghost predicate NoStranded(s: Server) {
    forall n :: n in s.queues && |s.queues[n].actions| > 0 ==> s.queues[n].markedDirty
  }

  // ---------------------------------------------------------------------
  // What the network has been told

  /** How one action moves the set of peers that know about the node, as
      `flush` applies it: only connected peers are told anything. */
  function Step(c: set<Peer>, seen: set<Peer>, a: Action): set<Peer> {
    match a
    case ReplicateTo(p, _) => if p in c then seen + {p} else seen
    case DestroyRemotely(p) => if p in c then seen - {p} else seen
    case BroadcastPacket(_) => seen
  }

  /** The peers told about the node once the actions have been sent, from the
      front of the queue. */
  function Replay(c: set<Peer>, seen: set<Peer>, actions: seq<Action>): (r: set<Peer>)
    ensures seen <= c ==> r <= c
    decreases |actions|
  {
    if |actions| == 0 then seen else Replay(c, Step(c, seen, actions[0]), actions[1..])
  }

  lemma {:induction false} ReplaySnoc(c: set<Peer>, seen: set<Peer>, actions: seq<Action>, a: Action)
    ensures Replay(c, seen, actions + [a]) == Step(c, Replay(c, seen, actions), a)
    decreases |actions|
  {
    if |actions| > 0 {
      assert (actions + [a])[1..] == actions[1..] + [a];
      ReplaySnoc(c, Step(c, seen, actions[0]), actions[1..], a);
    }
  }

  /** Disconnecting a peer takes it out of what every replay ends with. */
  lemma {:induction false} ReplayDisconnect(c: set<Peer>, seen: set<Peer>, actions: seq<Action>, p: Peer)
    ensures Replay(c - {p}, seen - {p}, actions) == Replay(c, seen, actions) - {p}
    decreases |actions|
  {
    if |actions| > 0 {
      assert Step(c - {p}, seen - {p}, actions[0]) == Step(c, seen, actions[0]) - {p};
      ReplayDisconnect(c, Step(c, seen, actions[0]), actions[1..], p);
    }
  }

  /** A newly connected peer that the queue never mentions changes no
      replay. */
  lemma {:induction false} ReplayFresh(c: set<Peer>, seen: set<Peer>, actions: seq<Action>, p: Peer)
    requires p !in seen
    requires forall i :: 0 <= i < |actions| ==> p !in ActionPeers(actions[i])
    ensures Replay(c + {p}, seen, actions) == Replay(c, seen, actions)
    decreases |actions|
  {
    if |actions| > 0 {
      assert p !in ActionPeers(actions[0]);
      assert Step(c + {p}, seen, actions[0]) == Step(c, seen, actions[0]);
      ReplayFresh(c, Step(c, seen, actions[0]), actions[1..], p);
    }
  }

  /** For every live node, sending its queue would leave the network knowing
      exactly the peers the node is visible to. */
  ghost predicate Synced(s: Server) {
    forall n :: n in s.vis.visibleTo && n in s.queues ==>
      Replay(V.Connected(s.vis), s.queues[n].visibleTo * V.Connected(s.vis), s.queues[n].actions) == s.vis.visibleTo[n]
  }

  // ---------------------------------------------------------------------
  // Registration

  /** `RpcServer::new`. */
  function New(): (s: Server)
    ensures Valid(s) && Synced(s) && NoStranded(s)
    ensures s.idGen == 1 && s.queues == map[] && s.vis.visibleTo == map[]
  {
    Server(1, [], map[], map[], V.Vis(map[], map[]))
  }

  /** `register_node`: the node takes the next id, a fresh queue and a kind.
      `None` when the id counter would overflow. */
  function RegisterNode(s: Server, kind: string): (r: Option<(Server, NodeId)>)
    ensures r.None? <==> s.idGen >= U64_MAX
    ensures r.Some? ==> r.value.1 == s.idGen && r.value.0.idGen == s.idGen + 1
    ensures r.Some? ==> var (t, n) := r.value;
              n in t.vis.visibleTo && t.vis.visibleTo[n] == {} && t.kinds == s.kinds[n := kind] &&
              t.queues == s.queues[n := Queue({}, [], false, false)] && t.dirty == s.dirty
  {
    if s.idGen >= U64_MAX then None
    else
      var n := s.idGen;
      Some((Server(n + 1, s.dirty, s.queues[n := Queue({}, [], false, false)], s.kinds[n := kind], V.AddNode(s.vis, n)), n))
  }

  lemma RegisterNodeValid(s: Server, kind: string)
    requires Valid(s) && s.idGen < U64_MAX
    ensures var (t, n) := RegisterNode(s, kind).value;
            n !in s.queues && n !in s.vis.visibleTo && Valid(t) &&
            (Synced(s) ==> Synced(t)) && (NoStranded(s) ==> NoStranded(t))
  {
    var (t, n) := RegisterNode(s, kind).value;
    V.AddNodeValid(s.vis, n);
    assert LifeOk(t) by {
      forall m | m in t.queues ensures (t.queues[m].destroyed <==> m !in t.vis.visibleTo) {
        if m != n { assert m in s.queues; }
      }
    }
  }

  /** Ids are strictly increasing: a second registration gets a larger id. */
  lemma RegisterIncreasing(s: Server, k1: string, k2: string)
    requires s.idGen + 1 < U64_MAX
    ensures var t := RegisterNode(s, k1).value.0;
            RegisterNode(t, k2).value.1 == RegisterNode(s, k1).value.1 + 1
  {
  }

  /** `register_peer` on a fresh peer handle. */
  function RegisterPeer(s: Server, p: Peer): (r: Server)
    ensures V.IsConnected(r.vis, p) && r.vis.peers[p].visSet == {}
    ensures r.queues == s.queues && r.vis.visibleTo == s.vis.visibleTo
  {
    s.(vis := V.AddPeer(s.vis, p))
  }

  lemma RegisterPeerValid(s: Server, p: Peer)
    requires Valid(s) && p !in s.vis.peers
    ensures Valid(RegisterPeer(s, p))
    ensures Synced(s) ==> Synced(RegisterPeer(s, p))
    ensures NoStranded(s) ==> NoStranded(RegisterPeer(s, p))
  {
    var t := RegisterPeer(s, p);
    V.AddPeerValid(s.vis, p);
    if Synced(s) {
      forall n | n in t.vis.visibleTo && n in t.queues
        ensures Replay(V.Connected(t.vis), t.queues[n].visibleTo * V.Connected(t.vis), t.queues[n].actions) == t.vis.visibleTo[n]
      {
        var q := s.queues[n];
        var c := V.Connected(s.vis);
        assert q.visibleTo * (c + {p}) == q.visibleTo * c;
        forall i | 0 <= i < |q.actions| ensures p !in ActionPeers(q.actions[i]) {
          assert ActionPeers(q.actions[i]) <= s.vis.peers.Keys;
        }
        ReplayFresh(c, q.visibleTo * c, q.actions, p);
      }
    }
  }

  /** `lookup_node`: the live node with that id, if any. */
  function LookupNode(s: Server, id: NodeId): (r: Option<NodeId>)
    ensures r.Some? <==> id in s.vis.visibleTo
    ensures r.Some? ==> r.value == id
  {
    if id in s.vis.visibleTo then Some(id) else None
  }

  /** A registered node can be looked up by its id until it is unregistered. */
  lemma LookupRegistered(s: Server, kind: string)
    requires Valid(s) && s.idGen < U64_MAX
    ensures var (t, n) := RegisterNode(s, kind).value;
            LookupNode(t, n) == Some(n) && LookupNode(Unregister(t, n).value, n) == None
  {
    RegisterNodeValid(s, kind);
  }

  // ---------------------------------------------------------------------
  // Queueing

  /** `mark_dirty`: list the queue for the next flush, once. */
  function MarkDirty(s: Server, n: NodeId): (r: Server)
    requires n in s.queues
    ensures r.queues.Keys == s.queues.Keys && r.queues[n].markedDirty
    ensures r.queues[n] == s.queues[n].(markedDirty := true)
    ensures forall m :: m in s.queues && m != n ==> r.queues[m] == s.queues[m]
    ensures r.dirty == if s.queues[n].markedDirty then s.dirty else s.dirty + [n]
    ensures r.vis == s.vis && r.kinds == s.kinds && r.idGen == s.idGen
  {
    if s.queues[n].markedDirty then s
    else s.(queues := s.queues[n := s.queues[n].(markedDirty := true)], dirty := s.dirty + [n])
  }

  /** Marking a queue twice lists it once: the second mark changes nothing. */
  lemma MarkDirtyOnce(s: Server, n: NodeId)
    requires DirtyOk(s) && n in s.queues
    ensures MarkDirty(MarkDirty(s, n), n) == MarkDirty(s, n)
    ensures DirtyOk(MarkDirty(s, n))
  {
    var r := MarkDirty(s, n);
    if !s.queues[n].markedDirty {
      assert n !in s.dirty;
      forall i, j | 0 <= i < j < |r.dirty| ensures r.dirty[i] != r.dirty[j] {
        if j == |s.dirty| { assert r.dirty[i] == s.dirty[i]; }
      }
    }
  }

  function Push(s: Server, n: NodeId, a: Action): (r: Server)
    requires n in s.queues
    ensures r.queues == s.queues[n := s.queues[n].(actions := s.queues[n].actions + [a])]
    ensures r.vis == s.vis && r.kinds == s.kinds && r.idGen == s.idGen && r.dirty == s.dirty
  {
    s.(queues := s.queues[n := s.queues[n].(actions := s.queues[n].actions + [a])])
  }

  /** The replication packet: the node's catch-up data under a creation
      header naming its kind. */
  function Catchup(s: Server, n: NodeId, catchup: seq<byte>): (pk: Packet)
    requires n in s.kinds
    ensures pk.header == CreateNode(n, s.kinds[n]) && pk.data == Some(catchup)
  {
    Packet(CreateNode(n, s.kinds[n]), Some(catchup))
  }

  /** `RpcNodeServer::replicate`. */
  function Replicate(s: Server, n: NodeId, p: Peer, catchup: seq<byte>): (r: Option<Server>)
    requires Wired(s)
    ensures r.None? <==> V.IsConnected(s.vis, p) && n !in s.vis.visibleTo
    ensures r.Some? ==> (V.Sees(r.value.vis, n, p) <==> V.Sees(s.vis, n, p) || V.IsConnected(s.vis, p))
    ensures r.Some? && !(V.IsConnected(s.vis, p) && !V.Sees(s.vis, n, p)) ==> r.value == s
    ensures r.Some? && V.IsConnected(s.vis, p) && !V.Sees(s.vis, n, p) ==>
              n in s.queues && n in r.value.queues &&
              r.value.queues[n].actions == s.queues[n].actions + [ReplicateTo(p, Catchup(s, n, catchup))] &&
              r.value.queues[n].markedDirty
  {
    match V.Replicate(s.vis, n, p)
    case None => None
    case Some((v, changed)) =>
      if !changed then Some(s)
      else Some(Push(MarkDirty(s.(vis := v), n), n, ReplicateTo(p, Catchup(s, n, catchup))))
  }

  /** `RpcNodeServer::de_replicate`. */
  function DeReplicate(s: Server, n: NodeId, p: Peer): (r: Option<Server>)
    requires Wired(s)
    ensures r.None? <==> V.IsConnected(s.vis, p) && n !in s.vis.visibleTo
    ensures r.Some? ==> (V.Sees(r.value.vis, n, p) <==> V.Sees(s.vis, n, p) && !V.IsConnected(s.vis, p))
    ensures r.Some? && !(V.IsConnected(s.vis, p) && V.Sees(s.vis, n, p)) ==> r.value == s
    ensures r.Some? && V.IsConnected(s.vis, p) && V.Sees(s.vis, n, p) ==>
              n in s.queues && n in r.value.queues &&
              r.value.queues[n].actions == s.queues[n].actions + [DestroyRemotely(p)] &&
              r.value.queues[n].markedDirty
  {
    match V.DeReplicate(s.vis, n, p)
    case None => None
    case Some((v, changed)) =>
      if !changed then Some(s)
      else Some(Push(MarkDirty(s.(vis := v), n), n, DestroyRemotely(p)))
  }

  /** The broadcast packet: the message data under a message header. */
  function Message(n: NodeId, msg: seq<byte>): (pk: Packet)
    ensures pk.header == SendMessage(n) && pk.data == Some(msg)
  {
    Packet(SendMessage(n), Some(msg))
  }

  /** `broadcast` as written: the message is pushed onto the queue, but the
      queue is not marked dirty. `None` for a dead node or a message of
      another kind. */
  function BroadcastAsWritten(s: Server, n: NodeId, kind: string, msg: seq<byte>): (r: Option<Server>)
    requires Wired(s)
    ensures r.None? <==> n !in s.vis.visibleTo || s.kinds[n] != kind
    ensures r.Some? ==> n in s.queues && n in r.value.queues
    ensures r.Some? ==> r.value.queues[n].actions == s.queues[n].actions + [BroadcastPacket(Message(n, msg))]
    ensures r.Some? ==> r.value.dirty == s.dirty && r.value.queues[n].markedDirty == s.queues[n].markedDirty
  {
    if n !in s.vis.visibleTo || s.kinds[n] != kind then None
    else Some(Push(s, n, BroadcastPacket(Message(n, msg))))
  }

  /** `broadcast` as evidently intended: like `replicate`, it marks the queue
      dirty before pushing. */
  function Broadcast(s: Server, n: NodeId, kind: string, msg: seq<byte>): (r: Option<Server>)
    requires Wired(s)
    ensures r.None? <==> n !in s.vis.visibleTo || s.kinds[n] != kind
    ensures r.Some? ==> n in s.queues && n in r.value.queues
    ensures r.Some? ==> r.value.queues[n].actions == s.queues[n].actions + [BroadcastPacket(Message(n, msg))]
    ensures r.Some? ==> r.value.queues[n].markedDirty && r.value.vis == s.vis
  {
    if n !in s.vis.visibleTo || s.kinds[n] != kind then None
    else Some(Push(MarkDirty(s, n), n, BroadcastPacket(Message(n, msg))))
  }

  /** `unregister`: the queue is marked destroyed and dirty, the id mapping
      goes, and no peer sees the node any more. */
  function Unregister(s: Server, n: NodeId): (r: Option<Server>)
    requires Wired(s)
    ensures r.None? <==> n !in s.vis.visibleTo
    ensures r.Some? ==> (n !in r.value.vis.visibleTo && n !in r.value.kinds && n in s.queues && n in r.value.queues &&
                         r.value.queues[n].destroyed && r.value.queues[n].markedDirty &&
                         r.value.queues[n].actions == s.queues[n].actions)
  {
    if n !in s.vis.visibleTo then None
    else
      var t := MarkDirty(s.(queues := s.queues[n := s.queues[n].(destroyed := true)]), n);
      Some(t.(vis := V.Unregister(s.vis, n), kinds := s.kinds - {n}))
  }

  /** `RpcPeer::disconnect`. */
  function Disconnect(s: Server, p: Peer): (r: Server)
    requires p in s.vis.peers
    ensures !V.IsConnected(r.vis, p) && r.vis.visibleTo.Keys == s.vis.visibleTo.Keys
    ensures r.queues == s.queues && r.dirty == s.dirty
  {
    s.(vis := V.Disconnect(s.vis, p))
  }

  // ---------------------------------------------------------------------
  // Receiving

  /** What `recv_packet` does with a server-bound packet. */
  datatype Recv =
    | BadHeader
    | BadData
    | Ignored
    | Dispatch(node: NodeId, data: seq<byte>)

  /** `recv_packet`, given the decoded header and data parts (`None` where
      a part fails to decode). An unknown node or a sender that does not
      see it is ignored without error; otherwise the data goes to the node's
      handler, whose result is the result of the call. */
  function RecvPacket(s: Server, sender: Peer, header: Option<NodeId>, data: Option<seq<byte>>): (r: Recv)
    ensures header.None? ==> r == BadHeader
    ensures header.Some? && data.None? ==> r == BadData
    ensures r.Dispatch? <==> header.Some? && data.Some? && V.Sees(s.vis, header.value, sender)
    ensures r.Dispatch? ==> r.node == header.value && r.data == data.value
  {
    if header.None? then BadHeader
    else if data.None? then BadData
    else if LookupNode(s, header.value).None? then Ignored
    else if sender !in s.vis.visibleTo[header.value] then Ignored
    else Dispatch(header.value, data.value)
  }

  // ---------------------------------------------------------------------
  // Flushing

  /** The packets `flush` sends for one action of node n's queue, given the
      connected peers `c` and the peers `seen` the queue knows about: a
      replication or deletion goes to its peer if connected, a broadcast to
      every peer seen. */
  function Emit(n: NodeId, c: set<Peer>, seen: set<Peer>, a: Action, out: Outbox): (r: Outbox)
    ensures forall q :: q !in ActionPeers(a) && !a.BroadcastPacket? ==> Sent(r, q) == Sent(out, q)
    ensures a.BroadcastPacket? ==> forall q :: Sent(r, q) == if q in seen then Sent(out, q) + [a.packet] else Sent(out, q)
  {
    match a
    case ReplicateTo(p, pk) => if p in c then SendTo(out, p, pk) else out
    case DestroyRemotely(p) => if p in c then SendTo(out, p, Deletion(n)) else out
    case BroadcastPacket(pk) => SendAll(out, seen, pk)
  }

  /** Send one queue's actions, in order, to the connected peers `c`,
      starting from `seen`; returns the peers told about the node and the
      packets sent. */
  function Run(n: NodeId, c: set<Peer>, seen: set<Peer>, actions: seq<Action>, out: Outbox): (r: (set<Peer>, Outbox))
    ensures r.0 == Replay(c, seen, actions)
    decreases |actions|
  {
    if |actions| == 0 then (seen, out)
    else Run(n, c, Step(c, seen, actions[0]), actions[1..], Emit(n, c, seen, actions[0], out))
  }

  /** Flush one dirty queue: drop disconnected peers, send the actions, and
      for a destroyed queue tell every remaining peer to delete the node and
      drop the queue (`None`). */
  function FlushQueue(n: NodeId, c: set<Peer>, q: Queue, out: Outbox): (r: (Option<Queue>, Outbox))
    ensures r.0.None? <==> q.destroyed
    ensures r.0.Some? ==> r.0.value == Queue(Replay(c, q.visibleTo * c, q.actions), [], false, false)
  {
    var (seen, out1) := Run(n, c, q.visibleTo * c, q.actions, out);
    if !q.destroyed then (Some(Queue(seen, [], false, false)), out1)
    else (None, SendAll(out1, seen, Deletion(n)))
  }

  function FlushFrom(qs: map<NodeId, Queue>, c: set<Peer>, dirty: seq<NodeId>, out: Outbox): (r: (map<NodeId, Queue>, Outbox))
    decreases |dirty|
  {
    if |dirty| == 0 then (qs, out)
    else if dirty[0] !in qs then FlushFrom(qs, c, dirty[1..], out)
    else
      var (q, out1) := FlushQueue(dirty[0], c, qs[dirty[0]], out);
      var qs1 := if q.Some? then qs[dirty[0] := q.value] else qs - {dirty[0]};
      FlushFrom(qs1, c, dirty[1..], out1)
  }

  /** `flush`: take the dirty list and flush each listed queue in order. */
  function Flush(s: Server): (r: (Server, Outbox))
    ensures r.0.dirty == [] && r.0.vis == s.vis && r.0.kinds == s.kinds && r.0.idGen == s.idGen
  {
    var (qs, out) := FlushFrom(s.queues, V.Connected(s.vis), s.dirty, map[]);
    (s.(queues := qs, dirty := []), out)
  }

  /** What flushing a list of distinct queues does to each queue: a listed
      one is sent and emptied (or dropped if destroyed), an unlisted one is
      left alone. */
  lemma {:induction false} FlushFromEffect(qs: map<NodeId, Queue>, c: set<Peer>, dirty: seq<NodeId>, out: Outbox)
    requires forall i, j :: 0 <= i < j < |dirty| ==> dirty[i] != dirty[j]
    ensures var r := FlushFrom(qs, c, dirty, out).0;
            (forall m :: m in r <==> m in qs && !(m in dirty && qs[m].destroyed)) &&
            (forall m :: m in qs && m !in dirty ==> r[m] == qs[m]) &&
            (forall m :: m in qs && m in dirty && !qs[m].destroyed ==>
               r[m] == Queue(Replay(c, qs[m].visibleTo * c, qs[m].actions), [], false, false))
    decreases |dirty|
  {
    if |dirty| > 0 {
      var d := dirty[0];
      assert forall m :: m in dirty[1..] ==> m != d by {
        forall m | m in dirty[1..] ensures m != d {
          var k :| 0 <= k < |dirty[1..]| && dirty[1..][k] == m;
          assert dirty[k + 1] == m;
        }
      }
      assert forall m :: m in dirty <==> m == d || m in dirty[1..] by {
        forall m ensures m in dirty <==> m == d || m in dirty[1..] {
          assert dirty == [d] + dirty[1..];
        }
      }
      if d in qs {
        var (q, out1) := FlushQueue(d, c, qs[d], out);
        var qs1 := if q.Some? then qs[d := q.value] else qs - {d};
        FlushFromEffect(qs1, c, dirty[1..], out1);
      } else {
        FlushFromEffect(qs, c, dirty[1..], out);
      }
    }
  }
  /** Flushing a valid server whose queued actions are all marked dirty
      empties and unmarks every queue, drops the destroyed ones, and leaves
      every live node's queue knowing, among the connected peers, exactly the
      peers the node is visible to. */
  lemma FlushQueues(s: Server)
    requires Valid(s) && Synced(s) && NoStranded(s)
    ensures var t := Flush(s).0;
            var c := V.Connected(s.vis);
            (forall n :: n in t.queues ==>
               n in s.vis.visibleTo && n in s.queues &&
               t.queues[n] == Queue(t.queues[n].visibleTo, [], false, false) &&
               t.queues[n].visibleTo <= s.vis.peers.Keys &&
               t.queues[n].visibleTo * c == s.vis.visibleTo[n]) &&
            (forall n :: n in s.vis.visibleTo ==> n in t.queues)
  {
    var c := V.Connected(s.vis);
    var t := Flush(s).0;
    FlushFromEffect(s.queues, c, s.dirty, map[]);
    forall n | n in t.queues
      ensures n in s.vis.visibleTo && n in s.queues
      ensures t.queues[n] == Queue(t.queues[n].visibleTo, [], false, false)
      ensures t.queues[n].visibleTo <= s.vis.peers.Keys
      ensures t.queues[n].visibleTo * c == s.vis.visibleTo[n]
    {
      var q := s.queues[n];
      if n in s.dirty {
        var k :| 0 <= k < |s.dirty| && s.dirty[k] == n;
        assert q.markedDirty;
        assert n in s.vis.visibleTo;
        forall p | p in s.vis.visibleTo[n] ensures p in c {
          assert V.Sees(s.vis, n, p);
        }
      } else {
        assert !q.markedDirty && q.actions == [];
        assert Replay(c, q.visibleTo * c, q.actions) == q.visibleTo * c;
      }
    }
  }

  /** A flush of a valid server whose queued actions are all marked dirty
      keeps all three invariants. */
  lemma FlushValid(s: Server)
    requires Valid(s) && Synced(s) && NoStranded(s)
    ensures Valid(Flush(s).0) && Synced(Flush(s).0) && NoStranded(Flush(s).0)
  {
    FlushQueues(s);
    var t := Flush(s).0;
    var c := V.Connected(s.vis);
    assert LifeOk(t) && DirtyOk(t) && MentionOk(t) && Wired(t) && IdsOk(t);
    forall n | n in t.vis.visibleTo && n in t.queues
      ensures Replay(c, t.queues[n].visibleTo * c, t.queues[n].actions) == t.vis.visibleTo[n]
    {
      assert t.queues[n].actions == [];
    }
  }

  // ---------------------------------------------------------------------
  // Preservation

  /** Pushing an action onto a live node's queue, marking the queue dirty or
      not, after a visibility change that keeps the same nodes and peers,
      keeps the server valid; with the mark, nothing is stranded. */
  lemma EnqueueValid(s: Server, v: V.Vis, n: NodeId, a: Action, mark: bool)
    requires Valid(s) && V.Valid(v) && n in s.vis.visibleTo
    requires v.visibleTo.Keys == s.vis.visibleTo.Keys && v.peers.Keys == s.vis.peers.Keys
    requires ActionPeers(a) <= v.peers.Keys
    ensures var s1 := s.(vis := v);
            var t := Push(if mark then MarkDirty(s1, n) else s1, n, a);
            Valid(t) && (mark && NoStranded(s) ==> NoStranded(t))
  {
    EnqueueDirty(s, v, n, a, mark);
    EnqueueLife(s, v, n, a, mark);
    EnqueueMention(s, v, n, a, mark);
  }

  lemma EnqueueDirty(s: Server, v: V.Vis, n: NodeId, a: Action, mark: bool)
    requires Valid(s) && n in s.vis.visibleTo && v.visibleTo.Keys == s.vis.visibleTo.Keys
    ensures var s1 := s.(vis := v);
            var t := Push(if mark then MarkDirty(s1, n) else s1, n, a);
            DirtyOk(t) && (mark && NoStranded(s) ==> NoStranded(t))
  {
    var s1 := s.(vis := v);
    assert DirtyOk(s1);
    if mark {
      MarkDirtyOnce(s1, n);
      PushFlags(MarkDirty(s1, n), n, a);
    } else {
      PushFlags(s1, n, a);
    }
  }

  /** Pushing an action changes no flag and no dirty list. */
  lemma PushFlags(s: Server, n: NodeId, a: Action)
    requires n in s.queues
    ensures DirtyOk(s) ==> DirtyOk(Push(s, n, a))
    ensures forall m :: m in s.queues ==>
              (m in Push(s, n, a).queues &&
               Push(s, n, a).queues[m].markedDirty == s.queues[m].markedDirty &&
               (m != n ==> Push(s, n, a).queues[m] == s.queues[m]))
  {
  }

  lemma EnqueueLife(s: Server, v: V.Vis, n: NodeId, a: Action, mark: bool)
    requires Valid(s) && n in s.vis.visibleTo && v.visibleTo.Keys == s.vis.visibleTo.Keys
    ensures var s1 := s.(vis := v);
            var t := Push(if mark then MarkDirty(s1, n) else s1, n, a);
            LifeOk(t) && Wired(t) && IdsOk(t)
  {
    var s1 := s.(vis := v);
    var t := Push(if mark then MarkDirty(s1, n) else s1, n, a);
    assert t.queues.Keys == s.queues.Keys;
    forall m | m in t.queues
      ensures t.queues[m].destroyed == s.queues[m].destroyed && (t.queues[m].markedDirty || !s.queues[m].markedDirty)
    {
    }
  }

  lemma EnqueueMention(s: Server, v: V.Vis, n: NodeId, a: Action, mark: bool)
    requires MentionOk(s) && n in s.queues && v.peers.Keys == s.vis.peers.Keys
    requires ActionPeers(a) <= v.peers.Keys
    ensures var s1 := s.(vis := v);
            MentionOk(Push(if mark then MarkDirty(s1, n) else s1, n, a))
  {
    var s1 := s.(vis := v);
    var t := Push(if mark then MarkDirty(s1, n) else s1, n, a);
    forall m | m in t.queues
      ensures t.queues[m].visibleTo <= t.vis.peers.Keys
      ensures forall i :: 0 <= i < |t.queues[m].actions| ==> ActionPeers(t.queues[m].actions[i]) <= t.vis.peers.Keys
    {
      if m == n {
        forall i | 0 <= i < |t.queues[m].actions| ensures ActionPeers(t.queues[m].actions[i]) <= t.vis.peers.Keys {
          if i < |s.queues[m].actions| { assert t.queues[m].actions[i] == s.queues[m].actions[i]; }
        }
      }
    }
  }

  /** The same push keeps the queues in step with visibility when the change
      to the node's visibility set is what sending the action will do. */
  lemma EnqueueSynced(s: Server, v: V.Vis, n: NodeId, a: Action, mark: bool)
    requires Valid(s) && Synced(s) && n in s.vis.visibleTo
    requires V.Connected(v) == V.Connected(s.vis)
    requires v.visibleTo == s.vis.visibleTo[n := Step(V.Connected(s.vis), s.vis.visibleTo[n], a)]
    ensures var s1 := s.(vis := v);
            Synced(Push(if mark then MarkDirty(s1, n) else s1, n, a))
  {
    var c := V.Connected(s.vis);
    var q := s.queues[n];
    ReplaySnoc(c, q.visibleTo * c, q.actions, a);
  }

  /** The shared step of `replicate` and `de_replicate`: mark, then push. */
  lemma MarkedEnqueue(s: Server, v: V.Vis, n: NodeId, a: Action)
    requires Valid(s) && V.Valid(v) && n in s.vis.visibleTo
    requires v.visibleTo.Keys == s.vis.visibleTo.Keys && v.peers.Keys == s.vis.peers.Keys
    requires ActionPeers(a) <= v.peers.Keys
    requires V.Connected(v) == V.Connected(s.vis)
    requires v.visibleTo == s.vis.visibleTo[n := Step(V.Connected(s.vis), s.vis.visibleTo[n], a)]
    ensures var t := Push(MarkDirty(s.(vis := v), n), n, a);
            Valid(t) && (Synced(s) ==> Synced(t)) && (NoStranded(s) ==> NoStranded(t))
  {
    EnqueueValid(s, v, n, a, true);
    if Synced(s) {
      EnqueueSynced(s, v, n, a, true);
    }
  }

  lemma ReplicateValid(s: Server, n: NodeId, p: Peer, catchup: seq<byte>)
    requires Valid(s) && Replicate(s, n, p, catchup).Some?
    ensures var t := Replicate(s, n, p, catchup).value;
            Valid(t) && (Synced(s) ==> Synced(t)) && (NoStranded(s) ==> NoStranded(t))
  {
    if V.IsConnected(s.vis, p) && !V.Sees(s.vis, n, p) {
      V.ReplicateValid(s.vis, n, p);
      var v := V.Replicate(s.vis, n, p).value.0;
      var a := ReplicateTo(p, Catchup(s, n, catchup));
      assert Replicate(s, n, p, catchup).value == Push(MarkDirty(s.(vis := v), n), n, a);
      MarkedEnqueue(s, v, n, a);
    }
  }

  lemma DeReplicateValid(s: Server, n: NodeId, p: Peer)
    requires Valid(s) && DeReplicate(s, n, p).Some?
    ensures var t := DeReplicate(s, n, p).value;
            Valid(t) && (Synced(s) ==> Synced(t)) && (NoStranded(s) ==> NoStranded(t))
  {
    if V.IsConnected(s.vis, p) && V.Sees(s.vis, n, p) {
      V.DeReplicateValid(s.vis, n, p);
      var v := V.DeReplicate(s.vis, n, p).value.0;
      var a := DestroyRemotely(p);
      assert DeReplicate(s, n, p).value == Push(MarkDirty(s.(vis := v), n), n, a);
      MarkedEnqueue(s, v, n, a);
    }
  }

  /** The corrected broadcast keeps all three invariants. */
  lemma BroadcastValid(s: Server, n: NodeId, kind: string, msg: seq<byte>)
    requires Valid(s) && n in s.vis.visibleTo && s.kinds[n] == kind
    ensures var t := Broadcast(s, n, kind, msg).value;
            Valid(t) && (Synced(s) ==> Synced(t)) && (NoStranded(s) ==> NoStranded(t))
  {
    BroadcastEnqueue(s, n, msg, true);
  }

  /** The broadcast as written keeps validity and the queues in step, but
      not the guarantee that queued actions are marked dirty. */
  lemma BroadcastAsWrittenValid(s: Server, n: NodeId, kind: string, msg: seq<byte>)
    requires Valid(s) && n in s.vis.visibleTo && s.kinds[n] == kind
    ensures var t := BroadcastAsWritten(s, n, kind, msg).value;
            Valid(t) && (Synced(s) ==> Synced(t))
  {
    BroadcastEnqueue(s, n, msg, false);
  }

  /** A broadcast is an enqueue that leaves visibility alone. */
  lemma BroadcastEnqueue(s: Server, n: NodeId, msg: seq<byte>, mark: bool)
    requires Valid(s) && n in s.vis.visibleTo
    ensures var a := BroadcastPacket(Message(n, msg));
            var t := Push(if mark then MarkDirty(s, n) else s, n, a);
            Valid(t) && (Synced(s) ==> Synced(t)) && (mark && NoStranded(s) ==> NoStranded(t))
  {
    var a := BroadcastPacket(Message(n, msg));
    assert s.(vis := s.vis) == s;
    EnqueueValid(s, s.vis, n, a, mark);
    if Synced(s) {
      SelfUpdate(s.vis.visibleTo, n);
      EnqueueSynced(s, s.vis, n, a, mark);
    }
  }

  lemma SelfUpdate<K, X>(m: map<K, X>, k: K)
    requires k in m
    ensures m[k := m[k]] == m
  {
  }

  lemma UnregisterValid(s: Server, n: NodeId)
    requires Valid(s) && n in s.vis.visibleTo
    ensures var t := Unregister(s, n).value;
            Valid(t) && (Synced(s) ==> Synced(t)) && (NoStranded(s) ==> NoStranded(t))
  {
    var t := Unregister(s, n).value;
    UnregisterShape(s, n);
    V.UnregisterValid(s.vis, n);
    UnregisterDirty(s, n, t);
    UnregisterFlags(s, n, t);
    UnregisterSynced(s, n, t);
  }

  /** What `unregister` changes: the queue is destroyed and marked, the
      node leaves visibility and the kind map. */
  ghost predicate Unregistered(s: Server, n: NodeId, t: Server)
    requires n in s.queues && n in s.vis.visibleTo
  {
    t.queues == s.queues[n := s.queues[n].(destroyed := true, markedDirty := true)] &&
    t.dirty == (if s.queues[n].markedDirty then s.dirty else s.dirty + [n]) &&
    t.vis == V.Unregister(s.vis, n) && t.kinds == s.kinds - {n} && t.idGen == s.idGen
  }

  lemma UnregisterShape(s: Server, n: NodeId)
    requires Wired(s) && n in s.vis.visibleTo
    ensures Unregister(s, n).Some? && Unregistered(s, n, Unregister(s, n).value)
  {
  }

  lemma UnregisterDirty(s: Server, n: NodeId, t: Server)
    requires DirtyOk(s) && n in s.queues && n in s.vis.visibleTo && Unregistered(s, n, t)
    ensures DirtyOk(t)
  {
    if !s.queues[n].markedDirty {
      assert n !in s.dirty;
      forall i, j | 0 <= i < j < |t.dirty| ensures t.dirty[i] != t.dirty[j] {
        if j == |s.dirty| { assert t.dirty[i] == s.dirty[i]; }
      }
      forall i | 0 <= i < |t.dirty| ensures t.dirty[i] in t.queues && t.queues[t.dirty[i]].markedDirty {
        if i < |s.dirty| { assert t.dirty[i] == s.dirty[i]; }
      }
    }
  }

  lemma UnregisterFlags(s: Server, n: NodeId, t: Server)
    requires Wired(s) && IdsOk(s) && LifeOk(s) && MentionOk(s) && n in s.vis.visibleTo
    requires Unregistered(s, n, t)
    ensures Wired(t) && IdsOk(t) && LifeOk(t) && MentionOk(t)
    ensures NoStranded(s) ==> NoStranded(t)
  {
    assert t.vis.peers.Keys == s.vis.peers.Keys;
  }

  lemma UnregisterSynced(s: Server, n: NodeId, t: Server)
    requires Wired(s) && n in s.vis.visibleTo && Unregistered(s, n, t)
    ensures Synced(s) ==> Synced(t)
  {
    assert V.Connected(t.vis) == V.Connected(s.vis);
  }

  lemma DisconnectValid(s: Server, p: Peer)
    requires Valid(s) && p in s.vis.peers
    ensures var t := Disconnect(s, p);
            Valid(t) && (Synced(s) ==> Synced(t)) && (NoStranded(s) ==> NoStranded(t))
  {
    var t := Disconnect(s, p);
    V.DisconnectValid(s.vis, p);
    var c := V.Connected(s.vis);
    if Synced(s) {
      forall n | n in t.vis.visibleTo && n in t.queues
        ensures Replay(V.Connected(t.vis), t.queues[n].visibleTo * V.Connected(t.vis), t.queues[n].actions) == t.vis.visibleTo[n]
      {
        var q := s.queues[n];
        assert q.visibleTo * (c - {p}) == (q.visibleTo * c) - {p};
        ReplayDisconnect(c, q.visibleTo * c, q.actions, p);
        forall x ensures x in t.vis.visibleTo[n] <==> x in s.vis.visibleTo[n] - {p} {
          assert V.Sees(t.vis, n, x) <==> V.Sees(s.vis, n, x) && x != p;
        }
      }
    }
  }

  // ---------------------------------------------------------------------
  // The stranded broadcast

  /** As written: after a flush, a broadcast from a live node leaves its
      queue unmarked, so the next flush sends nothing at all (not even to the
      peers the node is visible to) and changes nothing: the message stays
      queued. */
  lemma BroadcastAsWrittenStranded(s: Server, n: NodeId, kind: string, msg: seq<byte>)
    requires Valid(s) && Synced(s) && NoStranded(s) && n in s.vis.visibleTo && s.kinds[n] == kind
    ensures var t := Flush(s).0;
            Wired(t) && n in t.vis.visibleTo && t.kinds[n] == kind &&
            var u := BroadcastAsWritten(t, n, kind, msg).value;
            Flush(u).1 == map[] && Flush(u).0 == u &&
            u.queues[n].actions == [BroadcastPacket(Message(n, msg))] && !NoStranded(u)
  {
    FlushQueues(s);
  }

  /** Corrected: the next flush delivers the message to exactly the peers the
      node is visible to, and leaves no action queued. */
  lemma BroadcastFlushed(s: Server, n: NodeId, kind: string, msg: seq<byte>)
    requires Valid(s) && Synced(s) && NoStranded(s) && n in s.vis.visibleTo && s.kinds[n] == kind
    ensures var t := Flush(s).0;
            Wired(t) && n in t.vis.visibleTo && t.kinds[n] == kind &&
            var u := Broadcast(t, n, kind, msg).value;
            (forall p :: Sent(Flush(u).1, p) == if V.Sees(s.vis, n, p) then [Message(n, msg)] else []) &&
            (forall m :: m in Flush(u).0.queues ==> Flush(u).0.queues[m].actions == [])
  {
    FlushQueues(s);
    var t := Flush(s).0;
    var u := Broadcast(t, n, kind, msg).value;
    var c := V.Connected(s.vis);
    var pk := Message(n, msg);
    var seen := s.vis.visibleTo[n];
    assert u.dirty == [n];
    assert u.queues[n] == Queue(t.queues[n].visibleTo, [BroadcastPacket(pk)], false, true);
    assert u.queues[n].visibleTo * c == seen;
    FlushSingle(u, n, seen, pk);
  }

  /** Flushing a server whose only dirty queue holds a single broadcast sends
      it to the connected peers that queue knows about, and to no one else. */
  lemma FlushSingle(u: Server, n: NodeId, seen: set<Peer>, pk: Packet)
    requires u.dirty == [n] && n in u.queues
    requires u.queues[n].actions == [BroadcastPacket(pk)] && !u.queues[n].destroyed
    requires u.queues[n].visibleTo * V.Connected(u.vis) == seen
    requires forall m :: m in u.queues && m != n ==> u.queues[m].actions == []
    ensures forall p :: Sent(Flush(u).1, p) == if p in seen then [pk] else []
    ensures forall m :: m in Flush(u).0.queues ==> Flush(u).0.queues[m].actions == []
  {
    var c := V.Connected(u.vis);
    var q := u.queues[n];
    assert Run(n, c, seen, q.actions, map[]) == (seen, SendAll(map[], seen, pk));
    var out := SendAll(map[], seen, pk);
    var qs1 := u.queues[n := Queue(seen, [], false, false)];
    assert FlushFrom(u.queues, c, u.dirty, map[]) == FlushFrom(qs1, c, [], out);
  }
}

=== FILE: rpc_vis.dfy ===
/** The visibility state machine an RPC server keeps between its nodes and
    its peers: each node's `visible_to` set of peers and each peer's
    `vis_set` of nodes, kept as mirror images, and each peer's `connected`
    flag. Both copies of the server (the game's and the engine's) do the same
    thing here; what they queue for the network is modelled by the modules
    built on this one. Node handles are their ids; a peer handle counts as
    alive while its component is in `peers`. */
module RpcVisibility {
  import opened Wrappers
  import opened RpcWire

  datatype PeerState = PeerState(visSet: set<NodeId>, connected: bool)

  /** `visibleTo` has one entry per live node; `peers` one per live peer. */
  datatype Vis = Vis(visibleTo: map<NodeId, set<Peer>>, peers: map<Peer, PeerState>)

  /** `is_connected`: the peer is alive and has not been disconnected. */
  predicate IsConnected(v: Vis, p: Peer) {
    p in v.peers && v.peers[p].connected
  }

  /** The connected peers. */
  function Connected(v: Vis): (c: set<Peer>)
    ensures forall p :: p in c <==> IsConnected(v, p)
  {
    set p | p in v.peers && v.peers[p].connected
  }

  /** Peer p is in node n's `visible_to`. */
  predicate Sees(v: Vis, n: NodeId, p: Peer) {
    n in v.visibleTo && p in v.visibleTo[n]
  }

  /** Node n is in peer p's `vis_set`. */
  predicate Knows(v: Vis, p: Peer, n: NodeId) {
    p in v.peers && n in v.peers[p].visSet
  }

  /** The two sets mirror each other, and only connected peers see nodes. */
  ghost predicate Valid(v: Vis) {
    (forall n, p {:trigger Sees(v, n, p)} :: Sees(v, n, p) ==> IsConnected(v, p) && Knows(v, p, n)) &&
    (forall p, n {:trigger Knows(v, p, n)} :: Knows(v, p, n) ==> Sees(v, n, p))
  }

  lemma SeesKnows(v: Vis, n: NodeId, p: Peer)
    requires Valid(v)
    ensures Sees(v, n, p) <==> Knows(v, p, n)
    ensures Sees(v, n, p) ==> IsConnected(v, p)
  {
    if Sees(v, n, p) { assert Knows(v, p, n); }
    if Knows(v, p, n) { assert Sees(v, n, p); }
  }

  /** A node being registered starts visible to nobody. */
  function AddNode(v: Vis, n: NodeId): (r: Vis)
    ensures n in r.visibleTo && r.visibleTo[n] == {}
    ensures r.peers == v.peers
  {
    Vis(v.visibleTo[n := {}], v.peers)
  }

  lemma AddNodeValid(v: Vis, n: NodeId)
    requires Valid(v) && n !in v.visibleTo
    ensures Valid(AddNode(v, n))
    ensures forall m, p :: m != n ==> (Sees(AddNode(v, n), m, p) <==> Sees(v, m, p))
  {
    var r := AddNode(v, n);
    forall p, m | Knows(r, p, m) ensures Sees(r, m, p) {
      assert Knows(v, p, m);
    }
    forall m, p | Sees(r, m, p) ensures IsConnected(r, p) && Knows(r, p, m) {
      assert Sees(v, m, p);
    }
  }

  /** `register_peer`: a connected peer that sees nothing yet. */
  function AddPeer(v: Vis, p: Peer): (r: Vis)
    ensures IsConnected(r, p) && r.peers[p].visSet == {}
    ensures r.visibleTo == v.visibleTo
  {
    Vis(v.visibleTo, v.peers[p := PeerState({}, true)])
  }

  lemma AddPeerValid(v: Vis, p: Peer)
    requires Valid(v) && p !in v.peers
    ensures Valid(AddPeer(v, p))
    ensures Connected(AddPeer(v, p)) == Connected(v) + {p}
  {
    var r := AddPeer(v, p);
    forall n, q | Sees(r, n, q) ensures IsConnected(r, q) && Knows(r, q, n) {
      assert Sees(v, n, q);
    }
    forall q, n | Knows(r, q, n) ensures Sees(r, n, q) {
      assert Knows(v, q, n);
    }
  }

  /** `replicate`: unless the peer is disconnected or already sees the node,
      both sets gain the pair. The flag says whether anything changed (and so
      whether a replication is queued). The peer's connectivity is checked
      first, so a disconnected peer makes the call a no-op even for a dead
      node; past that check, a dead node is `None`. */
  function Replicate(v: Vis, n: NodeId, p: Peer): (r: Option<(Vis, bool)>)
    ensures r.None? <==> IsConnected(v, p) && n !in v.visibleTo
    ensures !IsConnected(v, p) ==> r == Some((v, false))
    ensures r.Some? ==> (r.value.1 <==> IsConnected(v, p) && !Sees(v, n, p))
    ensures r.Some? ==> forall m, q :: Sees(r.value.0, m, q) <==> Sees(v, m, q) || (m == n && q == p && IsConnected(v, p))
    ensures r.Some? ==> Connected(r.value.0) == Connected(v) && r.value.0.visibleTo.Keys == v.visibleTo.Keys
  {
    if !IsConnected(v, p) then Some((v, false))
    else if n !in v.visibleTo then None
    else if p in v.visibleTo[n] then Some((v, false))
    else
      var ps := v.peers[p := v.peers[p].(visSet := v.peers[p].visSet + {n})];
      assert Connected(Vis(v.visibleTo, ps)) == Connected(v);
      Some((Vis(v.visibleTo[n := v.visibleTo[n] + {p}], ps), true))
  }

  lemma ReplicateValid(v: Vis, n: NodeId, p: Peer)
    requires Valid(v) && Replicate(v, n, p).Some?
    ensures Valid(Replicate(v, n, p).value.0)
  {
    var r := Replicate(v, n, p).value.0;
    if Replicate(v, n, p).value.1 {
      forall m, q | Sees(r, m, q) ensures IsConnected(r, q) && Knows(r, q, m) {
        if !(m == n && q == p) { assert Sees(v, m, q); }
      }
      forall q, m | Knows(r, q, m) ensures Sees(r, m, q) {
        if !(m == n && q == p) { assert Knows(v, q, m); }
      }
    }
  }

  /** A second `replicate` of the same pair changes nothing and queues
      nothing. */
  lemma ReplicateIdempotent(v: Vis, n: NodeId, p: Peer)
    requires n in v.visibleTo
    ensures var r := Replicate(v, n, p).value.0;
            Replicate(r, n, p) == Some((r, false))
  {
  }

  /** `de_replicate`: the mirror image; unless the peer is disconnected or
      does not see the node, both sets lose the pair. Connectivity is again
      checked before the node is touched. */
  function DeReplicate(v: Vis, n: NodeId, p: Peer): (r: Option<(Vis, bool)>)
    ensures r.None? <==> IsConnected(v, p) && n !in v.visibleTo
    ensures !IsConnected(v, p) ==> r == Some((v, false))
    ensures r.Some? ==> (r.value.1 <==> IsConnected(v, p) && Sees(v, n, p))
    ensures r.Some? ==> forall m, q :: Sees(r.value.0, m, q) <==> Sees(v, m, q) && !(m == n && q == p && IsConnected(v, p))
    ensures r.Some? ==> Connected(r.value.0) == Connected(v) && r.value.0.visibleTo.Keys == v.visibleTo.Keys
  {
    if !IsConnected(v, p) then Some((v, false))
    else if n !in v.visibleTo then None
    else if p !in v.visibleTo[n] then Some((v, false))
    else
      var ps := v.peers[p := v.peers[p].(visSet := v.peers[p].visSet - {n})];
      assert Connected(Vis(v.visibleTo, ps)) == Connected(v);
      Some((Vis(v.visibleTo[n := v.visibleTo[n] - {p}], ps), true))
  }

  lemma DeReplicateValid(v: Vis, n: NodeId, p: Peer)
    requires Valid(v) && DeReplicate(v, n, p).Some?
    ensures Valid(DeReplicate(v, n, p).value.0)
  {
    var r := DeReplicate(v, n, p).value.0;
    if DeReplicate(v, n, p).value.1 {
      forall m, q | Sees(r, m, q) ensures IsConnected(r, q) && Knows(r, q, m) {
        assert Sees(v, m, q);
      }
      forall q, m | Knows(r, q, m) ensures Sees(r, m, q) {
        assert Knows(v, q, m);
      }
    }
  }

  /** Replicating and then de-replicating a pair that was not visible puts
      the visibility state back as it was. */
  lemma ReplicateDeReplicate(v: Vis, n: NodeId, p: Peer)
    requires Valid(v) && n in v.visibleTo && !Sees(v, n, p)
    ensures DeReplicate(Replicate(v, n, p).value.0, n, p).value.0 == v
  {
    if IsConnected(v, p) {
      var r := Replicate(v, n, p).value.0;
      var b := DeReplicate(r, n, p).value.0;
      assert b.visibleTo == v.visibleTo;
      SeesKnows(v, n, p);
      assert b.peers[p] == v.peers[p];
      assert b.peers == v.peers;
    }
  }

  /** `unregister`'s visibility part: the node leaves the id map and every
      peer that saw it forgets it. */
  function Unregister(v: Vis, n: NodeId): (r: Vis)
    requires n in v.visibleTo
    ensures n !in r.visibleTo && r.visibleTo == v.visibleTo - {n}
    ensures r.peers.Keys == v.peers.Keys && Connected(r) == Connected(v)
  {
    var seen := v.visibleTo[n];
    var ps := map p | p in v.peers :: if p in seen then v.peers[p].(visSet := v.peers[p].visSet - {n}) else v.peers[p];
    assert Connected(Vis(v.visibleTo - {n}, ps)) == Connected(v);
    Vis(v.visibleTo - {n}, ps)
  }

  lemma UnregisterValid(v: Vis, n: NodeId)
    requires Valid(v) && n in v.visibleTo
    ensures Valid(Unregister(v, n))
    ensures forall p :: !Knows(Unregister(v, n), p, n)
  {
    var r := Unregister(v, n);
    forall m, q | Sees(r, m, q) ensures IsConnected(r, q) && Knows(r, q, m) {
      assert Sees(v, m, q);
    }
    forall q, m | Knows(r, q, m) ensures Sees(r, m, q) {
      assert Knows(v, q, m);
    }
    forall p ensures !Knows(r, p, n) {
      if p in v.peers && p !in v.visibleTo[n] {
        assert !Sees(v, n, p);
      }
    }
  }

  /** `disconnect`: a connected peer becomes disconnected and every node it
      saw stops being visible to it. Disconnecting again does nothing. */
  function Disconnect(v: Vis, p: Peer): (r: Vis)
    requires p in v.peers
    ensures !IsConnected(r, p) && p in r.peers && r.peers[p].visSet == (if v.peers[p].connected then {} else v.peers[p].visSet)
    ensures Connected(r) == Connected(v) - {p}
    ensures r.visibleTo.Keys == v.visibleTo.Keys
  {
    if !v.peers[p].connected then v
    else
      var seen := v.peers[p].visSet;
      var vt := map m | m in v.visibleTo :: if m in seen then v.visibleTo[m] - {p} else v.visibleTo[m];
      var ps := v.peers[p := PeerState({}, false)];
      assert Connected(Vis(vt, ps)) == Connected(v) - {p};
      Vis(vt, ps)
  }

  lemma DisconnectValid(v: Vis, p: Peer)
    requires Valid(v) && p in v.peers
    ensures Valid(Disconnect(v, p))
    ensures forall n :: !Sees(Disconnect(v, p), n, p)
    ensures forall n, q :: q != p ==> (Sees(Disconnect(v, p), n, q) <==> Sees(v, n, q))
    ensures Disconnect(Disconnect(v, p), p) == Disconnect(v, p)
  {
    var r := Disconnect(v, p);
    if v.peers[p].connected {
      forall m, q | Sees(r, m, q) ensures IsConnected(r, q) && Knows(r, q, m) {
        assert Sees(v, m, q);
      }
      forall q, m | Knows(r, q, m) ensures Sees(r, m, q) {
        assert Knows(v, q, m);
      }
      forall n ensures !Sees(r, n, p) {
        if n in v.visibleTo && n !in v.peers[p].visSet {
          assert !Knows(v, p, n);
        }
      }
    }
  }
}

=== FILE: rpc_wire.dfy ===
/** What travels between an RPC server and its clients. A client-bound packet
    is a header part (create, delete or message a node) and, except for a
    deletion, a data part; a server-bound packet is always a message to a
    node. Both copies of the RPC layer (the game's and the engine's) use the
    same headers. Headers are handled decoded: their serialized form is not
    part of this model. */
module RpcWire {
  import opened Wrappers
  import opened Varint

  type NodeId = nat
  type Peer = nat

  /** `RpcCbHeader`. */
  datatype CbHeader =
    | SendMessage(id: NodeId)
    | CreateNode(id: NodeId, kind: string)
    | DeleteNode(id: NodeId)

  /** A client-bound packet: the header and the optional data part. */
  datatype Packet = Packet(header: CbHeader, data: Option<seq<byte>>)

  /** The deletion packet the server sends for a node. */
  function Deletion(n: NodeId): (pk: Packet)
    ensures pk.header.DeleteNode? && pk.header.id == n && pk.data.None?
  {
    Packet(DeleteNode(n), None)
  }

  /** Per-peer sequences of the packets sent so far. */
  type Outbox = map<Peer, seq<Packet>>

  function Sent(out: Outbox, p: Peer): seq<Packet> {
    if p in out then out[p] else []
  }

  /** `send_packet` to one peer. */
  function SendTo(out: Outbox, p: Peer, pk: Packet): (r: Outbox)
    ensures Sent(r, p) == Sent(out, p) + [pk]
    ensures forall q :: q != p ==> Sent(r, q) == Sent(out, q)
  {
    out[p := Sent(out, p) + [pk]]
  }

  /** One packet to each peer of a set (the order among peers is not
      observable per peer). */
  function SendAll(out: Outbox, ps: set<Peer>, pk: Packet): (r: Outbox)
    ensures forall q :: Sent(r, q) == if q in ps then Sent(out, q) + [pk] else Sent(out, q)
  {
    map q | q in out.Keys + ps :: if q in ps then Sent(out, q) + [pk] else out[q]
  }

  /** Every packet in the outbox is about one of the nodes `ns`. */
  ghost predicate About(out: Outbox, ns: set<NodeId>) {
    forall p, i :: p in out && 0 <= i < |out[p]| ==> out[p][i].header.id in ns
  }
}

=== FILE: shader_refs.dfy ===
/** `RawContext`'s shader bookkeeping: an arena of shader states, each with a
    `u32` reference count, the shader asset it was made from and an instance
    buffer; a map from a shader asset to its handle; and the transform memo.
    Assets are compared by identity, so an asset is a `nat`. The arena never
    frees a slot: a shader whose count reaches zero keeps its slot, dead, and
    a later `ref_shader` of the same asset gets a new one. The dynamic buffer
    manager is a counter handing out fresh buffer ids plus the set of ids not
    yet destroyed. Arithmetic overflow panics (debug build): a panic is
    `None`. */
module ShaderRefs {
  import opened Wrappers
  import T = TransformCache

  const U32: nat := 0x1_0000_0000

  datatype Slot = Slot(rc: nat, asset: nat, buffer: nat)

  datatype Ctx = Ctx(slots: seq<Slot>, shaderMap: map<nat, nat>, buffers: set<nat>, nextBuffer: nat, transforms: T.Manager)

  /** Each mapped asset names a live slot made from it. */
  ghost predicate MapOk(c: Ctx) {
    forall a :: a in c.shaderMap ==> c.shaderMap[a] < |c.slots| && c.slots[c.shaderMap[a]].asset == a && c.slots[c.shaderMap[a]].rc > 0
  }

  /** Each live slot is the one its asset maps to. */
  ghost predicate LiveMapped(c: Ctx) {
    forall h :: 0 <= h < |c.slots| && c.slots[h].rc > 0 ==> c.slots[h].asset in c.shaderMap && c.shaderMap[c.slots[h].asset] == h
  }

  /** Counts fit a `u32`, and a slot's buffer was handed out and is alive
      exactly while the slot is. */
  ghost predicate SlotsOk(c: Ctx) {
    forall h :: 0 <= h < |c.slots| ==> c.slots[h].rc < U32 && c.slots[h].buffer < c.nextBuffer && (c.slots[h].buffer in c.buffers <==> c.slots[h].rc > 0)
  }

  /** No two slots share a buffer, and every live buffer was handed out. */
  ghost predicate BuffersOk(c: Ctx) {
    (forall i, j :: 0 <= i < j < |c.slots| ==> c.slots[i].buffer != c.slots[j].buffer) &&
    (forall b :: b in c.buffers ==> b < c.nextBuffer)
  }

  ghost predicate Valid(c: Ctx) {
    MapOk(c) && LiveMapped(c) && SlotsOk(c) && BuffersOk(c)
  }

  /** `RawContext::new`: no shaders, the transform buffer made first. */
  function New(): (c: Ctx)
    ensures Valid(c) && c.shaderMap == map[] && c.buffers == {0}
  {
    Ctx([], map[], {0}, 1, T.New())
  }

  /** `ref_shader`: a mapped asset's count goes up by one and its handle is
      returned; a new asset gets a new slot with count one, a new instance
      buffer and a map entry. */
  function Ref(c: Ctx, asset: nat): (r: Option<(Ctx, nat)>)
    ensures r.None? <==>
              asset in c.shaderMap && (c.shaderMap[asset] >= |c.slots| || c.slots[c.shaderMap[asset]].rc + 1 >= U32)
    ensures r.Some? ==>
              var (c', h) := r.value;
              c'.shaderMap.Keys == c.shaderMap.Keys + {asset} && c'.shaderMap[asset] == h &&
              h < |c'.slots| && c'.slots[h].rc > 0 && |c'.slots| >= |c.slots| &&
              (forall g :: 0 <= g < |c.slots| && g != h ==> c'.slots[g] == c.slots[g]) &&
              c'.buffers >= c.buffers && c'.transforms == c.transforms
  {
    if asset in c.shaderMap then
      var h := c.shaderMap[asset];
      if h >= |c.slots| || c.slots[h].rc + 1 >= U32 then None
      else Some((c.(slots := c.slots[h := c.slots[h].(rc := c.slots[h].rc + 1)]), h))
    else
      var b := c.nextBuffer;
      var h := |c.slots|;
      Some((c.(slots := c.slots + [Slot(1, asset, b)], shaderMap := c.shaderMap[asset := h], buffers := c.buffers + {b}, nextBuffer := b + 1), h))
  }

  /** `unref_shader`: the count goes down by one (a zero count underflows);
      when it reaches zero the map entry is removed (it must exist) and the
      instance buffer destroyed. */
  function Unref(c: Ctx, h: nat): (r: Option<Ctx>)
    ensures r.None? <==>
              h >= |c.slots| || c.slots[h].rc == 0 || (c.slots[h].rc == 1 && c.slots[h].asset !in c.shaderMap)
    ensures r.Some? ==>
              |r.value.slots| == |c.slots| && r.value.slots[h].rc + 1 == c.slots[h].rc &&
              (forall g :: 0 <= g < |c.slots| && g != h ==> r.value.slots[g] == c.slots[g]) &&
              r.value.transforms == c.transforms
    ensures r.Some? && r.value.slots[h].rc > 0 ==> r.value.shaderMap == c.shaderMap && r.value.buffers == c.buffers
    ensures r.Some? && r.value.slots[h].rc == 0 ==>
              r.value.shaderMap == c.shaderMap - {c.slots[h].asset} && r.value.buffers == c.buffers - {c.slots[h].buffer}
  {
    if h >= |c.slots| || c.slots[h].rc == 0 then None
    else
      var s := c.slots[h].(rc := c.slots[h].rc - 1);
      var c1 := c.(slots := c.slots[h := s]);
      if s.rc > 0 then Some(c1)
      else if s.asset !in c.shaderMap then None
      else Some(c1.(shaderMap := c.shaderMap - {s.asset}, buffers := c.buffers - {s.buffer}))
  }

  /** `set_transform`: only the cached transform offset is forgotten. */
  function SetTransform(c: Ctx, xf: T.Affine): (r: Ctx)
    ensures r.transforms.curr == xf && r.transforms.currOffset.None?
    ensures r.slots == c.slots && r.shaderMap == c.shaderMap && r.buffers == c.buffers
    ensures r.transforms.records == c.transforms.records && r.transforms.offsets == c.transforms.offsets
  {
    c.(transforms := T.SetTransform(c.transforms, xf))
  }

  /** A mapped asset: the same handle, its count one higher, nothing else
      touched; it fails only when the count would leave the `u32` range. */
  lemma RefExisting(c: Ctx, asset: nat)
    requires Valid(c) && asset in c.shaderMap
    ensures var h := c.shaderMap[asset];
            match Ref(c, asset)
            case None => c.slots[h].rc + 1 == U32
            case Some((c', h')) =>
              h' == h && |c'.slots| == |c.slots| && c'.slots[h].rc == c.slots[h].rc + 1 &&
              c'.slots[h].asset == asset && c'.shaderMap == c.shaderMap && c'.buffers == c.buffers &&
              (forall g :: 0 <= g < |c.slots| && g != h ==> c'.slots[g] == c.slots[g])
  {
  }

  /** A new asset: a fresh handle past every existing slot, count one, a
      map entry to it, and a buffer that was never handed out before. */
  lemma RefFresh(c: Ctx, asset: nat)
    requires Valid(c) && asset !in c.shaderMap
    ensures Ref(c, asset).Some?
    ensures var (c', h) := Ref(c, asset).value;
            h == |c.slots| && |c'.slots| == h + 1 && c'.slots[h].rc == 1 && c'.slots[h].asset == asset &&
            c'.shaderMap == c.shaderMap[asset := h] && c'.slots[h].buffer !in c.buffers &&
            c'.buffers == c.buffers + {c'.slots[h].buffer} && c'.slots[..h] == c.slots
  {
  }

  /** `ref_shader` keeps the context valid. */
  lemma RefValid(c: Ctx, asset: nat)
    requires Valid(c)
    ensures Ref(c, asset).Some? ==> Valid(Ref(c, asset).value.0)
  {
    if Ref(c, asset).Some? {
      var (c', h) := Ref(c, asset).value;
      if asset in c.shaderMap {
        BumpValid(c, c', h);
      } else {
        AppendMapOk(c, c', asset);
        AppendLiveMapped(c, c', asset);
        AppendBuffersOk(c, c', asset);
      }
    }
  }

  lemma BumpValid(c: Ctx, c': Ctx, h: nat)
    requires Valid(c) && h < |c.slots| && c.slots[h].rc > 0 && c.slots[h].rc + 1 < U32
    requires c' == c.(slots := c.slots[h := c.slots[h].(rc := c.slots[h].rc + 1)])
    ensures Valid(c')
  {
    assert MapOk(c');
    assert LiveMapped(c');
  }

  lemma AppendMapOk(c: Ctx, c': Ctx, asset: nat)
    requires MapOk(c) && asset !in c.shaderMap
    requires c'.slots == c.slots + [Slot(1, asset, c.nextBuffer)] && c'.shaderMap == c.shaderMap[asset := |c.slots|]
    ensures MapOk(c')
  {
    forall a | a in c'.shaderMap ensures c'.shaderMap[a] < |c'.slots| && c'.slots[c'.shaderMap[a]].asset == a && c'.slots[c'.shaderMap[a]].rc > 0 {
      if a != asset { assert c'.slots[c.shaderMap[a]] == c.slots[c.shaderMap[a]]; }
    }
  }

  lemma AppendLiveMapped(c: Ctx, c': Ctx, asset: nat)
    requires LiveMapped(c) && asset !in c.shaderMap
    requires c'.slots == c.slots + [Slot(1, asset, c.nextBuffer)] && c'.shaderMap == c.shaderMap[asset := |c.slots|]
    ensures LiveMapped(c')
  {
    forall g | 0 <= g < |c'.slots| && c'.slots[g].rc > 0 ensures c'.slots[g].asset in c'.shaderMap && c'.shaderMap[c'.slots[g].asset] == g {
      if g < |c.slots| {
        assert c'.slots[g] == c.slots[g];
      }
    }
  }

  lemma AppendBuffersOk(c: Ctx, c': Ctx, asset: nat)
    requires SlotsOk(c) && BuffersOk(c)
    requires c'.slots == c.slots + [Slot(1, asset, c.nextBuffer)] && c'.buffers == c.buffers + {c.nextBuffer} && c'.nextBuffer == c.nextBuffer + 1
    ensures SlotsOk(c') && BuffersOk(c')
  {
    forall i, j | 0 <= i < j < |c'.slots| ensures c'.slots[i].buffer != c'.slots[j].buffer {
      if j == |c.slots| { assert c'.slots[i] == c.slots[i]; }
    }
    forall g | 0 <= g < |c'.slots| ensures c'.slots[g].rc < U32 && c'.slots[g].buffer < c'.nextBuffer && (c'.slots[g].buffer in c'.buffers <==> c'.slots[g].rc > 0) {
      if g < |c.slots| { assert c'.slots[g] == c.slots[g]; }
    }
  }

  /** `unref_shader` fails exactly on a handle never given out or a shader
      already dead; otherwise the count drops by one, and the asset loses its
      map entry and the slot its buffer exactly when the count reaches
      zero. */
  lemma UnrefFacts(c: Ctx, h: nat)
    requires Valid(c)
    ensures Unref(c, h).None? <==> h >= |c.slots| || c.slots[h].rc == 0
    ensures Unref(c, h).Some? ==>
              var c' := Unref(c, h).value;
              var a := c.slots[h].asset;
              |c'.slots| == |c.slots| && c'.slots[h].rc == c.slots[h].rc - 1 &&
              (a in c'.shaderMap <==> c.slots[h].rc > 1) &&
              (c.slots[h].buffer in c'.buffers <==> c.slots[h].rc > 1) &&
              (forall b :: b in c'.shaderMap ==> b in c.shaderMap && c'.shaderMap[b] == c.shaderMap[b]) &&
              (forall b :: b in c.shaderMap && b != a ==> b in c'.shaderMap)
  {
  }

  /** `unref_shader` keeps the context valid. */
  lemma UnrefValid(c: Ctx, h: nat)
    requires Valid(c)
    ensures Unref(c, h).Some? ==> Valid(Unref(c, h).value)
  {
    if Unref(c, h).Some? {
      var c' := Unref(c, h).value;
      if c.slots[h].rc > 1 {
        DropValid(c, c', h);
      } else {
        KillMapOk(c, c', h);
        KillLiveMapped(c, c', h);
        KillBuffersOk(c, c', h);
      }
    }
  }

  lemma DropValid(c: Ctx, c': Ctx, h: nat)
    requires Valid(c) && h < |c.slots| && c.slots[h].rc > 1
    requires c' == c.(slots := c.slots[h := c.slots[h].(rc := c.slots[h].rc - 1)])
    ensures Valid(c')
  {
    assert MapOk(c');
    assert LiveMapped(c');
  }

  lemma KillMapOk(c: Ctx, c': Ctx, h: nat)
    requires MapOk(c) && LiveMapped(c) && h < |c.slots| && c.slots[h].rc == 1
    requires c'.slots == c.slots[h := c.slots[h].(rc := 0)] && c'.shaderMap == c.shaderMap - {c.slots[h].asset}
    ensures MapOk(c')
  {
    var a := c.slots[h].asset;
    forall b | b in c'.shaderMap ensures c'.shaderMap[b] < |c'.slots| && c'.slots[c'.shaderMap[b]].asset == b && c'.slots[c'.shaderMap[b]].rc > 0 {
      assert c.slots[c.shaderMap[b]].asset == b && b != a;
    }
  }

  lemma KillLiveMapped(c: Ctx, c': Ctx, h: nat)
    requires MapOk(c) && LiveMapped(c) && h < |c.slots| && c.slots[h].rc == 1
    requires c'.slots == c.slots[h := c.slots[h].(rc := 0)] && c'.shaderMap == c.shaderMap - {c.slots[h].asset}
    ensures LiveMapped(c')
  {
    var a := c.slots[h].asset;
    forall g | 0 <= g < |c'.slots| && c'.slots[g].rc > 0 ensures c'.slots[g].asset in c'.shaderMap && c'.shaderMap[c'.slots[g].asset] == g {
      assert g != h && c'.slots[g] == c.slots[g];
      assert c.shaderMap[c.slots[g].asset] == g && c.shaderMap[a] == h;
    }
  }

  lemma KillBuffersOk(c: Ctx, c': Ctx, h: nat)
    requires SlotsOk(c) && BuffersOk(c) && h < |c.slots| && c.slots[h].rc == 1
    requires c'.slots == c.slots[h := c.slots[h].(rc := 0)] && c'.buffers == c.buffers - {c.slots[h].buffer} && c'.nextBuffer == c.nextBuffer
    ensures SlotsOk(c') && BuffersOk(c')
  {
    forall g | 0 <= g < |c'.slots| ensures c'.slots[g].rc < U32 && c'.slots[g].buffer < c'.nextBuffer && (c'.slots[g].buffer in c'.buffers <==> c'.slots[g].rc > 0) {
      if g != h {
        assert c'.slots[g] == c.slots[g];
        assert c.slots[g].buffer != c.slots[h].buffer;
      }
    }
    assert BuffersOk(c') by {
      forall i, j | 0 <= i < j < |c'.slots| ensures c'.slots[i].buffer != c'.slots[j].buffer {
        assert c'.slots[i].buffer == c.slots[i].buffer && c'.slots[j].buffer == c.slots[j].buffer;
      }
    }
  }

  /** Dropping a shader reference just taken to an already-used shader
      restores the context exactly. */
  lemma RefUnrefExisting(c: Ctx, asset: nat, c1: Ctx, h: nat)
    requires Valid(c) && asset in c.shaderMap && Ref(c, asset) == Some((c1, h))
    ensures Unref(c1, h) == Some(c)
  {
    var c2 := Unref(c1, h).value;
    assert c2.slots == c.slots;
  }

  /** Dropping the only reference to a shader just made removes its map
      entry and destroys its buffer again: the map and the live buffers are
      as before, the old slots unchanged, and one dead slot is left behind. */
  lemma RefUnrefFresh(c: Ctx, asset: nat, c1: Ctx, h: nat)
    requires Valid(c) && asset !in c.shaderMap && Ref(c, asset) == Some((c1, h))
    ensures Unref(c1, h).Some?
    ensures var c2 := Unref(c1, h).value;
            c2.shaderMap == c.shaderMap && c2.buffers == c.buffers &&
            c2.slots[..|c.slots|] == c.slots && |c2.slots| == |c.slots| + 1 && c2.slots[h].rc == 0
  {
    var c2 := Unref(c1, h).value;
    assert c1.slots[h].buffer == c.nextBuffer;
    assert c2.slots[..|c.slots|] == c1.slots[..|c.slots|];
  }

  /** A second `unref_shader` of a handle whose last reference is gone
      panics on the count's underflow. */
  lemma UnrefTwicePanics(c: Ctx, h: nat)
    requires Valid(c) && h < |c.slots| && c.slots[h].rc == 1
    ensures Unref(c, h).Some? && Unref(Unref(c, h).value, h).None?
  {
  }
}

=== FILE: signal.dfy ===
/** `DeferSignal`: a list of events behind a shared pointer and a frozen
    flag. Events are fired while the signal is unfrozen and read once it is
    frozen; a `DeferSignalReader` shares the list, and while one is alive
    the list cannot be changed (`Arc::get_mut` fails and the call panics).
    `readers` counts the live readers; a panic is `None`. */
module Signal {
  import opened Wrappers

  datatype Signal<E> = Signal(events: seq<E>, frozen: bool, readers: nat)

  /** `default`/`new`: frozen, with no events and no readers. */
  function Default<E>(): (s: Signal<E>)
    ensures s.frozen && s.events == [] && s.readers == 0
  {
    Signal([], true, 0)
  }

  /** `reset`: unfrozen and cleared, unless a reader shares the list. */
  function Reset<E>(s: Signal<E>): (r: Option<Signal<E>>)
    ensures r.Some? <==> s.readers == 0
    ensures r.Some? ==> !r.value.frozen && r.value.events == [] && r.value.readers == 0
  {
    if s.readers > 0 then None else Some(Signal([], false, 0))
  }

  /** `fire`: the event goes at the end, unless the signal is frozen or a
      reader shares the list. */
  function Fire<E>(s: Signal<E>, e: E): (r: Option<Signal<E>>)
    ensures r.Some? <==> !s.frozen && s.readers == 0
    ensures r.Some? ==> r.value.events == s.events + [e] && !r.value.frozen && r.value.readers == 0
  {
    if s.frozen || s.readers > 0 then None else Some(s.(events := s.events + [e]))
  }

  /** `freeze`. */
  function Freeze<E>(s: Signal<E>): (r: Signal<E>)
    ensures r.frozen && r.events == s.events && r.readers == s.readers
  {
    s.(frozen := true)
  }

  /** `reader`: a new reader sharing the list, only when frozen. */
  function Reader<E>(s: Signal<E>): (r: Option<(Signal<E>, seq<E>)>)
    ensures r.Some? <==> s.frozen
    ensures r.Some? ==> r.value.1 == s.events && r.value.0 == s.(readers := s.readers + 1)
  {
    if !s.frozen then None else Some((s.(readers := s.readers + 1), s.events))
  }

  /** Dropping a reader. */
  function DropReader<E>(s: Signal<E>): (r: Signal<E>)
    requires s.readers > 0
    ensures r.readers + 1 == s.readers && r.events == s.events && r.frozen == s.frozen
  {
    s.(readers := s.readers - 1)
  }

  /** `iter`: the events, only when frozen. */
  function Iter<E>(s: Signal<E>): (r: Option<seq<E>>)
    ensures r.Some? <==> s.frozen
    ensures r.Some? ==> r.value == s.events
  {
    if s.frozen then Some(s.events) else None
  }

  /** Fire each event in order, stopping at the first panic: an unfrozen
      signal with no readers takes every event, in order, and any other
      panics at the first event. */
  function FireAll<E>(s: Signal<E>, es: seq<E>): (r: Option<Signal<E>>)
    ensures r.Some? <==> |es| == 0 || (!s.frozen && s.readers == 0)
    ensures r.Some? ==> r.value.events == s.events + es && r.value.frozen == s.frozen && r.value.readers == s.readers
    decreases |es|
  {
    if |es| == 0 then Some(s)
    else
      match Fire(s, es[0])
      case None => None
      case Some(s1) =>
        assert s1.events + es[1..] == s.events + es;
        FireAll(s1, es[1..])
  }

  /** A frame's cycle: reset, fire, freeze; iteration then sees exactly
      the events fired, in fire order. */
  lemma CycleObservesFireOrder<E>(s: Signal<E>, es: seq<E>)
    requires s.readers == 0
    ensures var s1 := Reset(s).value;
            FireAll(s1, es).Some? && Iter(Freeze(FireAll(s1, es).value)) == Some(es)
  {
    var s1 := Reset(s).value;
    assert s1.events + es == es;
  }

  /** The calls that can change a signal. */
  datatype Op<E> = FireOp(e: E) | ResetOp | FreezeOp | ReaderOp

  function Apply<E>(s: Signal<E>, op: Op<E>): (r: Option<Signal<E>>)
  {
    match op
    case FireOp(e) => Fire(s, e)
    case ResetOp => Reset(s)
    case FreezeOp => Some(Freeze(s))
    case ReaderOp => if s.frozen then Some(Reader(s).value.0) else None
  }

  /** Run the calls in order, stopping at the first panic. */
  function ApplyAll<E>(s: Signal<E>, ops: seq<Op<E>>): (r: Option<Signal<E>>)
    decreases |ops|
  {
    if |ops| == 0 then Some(s)
    else
      match Apply(s, ops[0])
      case None => None
      case Some(s1) => ApplyAll(s1, ops[1..])
  }

  /** A reader's snapshot stays the signal's list: while any reader is
      alive, every call that does not panic leaves the events as they
      were, and the reader count never drops. */
  lemma {:induction false} ReaderSnapshotStable<E>(s: Signal<E>, ops: seq<Op<E>>)
    requires s.readers > 0
    ensures ApplyAll(s, ops).Some? ==> ApplyAll(s, ops).value.events == s.events && ApplyAll(s, ops).value.readers >= s.readers
    decreases |ops|
  {
    if |ops| > 0 && Apply(s, ops[0]).Some? {
      ReaderSnapshotStable(Apply(s, ops[0]).value, ops[1..]);
    }
  }
}

=== FILE: sorted_seqs.dfy ===
/** Vocabulary for strictly ascending sequences of integer keys, shared by the
    merge iterators, the archetype store and the per-component archetype
    lists. */
module SortedSeqs {

  /** Strictly ascending, hence also duplicate-free. */
  predicate StrictlySorted(s: seq<int>) {
    forall i, j :: 0 <= i < j < |s| ==> s[i] < s[j]
  }

  /** The set of elements of a sequence. */
  function Elems(s: seq<int>): (e: set<int>)
    ensures forall x :: x in e <==> x in s
  {
    set x | x in s
  }

  /** `a` occurs in `b` in order, possibly with gaps. */
  predicate SubseqOf(a: seq<int>, b: seq<int>)
    decreases |b|
  {
    if |a| == 0 then true
    else if |b| == 0 then false
    else if a[0] == b[0] then SubseqOf(a[1..], b[1..])
    else SubseqOf(a, b[1..])
  }

  /** `s` with every element of `drop` filtered out, order kept. */
  function Without(s: seq<int>, drop: set<int>): (r: seq<int>)
    ensures forall x :: x in r <==> x in s && x !in drop
    ensures |r| <= |s|
  {
    if |s| == 0 then []
    else if s[0] in drop then Without(s[1..], drop)
    else [s[0]] + Without(s[1..], drop)
  }

  /** The elements of `s` that are also elements of `keep`, order kept. */
  function Within(s: seq<int>, keep: set<int>): (r: seq<int>)
    ensures forall x :: x in r <==> x in s && x in keep
    ensures |r| <= |s|
  {
    if |s| == 0 then []
    else if s[0] in keep then [s[0]] + Within(s[1..], keep)
    else Within(s[1..], keep)
  }

  lemma SortedTail(s: seq<int>)
    requires StrictlySorted(s) && |s| > 0
    ensures StrictlySorted(s[1..])
    ensures forall y :: y in s[1..] ==> s[0] < y
  {
  }

  /** Consing a key below every element keeps a sequence strictly sorted. */
  lemma SortedCons(x: int, s: seq<int>)
    requires StrictlySorted(s)
    requires forall y :: y in s ==> x < y
    ensures StrictlySorted([x] + s)
  {
    var t := [x] + s;
    forall i, j | 0 <= i < j < |t|
      ensures t[i] < t[j]
    {
      if i > 0 {
        assert t[i] == s[i - 1] && t[j] == s[j - 1];
      } else {
        assert t[j] == s[j - 1] && s[j - 1] in s;
      }
    }
  }

  /** A strictly sorted sequence has as many distinct elements as entries. */
  lemma {:induction false} SortedCard(s: seq<int>)
    requires StrictlySorted(s)
    ensures |Elems(s)| == |s|
  {
    if |s| > 0 {
      SortedTail(s);
      SortedCard(s[1..]);
      assert s == [s[0]] + s[1..];
      assert Elems(s) == {s[0]} + Elems(s[1..]);
      assert s[0] !in Elems(s[1..]);
    }
  }

  /** Filtering keeps strict sortedness. */
  lemma {:induction false} WithoutSorted(s: seq<int>, drop: set<int>)
    requires StrictlySorted(s)
    ensures StrictlySorted(Without(s, drop))
    ensures SubseqOf(Without(s, drop), s)
  {
    if |s| > 0 {
      SortedTail(s);
      WithoutSorted(s[1..], drop);
      if s[0] !in drop {
        SortedCons(s[0], Without(s[1..], drop));
        assert ([s[0]] + Without(s[1..], drop))[1..] == Without(s[1..], drop);
      } else {
        SubseqSkip(Without(s[1..], drop), s);
      }
    }
  }

  lemma {:induction false} WithinSorted(s: seq<int>, keep: set<int>)
    requires StrictlySorted(s)
    ensures StrictlySorted(Within(s, keep))
  {
    if |s| > 0 {
      SortedTail(s);
      WithinSorted(s[1..], keep);
      if s[0] in keep {
        SortedCons(s[0], Within(s[1..], keep));
      }
    }
  }

  /** A subsequence of the tail is a subsequence of the whole. */
  lemma {:induction false} SubseqSkip(a: seq<int>, b: seq<int>)
    requires |b| > 0 && SubseqOf(a, b[1..])
    ensures SubseqOf(a, b)
    decreases |b|, 0
  {
    if |a| > 0 && a[0] == b[0] {
      SubseqDropHead(a, b[1..]);
    }
  }

  /** Dropping the head of a subsequence keeps it a subsequence. */
  lemma {:induction false} SubseqDropHead(a: seq<int>, b: seq<int>)
    requires |a| > 0 && SubseqOf(a, b)
    ensures SubseqOf(a[1..], b)
    decreases |b|, 1
  {
    if |b| > 0 {
      if a[0] == b[0] {
        if |a[1..]| > 0 {
          SubseqSkip(a[1..], b);
        }
      } else {
        SubseqDropHead(a, b[1..]);
        SubseqSkip(a[1..], b);
      }
    }
  }

  /** The head of a strictly sorted sequence is its least element. */
  lemma SortedHeadLeast(s: seq<int>)
    requires StrictlySorted(s) && |s| > 0
    ensures forall y :: y in s ==> s[0] <= y
  {
  }

  lemma ElemsCons(s: seq<int>)
    requires |s| > 0
    ensures Elems(s) == {s[0]} + Elems(s[1..])
  {
    assert s == [s[0]] + s[1..];
  }

  lemma SameHeads(a: seq<int>, b: seq<int>)
    requires StrictlySorted(a) && StrictlySorted(b) && |a| > 0 && |b| > 0
    requires Elems(a) == Elems(b)
    ensures a[0] == b[0]
    ensures Elems(a[1..]) == Elems(b[1..])
  {
    SortedHeadLeast(a);
    SortedHeadLeast(b);
    assert a[0] in Elems(b) && b[0] in Elems(a);
    SortedTail(a);
    SortedTail(b);
    ElemsCons(a);
    ElemsCons(b);
  }

  /** Two strictly sorted sequences with the same elements are equal. */
  lemma {:induction false} SortedUnique(a: seq<int>, b: seq<int>)
    requires StrictlySorted(a) && StrictlySorted(b)
    requires Elems(a) == Elems(b)
    ensures a == b
    decreases |a|
  {
    SortedCard(a);
    SortedCard(b);
    if |a| > 0 {
      SameHeads(a, b);
      SortedTail(a);
      SortedTail(b);
      SortedUnique(a[1..], b[1..]);
      assert a == [a[0]] + a[1..] && b == [b[0]] + b[1..];
    }
  }
}

=== FILE: steal.dfy ===
/** `Steal`: a value that can be taken out of its place for a while, the
    place remembering where it was taken (a caller location, a `nat`).
    Touching a stolen place panics; a panic is `None`. `steal_from_ecs`
    takes a `Steal` field out of an entity's component and hands back a
    guard that puts the value back when dropped; the field of every entity
    is modelled as a map from the entity. */
module Steal {
  import opened Wrappers

  datatype Steal<T> = Present(v: T) | Stolen(loc: nat)

  /** `Steal::steal`: the value, leaving the place stolen at `loc`; a
      place already stolen panics. */
  function Take<T>(s: Steal<T>, loc: nat): (r: Option<(Steal<T>, T)>)
    ensures r.Some? <==> s.Present?
    ensures r.Some? ==> r.value.0 == Stolen(loc) && r.value.1 == s.v
  {
    match s
    case Present(v) => Some((Stolen(loc), v))
    case Stolen(_) => None
  }

  /** `Steal::un_steal`: the place holds the value again, stolen or not. */
  function UnSteal<T>(s: Steal<T>, value: T): (r: Steal<T>)
    ensures Deref(r) == Some(value)
    ensures forall loc: nat :: Take(r, loc) == Some((Stolen(loc), value))
  {
    Present(value)
  }

  /** `deref`/`deref_mut`: the value, or a panic naming where it went. */
  function Deref<T>(s: Steal<T>): (r: Option<T>)
    ensures r.Some? <==> s.Present?
    ensures r.Some? ==> r.value == s.v
  {
    match s
    case Present(v) => Some(v)
    case Stolen(_) => None
  }

  /** `clone`: a present copy of the value, through `deref`. */
  function Clone<T>(s: Steal<T>): (r: Option<Steal<T>>)
    ensures r.Some? <==> s.Present?
    ensures r.Some? ==> r.value == s
  {
    match Deref(s)
    case Some(v) => Some(Present(v))
    case None => None
  }

  /** Taking a value and putting it back restores the place. */
  lemma TakeUnSteal<T>(s: Steal<T>, loc: nat)
    requires s.Present?
    ensures var (s1, v) := Take(s, loc).value; UnSteal(s1, v) == s
  {
  }

  /** A place taken from cannot be taken from or read again until the value
      is put back. */
  lemma TakeTwicePanics<T>(s: Steal<T>, loc: nat, loc2: nat)
    requires s.Present?
    ensures var s1 := Take(s, loc).value.0; Take(s1, loc2).None? && Deref(s1).None?
  {
  }

  /** The guard `steal_from_ecs` returns: the victim and the value held. */
  datatype Guard<S> = Guard(victim: nat, value: S)

  /** `steal_from_ecs`: take the victim's field, which must exist and be
      present. */
  function StealFromEcs<S>(field: map<nat, Steal<S>>, victim: nat, loc: nat): (r: Option<(map<nat, Steal<S>>, Guard<S>)>)
    ensures r.Some? <==> victim in field && field[victim].Present?
    ensures r.Some? ==> r.value.0 == field[victim := Stolen(loc)] && r.value.1 == Guard(victim, field[victim].v)
  {
    if victim !in field then None
    else
      match Take(field[victim], loc)
      case None => None
      case Some((s1, v)) => Some((field[victim := s1], Guard(victim, v)))
  }

  /** The guard's holder may change the value while it is out. */
  function GuardSet<S>(g: Guard<S>, value: S): (r: Guard<S>)
    ensures r.victim == g.victim && r.value == value
  {
    g.(value := value)
  }

  /** Dropping the guard: `un_steal` of the held value into the victim's
      field; the victim's component must still exist. */
  function DropGuard<S>(field: map<nat, Steal<S>>, g: Guard<S>): (r: Option<map<nat, Steal<S>>>)
    ensures r.Some? <==> g.victim in field
    ensures r.Some? ==> r.value == field[g.victim := Present(g.value)]
  {
    if g.victim !in field then None
    else Some(field[g.victim := UnSteal(field[g.victim], g.value)])
  }

  /** The guard writes back whatever value it holds at its drop, and no
      other entity's field changes across the steal. */
  lemma StealThenDrop<S>(field: map<nat, Steal<S>>, victim: nat, loc: nat, value: S)
    requires victim in field && field[victim].Present?
    ensures var (f1, g) := StealFromEcs(field, victim, loc).value;
            DropGuard(f1, GuardSet(g, value)) == Some(field[victim := Present(value)])
  {
    var (f1, g) := StealFromEcs(field, victim, loc).value;
    assert f1[victim := Present(value)] == field[victim := Present(value)];
  }

  /** A guard dropped untouched leaves the fields exactly as they were. */
  lemma StealDropRestores<S>(field: map<nat, Steal<S>>, victim: nat, loc: nat)
    requires victim in field && field[victim].Present?
    ensures var (f1, g) := StealFromEcs(field, victim, loc).value;
            DropGuard(f1, g) == Some(field)
  {
    var (f1, g) := StealFromEcs(field, victim, loc).value;
    assert f1[victim := Present(field[victim].v)] == field;
  }

  /** While a guard is out, stealing from the same victim again panics. */
  lemma NestedStealPanics<S>(field: map<nat, Steal<S>>, victim: nat, loc: nat, loc2: nat)
    requires victim in field && field[victim].Present?
    ensures StealFromEcs(StealFromEcs(field, victim, loc).value.0, victim, loc2).None?
  {
  }
}

=== FILE: stream_write.dfy ===
/** The byte-stream writers of the 2D context's helpers. A value that can be
    streamed writes its bytes to a writer; a sized one also says how many
    bytes that is. `PositionedVecWriter` overwrites a byte vector from a
    start position and extends it with whatever does not fit. `Bytemuck`
    writes a plain value's bytes, and `Crevice` writes the bytes of the
    value's std430 layout. Layouts are foreign code: a value is given by its
    bytes and its type's size. A panic is `None`. */
module StreamWrite {
  import opened Wrappers
  import opened Varint

  /** `PositionedVecWriter::write`: the data's first part overwrites the
      target from `start` to its end, the rest is appended. The split and the
      subtraction that computes its point panic when `start` is past the end
      or the data is too short to cover the overwritten part. */
  function PositionedWrite(target: seq<byte>, start: nat, data: seq<byte>): (r: Option<seq<byte>>)
    ensures r.None? <==> start > |target| || |data| < |target| - start
    ensures r.Some? ==> |r.value| == start + |data|
    ensures r.Some? ==> r.value[..start] == target[..start] && r.value[start..] == data
  {
    if start > |target| || |data| < |target| - start then None
    else
      var overlapped := data[..|target| - start];
      var extend := data[|target| - start..];
      assert overlapped + extend == data;
      Some(target[..start] + overlapped + extend)
  }

  /** Writing at the end of the target appends. */
  lemma WriteAtEnd(target: seq<byte>, data: seq<byte>)
    ensures PositionedWrite(target, |target|, data) == Some(target + data)
  {
    var r := PositionedWrite(target, |target|, data).value;
    assert r[..|target|] == target[..|target|] == target;
    assert r == r[..|target|] + r[|target|..];
  }

  /** Writing twice from the same start keeps only the second write, when
      the second is at least as long as the first. */
  lemma RewriteSameStart(target: seq<byte>, start: nat, a: seq<byte>, b: seq<byte>)
    requires start <= |target| && |a| >= |target| - start && |b| >= |a|
    ensures PositionedWrite(PositionedWrite(target, start, a).value, start, b) == PositionedWrite(target, start, b)
  {
    var t1 := PositionedWrite(target, start, a).value;
    var x := PositionedWrite(t1, start, b).value;
    var y := PositionedWrite(target, start, b).value;
    assert x == x[..start] + x[start..];
    assert y == y[..start] + y[start..];
  }

  /** A plain value: its bytes, and the size of its type. A well-formed one
      has as many bytes as its type's size. */
  datatype Pod = Pod(bytes: seq<byte>, size: nat)

  predicate WellFormed(v: Pod) {
    |v.bytes| == v.size
  }

  /** `Bytemuck::len`: the type's size. */
  function BytemuckLen(v: Pod): (n: nat)
    ensures WellFormed(v) ==> n == |v.bytes|
  {
    v.size
  }

  /** `Bytemuck::write_to` through a positioned writer. */
  function BytemuckWrite(v: Pod, target: seq<byte>, start: nat): Option<seq<byte>>
  {
    PositionedWrite(target, start, v.bytes)
  }

  /** The std430 layout of a value: its bytes and the layout's static size,
      both computed by the layout library. */
  datatype Std430 = Std430(layout: Pod)

  /** `Crevice::len`: the layout's static size. */
  function CreviceLen(v: Std430): nat
  {
    v.layout.size
  }

  /** `Crevice::write_to`: write the layout's bytes as `Bytemuck` does. */
  function CreviceWrite(v: Std430, target: seq<byte>, start: nat): Option<seq<byte>>
  {
    BytemuckWrite(v.layout, target, start)
  }

  /** What `len` promises: appending a sized value grows the target by
      exactly `len` bytes, for both writers. */
  lemma LenIsWritten(v: Std430, p: Pod, target: seq<byte>)
    requires WellFormed(v.layout) && WellFormed(p)
    ensures |CreviceWrite(v, target, |target|).value| == |target| + CreviceLen(v)
    ensures |BytemuckWrite(p, target, |target|).value| == |target| + BytemuckLen(p)
    ensures CreviceWrite(v, target, |target|) == Some(target + v.layout.bytes)
  {
    WriteAtEnd(target, v.layout.bytes);
  }
}

=== FILE: tile_map.dfy ===
/** The chunked tile map. The world is cut into 16 x 16 chunks; one chunk is
    "current" and held outside the hash map, the others live in the map, and
    a chunk with no solid (non-zero) tile may be dropped because a missing
    chunk reads as all zeros. The client crate has two identical copies of
    this code (base/tile/map.rs and game/tile.rs); one model serves both.
    Positions are `i32` pairs in the source; the model uses unbounded
    integers, which only matters beyond the `i32` range. */
module TileMap {
  import opened Wrappers

  const U16_LIMIT: nat := 0x1_0000

  /** `TileId(u16)`. */
  type TileId = x: int | 0 <= x < U16_LIMIT

  const CHUNK_EDGE: nat := 16
  const CHUNK_AREA: nat := CHUNK_EDGE * CHUNK_EDGE

  datatype Pos = Pos(x: int, y: int)

  /** `TileId::from_usize`: present exactly when the value fits 16 bits. */
  function FromUsize(v: nat): (r: Option<TileId>)
    ensures r.Some? <==> v < U16_LIMIT
  {
    if v < U16_LIMIT then Some(v) else None
  }

  /** `TileId::usize`. */
  function Usize(id: TileId): (v: nat)
    ensures v < U16_LIMIT
  {
    id
  }

  /** The two conversions are inverse on the ids a `u16` can hold. */
  lemma TileIdRoundTrip(v: nat, id: TileId)
    ensures FromUsize(Usize(id)) == Some(id)
    ensures v < U16_LIMIT ==> Usize(FromUsize(v).value) == v
  {
  }

  // ---------------------------------------------------------------------
  // Position decomposition

  /** `decompose_pos`: the chunk (Euclidean division) and the row-major
      index of the cell inside it (Euclidean remainder). Dafny's `/` and
      `%` on a positive divisor are exactly Rust's `div_euclid` and
      `rem_euclid`. */
  function Decompose(p: Pos): (r: (Pos, nat))
    ensures r.1 < CHUNK_AREA
    ensures p == Compose(r.0, r.1)
  {
    (Pos(p.x / 16, p.y / 16), (p.y % 16) * 16 + p.x % 16)
  }

  /** The position of cell `idx` of `chunk`. */
  function Compose(chunk: Pos, idx: nat): Pos
    requires idx < CHUNK_AREA
  {
    Pos(16 * chunk.x + idx % 16, 16 * chunk.y + idx / 16)
  }

  /** Composition and decomposition are inverse bijections. */
  lemma DecomposeCompose(chunk: Pos, idx: nat)
    requires idx < CHUNK_AREA
    ensures Decompose(Compose(chunk, idx)) == (chunk, idx)
  {
    var p := Compose(chunk, idx);
    assert p.x / 16 == chunk.x && p.x % 16 == idx % 16;
    assert p.y / 16 == chunk.y && p.y % 16 == idx / 16;
  }

  lemma DecomposeInjective(p: Pos, q: Pos)
    requires Decompose(p) == Decompose(q)
    ensures p == q
  {
  }

  // ---------------------------------------------------------------------
  // Chunks

  /** Number of non-zero cells. */
  function CountSolid(data: seq<TileId>): (n: nat)
    ensures n <= |data|
  {
    if |data| == 0 then 0 else CountSolid(data[..|data| - 1]) + (if data[|data| - 1] != 0 then 1 else 0)
  }

  datatype Chunk = Chunk(solidNum: int, data: seq<TileId>)

  /** The counter is right and the chunk has its 256 cells. */
  ghost predicate ChunkOk(c: Chunk) {
    |c.data| == CHUNK_AREA && c.solidNum == CountSolid(c.data)
  }

  function Zeros(n: nat): (r: seq<TileId>)
    ensures |r| == n && forall i :: 0 <= i < n ==> r[i] == 0
  {
    if n == 0 then [] else Zeros(n - 1) + [0]
  }

  /** `TileChunk::default`. */
  function EmptyChunk(): (c: Chunk)
    ensures ChunkOk(c)
    ensures forall i :: 0 <= i < CHUNK_AREA ==> c.data[i] == 0
  {
    ZerosUncounted(CHUNK_AREA);
    Chunk(0, Zeros(CHUNK_AREA))
  }

  lemma {:induction false} ZerosUncounted(n: nat)
    ensures CountSolid(Zeros(n)) == 0
  {
    if n > 0 {
      ZerosUncounted(n - 1);
      assert Zeros(n)[..n - 1] == Zeros(n - 1);
    }
  }

  /** A chunk counted empty has only zero cells. */
  lemma {:induction false} CountZeroMeansEmpty(data: seq<TileId>)
    requires CountSolid(data) == 0
    ensures forall i :: 0 <= i < |data| ==> data[i] == 0
  {
    if |data| > 0 {
      CountZeroMeansEmpty(data[..|data| - 1]);
      assert forall i :: 0 <= i < |data| - 1 ==> data[i] == data[..|data| - 1][i];
    }
  }

  /** Overwriting one cell moves the count by the change in solidity. */
  lemma {:induction false} CountUpdate(data: seq<TileId>, i: nat, v: TileId)
    requires i < |data|
    ensures CountSolid(data[i := v]) ==
            CountSolid(data) + (if v != 0 then 1 else 0) - (if data[i] != 0 then 1 else 0)
  {
    var d := data[i := v];
    var n := |data|;
    if i < n - 1 {
      assert d[..n - 1] == data[..n - 1][i := v];
      CountUpdate(data[..n - 1], i, v);
    } else {
      assert d[..n - 1] == data[..n - 1];
    }
  }

  // ---------------------------------------------------------------------
  // The map

  datatype Map = Map(currPos: Pos, curr: Chunk, chunks: map<Pos, Chunk>)

  /** Every chunk is well formed, and the current chunk is not also kept in
      the hash map. */
  ghost predicate Valid(m: Map) {
    ChunkOk(m.curr) &&
    (forall c :: c in m.chunks ==> ChunkOk(m.chunks[c])) &&
    m.currPos !in m.chunks
  }

  /** `TileMap::default`: chunk (0, 0) current and empty, no stored chunks. */
  function New(): (m: Map)
    ensures Valid(m)
    ensures forall p :: Cell(m, p) == 0
  {
    Map(Pos(0, 0), EmptyChunk(), map[])
  }

  /** What the map holds at a position: its chunk's cell, or zero for a
      chunk stored nowhere. */
  ghost function Cell(m: Map, p: Pos): TileId
    requires Valid(m)
  {
    var (c, idx) := Decompose(p);
    if c == m.currPos then m.curr.data[idx]
    else if c in m.chunks then m.chunks[c].data[idx]
    else 0
  }

  /** `load_chunk`: make `chunk` current. The old current chunk is put
      back in the map only when it has a solid cell; otherwise it is
      dropped, or reused as the new (all-zero) current chunk. */
  function LoadChunk(m: Map, chunk: Pos): (r: Map)
    requires Valid(m)
    ensures Valid(r) && r.currPos == chunk
    ensures forall p :: Cell(r, p) == Cell(m, p)
    ensures m.currPos != chunk && m.curr.solidNum == 0 ==> m.currPos !in r.chunks
    ensures m.currPos != chunk && m.curr.solidNum != 0 ==>
              m.currPos in r.chunks && r.chunks[m.currPos] == m.curr
  {
    if m.currPos == chunk then m
    else
      var taken := if chunk in m.chunks then Some(m.chunks[chunk]) else None;
      var rest := m.chunks - {chunk};
      var r :=
        if m.curr.solidNum == 0 then
          Map(chunk, taken.GetOr(m.curr), rest)
        else
          Map(chunk, taken.GetOr(EmptyChunk()), rest[m.currPos := m.curr]);
      LoadChunkKeepsCells(m, chunk, r);
      r
  }

  lemma LoadChunkKeepsCells(m: Map, chunk: Pos, r: Map)
    requires Valid(m) && m.currPos != chunk
    requires r == (
      var taken := if chunk in m.chunks then Some(m.chunks[chunk]) else None;
      var rest := m.chunks - {chunk};
      if m.curr.solidNum == 0 then Map(chunk, taken.GetOr(m.curr), rest)
      else Map(chunk, taken.GetOr(EmptyChunk()), rest[m.currPos := m.curr]))
    ensures Valid(r)
    ensures forall p :: Cell(r, p) == Cell(m, p)
  {
    if m.curr.solidNum == 0 {
      CountZeroMeansEmpty(m.curr.data);
    }
    forall p
      ensures Cell(r, p) == Cell(m, p)
    {
      var (c, idx) := Decompose(p);
    }
  }

  /** `TileMap::get`: the cell's value, and the map with its chunk loaded. */
  function Get(m: Map, p: Pos): (r: (Map, TileId))
    requires Valid(m)
    ensures Valid(r.0)
    ensures r.1 == Cell(m, p)
    ensures forall q :: Cell(r.0, q) == Cell(m, q)
  {
    var (chunk, idx) := Decompose(p);
    var m1 := LoadChunk(m, chunk);
    (m1, m1.curr.data[idx])
  }

  /** `TileMap::set`: load the chunk, adjust its solid counter by the change
      in solidity, then write the cell. */
  function Set(m: Map, p: Pos, v: TileId): (r: Map)
    requires Valid(m)
    ensures Valid(r)
  {
    var (chunk, idx) := Decompose(p);
    var m1 := LoadChunk(m, chunk);
    var c := m1.curr;
    var solid := c.solidNum + (if v != 0 then 1 else 0) - (if c.data[idx] != 0 then 1 else 0);
    CountUpdate(c.data, idx, v);
    m1.(curr := Chunk(solid, c.data[idx := v]))
  }

  /** After `set(p, v)` the map holds `v` at `p` and nothing else changes,
      whichever chunks were swapped in and out on the way. */
  lemma SetCell(m: Map, p: Pos, v: TileId, q: Pos)
    requires Valid(m)
    ensures Cell(Set(m, p, v), q) == if q == p then v else Cell(m, q)
  {
    var (chunk, idx) := Decompose(p);
    var m1 := LoadChunk(m, chunk);
    var (cq, iq) := Decompose(q);
    if cq == chunk && iq == idx {
      DecomposeInjective(p, q);
    }
  }

  /** `get` after `set` at the same place reads the value written. */
  lemma GetAfterSet(m: Map, p: Pos, v: TileId)
    requires Valid(m)
    ensures Get(Set(m, p, v), p).1 == v
  {
    SetCell(m, p, v, p);
  }

  /** A fresh map reads zero everywhere, even after reads that load other
      chunks. */
  lemma FreshReadsZero(p: Pos, q: Pos)
    ensures Get(New(), p).1 == 0
    ensures Get(Get(New(), q).0, p).1 == 0
  {
  }
}

=== FILE: tile_palette.dfy ===
/** The tile palette, which numbers tile kinds in registration order and
    names them, and the dense per-id cache of a component looked up through
    the palette. Both client copies (game/tile.rs and game/tile/palette.rs)
    are the same code. Descriptors are entity handles, modelled as opaque
    values; a panic is modelled as `None`. */
module TilePalette {
  import opened Wrappers
  import opened TileMap

  datatype Palette<E> = Palette(list: seq<E>, byName: map<string, TileId>)

  /** Every name points at a registered id. */
  ghost predicate Valid<E>(p: Palette<E>) {
    |p.list| <= U16_LIMIT &&
    forall n :: n in p.byName ==> p.byName[n] < |p.list|
  }

  function Empty<E>(): (p: Palette<E>)
    ensures Valid(p) && |p.list| == 0
  {
    Palette([], map[])
  }

  /** `register`: the next id is the number of tiles so far; the name now
      points at it. Past 65536 tiles the id does not fit and the source
      panics ("too many tiles registered"). */
  function Register<E>(p: Palette<E>, name: string, descriptor: E): (r: Option<(Palette<E>, TileId)>)
    requires Valid(p)
    ensures r.None? <==> |p.list| == U16_LIMIT
    ensures r.Some? ==> Valid(r.value.0) && r.value.1 == |p.list|
    ensures r.Some? ==> r.value.0.list == p.list + [descriptor]
    ensures r.Some? ==> forall n :: n != name ==> LookupByName(r.value.0, n) == LookupByName(p, n)
  {
    match FromUsize(|p.list|)
    case None => None
    case Some(id) => Some((Palette(p.list + [descriptor], p.byName[name := id]), id))
  }

  /** `lookup`: the descriptor registered under an id; `None` for an id
      never handed out (an index panic in the source). */
  function Lookup<E>(p: Palette<E>, id: TileId): (r: Option<E>)
    ensures r.Some? <==> id < |p.list|
  {
    if id < |p.list| then Some(p.list[id]) else None
  }

  /** `lookup_by_name`: `None` for an unknown name (a map index panic). */
  function LookupByName<E>(p: Palette<E>, name: string): (r: Option<TileId>)
    ensures r.Some? <==> name in p.byName
  {
    if name in p.byName then Some(p.byName[name]) else None
  }

  /** Registration hands out 0, 1, 2, ... and each id looks up to its own
      descriptor; the name resolves to the latest id registered under it. */
  lemma RegisterThenLookup<E>(p: Palette<E>, name: string, d: E)
    requires Valid(p) && |p.list| < U16_LIMIT
    ensures Register(p, name, d).Some?
    ensures Lookup(Register(p, name, d).value.0, Register(p, name, d).value.1) == Some(d)
    ensures LookupByName(Register(p, name, d).value.0, name) == Some(Register(p, name, d).value.1)
    ensures forall id: TileId :: id < |p.list| ==> Lookup(Register(p, name, d).value.0, id) == Lookup(p, id)
  {
  }

  /** Registering the same name twice: the name follows the second id,
      and the first id still looks up its own descriptor. */
  lemma ReRegisterName<E>(p: Palette<E>, name: string, d1: E, d2: E)
    requires Valid(p) && |p.list| + 1 < U16_LIMIT
    ensures Register(p, name, d1).Some?
    ensures Register(Register(p, name, d1).value.0, name, d2).Some?
    ensures var (p1, id1) := Register(p, name, d1).value;
            var (p2, id2) := Register(p1, name, d2).value;
            id2 == id1 + 1 && LookupByName(p2, name) == Some(id2) && Lookup(p2, id1) == Some(d1)
  {
  }

  // ---------------------------------------------------------------------
  // DensePaletteCache

  /** The cache: one optional slot per id seen so far. */
  datatype Cache<V> = Cache(list: seq<Option<V>>)

  /** Every filled slot holds what the source gives for its id. */
  ghost predicate Agrees<V>(c: Cache<V>, source: TileId -> Option<V>) {
    forall i :: 0 <= i < |c.list| && c.list[i].Some? ==> i < U16_LIMIT && source(i) == c.list[i]
  }

  function NewCache<V>(): (c: Cache<V>)
    ensures |c.list| == 0
  {
    Cache([])
  }

  function Nones<V>(n: nat): (r: seq<Option<V>>)
    ensures |r| == n && forall i :: 0 <= i < n ==> r[i].None?
  {
    if n == 0 then [] else Nones(n - 1) + [None]
  }

  /** `DensePaletteCache::lookup`: grow the list to cover the id, answer
      from the slot when filled, otherwise fetch and fill the slot. The
      fetch (the palette lookup and component read) is `source`, whose
      `None` is the panic of an unregistered id or of a descriptor without
      the component. The third result says whether a fetch happened. */
  function CacheLookup<V>(c: Cache<V>, id: TileId, source: TileId -> Option<V>): (r: Option<(Cache<V>, V, bool)>)
    ensures r.None? <==> !(id < |c.list| && c.list[id].Some?) && source(id).None?
    ensures id < |c.list| && c.list[id].Some? ==> r == Some((c, c.list[id].value, false))
    ensures r.Some? && r.value.2 ==> r.value.1 == source(id).value
    ensures r.Some? ==> |r.value.0.list| == if |c.list| <= id then id + 1 else |c.list|
    ensures r.Some? ==> r.value.0.list[id] == Some(r.value.1)
    ensures r.Some? ==> forall i :: 0 <= i < |c.list| && i != id ==> r.value.0.list[i] == c.list[i]
    ensures r.Some? ==> forall i :: |c.list| <= i < |r.value.0.list| && i != id ==> r.value.0.list[i].None?
  {
    var list := if |c.list| <= id then c.list + Nones(id + 1 - |c.list|) else c.list;
    match list[id]
    case Some(item) => Some((Cache(list), item, false))
    case None =>
      match source(id)
      case None => None
      case Some(item) => Some((Cache(list[id := Some(item)]), item, true))
  }

  /** The cache is transparent: with a consistent cache, a lookup panics
      exactly when the source would, otherwise answers what the source
      gives and keeps the cache consistent. */
  lemma CacheTransparent<V>(c: Cache<V>, id: TileId, source: TileId -> Option<V>)
    requires Agrees(c, source)
    ensures CacheLookup(c, id, source).None? <==> source(id).None?
    ensures CacheLookup(c, id, source).Some? ==>
              CacheLookup(c, id, source).value.1 == source(id).value &&
              Agrees(CacheLookup(c, id, source).value.0, source)
  {
  }

  /** A second lookup of the same id is answered from the slot, without a
      fetch and without changing the cache. */
  lemma SecondLookupCached<V>(c: Cache<V>, id: TileId, source: TileId -> Option<V>)
    ensures CacheLookup(c, id, source).Some? ==>
              var (c1, v1, _) := CacheLookup(c, id, source).value;
              CacheLookup(c1, id, source) == Some((c1, v1, false))
  {
  }
}

=== FILE: transform_cache.dfy ===
/** The 2D context's transform-offset memo (`TransformManager`): the
    current transform, a map from a transform's bit pattern to the offset of
    its record in the transform uniform buffer, and the cached offset of the
    current transform. A transform is given by the bit patterns of its six
    `f32`s, so two transforms share a record exactly when they are bitwise
    equal. The buffer is its list of records; the byte size of one record is
    the std430 layout's, a parameter. GPU buffer calls are left out. */
module TransformCache {
  import opened Wrappers

  const U32: nat := 0x1_0000_0000

  type Bits32 = x: int | 0 <= x < U32

  /** An `Affine2`: matrix columns (a, b) and (c, d), translation (x, y),
      each the bits of an `f32`. */
  datatype Affine = Affine(a: Bits32, b: Bits32, c: Bits32, d: Bits32, x: Bits32, y: Bits32)

  /** The bits of `1.0f32`. */
  const ONE_BITS: Bits32 := 0x3F80_0000

  /** `Affine2::IDENTITY`. */
  const Identity: Affine := Affine(ONE_BITS, 0, 0, ONE_BITS, 0, 0)

  /** `Affine2Bits::from`: the six columns' bits, then the translation's
      bits once more. */
  function ToBits(xf: Affine): (k: seq<Bits32>)
    ensures |k| == 8 && k[6] == k[4] && k[7] == k[5]
  {
    [xf.a, xf.b, xf.c, xf.d, xf.x, xf.y, xf.x, xf.y]
  }

  /** The map key tells transforms apart exactly as their bits do. */
  lemma ToBitsInjective(p: Affine, q: Affine)
    ensures ToBits(p) == ToBits(q) <==> p == q
  {
    if ToBits(p) == ToBits(q) {
      assert ToBits(p)[0] == ToBits(q)[0] && ToBits(p)[1] == ToBits(q)[1] && ToBits(p)[2] == ToBits(q)[2];
      assert ToBits(p)[3] == ToBits(q)[3] && ToBits(p)[4] == ToBits(q)[4] && ToBits(p)[5] == ToBits(q)[5];
    }
  }

  datatype Manager = Manager(records: seq<Affine>, offsets: map<seq<Bits32>, nat>, curr: Affine, currOffset: Option<nat>)

  /** The offset of record i: the buffer's byte length before it, cast
      with `as u32`. */
  function Offset(i: nat, recSize: nat): (o: nat)
    ensures o < U32
    ensures i * recSize < U32 ==> o == i * recSize
  {
    (i * recSize) % U32
  }

  /** The keys of the records held. */
  function Keys(records: seq<Affine>): set<seq<Bits32>> {
    set i | 0 <= i < |records| :: ToBits(records[i])
  }

  /** Each record holds a different transform; the map sends each record's
      key to that record's offset and knows no other key; and a cached
      offset is the current transform's. */
  ghost predicate Valid(m: Manager, recSize: nat) {
    recSize > 0 &&
    (forall i, j :: 0 <= i < j < |m.records| ==> ToBits(m.records[i]) != ToBits(m.records[j])) &&
    (forall i :: 0 <= i < |m.records| ==> ToBits(m.records[i]) in m.offsets && m.offsets[ToBits(m.records[i])] == Offset(i, recSize)) &&
    m.offsets.Keys == Keys(m.records) &&
    (m.currOffset.Some? ==> ToBits(m.curr) in m.offsets && m.currOffset.value == m.offsets[ToBits(m.curr)])
  }

  /** `new` and `reset`: no records, no offsets, the identity, nothing
      cached. */
  function New(): (m: Manager)
    ensures forall recSize :: recSize > 0 ==> Valid(m, recSize)
    ensures m.curr == Identity && |m.records| == 0
  {
    Manager([], map[], Identity, None)
  }

  /** `reset` keeps nothing of the manager it is given. */
  function Reset(m: Manager): (r: Manager)
    ensures r.records == [] && r.offsets == map[] && r.curr == Identity && r.currOffset.None?
  {
    New()
  }

  /** `set_transform`: a new current transform, and only the cached offset
      forgotten. */
  function SetTransform(m: Manager, xf: Affine): (r: Manager)
    ensures r.curr == xf && r.currOffset.None?
    ensures r.records == m.records && r.offsets == m.offsets
  {
    m.(curr := xf, currOffset := None)
  }

  /** `transform_offset`: the cached offset if there is one; otherwise the
      offset mapped to the transform's bits, appending its record first if
      the bits are new. The answer is cached. */
  function TransformOffset(m: Manager, recSize: nat): (r: (Manager, nat))
    ensures r.0.curr == m.curr && r.0.currOffset == Some(r.1)
  {
    if m.currOffset.Some? then (m, m.currOffset.value)
    else
      var key := ToBits(m.curr);
      if key in m.offsets then (m.(currOffset := Some(m.offsets[key])), m.offsets[key])
      else
        var off := Offset(|m.records|, recSize);
        (m.(records := m.records + [m.curr], offsets := m.offsets[key := off], currOffset := Some(off)), off)
  }

  lemma KeysSnoc(records: seq<Affine>, xf: Affine)
    ensures Keys(records + [xf]) == Keys(records) + {ToBits(xf)}
  {
    var s := records + [xf];
    forall k | k in Keys(s) ensures k in Keys(records) + {ToBits(xf)} {
      var i :| 0 <= i < |s| && ToBits(s[i]) == k;
      if i < |records| { assert ToBits(records[i]) == k; }
    }
    forall k | k in Keys(records) ensures k in Keys(s) {
      var i :| 0 <= i < |records| && ToBits(records[i]) == k;
      assert ToBits(s[i]) == k;
    }
    assert ToBits(s[|records|]) == ToBits(xf);
  }

  /** What `transform_offset` promises: the answer is the one mapped to the
      current transform's bits, a cached answer changes nothing, an earlier
      key keeps its offset, a known key adds no record, and new bits append
      exactly one record at the buffer's old length. */
  lemma TransformOffsetFacts(m: Manager, recSize: nat)
    requires Valid(m, recSize)
    ensures var (m', off) := TransformOffset(m, recSize);
            Valid(m', recSize) &&
            ToBits(m.curr) in m'.offsets && m'.offsets[ToBits(m.curr)] == off &&
            (m.currOffset.Some? ==> m' == m) &&
            (forall k :: k in m.offsets ==> k in m'.offsets && m'.offsets[k] == m.offsets[k]) &&
            (ToBits(m.curr) in m.offsets ==> m'.records == m.records && off == m.offsets[ToBits(m.curr)]) &&
            (ToBits(m.curr) !in m.offsets ==> m'.records == m.records + [m.curr] && off == Offset(|m.records|, recSize))
  {
    var key := ToBits(m.curr);
    if m.currOffset.None? && key !in m.offsets {
      var (m', off) := TransformOffset(m, recSize);
      KeysSnoc(m.records, m.curr);
      forall i | 0 <= i < |m'.records| ensures ToBits(m'.records[i]) in m'.offsets && m'.offsets[ToBits(m'.records[i])] == Offset(i, recSize) {
        if i < |m.records| {
          assert m'.records[i] == m.records[i];
        }
      }
      forall i, j | 0 <= i < j < |m'.records| ensures ToBits(m'.records[i]) != ToBits(m'.records[j]) {
        if j == |m.records| {
          assert m'.records[i] == m.records[i];
          assert ToBits(m.records[i]) in m.offsets;
        }
      }
    }
  }

  /** The offset answered is where the transform's record starts: while the
      buffer is shorter than 4 GiB, a whole number of records in, at a
      record whose bits are the current transform's. */
  lemma OffsetLocatesRecord(m: Manager, recSize: nat)
    requires Valid(m, recSize)
    requires (|m.records| + 1) * recSize <= U32
    ensures var (m', off) := TransformOffset(m, recSize);
            exists i :: 0 <= i < |m'.records| && ToBits(m'.records[i]) == ToBits(m.curr) && off == i * recSize
  {
    TransformOffsetFacts(m, recSize);
    var (m', off) := TransformOffset(m, recSize);
    var key := ToBits(m.curr);
    assert key in Keys(m'.records);
    var i :| 0 <= i < |m'.records| && ToBits(m'.records[i]) == key;
    OffsetExact(i, |m.records| + 1, recSize);
  }

  /** Below 4 GiB the cast loses nothing. */
  lemma OffsetExact(i: nat, n: nat, k: nat)
    requires i < n && n * k <= U32
    ensures Offset(i, k) == i * k
  {
    MulBelow(i, n, k);
  }

  lemma MulBelow(i: nat, n: nat, k: nat)
    requires i < n
    ensures i * k + k <= n * k
  {
    MulSucc(i, k);
    if i + 1 < n {
      MulLess(i + 1, n, k);
    }
  }

  lemma MulSucc(i: nat, k: nat)
    ensures (i + 1) * k == i * k + k
  {
  }

  lemma MulLess(i: nat, j: nat, k: nat)
    requires i < j
    ensures i * k <= j * k
  {
  }

  /** Below 4 GiB, records at different places have different offsets. */
  lemma OffsetInjective(i: nat, j: nat, n: nat, k: nat)
    requires i < j < n && n * k <= U32 && k > 0
    ensures Offset(i, k) != Offset(j, k)
  {
    OffsetExact(i, n, k);
    OffsetExact(j, n, k);
    MulBelow(i, j, k);
  }

  /** Below 4 GiB of records, different transforms have different
      offsets. */
  lemma OffsetsDistinct(m: Manager, recSize: nat, k1: seq<Bits32>, k2: seq<Bits32>)
    requires Valid(m, recSize) && |m.records| * recSize <= U32
    requires k1 in m.offsets && k2 in m.offsets && k1 != k2
    ensures m.offsets[k1] != m.offsets[k2]
  {
    assert k1 in Keys(m.records) && k2 in Keys(m.records);
    var i :| 0 <= i < |m.records| && ToBits(m.records[i]) == k1;
    var j :| 0 <= j < |m.records| && ToBits(m.records[j]) == k2;
    if i < j {
      OffsetInjective(i, j, |m.records|, recSize);
    } else {
      OffsetInjective(j, i, |m.records|, recSize);
    }
  }

  /** A frame's calls on the manager. */
  datatype Call = SetXf(xf: Affine) | QueryOffset

  /** Run the calls in order, collecting each query's key and answer. */
  function Run(m: Manager, calls: seq<Call>, recSize: nat): (r: (Manager, seq<(seq<Bits32>, nat)>))
    decreases |calls|
  {
    if |calls| == 0 then (m, [])
    else
      match calls[0]
      case SetXf(xf) => Run(SetTransform(m, xf), calls[1..], recSize)
      case QueryOffset =>
        var (m1, off) := TransformOffset(m, recSize);
        var (m2, outs) := Run(m1, calls[1..], recSize);
        (m2, [(ToBits(m.curr), off)] + outs)
  }

  /** Every key of `m` is still mapped, to the same offset, in `m'`. */
  ghost predicate Keeps(m: Manager, m': Manager) {
    forall k :: k in m.offsets ==> k in m'.offsets && m'.offsets[k] == m.offsets[k]
  }

  /** Every answer is the offset `m` maps the queried bits to. */
  ghost predicate Answers(m: Manager, outs: seq<(seq<Bits32>, nat)>) {
    forall i :: 0 <= i < |outs| ==> outs[i].0 in m.offsets && m.offsets[outs[i].0] == outs[i].1
  }

  /** One query in front of a consistent rest of the run. */
  lemma QueryStep(m: Manager, m1: Manager, m2: Manager, key: seq<Bits32>, off: nat, outs: seq<(seq<Bits32>, nat)>)
    requires Keeps(m, m1) && Keeps(m1, m2) && Answers(m2, outs)
    requires key in m1.offsets && m1.offsets[key] == off
    ensures Keeps(m, m2) && Answers(m2, [(key, off)] + outs)
  {
    var all := [(key, off)] + outs;
    forall i | 0 <= i < |all| ensures all[i].0 in m2.offsets && m2.offsets[all[i].0] == all[i].1 {
      if i > 0 { assert all[i] == outs[i - 1]; }
    }
  }

  /** Over any run of calls the manager stays valid, no key's offset ever
      changes, and every answer is the final map's offset for the bits
      queried. */
  lemma {:induction false} RunConsistent(m: Manager, calls: seq<Call>, recSize: nat)
    requires Valid(m, recSize)
    ensures var (m', outs) := Run(m, calls, recSize);
            Valid(m', recSize) && Keeps(m, m') && Answers(m', outs)
    decreases |calls|
  {
    if |calls| > 0 {
      match calls[0]
      case SetXf(xf) =>
        RunConsistent(SetTransform(m, xf), calls[1..], recSize);
      case QueryOffset =>
        TransformOffsetFacts(m, recSize);
        var (m1, off) := TransformOffset(m, recSize);
        RunConsistent(m1, calls[1..], recSize);
        var (m2, outs) := Run(m1, calls[1..], recSize);
        QueryStep(m, m1, m2, ToBits(m.curr), off, outs);
    }
  }

  /** Bitwise-equal transforms always get the same offset, however many
      `set_transform` calls lie between the queries. */
  lemma SameBitsSameOffset(m: Manager, calls: seq<Call>, recSize: nat, i: nat, j: nat)
    requires Valid(m, recSize)
    requires var outs := Run(m, calls, recSize).1;
             i < |outs| && j < |outs| && outs[i].0 == outs[j].0
    ensures var outs := Run(m, calls, recSize).1;
            outs[i].1 == outs[j].1
  {
    RunConsistent(m, calls, recSize);
    var (m', outs) := Run(m, calls, recSize);
    assert outs[i].0 in m'.offsets && outs[j].0 in m'.offsets;
  }

  /** After `set_transform` the next query looks the transform up afresh:
      the answer is the offset of the new transform, not the old cached
      one. */
  lemma SetThenQuery(m: Manager, xf: Affine, recSize: nat)
    requires Valid(m, recSize) && ToBits(xf) in m.offsets
    ensures TransformOffset(SetTransform(m, xf), recSize).1 == m.offsets[ToBits(xf)]
  {
  }
}

=== FILE: varint.dfy ===
/** The variable-length unsigned integer code used for length fields in the
    network framing. The third-party `varuint` crate is not part of this
    model; in its place is a concrete prefix code of the same shape as the
    SQLite4 variable-length integer (one to nine bytes for a 64-bit value,
    the first byte saying how many follow, multi-byte payloads big-endian).
    The framing code relies only on the properties proved here: every value
    below 2^64 encodes to one to nine bytes, and decoding any buffer that
    starts with an encoding yields the value and the encoding's length,
    whatever follows. */
module Varint {
  import opened Wrappers

  type byte = x: int | 0 <= x < 256

  /** Values a `u64` can hold. */
  const U64_LIMIT: nat := 0x1_0000_0000_0000_0000

  /** The longest encoding (`MAX_VAR_INT_LEN` in the framing code). */
  const MAX_LEN: nat := 9

  datatype DecodeError = UnexpectedEnd

  function Pow256(k: nat): (p: nat)
    ensures p >= 1
  {
    if k == 0 then 1 else 256 * Pow256(k - 1)
  }

  /** `n` as `k` big-endian bytes, keeping its low `8k` bits. */
  function ToBigEndian(n: nat, k: nat): (r: seq<byte>)
    ensures |r| == k
  {
    if k == 0 then [] else ToBigEndian(n / 256, k - 1) + [n % 256]
  }

  /** The value of a big-endian byte string. */
  function FromBigEndian(s: seq<byte>): (n: nat)
    ensures n < Pow256(|s|)
  {
    if |s| == 0 then 0 else FromBigEndian(s[..|s| - 1]) * 256 + s[|s| - 1]
  }

  lemma DivBound(n: nat, k: nat)
    requires k > 0 && n < Pow256(k)
    ensures n / 256 < Pow256(k - 1)
  {
  }

  lemma {:induction false} BigEndianRoundTrip(n: nat, k: nat)
    requires n < Pow256(k)
    ensures FromBigEndian(ToBigEndian(n, k)) == n
  {
    if k > 0 {
      DivBound(n, k);
      BigEndianRoundTrip(n / 256, k - 1);
      var s := ToBigEndian(n, k);
      assert s[..|s| - 1] == ToBigEndian(n / 256, k - 1);
    }
  }

  /** How many big-endian bytes follow a first byte of 250 or more. */
  function TailLen(first: int): nat
    requires 250 <= first <= 255
  {
    first - 247
  }

  /** The length of an encoding, read from its first byte. */
  function EncodedLen(first: byte): (k: nat)
    ensures 1 <= k <= MAX_LEN
  {
    if first <= 240 then 1 else if first <= 248 then 2 else if first == 249 then 3 else 1 + TailLen(first)
  }

  /** Encode a 64-bit value. */
  function Encode(n: nat): (r: seq<byte>)
    requires n < U64_LIMIT
    ensures 1 <= |r| <= MAX_LEN
  {
    if n <= 240 then [n]
    else if n <= 2287 then [(n - 240) / 256 + 241, (n - 240) % 256]
    else if n <= 67823 then [249, (n - 2288) / 256, (n - 2288) % 256]
    else if n < Pow256(3) then [250] + ToBigEndian(n, 3)
    else if n < Pow256(4) then [251] + ToBigEndian(n, 4)
    else if n < Pow256(5) then [252] + ToBigEndian(n, 5)
    else if n < Pow256(6) then [253] + ToBigEndian(n, 6)
    else if n < Pow256(7) then [254] + ToBigEndian(n, 7)
    else [255] + ToBigEndian(n, 8)
  }

  /** Decode the value at the front of `s`: the value and how many bytes it
      took, or an error when `s` ends inside the encoding. */
  function Decode(s: seq<byte>): (r: Result<(nat, nat), DecodeError>)
    ensures r.Ok? ==> 1 <= r.value.1 <= |s| && r.value.1 <= MAX_LEN
    ensures r.Ok? ==> r.value.0 < U64_LIMIT
    ensures r.Err? <==> |s| == 0 || |s| < EncodedLen(s[0])
  {
    if |s| == 0 then Err(UnexpectedEnd)
    else if s[0] <= 240 then Ok((s[0], 1))
    else if s[0] <= 248 then
      if |s| < 2 then Err(UnexpectedEnd) else Ok((240 + 256 * (s[0] as int - 241) + s[1] as int, 2))
    else if s[0] == 249 then
      if |s| < 3 then Err(UnexpectedEnd) else Ok((2288 + 256 * (s[1] as int) + s[2] as int, 3))
    else
      var k := TailLen(s[0]);
      if |s| < 1 + k then Err(UnexpectedEnd)
      else
        PowMono(k, 8);
        Ok((FromBigEndian(s[1..1 + k]), 1 + k))
  }

  lemma {:induction false} PowMono(j: nat, k: nat)
    requires j <= k
    ensures Pow256(j) <= Pow256(k)
    decreases k
  {
    if j < k {
      PowMono(j, k - 1);
    }
  }

  /** Decoding reads back exactly the encoded value and its length, and
      ignores whatever follows the encoding. */
  lemma DecodeEncode(n: nat, rest: seq<byte>)
    requires n < U64_LIMIT
    ensures Decode(Encode(n) + rest) == Ok((n, |Encode(n)|))
  {
    if n <= 240 {
    } else if n <= 2287 {
      DecodeEncodeTwo(n, rest);
    } else if n <= 67823 {
      DecodeEncodeThree(n, rest);
    } else {
      DecodeEncodeLong(n, rest);
    }
  }

  lemma DecodeEncodeTwo(n: nat, rest: seq<byte>)
    requires 240 < n <= 2287
    ensures Decode(Encode(n) + rest) == Ok((n, |Encode(n)|))
  {
    var s := Encode(n) + rest;
    assert s[0] == (n - 240) / 256 + 241 && s[1] == (n - 240) % 256;
  }

  lemma DecodeEncodeThree(n: nat, rest: seq<byte>)
    requires 2287 < n <= 67823
    ensures Decode(Encode(n) + rest) == Ok((n, |Encode(n)|))
  {
    var s := Encode(n) + rest;
    assert s[0] == 249 && s[1] == (n - 2288) / 256 && s[2] == (n - 2288) % 256;
  }

  lemma DecodeEncodeLong(n: nat, rest: seq<byte>)
    requires 67823 < n < U64_LIMIT
    ensures Decode(Encode(n) + rest) == Ok((n, |Encode(n)|))
  {
    if n < Pow256(3) {
      DecodeTail(250, n, rest);
    } else if n < Pow256(4) {
      DecodeTail(251, n, rest);
    } else if n < Pow256(5) {
      DecodeTail(252, n, rest);
    } else if n < Pow256(6) {
      DecodeTail(253, n, rest);
    } else if n < Pow256(7) {
      DecodeTail(254, n, rest);
    } else {
      assert Pow256(8) == U64_LIMIT;
      DecodeTail(255, n, rest);
    }
  }

  /** A first byte of 250 or more followed by that many big-endian bytes
      decodes to their value, whatever follows. */
  lemma DecodeTail(first: byte, n: nat, rest: seq<byte>)
    requires 250 <= first && n < Pow256(TailLen(first))
    ensures Decode([first] + ToBigEndian(n, TailLen(first)) + rest) == Ok((n, 1 + TailLen(first)))
  {
    var k := TailLen(first);
    var s := [first] + ToBigEndian(n, k) + rest;
    assert s[0] == first;
    assert s[1..1 + k] == ToBigEndian(n, k);
    BigEndianRoundTrip(n, k);
  }

  /** An encoding announces its own length in its first byte, so a decoder
      given any proper prefix of it reports the end of input. */
  lemma EncodedLenMatches(n: nat)
    requires n < U64_LIMIT
    ensures EncodedLen(Encode(n)[0]) == |Encode(n)|
    ensures forall k :: 0 <= k < |Encode(n)| ==> Decode(Encode(n)[..k]).Err?
  {
  }

  /** Distinct values have distinct encodings. */
  lemma EncodeInjective(m: nat, n: nat)
    requires m < U64_LIMIT && n < U64_LIMIT && Encode(m) == Encode(n)
    ensures m == n
  {
    DecodeEncode(m, []);
    DecodeEncode(n, []);
    assert Encode(m) + [] == Encode(m) && Encode(n) + [] == Encode(n);
  }
}

=== FILE: vecs.dfy ===
/** `Vec` operations shared by the swap-remove bookkeeping of the entity
    tree and the collider groups. */
module Vecs {
  /** `Vec::swap_remove`: the last element takes the place of element i. */
  function SwapRemove<X>(s: seq<X>, i: nat): (r: seq<X>)
    requires i < |s|
    ensures |r| == |s| - 1
    ensures forall j :: 0 <= j < |r| ==> r[j] == (if j == i then s[|s| - 1] else s[j])
    ensures multiset(r) == multiset(s) - multiset{s[i]}
  {
    var r := s[i := s[|s| - 1]][..|s| - 1];
    SwapRemoveCount(s, i, r);
    r
  }

  lemma SwapRemoveCount<X>(s: seq<X>, i: nat, r: seq<X>)
    requires i < |s| && r == s[i := s[|s| - 1]][..|s| - 1]
    ensures multiset(r) == multiset(s) - multiset{s[i]}
  {
    var n := |s| - 1;
    assert s == s[..n] + [s[n]];
    if i < n {
      assert s[..n] == s[..i] + [s[i]] + s[i + 1..n];
      assert r == s[..i] + [s[n]] + s[i + 1..n];
    } else {
      assert r == s[..n];
    }
  }
}

=== FILE: wrappers.dfy ===
/** Failure-carrying datatypes shared by every model in this project.
    `Option` stands for Rust's `Option`, `Result` for `Result<T, E>`; a Rust
    panic is modelled either by a `Result` whose error names the panic or by
    a precondition, as each module's documentation says. */
module Wrappers {

  datatype Option<+T> = None | Some(value: T) {
    predicate IsFailure() { None? }

    function PropagateFailure<U>(): Option<U>
      requires None?
    {
      None
    }

    function Extract(): T
      requires Some?
    {
      value
    }

    function GetOr(default: T): T {
      match this
      case Some(v) => v
      case None => default
    }
  }

  datatype Result<+T, +E> = Ok(value: T) | Err(error: E) {
    predicate IsFailure() { Err? }

    function PropagateFailure<U>(): Result<U, E>
      requires Err?
    {
      Err(error)
    }

    function Extract(): T
      requires Ok?
    {
      value
    }
  }
}
